=== FILE: README.md ===
# Advent of Code 2021, days 1–15, modelled in Dafny

This project models the puzzle engines of a Rust Advent of Code 2021 repository, days 1 to 15.
Each engine reads a puzzle input that has already been parsed and computes the two answers.
For every day except day 8 it also proves that the answer is the one an independent definition of the puzzle gives. For day 8 it proves only that any decoded display is the true one; "## Left out" says what that leaves open.
There is one Dafny module per source file.
The shared modules are `Wrappers` (`Option`/`Result`), `Utf8` (the UTF-8 width of a character) and `Sorting` (an insertion-sort model of `sort_unstable`).

- **Day 1, sonar sweep** (`day01.dfy`). The increase counter is a two-state machine. The windowed variant is a `Buffer` class over a ring array of size `S`. It is proved to yield exactly the sliding-window sums.
- **Day 2, dive** (`day02.dfy`). The command tokenizer and the `i32` parser are modelled, including overflow and sign handling. The two submarine classes, `Part1` and `Part2`, update their position in place.
- **Day 3, binary diagnostic** (`day03.dfy`). It models the gamma and epsilon rates and the in-place `strain` filter. It also models the initial partition and the oxygen and CO2 ratings.
- **Day 4, giant squid** (`day04.dfy`). The bingo `Index` keeps, for every board, row and column, the span of cells still unmarked. Calling a number removes those cells and reports exactly the boards that just completed a row or column.
- **Day 5, hydrothermal venture** (`day05.dfy`). This day covers the cells an arrow passes over and the `Board` of vent counts.
- **Day 6, lanternfish** (`day06.dfy`). The bucketed simulation on a nine-slot array is proved equal to simulating every fish.
- **Day 7, treacherous whales** (`day07.dfy`). This day models the part-1 scan over a sorted input and the part-2 search. It proves the least cost over the tried positions.
- **Day 8, seven-segment search** (`day08_*.dfy`). It models the bit patterns, the constant tables and the constraint solver that narrows wire candidates. The decoder for each display line is modelled too.
- **Day 9, smoke basin** (`day09_*.dfy`). This day models the height grid and its neighbours, the location iterator and the low points. Basins come from a union of walkable neighbour pairs, and part 2 keeps the three largest sizes.
- **Day 10, syntax scoring** (`day10_*.dfy`). It models the delimiter tables and the command stream, plus the bracket interpreter as an iterator class. The error and completion scores are modelled too.
- **Day 11, dumbo octopus** (`day11_*.dfy`). It models the neighbour offsets, the flash cascade (the least set of flashed cells closed under the cascade rule), the in-place `step` and the first synchronised step.
- **Day 12, passage pathing** (`day12_*.dfy`). It models cave interning and the adjacency map, and the recursive path counter with and without one small-cave revisit. The count is proved to be the number of walks from the start to the end that keep each part's small-cave rule.
- **Day 13, transparent origami** (`day13_model.dfy`). It models folding a point, draining one dot set into the other, and counting dots after each fold.
- **Day 14, extended polymerization** (`day14_*.dfy`). The pair-count rewriting is proved to match rewriting the polymer string, counts of every element included.
- **Day 15, chiton** (`day15_*.dfy`). It models the grid strategies (base and five-fold tiled) and the search state with its priority queue. A* is modelled in both revisions: the generic `a_star` and the one in `main.rs`. Each returned cost is that of a walk to the end. When every risk is at least 1, no walk is cheaper. `None` means no walk reaches the end.

Source paths below are relative to the repository root. Rust panics on malformed data are preconditions. Panics from integer overflow are covered under "Left out".

## Model

| member | source | states |
|---|---|---|
| Day01.Transition | crates/day01/src/main.rs:54-68 | the new state is always seen with the fed depth as previous; the count grows by exactly one iff a previous depth exists and the new depth is greater, otherwise it stays |
| Day01.RunCountsIncreases | crates/day01/src/main.rs:72-82 | after feeding a list from the default state, `solution` is the number of depths greater than the one before, and the state remembers the last depth |
| Day01.RunSnoc | crates/day01/src/main.rs:73-76 | feeding one more depth is one more transition |
| Day01.WindowSumsSnoc | crates/day01/src/main.rs:114-120 | one more input adds exactly one window sum, of the last `S` inputs, once at least `S` inputs have been pushed, and none before |
| Day01.WindowStep | crates/day01/src/main.rs:84-86 | two consecutive window sums differ by the input entering minus the input leaving |
| Day01.PushKeepsRing | crates/day01/src/main.rs:114-120 | writing slot `count % S` keeps the ring invariant (slots hold the last `S` inputs read from the cursor round), and a full window sums to the last `S` inputs |
| Day01.PushFull | crates/day01/src/main.rs:117 | a write into a full window drops the oldest input and appends the new one in ring order |
| Day01.PushFilling | crates/day01/src/main.rs:117-118 | a write into a window still filling extends the history in the next slot |
| Day01.RotatedSum | crates/day01/src/main.rs:119 | the sum of the window does not depend on where the ring cursor is |
| Day01.ModSucc | crates/day01/src/main.rs:117-118 | the cursor `count % S` advances by one and wraps to 0 at `S` |
| Day01.Buffer.constructor | crates/day01/src/main.rs:102-108 | an all-zero window of `S` slots, count 0, a fresh downstream state |
| Day01.Buffer.Push | crates/day01/src/main.rs:114-120 | overwrites slot `count % S` only; returns `Some` iff at least `S` inputs were pushed, and then the sum of the last `S` inputs |
| Day01.Buffer.Next | crates/day01/src/main.rs:124-129 | keeps the downstream state equal to the state after feeding every window sum so far |
| Day01.Buffer.Solution | crates/day01/src/main.rs:131-134 | the number of increases among the window sums of all inputs |
| Day01.RunCounter | crates/day01/src/main.rs:169-181 | `run` with a bare state answers the number of increases of the input |
| Day01.RunWindowed | crates/day01/src/main.rs:169-181 | `run` with a buffer answers the number of increases of the window sums of the input |
| Day01.WindowSums | crates/day01/src/main.rs:114-120 | a buffer of `S` slots yields no sum for fewer than `S` inputs and otherwise one per full window, `inputs - S + 1` of them |
| Day02.Drive1Closed | crates/day02/src/main.rs:51-58 | after any commands, part 1's depth is the `down` amounts minus the `up` amounts and its horizontal position the total of the `forward` amounts |
| Day02.Drive2Closed | crates/day02/src/main.rs:71-81 | after any commands, part 2's aim is the net sinking, its horizontal position the total `forward` amount, and its depth each `forward` amount weighted by the aim before it |
| Day02.PartsAgree | crates/day02/src/main.rs:51-81 | both parts travel equally far, and part 2's aim is part 1's depth |
| Day02.Part1.constructor | crates/day02/src/main.rs:46-49 | the default position is the origin |
| Day02.Part1.Input | crates/day02/src/main.rs:52-58 | one command moves the position as part 1 reads it, in place |
| Day02.Part2.constructor | crates/day02/src/main.rs:65-69 | the default position is the origin with aim 0 |
| Day02.Part2.Input | crates/day02/src/main.rs:72-81 | one command turns the aim or moves and dives by aim times amount, in place |
| Day02.RunPart1 | crates/day02/src/main.rs:105-111 | `run` with part 1 answers net sinking times total travel |
| Day02.RunPart2 | crates/day02/src/main.rs:105-111 | `run` with part 2 answers aimed depth times total travel |
| Day02.Accumulate | crates/day02/src/command.rs:25 | the digit loop of `i32::from_str` yields only values inside the i32 range, never the empty error, and on success exactly the digits' value with the sign applied |
| Day02.AccumulateExact | crates/day02/src/command.rs:25 | the digit loop succeeds iff every character is a digit and the value with its sign fits in an i32 |
| Day02.ParseI32 | crates/day02/src/command.rs:25 | parsing an amount yields an i32, and the empty error exactly for the empty token |
| Day02.ParseI32Exact | crates/day02/src/command.rs:25 | a token parses iff it is an optional sign followed by at least one digit whose value fits in an i32, and then yields that value |
| Day02.ParseShowInt | crates/day02/src/command.rs:25 | every i32 written in decimal parses back to itself |
| Day02.HornerShowNat | crates/day02/src/command.rs:25 | reading the decimal digits of a natural number gives the number back |
| Day02.Word | crates/day02/src/command.rs:44 | the first token is the longest whitespace-free prefix, followed by whitespace or the end |
| Day02.SplitWhitespace | crates/day02/src/command.rs:44 | `split_whitespace` yields only non-empty whitespace-free tokens |
| Day02.SplitUnwords | crates/day02/src/command.rs:44 | splitting tokens joined by single spaces gives the tokens back |
| Day02.TrailingTokensIgnored | crates/day02/src/command.rs:28-37 | once a verb and an amount (or an unknown verb) are read, later tokens never change the result |
| Day02.Consumed | crates/day02/src/command.rs:28-37 | the parser takes at most the tokens it was given |
| Day02.RenderParses | crates/day02/src/command.rs:43-45 | every command with an i32 amount, written as verb, space, amount, parses back to itself |
| Day02.CommandParser.constructor | crates/day02/src/command.rs:16-18 | the parser holds the token stream |
| Day02.CommandParser.Next | crates/day02/src/command.rs:20-22 | takes the first token, or reports an incomplete command when none is left |
| Day02.CommandParser.ParseAmount | crates/day02/src/command.rs:24-26 | takes one token and yields its i32 value, the integer error, or an incomplete command |
| Day02.CommandParser.Parse | crates/day02/src/command.rs:28-37 | yields what the verb-then-amount grammar makes of the tokens, and consumes exactly the tokens that grammar reads |
| Day02.FromStr | crates/day02/src/command.rs:43-45 | a line parses as its whitespace-separated tokens do |
| Day03.KeepBit | days/day03/src/main.rs:66-72 | `retain` on a bit keeps only elements of the list whose bit has the asked value |
| Day03.KeepBitPartition | days/day03/src/main.rs:64-72 | splitting on a bit puts every element on exactly one side, and the ones side has as many elements as `count` says |
| Day03.RoundCriteria | days/day03/src/main.rs:40-65 | O2's `[Greater, Equal]` keeps ones iff they are at least half the list; CO2's `[Less]` keeps ones iff they are fewer than half |
| Day03.RoundsComplementary | days/day03/src/main.rs:61-73 | the O2 round and the CO2 round on the same list split it between them |
| Day03.MostCommonRoundNonEmpty | days/day03/src/main.rs:35-43 | an O2 round never empties a non-empty list |
| Day03.LeastCommonRoundEmpty | days/day03/src/main.rs:55-58 | a CO2 round empties a non-empty list exactly when all elements agree on the bit |
| Day03.RoundKeepsShape | days/day03/src/main.rs:62-73 | a round keeps the list duplicate-free and its survivors agree on the bit just examined |
| Day03.AgreeEverywhereSingle | days/day03/src/main.rs:62-63 | distinct numbers agreeing on every bit are at most one, so the width cannot run below zero |
| Day03.DistinctStrains | days/day03/src/main.rs:61-63 | distinct numbers agreeing on the bits from `width` up never run `width` below zero: only duplicates can |
| Day03.StrainDuplicates | days/day03/src/main.rs:61-76 | duplicates are accepted as long as a round separates them: [0b00, 0b00, 0b10, 0b11] with O2's comparison over two bits strains to 0b11 |
| Day03.StrainSpecResult | days/day03/src/main.rs:61-76 | when `width` does not underflow, `strain` ends with at most one number, taken from the input |
| Day03.StrainMostCommonFinds | days/day03/src/main.rs:35-43 | with O2's comparison, when `width` does not underflow, `strain` always finds exactly one number in a non-empty list |
| Day03.StrainLeastCommonCanEmpty | days/day03/src/main.rs:55-58 | with CO2's comparison the list can run empty: 0b10 and 0b11 both go on bit 1 |
| Day03.Strain | days/day03/src/main.rs:61-76 | on every input whose rounds leave at most one number before `width` would underflow, the loop narrows the list exactly as the round-by-round definition does and returns its first survivor, `None` when empty |
| Day03.O2Calc | days/day03/src/main.rs:35-43 | on a non-empty list whose most-common rounds from bit 10 down do not underflow, O2's answer is their single survivor |
| Day03.CO2Calc | days/day03/src/main.rs:55-58 | when the least-common rounds do not underflow and leave a survivor (otherwise the `expect` panics), CO2's answer is it |
| Day03.Populate | days/day03/src/main.rs:102-107 | each counter grows by the number of numbers with that bit set |
| Day03.Gamma | days/day03/src/main.rs:113-117 | gamma has bit `i` iff counter `i` is at least half the length, and no bit beyond the counters |
| Day03.Part1 | days/day03/src/main.rs:112-123 | gamma and epsilon are 12-bit, complementary bit for bit, and sum to 0xFFF |
| Day03.InitialSort | days/day03/src/main.rs:131-152 | O2 gets the numbers whose top bit is the majority value (ties to 1), CO2 the rest, in order, and together they are the input |
| Day03.InitialSortIsFirstRound | days/day03/src/main.rs:125-129 | with true counts, the initial split is exactly the first O2 round and the first CO2 round on the top bit |
| Day03.SameBitsSame | days/day03/src/main.rs:62-72 | two numbers below 2^w with the same low w bits are equal |
| Day03.BitOfComplement | days/day03/src/main.rs:119-120 | `!g & 0xFFF` has exactly the low 12 bits `g` lacks |
| Day04.Score | days/day04/src/index.rs:46-51 | only a board span has a score |
| Day04.CallOn | days/day04/src/index.rs:60-67 | `call_number` answers whether the span is now complete and keeps the span's kind |
| Day04.CallUndoesInsert | days/day04/src/index.rs:38-65 | calling a number takes back what inserting it added: the bit of a row or column, the number on a board total |
| Day04.CallCompletesLine | days/day04/src/index.rs:53-67 | a call reports completion exactly for a row or column whose only remaining number was the one called; a board span never completes |
| Day04.TotalIsUnmarkedSum | days/day04/src/index.rs:42-64 | with no number called twice, a board span's total is the sum of the board's unmarked cells |
| Day04.UnmarkedStep | days/day04/src/index.rs:64 | marking a number takes it off the unmarked sum once per cell holding it |
| Day04.UnmarkedNone | days/day04/src/index.rs:143 | before any call the unmarked sum is the sum of all cells |
| Day04.Cells | days/day04/src/index.rs:138-145 | the 25 cells of a board in the order building the index visits them |
| Day04.PartsAreValid | days/day04/src/index.rs:132-161 | a board has exactly eleven spans: its board span, five rows and five columns |
| Day04.KeysOfExactly | days/day04/src/index.rs:150-161 | the spans of the boards still playing are exactly their eleven spans each |
| Day04.CleanupList | days/day04/src/index.rs:150-161 | a board's cleanup list is its board span, then rows 0 to 4, then columns 0 to 4 |
| Day04.CleanupListExactly | days/day04/src/index.rs:150-161 | a board's cleanup list names exactly the board's span keys |
| Day04.KeyAtPos | days/day04/src/index.rs:163-172 | the visiting order of cells is one to one: a cell's position gives back the cell |
| Day04.PosKeyAt | days/day04/src/index.rs:163-172 | every position in the visiting order stands for a cell inside a 5 x 5 board |
| Day04.NumberUpToSnoc | days/day04/src/index.rs:170 | visiting one more cell appends it to its number's list and to no other |
| Day04.NumberUpToSound | days/day04/src/index.rs:163-172 | a number's list holds only cells of that number, in visiting order |
| Day04.NumberUpToComplete | days/day04/src/index.rs:163-172 | every visited cell of a number is in that number's list |
| Day04.EntriesOf | days/day04/src/index.rs:170 | after building, the entries under a number all hold that number |
| Day04.EntriesOfIncreasing | days/day04/src/index.rs:163-172 | the entries under a number are in visiting order, board by board |
| Day04.EntriesOfComplete | days/day04/src/index.rs:163-172 | every cell of a number is registered under it |
| Day04.Absent | days/day04/src/index.rs:104-121 | calling a number a board lacks changes none of its spans |
| Day04.OnlyCell | days/day04/src/index.rs:106-113 | on a board with distinct numbers the called number lies on one row and one column only |
| Day04.MarkedSnoc | days/day04/src/index.rs:86 | a call adds exactly its number to the marked numbers |
| Day04.EmptyDifference | days/day04/src/index.rs:55 | a line is empty after the marked numbers are taken out iff all its numbers are marked |
| Day04.WinnersAmongSound | days/day04/src/index.rs:105-118 | every winner collected over a number's entries is a board still playing that now has a complete row or column through the cell, scored by its total times the number |
| Day04.WinnersAmongHas | days/day04/src/index.rs:105-118 | a winner produced by one entry is in the collected winners |
| Day04.RefWinnersSound | days/day04/src/index.rs:111-118 | a call's winners are boards still playing with a row or column through the called cell now all marked, scored by total times the number |
| Day04.RefWinnersComplete | days/day04/src/index.rs:111-118 | a board still playing whose row or column through the called cell is now all marked is among the winners |
| Day04.RefWinnersScore | days/day04/src/index.rs:115 | with no number called twice, a winner's score is its unmarked sum times the called number |
| Day04.WinnersAmongBoards | days/day04/src/index.rs:105-118 | every collected winner is the board of one of the visited entries |
| Day04.WinnersAmongOnce | days/day04/src/index.rs:111-118 | over entries in visiting order, no board is collected twice |
| Day04.OnceSnoc | days/day04/src/index.rs:116 | appending at most one winner for a board not yet listed keeps every board listed once |
| Day04.RefWinnersOnce | days/day04/src/index.rs:111-118 | a board completing a row and a column together wins once |
| Day04.WinnerNeverAgain | days/day04/src/index.rs:86-99 | a board that has won and been removed never wins again |
| Day04.MixedNone | days/day04/src/index.rs:104-105 | before any entry is visited the spans are those before the call |
| Day04.MixedAll | days/day04/src/index.rs:104-121 | once every board holding the number is visited the spans are those after the call |
| Day04.Untouched | days/day04/src/index.rs:104-121 | a board without the called number keeps all its spans |
| Day04.VisitStep | days/day04/src/index.rs:105-119 | visiting one entry of the number brings its board to "after the call" and adds that board's winner, if any |
| Day04.VisitLive | days/day04/src/index.rs:105-119 | the step above for a board still playing |
| Day04.VisitThree | days/day04/src/index.rs:106-118 | with the three spans present and distinct, an entry marks the board, the row and the column and wins when the row or column completes |
| Day04.MixedUpdate | days/day04/src/index.rs:111-113 | updating an entry's board, row and column spans brings the whole board to "after the call" |
| Day04.Unaffected | days/day04/src/index.rs:111-113 | the board's other rows and columns do not change |
| Day04.VisitDead | days/day04/src/index.rs:106-110 | an entry of a board already removed changes nothing |
| Day04.DifferentBoards | days/day04/src/index.rs:104-105 | two cells holding the same number lie on different boards |
| Day04.InnerFoldCorrect | days/day04/src/index.rs:104-121 | visiting a prefix of a number's entries gives the spans with those boards updated and their winners |
| Day04.InnerFoldStep | days/day04/src/index.rs:105-120 | the loop step of the above |
| Day04.LastBoardNew | days/day04/src/index.rs:104-105 | the last of a number's entries is on a board none of the earlier ones is on |
| Day04.BoardsOfSnoc | days/day04/src/index.rs:105 | one more entry adds its board to the boards visited |
| Day04.InnerCallCorrect | days/day04/src/index.rs:102-124 | on a built index, one call leaves every span as after the call and yields exactly the winners |
| Day04.ForgetRemoves | days/day04/src/index.rs:90-92 | removing a list of spans removes exactly those keys |
| Day04.RemoveBoardCorrect | days/day04/src/index.rs:89-93 | removing a winner's cleanup list removes exactly that board's spans |
| Day04.CleanupListKeys | days/day04/src/index.rs:89-93 | among live span keys, a board's cleanup list names exactly that board's |
| Day04.SpansWithout | days/day04/src/index.rs:90-92 | taking a board's spans out leaves the spans of the other live boards |
| Day04.RemoveWinnersCorrect | days/day04/src/index.rs:88-94 | removing every winner leaves the index of the boards that have not won |
| Day04.Indices | days/day04/src/index.rs:131 | the board indices `enumerate` hands out |
| Day04.IndexesAfterCall | days/day04/src/index.rs:86-99 | a call followed by winner removal keeps the index an index of the remaining boards |
| Day04.Index.constructor | days/day04/src/index.rs:127-176 | building records, per board, the board span with the board's sum, five row and five column spans under the board's cleanup list, and one entry per cell under its number |
| Day04.Index.CallNumber | days/day04/src/index.rs:86-100 | a call yields `None` when nobody wins, otherwise the winners in entry order; the winners stop playing |
| Day04.Index.InnerCallNumber | days/day04/src/index.rs:102-124 | the spans and winners are those of visiting the number's entries in order; `None` when the list is empty |
| Day04.RemoveAll | days/day04/src/index.rs:88-94 | the removal loop forgets each winner's cleanup list and every span in it |
| Day04.SpansAtStart | days/day04/src/index.rs:132-145 | before any call a board span holds its sum, a row or column span all its numbers |
| Day04.CleanupStep | days/day04/src/index.rs:151 | recording a board's cleanup list adds exactly that board |
| Day04.RowUpToStep | days/day04/src/index.rs:141 | inserting the next cell of a row adds it to the row span |
| Day04.ColUpToStep | days/day04/src/index.rs:142 | inserting the next cell of a column adds it to the column span |
| Day04.BoardSpans | days/day04/src/index.rs:132-145 | the first loop of building yields the board span with the sum of all cells and the row and column spans holding their lines |
| Day04.InsertRow | days/day04/src/index.rs:140-144 | the inner loop adds one row to its row span, the column spans and the board span |
| Day04.BoardStep | days/day04/src/index.rs:143 | inserting a cell adds it to the board total |
| Day04.ColsStep | days/day04/src/index.rs:142 | inserting a cell updates its column span only |
| Day04.CellsSnoc | days/day04/src/index.rs:138-145 | the cells visited so far grow by one cell per step |
| Day04.WithBoard | days/day04/src/index.rs:150-161 | storing a board's eleven spans gives the spans of one more board |
| Day04.TakeSnoc | days/day04/src/index.rs:105 | a prefix grows by the next element |
| Day04.StoredRow | days/day04/src/index.rs:153-156 | storing a row span keeps the stored-so-far picture |
| Day04.StoredCol | days/day04/src/index.rs:158-161 | storing a column span keeps the stored-so-far picture |
| Day04.StoredWhole | days/day04/src/index.rs:150 | storing the board span starts the picture |
| Day04.AddSpans | days/day04/src/index.rs:150-161 | the board span, then rows, then columns are stored and listed under the board in that order |
| Day04.AddRowSpans | days/day04/src/index.rs:153-156 | the row loop stores five row spans and lists them |
| Day04.AddColSpans | days/day04/src/index.rs:158-161 | the column loop stores five column spans and lists them |
| Day04.EntriesNone | days/day04/src/index.rs:129 | the empty index has no entries and no number lists |
| Day04.EntriesAll | days/day04/src/index.rs:163-175 | after all boards, every cell has its entry and every number lists exactly its cells |
| Day04.EntryStep | days/day04/src/index.rs:165-170 | recording one cell keeps the entries and number lists complete up to it |
| Day04.EntryStepKeys | days/day04/src/index.rs:165-169 | recording one cell keeps the entry map complete up to it |
| Day04.EntryStepNumbers | days/day04/src/index.rs:170 | recording one cell keeps the number lists complete up to it |
| Day04.AddEntries | days/day04/src/index.rs:163-172 | recording one board's cells, row by row |
| Day04.AddRowEntries | days/day04/src/index.rs:164-171 | recording one row's cells, column by column |
| Day05.Sub | days/day05/src/model.rs:36-45 | the difference added back to the right operand gives the left one |
| Day05.DiffRange | days/day05/src/model.rs:96-98 | the inclusive range between `base` and `base + diff` ascends from the smaller end, with one more value than the absolute value of `diff` |
| Day05.Reverse | days/day05/src/model.rs:90 | `rev` yields the same values last to first |
| Day05.SignedDiffRangeSteps | days/day05/src/model.rs:88-94 | the signed range starts at `base` and steps one unit towards `base + diff` each time |
| Day05.Zip | days/day05/src/model.rs:80-83 | `zip` pairs elements up to the shorter length |
| Day05.Column | days/day05/src/model.rs:70-74 | `repeat(x).zip(ys)` is the column at `x` over `ys` |
| Day05.Line | days/day05/src/model.rs:75-79 | `repeat(y).zip(xs)` with the pair flipped is the row at `y` over `xs` |
| Day05.VerticalArrow | days/day05/src/model.rs:69-74 | a vertical arrow covers its column between the ends, ascending, whichever end is `from` |
| Day05.HorizontalArrow | days/day05/src/model.rs:75-79 | a horizontal arrow covers its row between the ends, ascending |
| Day05.ZeroLengthArrow | days/day05/src/model.rs:69-74 | an arrow whose ends coincide covers that one point |
| Day05.DiagonalArrow | days/day05/src/model.rs:80-84 | any other arrow walks one unit on both axes from `from` towards `to`, as far as the shorter axis reaches, and ends at `to` on a true diagonal |
| Day05.IterDistinct | days/day05/src/model.rs:68-86 | every arrow covers at least one point and none twice |
| Day05.AddAllSnoc | days/day05/src/model.rs:14-16 | one more point adds one to that point's count |
| Day05.AddAllCounts | days/day05/src/model.rs:14-16 | adding points raises each count by how often the point occurs, and only added points gain an entry |
| Day05.OccurrencesDistinct | days/day05/src/model.rs:68-86 | in a list without repeats a point occurs once or not at all |
| Day05.Board.constructor | days/day05/src/model.rs:7-10 | the default board has no counts, which is the coverage by no arrows |
| Day05.Board.Push | days/day05/src/model.rs:13-17 | `push` adds one to the count of each point the arrow yields, in order |
| Day05.Board.Solutions | days/day05/src/model.rs:19-21 | `solutions` are exactly the points counted more than once, with their counts |
| Day05.PushAddsOne | days/day05/src/model.rs:13-17 | pushing an arrow adds exactly one to each point it covers and leaves others alone |
| Day05.PushKeepsCounts | days/day05/src/model.rs:13-17 | after pushing arrows onto an empty board, each count is the number of arrows covering the point |
| Day06.Buckets | days/day06/src/main.rs:61-65 | there are nine buckets |
| Day06.Day | days/day06/src/main.rs:67-72 | a day yields nine buckets again |
| Day06.Days | days/day06/src/main.rs:67-72 | any number of days yields nine buckets |
| Day06.DayGrows | days/day06/src/main.rs:67-72 | each day the school grows by exactly the fish that were at timer 0 |
| Day06.SumTake | days/day06/src/main.rs:74 | summing one more bucket adds it |
| Day06.SumNine | days/day06/src/main.rs:74 | the total of nine buckets is their nine-term sum |
| Day06.Add | days/day06/src/main.rs:63-65 | bucket-wise addition gives nine buckets |
| Day06.SumAdd | days/day06/src/main.rs:74 | the total of summed buckets is the sum of the totals |
| Day06.CountOfConcat | days/day06/src/main.rs:63-65 | counting a timer over two schools adds the two counts |
| Day06.BucketsConcat | days/day06/src/main.rs:63-65 | the buckets of two schools together are their buckets added |
| Day06.BucketsOne | days/day06/src/main.rs:64 | a single fish fills one bucket, its timer's |
| Day06.OneFish | days/day06/src/main.rs:67-72 | one fish's day (drop by one, or restart at 6 and spawn one at 8), counted, is a day on its buckets |
| Day06.DayAdd | days/day06/src/main.rs:67-72 | a day on two schools together is their two days added |
| Day06.FishDayTimers | days/day06/src/main.rs:67-72 | a day keeps every timer in 0 to 8 |
| Day06.DayMatchesFish | days/day06/src/main.rs:67-72 | the bucket day is the day of every fish, counted: the buckets follow the fish |
| Day06.RotateLeft | days/day06/src/main.rs:69 | `rotate_left(1)` moves bucket 0 to the end and every other one down a place |
| Day06.CountFish | days/day06/src/main.rs:61-65 | counting the fish gives the bucket of each timer |
| Day06.Simulate | days/day06/src/main.rs:61-74 | the answer is the total of the buckets after `days` days |
| Day06.DayStep | days/day06/src/main.rs:68-71 | one loop pass: every bucket moves down, bucket 6 gains the old bucket 0, bucket 8 becomes the old bucket 0 |
| Day06.SumAll | days/day06/src/main.rs:74 | `iter().sum()` is the total of the buckets |
| Day06.DaysCount | days/day06/src/main.rs:67-74 | the total after `days` days is the starting school plus everyone spawned on the way |
| Day06.BucketsHoldAll | days/day06/src/main.rs:61-65 | the buckets hold every fish: their total is the school's size |
| Day07.TriangleSteps | days/day07/src/main.rs:63-65 | with n = d + 1, `n * (n - 1) / 2` is the fuel of a move of d whose k-th step costs k |
| Day07.CostStep | days/day07/src/main.rs:50-51 | moving the target one right costs one more per crab on its left and one less per crab on its right |
| Day07.StartScore | days/day07/src/main.rs:38 | the starting score is the part-1 cost of the position just left of the smallest crab |
| Day07.BelowSplit | days/day07/src/main.rs:43-48 | in sorted data, once `index` separates the crabs below `i`, it counts them |
| Day07.CostNonNegativeStart | days/day07/src/main.rs:42-45 | no crab is below the smallest one |
| Day07.Part1 | days/day07/src/main.rs:37-55 | the incremental score gives the least part-1 cost over the positions from the smallest to the largest crab, and that value is reached |
| Day07.SkipBelow | days/day07/src/main.rs:43-45 | the inner `while` stops at the number of crabs below `i`, never past the last crab |
| Day07.Part2 | days/day07/src/main.rs:56-71 | the least part-2 cost over the same span of positions, or `i32::MAX` when every cost is above it |
| Day07.LeastPermutation | days/day07/src/main.rs:33 | sorting does not change the answer |
| Day07.Solve | days/day07/src/main.rs:33-72 | after `sort_unstable`, either part's answer is the least fuel over the span of the crabs; empty input panics |
| Day07.FuelConcat | days/day07/src/main.rs:61-66 | the fuel of two groups of crabs is the sum of their fuels |
| Day07.MultisetCancel | days/day07/src/main.rs:33 | removing one copy of an element from both sides keeps the same elements |
| Day07.FuelPermutation | days/day07/src/main.rs:33-66 | the fuel does not depend on the order of the crabs |
| Sorting.InsertSorted | days/day07/src/main.rs:33 | inserting into a sorted list adds one element |
| Sorting.InsertAtLeast | days/day07/src/main.rs:33 | inserting a value at least `b` keeps every element at least `b` |
| Sorting.InsertSortedOk | days/day07/src/main.rs:33 | insertion keeps a list ascending |
| Sorting.InsertSortedPerm | days/day07/src/main.rs:33 | insertion adds exactly one copy of the value |
| Sorting.InsertAt | days/day07/src/main.rs:33 | the insertion point is after the smaller elements |
| Sorting.Sort | days/day07/src/main.rs:33 | `sort_unstable` leaves the same elements in ascending order |
| Sorting.SortedHeadLeast | days/day07/src/main.rs:35 | the first element of a sorted list is its least |
| Sorting.SortedUnique | days/day07/src/main.rs:33 | a sorted permutation is unique, so the unstable sort's result is determined |
| Sorting.SortedTail | days/day07/src/main.rs:33 | dropping the first element keeps a list sorted |
| Day08Pattern.Single | days/day08/src/pattern.rs:30 | `1 << i` has bit `i` and no other |
| Day08Pattern.MaskValue | days/day08/src/pattern.rs:76-78 | `MASK` is `(1 << 7) - 1` and `ZERO` is 0 |
| Day08Pattern.Not | days/day08/src/pattern.rs:136-138 | `not` complements the seven segment bits and clears the eighth |
| Day08Pattern.Complement | days/day08/src/pattern.rs:53-59 | `!` flips all eight bits |
| Day08Pattern.And | days/day08/src/pattern.rs:47-51 | `&=` keeps the bits set in both |
| Day08Pattern.Or | days/day08/src/pattern.rs:61-73 | bitwise or, and or-assign, keep the bits set in either operand |
| Day08Pattern.Xor | days/day08/src/model.rs:110-112 | `^` keeps the bits set in exactly one |
| Day08Pattern.AndIdempotent | days/day08/src/pattern.rs:47-51 | masking twice with the same pattern is masking once |
| Day08Pattern.ComplementInvolution | days/day08/src/pattern.rs:136-138 | `!` is an involution, `not` is one on seven-segment patterns, and `not` is `!` masked by `ALL` |
| Day08Pattern.CountBelow | days/day08/src/pattern.rs:140-142 | at most `n` of the bits below `n` are set |
| Day08Pattern.CountOnes | days/day08/src/pattern.rs:140-142 | `count_ones` of a `u8` is at most 8 |
| Day08Pattern.IndicesBelow | days/day08/src/pattern.rs:156-158 | the positions of the set bits below `n`, strictly ascending, all of them and nothing else |
| Day08Pattern.Indices | days/day08/src/pattern.rs:156-158 | `indicies` yields every set bit once, ascending, as many as `count_ones` |
| Day08Pattern.CountDisjointOr | days/day08/src/pattern.rs:140-142 | the set bits of two disjoint patterns add up under bitwise or |
| Day08Pattern.DoneIsSingleBit | days/day08/src/pattern.rs:144-146 | `is_done` holds exactly for a single bit, which is then the first index |
| Day08Pattern.DoneSingle | days/day08/src/pattern.rs:144-146 | a done pattern is the single bit at its first index |
| Day08Pattern.SingleDone | days/day08/src/pattern.rs:144-146 | a single bit is done |
| Day08Pattern.CountSingle | days/day08/src/pattern.rs:140-142 | a single bit counts once |
| Day08Pattern.EmptyHasNoIndices | days/day08/src/pattern.rs:140-142 | a pattern with no set bit is `ZERO` |
| Day08Pattern.ParseSnoc | days/day08/src/pattern.rs:27-35 | one more letter ORs its bit into the parsed pattern |
| Day08Pattern.Parse | days/day08/src/pattern.rs:26-38 | a parsed pattern lies within the seven segments |
| Day08Pattern.ParseOutcome | days/day08/src/pattern.rs:26-38 | parsing succeeds exactly on strings of `a..=g`; a failure reports the first other character |
| Day08Pattern.ParseBits | days/day08/src/pattern.rs:27-35 | a parsed pattern has exactly the bits of the letters in the string, repeats collapsing |
| Day08Pattern.CharsBelow | days/day08/src/pattern.rs:148-150 | the letters of the set bits below `n`, in order |
| Day08Pattern.LowPart | days/day08/src/pattern.rs:156-158 | the bits below `n` of a byte |
| Day08Pattern.ParseCharsBelow | days/day08/src/pattern.rs:26-45 | parsing the letters of the low bits gives those bits back |
| Day08Pattern.ParseCharsStep | days/day08/src/pattern.rs:26-45 | the step of the above for one more bit |
| Day08Pattern.ParseCharsSet | days/day08/src/pattern.rs:26-45 | the step of the above for a set bit |
| Day08Pattern.CharsSet | days/day08/src/pattern.rs:148-150 | a set bit adds its letter, and `char_index` takes it back to the bit |
| Day08Pattern.OrLow | days/day08/src/pattern.rs:30-34 | ORing the next bit into the low part extends the low part |
| Day08Pattern.ParseToString | days/day08/src/pattern.rs:23-45 | printing then parsing gives back every seven-segment pattern |
| Day08Pattern.ToStringLetters | days/day08/src/pattern.rs:148-150 | printing a seven-segment pattern yields only letters `a..=g` |
| Day08Pattern.FromCharList | days/day08/src/pattern.rs:84-94 | the `while` loop ORs each letter's bit, and agrees with parsing the same letters |
| Day08Pattern.ParseCharList | days/day08/src/pattern.rs:84-94 | on letters, parsing a prefix and the loop's accumulated bits agree |
| Day08Tables.TableDistinct | days/day08/src/tables.rs:3-14 | the ten digit patterns use only the seven segments and are pairwise different |
| Day08Tables.SegmentCounts | days/day08/src/tables.rs:3-14 | digits 0 to 9 light 6, 2, 5, 5, 4, 5, 6, 3, 7 and 6 segments |
| Day08Tables.SegmentCountsLow | days/day08/src/tables.rs:4-8 | digits 0 to 4 light 6, 2, 5, 5 and 4 segments |
| Day08Tables.SegmentCountsHigh | days/day08/src/tables.rs:9-13 | digits 5 to 9 light 5, 6, 3, 7 and 6 segments |
| Day08Tables.LenToNumsExact | days/day08/src/tables.rs:16 | `LEN_TO_NUMS[k]` lists exactly the digits with `k` segments |
| Day08Tables.LenToNumsDigits | days/day08/src/tables.rs:16 | the lists hold digits, none twice |
| Day08Tables.UniqueLengths | days/day08/src/tables.rs:16 | a segment count names one digit exactly for 2, 3, 4 and 7 segments |
| Day08Tables.AnyLightsSnoc | days/day08/src/pattern.rs:100-103 | one more digit lights a segment iff it or an earlier digit does |
| Day08Tables.UnionOf | days/day08/src/pattern.rs:96-106 | the union lights a segment iff some digit of the list does |
| Day08Tables.AndAll | days/day08/src/pattern.rs:113-121 | `MASK` ANDed with the digits lights a segment iff all of them do |
| Day08Tables.IntersectionMeaning | days/day08/src/pattern.rs:108-122 | the intersection lights a segment iff the list is non-empty and every digit lights it |
| Day08Tables.FromNumbersUnion | days/day08/src/pattern.rs:96-106 | the `while` loop computes the union |
| Day08Tables.FromNumbersIntersection | days/day08/src/pattern.rs:108-122 | the early return and the `while` loop compute the intersection |
| Day08Tables.ShortLengthsEmpty | days/day08/src/tables.rs:18-38 | lengths 0 and 1 have empty union and intersection |
| Day08Tables.DigitBetween | days/day08/src/tables.rs:16-38 | a digit's pattern lies between the intersection and the union of its length, and equals the union when its length is unique |
| Day08Tables.SegmentsCount | days/day08/src/pattern.rs:140-142 | a seven-segment pattern has at most seven bits set, so the tables can be indexed by its count |
| Day08Tables.PossibleNumbers | days/day08/src/pattern.rs:124-126 | `possible_numbers` are exactly the digits with as many segments as the pattern |
| Day08Tables.PossibleChars | days/day08/src/pattern.rs:128-130 | `possible_chars` lights a segment iff some digit of that length does |
| Day08Tables.RequiredChars | days/day08/src/pattern.rs:132-134 | `required_chars` lights a segment iff there is a digit of that length and all of them light it |
| Day08Solver.Fill | days/day08/src/model.rs:27-33 | seven copies of a pattern, as `[p; 7]` |
| Day08Solver.SegmentIndices | days/day08/src/pattern.rs:156-158 | the set bits of a seven-segment pattern name wires 0 to 6 |
| Day08Solver.Narrow | days/day08/src/model.rs:58-60 | a narrowing loop leaves seven candidate sets |
| Day08Solver.NarrowPointwise | days/day08/src/model.rs:58-65 | narrowing ANDs the mask into exactly the listed wires, however often each is listed |
| Day08Solver.Propagate | days/day08/src/model.rs:56-73 | propagation leaves seven candidate sets |
| Day08Solver.PropagatePointwise | days/day08/src/model.rs:56-73 | a lit wire keeps only segments some digit of that length lights; an unlit wire loses the segments all of them light, and every segment of the digit when the length names one |
| Day08Solver.MaskBelow | days/day08/src/model.rs:126-132 | the fold sets bit `i` for each settled wire below `n` and nothing else |
| Day08Solver.CompletionMask | days/day08/src/model.rs:126-132 | `completion_mask` has bit `i` exactly when wire `i` is settled |
| Day08Solver.FlattenOut | days/day08/src/model.rs:114-124 | flattening out leaves seven candidate sets |
| Day08Solver.FlattenAll | days/day08/src/model.rs:101-103 | flattening out a list of wires leaves seven candidate sets |
| Day08Solver.Remains | days/day08/src/model.rs:110-112 | the intended remainder: wires settled now and not yet flattened, disjoint from `complete` |
| Day08Solver.RemainsGrow | days/day08/src/model.rs:100-107 | with the intended remainder, each pass of the `while` grows `complete`, so the loop ends |
| Day08Solver.FlattenTo | days/day08/src/model.rs:97-108 | `flatten_to` leaves seven candidate sets |
| Day08Solver.Add | days/day08/src/model.rs:49-54 | `add` leaves seven candidate sets |
| Day08Solver.SolutionOf | days/day08/src/model.rs:82-95 | `solution` gives one segment per wire |
| Day08Solver.SolutionIsCandidates | days/day08/src/model.rs:82-95 | once every wire is settled, `1 << first index` is the candidate set itself |
| Day08Solver.NarrowWithin | days/day08/src/model.rs:58-72 | narrowing only removes candidates |
| Day08Solver.PropagateWithin | days/day08/src/model.rs:56-73 | propagation only removes candidates |
| Day08Solver.FlattenAllWithin | days/day08/src/model.rs:101-103 | flattening a list only removes candidates |
| Day08Solver.FlattenToWithin | days/day08/src/model.rs:97-108 | `flatten_to` only removes candidates |
| Day08Solver.AddWithin | days/day08/src/model.rs:49-54 | `add` only removes candidates: every update is an AND |
| Day08Solver.Observed | days/day08/src/main.rs:66-78 | the pattern a digit shows through a wiring lights a wire iff its segment is lit in the digit |
| Day08Solver.DefaultSound | days/day08/src/model.rs:27-33 | the default solver admits every wiring |
| Day08Solver.CountIsCard | days/day08/src/pattern.rs:140-142 | the set-bit count is the size of the set of set bits |
| Day08Solver.ImageCard | days/day08/src/model.rs:56-73 | a wiring is one to one: it maps `k` wires to `k` segments |
| Day08Solver.ObservedCount | days/day08/src/model.rs:56-73 | a digit seen through a wiring lights as many wires as it has segments |
| Day08Solver.ObservedImage | days/day08/src/model.rs:56-73 | the wiring carries a digit's lit wires onto its lit segments |
| Day08Solver.TableSegments | days/day08/src/tables.rs:3-14 | no canonical digit lights the eighth bit |
| Day08Solver.PropagateSound | days/day08/src/model.rs:56-73 | seeing a digit through the true wiring keeps every wire's true segment among its candidates |
| Day08Solver.FlattenOutKeepsDone | days/day08/src/model.rs:114-124 | flattening out one settled wire leaves every settled wire as it is |
| Day08Solver.FlattenOutSound | days/day08/src/model.rs:114-124 | flattening out a settled wire keeps every true segment |
| Day08Solver.FlattenAllSound | days/day08/src/model.rs:101-103 | flattening settled wires one after another keeps them settled and keeps every true segment |
| Day08Solver.FlattenAllKeeps | days/day08/src/model.rs:101-103 | a settled wire is unchanged by flattening out settled wires |
| Day08Solver.FlattenToSound | days/day08/src/model.rs:97-108 | the whole flattening loop keeps every true segment |
| Day08Solver.AddSound | days/day08/src/model.rs:49-54 | `add` with a digit seen through the true wiring keeps that wiring possible |
| Day08Solver.SolutionIsWiring | days/day08/src/model.rs:75-95 | once every wire is settled, a sound solver's solution is the true wiring |
| Day08Solver.MapIndices | days/day08/src/model.rs:149-157 | mapping the listed wires lights a segment iff one of their mapped segments is it |
| Day08Solver.Position | days/day08/src/model.rs:143-145 | `position` finds the first digit with that canonical pattern, `None` when no digit has it |
| Day08Solver.Solve | days/day08/src/model.rs:141-147 | `solve` returns the digit whose canonical pattern the mapped segments form |
| Day08Solver.DecodeObserved | days/day08/src/model.rs:141-157 | with the true wiring, a digit's observed pattern decodes to that digit |
| Day08Solver.MapObserved | days/day08/src/model.rs:149-157 | with the true wiring, mapping an observed digit gives back its canonical segments |
| Day08Solver.AsWrittenAgrees | days/day08/src/model.rs:110-112 | while every wire in `complete` stays settled, the XOR remainder equals the intended AND-NOT |
| Day08Solver.SoundStaysSettled | days/day08/src/model.rs:49-54 | a solver sound for a wiring never unsettles a wire, so on real inputs the XOR is harmless |
| Day08Solver.StalledState | days/day08/src/model.rs:49-73 | the state reached by feeding "abc", "ab", "c", as `FeedReachesBeforeStall` and `StallReached` derive it |
| Day08Solver.CountTwo | days/day08/src/pattern.rs:140-146 | two set bits make a count of at least two |
| Day08Solver.StalledUnsettled | days/day08/src/model.rs:126-132 | no wire of the stalled state is settled |
| Day08Solver.IndicesSingle | days/day08/src/pattern.rs:156-158 | the only index of a single bit is that bit |
| Day08Solver.FlattenOutEmpty | days/day08/src/model.rs:114-124 | flattening out a wire with no candidates removes nothing |
| Day08Solver.AsWrittenStalls | days/day08/src/model.rs:97-112 | in the stalled state with wire c complete, the XOR remainder is wire c again and `complete` does not grow |
| Day08Solver.FlattenAllOne | days/day08/src/model.rs:101-103 | flattening a one-wire list is flattening that wire |
| Day08Solver.StalledFlattenIdle | days/day08/src/model.rs:100-107 | a pass of the `while` leaves the stalled state unchanged, so `flatten_to` never returns |
| Day08Solver.BeforeStall | days/day08/src/model.rs:49-73 | the state after "abc" and "ab", as `FeedReachesBeforeStall` derives it from the default solver |
| Day08Solver.BeforeStallMask | days/day08/src/model.rs:126-132 | before "c" arrives, wire c is the one settled wire |
| Day08Solver.NoDigitOfOne | days/day08/src/tables.rs:16-38 | a one-segment pattern has no possible digit and no possible or required segment |
| Day08Solver.PropagateOne | days/day08/src/model.rs:56-73 | a one-segment pattern empties its wire and leaves the others alone |
| Day08Solver.StallReached | days/day08/src/model.rs:51 | propagating "c" in the state before the stall gives the stalled state |
| Day08Solver.StalledPointwise | days/day08/src/model.rs:56-73 | the stalled state, wire by wire |
| Day08Solver.IntendedLeaves | days/day08/src/model.rs:97-108 | with the intended remainder the same state leaves `flatten_to` at once |
| Day08Solver.UniqueChars | days/day08/src/model.rs:56-73 | for a length only one digit draws, the possible digits are that one and the possible and required segments are its segments |
| Day08Solver.SevenLookups | days/day08/src/tables.rs:16-38 | "abc" has three segments and can only be a 7, whose segments are a, c and f |
| Day08Solver.OneLookups | days/day08/src/tables.rs:16-38 | "ab" has two segments and can only be a 1, whose segments are c and f |
| Day08Solver.UniqueWire | days/day08/src/model.rs:56-73 | with such a pattern, lit wires keep the digit's segments and unlit wires lose them |
| Day08Solver.SevenMasks | days/day08/src/model.rs:56-73 | in the default state the 7 leaves {a, c, f} on lit wires and {b, d, e, g} on the others |
| Day08Solver.SevenWire | days/day08/src/model.rs:56-73 | one wire of the default state after "abc" |
| Day08Solver.SevenPropagates | days/day08/src/model.rs:56-73 | propagating "abc" in the default state gives the state after "abc" |
| Day08Solver.AfterSevenUnsettled | days/day08/src/model.rs:126-132 | after "abc" no wire is settled, and the written and intended remainders are both empty |
| Day08Solver.DefaultUnsettled | days/day08/src/model.rs:126-132 | the default state has no settled wire |
| Day08Solver.AddSeven | days/day08/src/model.rs:49-54 | `add("abc")` in the default state gives the state after "abc", flattening nothing |
| Day08Solver.OneMasks | days/day08/src/model.rs:56-73 | after "abc" the 1 leaves {c, f} on wires a and b, segment a on wire c and {b, d, e, g} on the rest |
| Day08Solver.OneWire | days/day08/src/model.rs:56-73 | one wire of the state after "abc" once "ab" is seen |
| Day08Solver.OnePropagates | days/day08/src/model.rs:56-73 | propagating "ab" after "abc" gives the state before the stall |
| Day08Solver.BeforeStallFlattenIdle | days/day08/src/model.rs:101-103 | flattening out wire c before the stall removes nothing |
| Day08Solver.BeforeStallRemains | days/day08/src/model.rs:97-112 | before the stall only wire c remains to flatten, then nothing; the written XOR gives the same both times |
| Day08Solver.BeforeStallFlattens | days/day08/src/model.rs:97-108 | `flatten_to` on the state before the stall runs one round and returns it unchanged |
| Day08Solver.AddOne | days/day08/src/model.rs:49-54 | `add("ab")` after "abc" gives the state before the stall |
| Day08Solver.FeedReachesBeforeStall | days/day08/src/model.rs:49-54 | from the default solver, `add("abc")` then `add("ab")` reach the state before the stall |
| Day08Solver.Solver.constructor | days/day08/src/model.rs:27-33 | the default solver: every wire may be any segment, and the solution is empty |
| Day08Solver.Solver.Reset | days/day08/src/model.rs:45-47 | `reset` restores the default state |
| Day08Solver.Solver.NarrowAll | days/day08/src/model.rs:58-72 | one `for` of `propagate_constraints` ANDs the mask into the listed wires |
| Day08Solver.Solver.PropagateConstraints | days/day08/src/model.rs:56-73 | the candidates become their propagation by the pattern |
| Day08Solver.Solver.FlattenOutAt | days/day08/src/model.rs:114-124 | every wire whose candidates differ from wire `i`'s loses those candidates |
| Day08Solver.Solver.FlattenEach | days/day08/src/model.rs:101-103 | one pass flattens out each listed wire in turn |
| Day08Solver.Solver.FlattenToFrom | days/day08/src/model.rs:97-108 | the `while` flattens until no new wire settles, with the intended remainder |
| Day08Solver.Solver.ReturnSolutionIfDone | days/day08/src/model.rs:75-95 | the solution when every wire is settled, `None` and nothing written otherwise |
| Day08Solver.Solver.AddPattern | days/day08/src/model.rs:49-54 | `add` propagates, flattens and answers as the reference `Add` says |
| Day08Solver.FromPattern | days/day08/src/model.rs:36-42 | a default solver fed one pattern |
| Day08Run.CountUnique | days/day08/src/main.rs:56-60 | part 1 counts at most every output |
| Day08Run.UniqueIsEasyLength | days/day08/src/main.rs:59 | a pattern has one possible digit iff it lights 2, 3, 4 or 7 segments |
| Day08Run.ObservedAll | days/day08/src/main.rs:66-78 | the patterns shown for a list of digits through a wiring |
| Day08Run.ObservedAllTail | days/day08/src/main.rs:68 | showing a list of digits shows the first, then the rest |
| Day08Run.CountUniqueIsEasy | days/day08/src/main.rs:56-60 | through any wiring, part 1 counts exactly the 1s, 4s, 7s and 8s among the outputs |
| Day08Run.Feed | days/day08/src/main.rs:68-78 | feeding patterns stops at the first that settles every wire, with its seven-segment solution |
| Day08Run.SuffixSegments | days/day08/src/main.rs:68 | the rest of a line's patterns are still seven-segment patterns |
| Day08Run.SuffixStep | days/day08/src/main.rs:68 | the rest from `j` is pattern `j` followed by the rest from `j + 1` |
| Day08Run.FeedSettles | days/day08/src/main.rs:69-76 | a pattern that settles the solver ends the line with its solution |
| Day08Run.FeedContinues | days/day08/src/main.rs:68-78 | a pattern that does not settle passes the narrowed solver on |
| Day08Run.DecodablePrefix | days/day08/src/main.rs:71-74 | every prefix of decodable outputs is decodable |
| Day08Run.DecodeSnoc | days/day08/src/main.rs:72-73 | one more output multiplies the answer by ten and adds its digit |
| Day08Run.DecodeOutputs | days/day08/src/main.rs:70-74 | the inner `for` reads the outputs as a base-ten number, most significant first |
| Day08Run.SolveLine | days/day08/src/main.rs:67-78 | one `'OUTER` pass adds the line's decoded outputs, or nothing when no pattern settles the solver |
| Day08Run.SettledLine | days/day08/src/main.rs:69-76 | when pattern `j` settles the solver, its solution answers the line |
| Day08Run.UnsettledLine | days/day08/src/main.rs:68-78 | when no pattern settles the solver, the line contributes nothing |
| Day08Run.RunSerial | days/day08/src/main.rs:64-79 | part 2 is the sum of the line values, with the solver reset for every line |
| Day08Run.FeedIsWiring | days/day08/src/main.rs:68-69 | any solution found for patterns seen through the true wiring is that wiring |
| Day08Run.DecodeIsNumber | days/day08/src/main.rs:70-74 | with the true wiring, the outputs decode to the number they show |
| Day08Run.LineValueCorrect | days/day08/src/main.rs:66-78 | a line seen through one wiring adds nothing or exactly the number its outputs show, and the number whenever the solver settles |
| Day09Grid.GetWrapsRows | days/day09/src/grid.rs:46-48 | `get` indexes the flat data only, so a column past the row end reads the next row |
| Day09Grid.AccessorsMeaning | days/day09/src/location.rs:25-96 | on the grid: a top neighbour exactly when y > 0, a left one exactly when x > 0, a bottom or right one exactly when that position is on the grid |
| Day09Grid.RightStopsAtRowEnd | days/day09/src/location.rs:92-96 | `right` refuses the column past the row end even where `get` would read the next row |
| Day09Grid.Neighbors | days/day09/src/location.rs:49-58 | at most four neighbours, each found by `get` |
| Day09Grid.NeighborsExact | days/day09/src/location.rs:49-58 | the neighbours of a location on the grid are exactly the positions one step away on the grid |
| Day09Grid.PushNeighbor | days/day09/src/location.rs:79-84 | a present neighbour is stored at `len` and counted; an absent one changes nothing |
| Day09Grid.FillNeighbors | days/day09/src/location.rs:49-58 | the buffer's used prefix holds the neighbours top, bottom, left, right |
| Day09Grid.LowPointMeaning | days/day09/src/location.rs:69-73 | a location is a low point iff every position one step away on the grid is strictly higher |
| Day09Grid.LocAtIndex | days/day09/src/iter.rs:12-24 | with a positive width, step `k` of the iterator is inside its row at flat index `k` |
| Day09Grid.MulMono | days/day09/src/location.rs:15-17 | the row offset grows with the row |
| Day09Grid.RowBound | days/day09/src/location.rs:15-17 | a position inside its row lies before every later row |
| Day09Grid.IndexInjective | days/day09/src/location.rs:15-17 | inside the row, the flat index determines the position |
| Day09Grid.RowMajorOrder | days/day09/src/iter.rs:12-24 | with a positive width, the iterator visits each cell once, in flat order, and ends after the last |
| Day09Grid.LocationIter.constructor | days/day09/src/iter.rs:27-35 | the iterator starts at (0, 0) |
| Day09Grid.LocationIter.Next | days/day09/src/iter.rs:12-24 | `next` ends and stays put once `get` fails, otherwise yields the position and advances, wrapping at the row width |
| Day09Grid.Concat | days/day09/src/grid.rs:59-61 | `lines().flat_map(chars)` starts with the first line |
| Day09Grid.Digits | days/day09/src/grid.rs:61-68 | every character becomes its digit, or the first non-digit is the `BadInt` error |
| Day09Grid.ParseGrid | days/day09/src/grid.rs:58-78 | parsing succeeds exactly on non-empty all-digit input, with the first line's length as width; empty input is `BadDimensions` |
| Day09Grid.ZeroWidthAccepted | days/day09/src/grid.rs:58-78 | an input whose first line is empty parses to a grid of width 0 |
| Day09Grid.ZeroWidthNeverEnds | days/day09/src/iter.rs:12-24 | on a grid of width 0 with data, every position the iterator reaches is found by `get`: it never ends |
| Day09Grid.ParseGridChecked | days/day09/src/grid.rs:58-86 | the checked parser accepts exactly the rectangular inputs the parser accepts, with the same grid |
| Day09Grid.ConcatLength | days/day09/src/grid.rs:59-68 | a rectangular input has rows times width characters |
| Day09Grid.CheckedGridIterates | days/day09/src/grid.rs:58-86 | a checked grid holds whole rows and has a positive width unless it is empty, so the iterator ends |
| Day09Basins.ConnectedRefl | days/day09/src/grid.rs:15-36 | every cell lies in its own basin |
| Day09Basins.LinkedConnected | days/day09/src/grid.rs:21-29 | two neighbouring cells below 9 lie in one basin, both ways |
| Day09Basins.ConnectedTrans | days/day09/src/grid.rs:31-33 | lying in one basin is transitive |
| Day09Basins.ConnectedSym | days/day09/src/grid.rs:31-33 | lying in one basin is symmetric |
| Day09Basins.NineAlone | days/day09/src/grid.rs:21-25 | no path leaves a cell of height 9 |
| Day09Basins.PairsToAppend | days/day09/src/grid.rs:22-28 | the pairs of two lists of neighbours are the pairs of each, in order |
| Day09Basins.PairsToOne | days/day09/src/grid.rs:22-28 | the pairs of one accessor's answer |
| Day09Basins.CellPairsNeighbors | days/day09/src/grid.rs:22-28 | the pairs of a cell below 9 are its neighbours below 9, in neighbour order |
| Day09Basins.PairsToMeaning | days/day09/src/grid.rs:22-28 | a pair is pushed for a cell iff it joins the cell to a neighbour below 9 |
| Day09Basins.QueueStep | days/day09/src/grid.rs:21-29 | one more location appends its pairs to the queue |
| Day09Basins.CellPairsFirst | days/day09/src/grid.rs:27 | every pair pushed for a cell starts with that cell |
| Day09Basins.QueueMeaning | days/day09/src/grid.rs:21-29 | a pair is queued after `m` locations iff it was pushed for one of them |
| Day09Basins.CellAt | days/day09/src/iter.rs:12-24 | the k-th location is on the grid and holds the k-th height |
| Day09Basins.GetAt | days/day09/src/iter.rs:13 | what `get` finds where the iterator stands: cell `k`, or nothing past the end |
| Day09Basins.QueueIsLinks | days/day09/src/grid.rs:19-29 | the queue holds exactly the pairs of neighbouring cells below 9, both ways round |
| Day09Basins.Singletons | days/day09/src/grid.rs:58-68 | a fresh `PartitionVec` puts every cell in a set of its own |
| Day09Basins.Union | days/day09/src/grid.rs:32 | a union keeps one label per cell |
| Day09Basins.UnionAll | days/day09/src/grid.rs:31-33 | the unions of the queue keep one label per cell |
| Day09Basins.QueueInRange | days/day09/src/grid.rs:27 | every queued index is a cell |
| Day09Basins.Basins | days/day09/src/grid.rs:15-40 | the partition `build` leaves has one label per cell |
| Day09Basins.UnionSound | days/day09/src/grid.rs:32 | a union of neighbouring cells below 9 only merges cells of one basin |
| Day09Basins.UnionAllSound | days/day09/src/grid.rs:31-33 | unioning linked pairs only ever joins connected cells |
| Day09Basins.UnionAllJoins | days/day09/src/grid.rs:31-33 | every queued pair ends up with one label |
| Day09Basins.PathSameLabel | days/day09/src/grid.rs:31-33 | once every linked pair shares a label, so do both ends of any path |
| Day09Basins.BasinsAreComponents | days/day09/src/grid.rs:15-40 | two cells share a basin iff a path of neighbouring cells below 9 joins them |
| Day09Basins.BasinsPartition | days/day09/src/grid.rs:38-40 | the basins are exactly the connected components |
| Day09Basins.NineIsSingleton | days/day09/src/grid.rs:21-25 | a cell of height 9 is a basin of its own |
| Day09Basins.UnionAllRepresentative | days/day09/src/grid.rs:31-33 | after the unions every label still names a cell of its own class |
| Day09Basins.BasinsLabelled | days/day09/src/grid.rs:38-40 | every basin is named by one of its cells |
| Day09Basins.CountLabel | days/day09/src/main.rs:56 | a count among `k` cells is at most `k` |
| Day09Basins.BasinSizes | days/day09/src/main.rs:56 | `basins().map(count)` lists one size of at least 1 per basin |
| Day09Basins.Representatives | days/day09/src/grid.rs:38-40 | the cells labelled with their own index, ascending and without repeats: one per set of the partition |
| Day09Basins.BasinSizesByRepresentative | days/day09/src/main.rs:56 | the sizes list has one entry per representative, and entry k counts the cells labelled with representative k |
| Day09Basins.CountLabelIsCard | days/day09/src/main.rs:56 | `count` of a set is the number of cells carrying its label |
| Day09Basins.RepresentativeCount | days/day09/src/main.rs:56 | the count listed for a representative is the number of cells connected to it |
| Day09Basins.RepresentativesApart | days/day09/src/grid.rs:38-40 | two connected representatives are the same entry, so no basin is listed twice |
| Day09Basins.LabelIsRepresentative | days/day09/src/grid.rs:38-40 | every cell's label is a listed representative connected to it, so no basin is missed |
| Day09Basins.BasinSizesAreBasins | days/day09/src/main.rs:56 | the sizes list has exactly one entry per connected component, and each entry is the number of cells of that component |
| Day09Basins.CountLabelSelf | days/day09/src/main.rs:56 | a basin counts at least its representative |
| Day09Basins.NeighborPairs | days/day09/src/grid.rs:22-28 | the inner loop pushes the cell paired with each neighbour below 9, in neighbour order |
| Day09Basins.UnionQueue | days/day09/src/grid.rs:31-33 | the union loop gives the unions of the queue in order |
| Day09Basins.QueueLocations | days/day09/src/grid.rs:21-29 | the first loop, driven by the location iterator, queues every cell's pairs |
| Day09Basins.Build | days/day09/src/grid.rs:15-36 | `build` leaves labels under which two cells are equal iff they lie in one basin |
| Day09Run.LowPointIsLowCell | days/day09/src/location.rs:69-73 | the neighbour machinery finds exactly the cells lower than every cell one step away |
| Day09Run.IterAt | days/day09/src/iter.rs:13 | what `get` finds at the iterator's k-th position |
| Day09Run.LowPointRisk | days/day09/src/main.rs:48-49 | the filter and map stage adds the k-th cell's risk if it is a low point, else nothing |
| Day09Run.Part1 | days/day09/src/main.rs:46-51 | `part_1` is the sum of height + 1 over exactly the low cells |
| Day09Run.ReplaceLowest | days/day09/src/main.rs:57-58 | overwriting slot 0 and sorting moves the new size to its place among the other three |
| Day09Run.PrefixStep | days/day09/src/main.rs:56 | one more size seen |
| Day09Run.HighestStart | days/day09/src/main.rs:54 | `highest` starts as four zeros with nothing seen |
| Day09Run.KeepTop | days/day09/src/main.rs:56-59 | one round keeps `highest` ascending and holding the top sizes seen |
| Day09Run.KeepTopBag | days/day09/src/main.rs:57-58 | one round moves slot 0 to the dropped sizes and brings the new size in |
| Day09Run.Exchange | days/day09/src/main.rs:57-58 | swapping one element on both sides of a multiset equation |
| Day09Run.Leftover | days/day09/src/main.rs:57-58 | the dropped sizes are none of them above what is kept |
| Day09Run.HighestAnswer | days/day09/src/main.rs:61-63 | the product of the last three slots, once every size is seen, is the answer |
| Day09Run.HighestHoldsTop | days/day09/src/main.rs:61 | once every size is seen the last three slots are the three largest |
| Day09Run.Part2 | days/day09/src/main.rs:53-64 | `part_2` is the product of the three largest sizes, padded with zeros |
| Day09Run.SubMultisetSize | days/day09/src/main.rs:61 | a sub-multiset is no larger |
| Day09Run.FewBasinsGiveZero | days/day09/src/main.rs:54-63 | with fewer than three basins the product is 0 |
| Day09Run.Part2Of | days/day09/src/main.rs:53-64 | `part_2` over the sizes of all basins of the partition |
| Utf8.CharByteLen | days/day10/src/command.rs:24-26 | the byte length `len()` measures of a one-character string is that character's UTF-8 width |
| Utf8.AsciiByteLen | days/day10/src/command.rs:24-26 | an ASCII string has one byte per character, so `len()` equals its character count |
| Day10Delimiter.OrderIsTotal | days/day10/src/delimeter.rs:1-7 | the derived order on delimiter kinds is strict and total: Paren < Square < Curly < Angle |
| Day10Delimiter.AutocompleteIsRank | days/day10/src/delimeter.rs:25-32 | the autocomplete score of a kind is its declaration rank plus one, so it lies in 1..=4 |
| Day10Delimiter.AutocompleteInjective | days/day10/src/delimeter.rs:25-32 | two kinds share an autocomplete score exactly when they are the same kind |
| Day10Delimiter.ScoresFollowOrder | days/day10/src/delimeter.rs:16-32 | both the syntax score (3, 57, 1197, 25137) and the autocomplete score increase exactly along the derived order |
| Day10Command.ParseSymbol | days/day10/src/command.rs:31-42 | each of the nine commands parses back from its own symbol |
| Day10Command.ParseOnlySymbols | days/day10/src/command.rs:23-43 | a string parses successfully only when it is exactly the symbol of the command it yields |
| Day10Command.ParseErrors | days/day10/src/command.rs:23-43 | `TooLong` exactly when the string is over one byte; `UnknownSymbol`, carrying the string itself, exactly when it is at most one byte and no command's symbol |
| Day10Command.CharTooLong | days/day10/src/command.rs:24-26 | a single character is rejected as too long exactly when it is not ASCII |
| Day10Command.Stream | days/day10/src/command.rs:15-17 | one parse result per character of the input, each the parse of that character alone |
| Day10Command.Render | days/day10/src/command.rs:31-42 | the text spelling a command sequence has one character per command |
| Day10Command.StreamRender | days/day10/src/command.rs:15-17 | streaming the text of a command sequence yields exactly those commands, in order, all parsed successfully |
| Day10Command.StreamAppend | days/day10/src/command.rs:15-17 | streaming concatenated text is streaming each part in turn |
| Day10Interpreter.ScoreCases | days/day10/src/interpreter.rs:106-116 | only a stream error has no score; a corrupted line scores the syntax score of the closer found, at least 3 |
| Day10Interpreter.CompletionScoreDigits | days/day10/src/interpreter.rs:108-111 | the completion score is 0 exactly for an empty completion, and otherwise its last base-5 digit is the last closer's autocomplete score and the rest is the score of the earlier closers |
| Day10Interpreter.CompletionScoreInjective | days/day10/src/interpreter.rs:108-111 | two completions with equal scores are the same sequence of closers |
| Day10Interpreter.Reverse | days/day10/src/interpreter.rs:54 | the reported stack holds the open delimiters innermost first |
| Day10Interpreter.CloseOn | days/day10/src/interpreter.rs:70-87 | closing moves neither position, line nor column; it pops a matching opener, latches a mismatch or latches a close on an empty stack |
| Day10Interpreter.Step | days/day10/src/interpreter.rs:18-31 | an item inside a line advances position and column by one, keeps the line, and never latches an incomplete-line report |
| Day10Interpreter.Feed | days/day10/src/interpreter.rs:18-31 | a run of items inside one line advances position and column by its length and keeps the line |
| Day10Interpreter.NextSpec | days/day10/src/interpreter.rs:18-32 | `next` reports only errors; after a report the machine is at column 0 of the next line with an empty stack and no latched error, past at least one item |
| Day10Interpreter.FirstErrorWins | days/day10/src/interpreter.rs:22-24 | once an error is latched, the rest of the line changes neither the error nor the stack |
| Day10Interpreter.FeedAppend | days/day10/src/interpreter.rs:18-31 | reading a line in two pieces is reading it whole |
| Day10Interpreter.NextConsumesLine | days/day10/src/interpreter.rs:18-32 | `next` reads exactly the items up to the first newline and hands the latched error to `handle_line_ending` |
| Day10Interpreter.UnterminatedLineYieldsNothing | days/day10/src/interpreter.rs:20 | a last line without a newline is read to the end and yields nothing |
| Day10Interpreter.NeverOk | days/day10/src/interpreter.rs:46-68 | `Ok(())` is never produced |
| Day10Interpreter.Closers | days/day10/src/interpreter.rs:54 | one closing command per reported delimiter, in order |
| Day10Interpreter.CompletionCloses | days/day10/src/interpreter.rs:54 | closing the reported delimiters, innermost first, empties the stack without any error |
| Day10Interpreter.LineEndingOutcome | days/day10/src/interpreter.rs:46-68 | the latched error if there is one; else nothing exactly when the stack is empty; else the stack reversed as an incomplete line |
| Day10Interpreter.LineVerdict | days/day10/src/interpreter.rs:18-68 | a line's verdict: nothing exactly when it leaves no error and an empty stack, its first error if it has one, otherwise its unfinished stack innermost first |
| Day10Interpreter.IncompleteLineCompletes | days/day10/src/interpreter.rs:46-68 | appending the reported closers to an incomplete line balances it with no error |
| Day10Interpreter.BalancedLineEndsIteration | days/day10/src/interpreter.rs:18-32 | a balanced line makes `next` return nothing, so nothing after it is reported |
| Day10Interpreter.Interpreter.constructor | days/day10/src/interpreter.rs:36-44 | the interpreter starts at line 0, column 0, with an empty stack and nothing latched |
| Day10Interpreter.Interpreter.HandleLineEnding | days/day10/src/interpreter.rs:46-68 | returns the line's verdict and moves to the next line, as `LineEnding` states |
| Day10Interpreter.Interpreter.HandleClose | days/day10/src/interpreter.rs:70-87 | the new state is `CloseOn` of the old one |
| Day10Interpreter.Interpreter.Next | days/day10/src/interpreter.rs:18-32 | the loop in `next` produces the result and state `NextSpec` describes |
| Day10Run.Errors | days/day10/src/main.rs:33-34 | draining the interpreter collects exactly the errors it yields, in order |
| Day10Run.CorruptedTotalIsMismatchSum | days/day10/src/main.rs:35-37 | the part-1 filter-and-sum equals the sum of the syntax scores of the mismatched closers |
| Day10Run.CorruptedTotalAppend | days/day10/src/main.rs:35-37 | the part-1 total is additive over consecutive runs of errors |
| Day10Run.IncompleteScoresAppend | days/day10/src/main.rs:43-45 | the part-2 scores of consecutive runs of errors are concatenated in order |
| Day10Run.IncompleteReportsNonEmpty | days/day10/src/interpreter.rs:46-68 | every incomplete line the interpreter reports names at least one closer |
| Day10Run.NonEmptyReport | days/day10/src/interpreter.rs:46-68 | a single incomplete-line report names at least one closer |
| Day10Run.IncompleteScoresPositive | days/day10/src/interpreter.rs:108-111 | every part-2 score is positive |
| Day10Run.Part1 | days/day10/src/main.rs:32-38 | part 1 is the sum of the syntax scores of the corrupted lines' offending closers |
| Day10Run.Part2 | days/day10/src/main.rs:40-49 | part 2 is a positive score of an incomplete line that sits in the middle of every sorted arrangement of the scores |
| Day11Offsets.RowCol | days/day11/src/grid.rs:54-85 | a flat index `q * width + m` lies in row `q`, column `m` |
| Day11Offsets.AdjacentSymmetric | days/day11/src/grid.rs:54-85 | adjacency of octopodes is symmetric |
| Day11Offsets.SameCell | days/day11/src/grid.rs:54-85 | two flat indices with the same row and column are the same octopus |
| Day11Offsets.RowPositive | days/day11/src/grid.rs:78 | `index >= width` exactly when the octopus is below the first row |
| Day11Offsets.NextCol | days/day11/src/grid.rs:68 | `(index + 1) % width > 0` exactly when the octopus is not in the last column |
| Day11Offsets.Shift | days/day11/src/grid.rs:58-82 | adding `dr * width + dc` to an index moves it by `dr` rows and `dc` columns whenever the target row and column exist |
| Day11Offsets.LeftColumnExact | days/day11/src/grid.rs:57-65 | the left block pushes exactly the in-grid neighbours in the column to the left, without repeats, at most 3 |
| Day11Offsets.RightColumnExact | days/day11/src/grid.rs:67-75 | the right block pushes exactly the in-grid neighbours in the column to the right, without repeats, at most 3 |
| Day11Offsets.SameColumnExact | days/day11/src/grid.rs:77-82 | the centre block pushes exactly the in-grid neighbours above and below, without repeats, at most 2 |
| Day11Offsets.OffsetsExact | days/day11/src/grid.rs:54-85 | `offsets_for` yields exactly the in-grid octopodes adjacent to `index` (diagonals included), each once, at most 8 |
| Day11Flash.After | days/day11/src/grid.rs:26-52 | a step leaves as many octopodes as it found |
| Day11Flash.LitMono | days/day11/src/grid.rs:37-49 | more flashed octopodes never light fewer neighbours of a cell |
| Day11Flash.LitAdd | days/day11/src/grid.rs:46 | one more flash adds one unit of energy exactly to the flasher's neighbours |
| Day11Flash.LitWithout | days/day11/src/grid.rs:54-85 | an octopus is never its own neighbour |
| Day11Flash.FlashedLeast | days/day11/src/grid.rs:26-49 | the flashing octopodes form the least set closed under "energy above 9 flashes" |
| Day11Flash.LeastIsFlashed | days/day11/src/grid.rs:26-49 | any least closed set of grid cells is the set of flashing octopodes |
| Day11Flash.FlashedFixed | days/day11/src/grid.rs:31-44 | an octopus flashes exactly when its energy, counting its flashing neighbours, exceeds 9 |
| Day11Flash.AfterMeaning | days/day11/src/grid.rs:26-52 | after a step every level is at most 9, and exactly the flashed octopodes are at 0 |
| Day11Flash.Run | days/day11/src/grid.rs:22-24 | `k` steps keep the number of octopodes |
| Day11Grid.LitAtMost | days/day11/src/grid.rs:37-49 | a cell gains no more units than there are flashes |
| Day11Grid.OffsetsNeighbours | days/day11/src/grid.rs:33 | the offsets of a cell are its grid neighbours, each once |
| Day11Grid.QueueFlash | days/day11/src/grid.rs:33-46 | queueing a flasher's neighbours adds one pending unit exactly to each adjacent cell |
| Day11Grid.UnflashedShrinks | days/day11/src/grid.rs:37-49 | each new flash leaves fewer octopodes that can still flash, which bounds the cascade |
| Day11Grid.ProgressStart | days/day11/src/grid.rs:27-29 | at the start of a step nothing is queued or flashed and the energy bookkeeping balances |
| Day11Grid.TallyFlash | days/day11/src/grid.rs:31-46 | a flash reset to 0 with its neighbours queued keeps every other cell's energy bookkeeping balanced |
| Day11Grid.LeastFlash | days/day11/src/grid.rs:31-44 | a cell pushed above 9 flashes in every closed set, so the flashes so far stay forced |
| Day11Grid.FirstPassCalm | days/day11/src/grid.rs:29-30 | incrementing an octopus that stays at or below 9 preserves the step invariant |
| Day11Grid.FirstPassFlash | days/day11/src/grid.rs:29-34 | an octopus that passes 9 in the first pass flashes, resets to 0 and queues its neighbours, preserving the invariant |
| Day11Grid.TallyPop | days/day11/src/grid.rs:38-43 | popping a queued neighbour moves its pending unit into its level, unless it already flashed |
| Day11Grid.PopFlashed | days/day11/src/grid.rs:42 | a popped octopus at 0 has flashed and is left alone |
| Day11Grid.PopCalm | days/day11/src/grid.rs:42-43 | a popped octopus that stays at or below 9 preserves the invariant |
| Day11Grid.PopFlash | days/day11/src/grid.rs:42-47 | a popped octopus that passes 9 flashes, resets to 0 and queues its neighbours, preserving the invariant |
| Day11Grid.CountZerosSet | days/day11/src/grid.rs:51 | the count of zero levels is the size of the set of zero cells |
| Day11Grid.FlashCount | days/day11/src/grid.rs:51 | the zeros counted after a step are exactly the flashes of that step |
| Day11Grid.ProgressDone | days/day11/src/grid.rs:37-51 | once the queue is empty the flashed set and the levels are those of the step's specification |
| Day11Grid.Range | days/day11/src/grid.rs:17 | the cells of a grid of `n` octopodes are exactly the indices below `n` |
| Day11Grid.FullSet | days/day11/src/grid.rs:17 | a set of cells has `n` members exactly when it holds every cell |
| Day11Grid.SyncAllZero | days/day11/src/grid.rs:13-20 | a step flashes every octopus exactly when it leaves every level at 0 |
| Day11Grid.DigitValue | days/day11/src/grid.rs:128-130 | a decimal digit has value at most 9 |
| Day11Grid.LineDigits | days/day11/src/grid.rs:128-133 | a line parses exactly when every character is a decimal digit, to the digit values in order; otherwise to `BadCharacter` with an offending character and the line number |
| Day11Grid.RowsMeaning | days/day11/src/grid.rs:117-134 | lines from `k` on parse exactly when each is as wide as the first and all digits, and then to the digits of their concatenation |
| Day11Grid.ParseGridMeaning | days/day11/src/grid.rs:115-138 | the text parses exactly when every line is as wide as the first and all digits; the cells are then the digits row by row, `lines * width` of them |
| Day11Grid.RowsError | days/day11/src/grid.rs:117-133 | a parse error reports the first bad line: `UnevenGridDimensions(width, line + 1, length)` if its width differs, else its `BadCharacter` |
| Day11Grid.Grid.constructor | days/day11/src/grid.rs:115-136 | a grid of the given width and levels with an empty queue |
| Day11Grid.Grid.PushIntoBuf | days/day11/src/grid.rs:87-92 | an index inside the grid is appended to the buffer; any other is dropped |
| Day11Grid.Grid.PushLeft | days/day11/src/grid.rs:57-65 | the buffer gains the left-column neighbours |
| Day11Grid.Grid.PushRight | days/day11/src/grid.rs:67-75 | the buffer gains the right-column neighbours |
| Day11Grid.Grid.PushCenter | days/day11/src/grid.rs:77-82 | the buffer gains the neighbours above and below |
| Day11Grid.Grid.OffsetsFor | days/day11/src/grid.rs:54-85 | the filled prefix of the buffer is exactly the neighbour list |
| Day11Grid.Grid.QueueNeighbours | days/day11/src/grid.rs:33-46 | the queue keeps its contents and gains the neighbours of the index |
| Day11Grid.Grid.FirstPass | days/day11/src/grid.rs:29-35 | the first pass establishes the step invariant over every cell |
| Day11Grid.Grid.Bump | days/day11/src/grid.rs:30-34 | one iteration of the first pass preserves the invariant |
| Day11Grid.Grid.Relieve | days/day11/src/grid.rs:38-48 | one pop of the cascade preserves the invariant and never adds an octopus that can still flash |
| Day11Grid.Grid.Cascade | days/day11/src/grid.rs:37-49 | the cascade empties the queue with the invariant intact |
| Day11Grid.Grid.Step | days/day11/src/grid.rs:26-52 | the levels become those of one step and the count returned is the number of octopodes that flashed |
| Day11Grid.Grid.StepN | days/day11/src/grid.rs:22-24 | after `n` steps the levels are those of `n` steps and the total is the sum of their flashes |
| Day11Grid.Grid.FirstSynchronization | days/day11/src/grid.rs:13-20 | the step returned is the first at which every octopus flashes |
| Day11Grid.PushDigits | days/day11/src/grid.rs:128-133 | the cells gain the line's digits, or parsing stops at its first bad character |
| Day11Grid.RowsStep | days/day11/src/grid.rs:117-133 | one more good line extends the parsed cells |
| Day11Grid.ParsedCells | days/day11/src/grid.rs:115-138 | parsed cells are digits and need a positive width |
| Day11Grid.FromStr | days/day11/src/grid.rs:115-138 | a fresh valid grid exactly when the text parses, otherwise the same first error |
| Day12Parser.TrimStartMeaning | days/day12/src/parser.rs:87 | trimming the front drops a prefix and leaves text that does not start with whitespace |
| Day12Parser.TrimEndMeaning | days/day12/src/parser.rs:87 | trimming the back drops a suffix and leaves text that does not end with whitespace |
| Day12Parser.TrimNoWhitespace | days/day12/src/parser.rs:87-102 | a name with no whitespace at either end, as every name the grammar accepts, is its own trimmed form |
| Day12Parser.Classify | days/day12/src/parser.rs:87-97 | `Start` exactly for the trimmed name "start", `End` exactly for "end", `Large` exactly for any other all-uppercase name, and `Small` otherwise, carrying the code interned for the untrimmed name |
| Day12Parser.NamesContain | days/day12/src/parser.rs:72-79 | both names of every passage are among the names of the list |
| Day12Parser.NamesSnoc | days/day12/src/parser.rs:72-79 | the names of one more passage are the earlier names plus its two |
| Day12Parser.NamesPrefix | days/day12/src/parser.rs:72-79 | the names of a prefix of the list are among all its names |
| Day12Parser.Room | days/day12/src/parser.rs:44-85 | while the names fit in `u16`, a new name leaves room for one more code |
| Day12Parser.InternAllSnoc | days/day12/src/parser.rs:72-79 | one more pair adds its passage at the end |
| Day12Parser.InternAllMeaning | days/day12/src/parser.rs:72-79 | one passage per pair, in order, each built from the codes of its two names |
| Day12Parser.InternAllStable | days/day12/src/parser.rs:82-85 | a table that keeps every code already handed out denotes the same passages |
| Day12Parser.Parser.constructor | days/day12/src/parser.rs:52-56 | the default parser knows no names and its counter is 0 |
| Day12Parser.Parser.ParseCave | days/day12/src/parser.rs:81-98 | a known name keeps its code; a new name gets the counter plus one, which becomes the counter; codes stay 1..=counter, one per name; the cave is the name classified under its code |
| Day12Parser.Parser.InternPair | days/day12/src/parser.rs:74-77 | the `from` and `to` names are interned, old codes kept, and the passage is the pair's interned passage |
| Day12Parser.Parser.BuildPassages | days/day12/src/parser.rs:72-79 | one passage per pair, in order, under a table that gains exactly the list's names and keeps every old code |
| Day12Parser.Parse | days/day12/src/parser.rs:59-61 | a fresh parser gives every name of the list a distinct code in 1..=number of names, and one passage per pair under those codes |
| Day12Paths.LoadedMeaning | days/day12/src/pathfinding.rs:102-106 | loading one edge adds exactly that edge, unless it leads into the start cave |
| Day12Paths.JoinedSnoc | days/day12/src/pathfinding.rs:95-100 | two caves joined by a list with one more passage are joined by the shorter list or by that passage, either way round |
| Day12Paths.LoadMeaning | days/day12/src/pathfinding.rs:95-106 | after loading, `d` is listed after `c` exactly when a passage joins them and `d` is not the start, so no path re-enters the start |
| Day12Paths.Unseen | days/day12/src/pathfinding.rs:44-45 | the codes that can still be marked are those up to the sentinel `u16::MAX` not yet marked |
| Day12Paths.CountSentinel | days/day12/src/pathfinding.rs:70-76 | once some small cave was entered twice, part 2 counts exactly as part 1 does |
| Day12Paths.VisitSmallSentinel | days/day12/src/pathfinding.rs:66-77 | with the sentinel marked, part 2's small-cave visit is part 1's |
| Day12Paths.SumFromSentinel | days/day12/src/pathfinding.rs:122-132 | with the sentinel marked, the sums over a cave's passages agree between the parts |
| Day12Paths.CountPart1AtMostPart2 | days/day12/src/pathfinding.rs:24-78 | part 2 finds at least as many paths as part 1 |
| Day12Paths.VisitSmallPart1AtMostPart2 | days/day12/src/pathfinding.rs:24-78 | part 2's visit of a small cave counts at least as many paths as part 1's |
| Day12Paths.SumFromPart1AtMostPart2 | days/day12/src/pathfinding.rs:122-132 | the sum over a cave's passages is at least as large in part 2 |
| Day12Paths.CountSeenMore | days/day12/src/pathfinding.rs:112-118 | marking more caves as visited never yields more paths |
| Day12Paths.VisitSmallSeenMore | days/day12/src/pathfinding.rs:24-78 | a small-cave visit with more caves marked never counts more |
| Day12Paths.SumFromSeenMore | days/day12/src/pathfinding.rs:122-132 | a sum over passages with more caves marked never counts more |
| Day12Paths.PathFinder.constructor | days/day12/src/pathfinding.rs:88-93 | a path finder with an empty table and the given strategy |
| Day12Paths.PathFinder.LoadPassage | days/day12/src/pathfinding.rs:102-106 | the table gains the edge unless it leads into the start |
| Day12Paths.PathFinder.LoadPaths | days/day12/src/pathfinding.rs:95-100 | the table gains every passage forwards then backwards, in order |
| Day12Paths.PathFinder.InnerCount | days/day12/src/pathfinding.rs:112-118 | the number of paths to the end from a cave, with the visited set handed back unchanged |
| Day12Paths.PathFinder.VisitSmallCave | days/day12/src/pathfinding.rs:24-78 | the strategy's count for a small cave, with the marks undone afterwards |
| Day12Paths.PathFinder.VisitCave | days/day12/src/pathfinding.rs:121-133 | the counts over the cave's passages summed, each starting from the same visited set |
| Day12Paths.PathFinder.CountAllPaths | days/day12/src/pathfinding.rs:108-110 | the paths from the start with nothing visited |
| Day12Paths.CountPaths | days/day12/src/pathfinding.rs:6-10 | the paths from the start through the table loaded from the passages |
| Day12Walks.WithinFresh | days/day12/src/pathfinding.rs:30-33 | entering a small cave not yet marked keeps the walk rule exactly when the rest of the walk keeps it with that cave marked |
| Day12Walks.WithinAgain | days/day12/src/pathfinding.rs:66-77 | re-entering a marked small cave keeps the walk rule exactly in part 2 while no cave was entered twice, and the rest of the walk must then keep every cave to one entry |
| Day12Walks.CountIsWalks | days/day12/src/pathfinding.rs:112-118 | the count from a cave is the number of walks gathered from it |
| Day12Walks.SmallIsWalks | days/day12/src/pathfinding.rs:24-78 | the strategy's count for a small cave is the number of walks through it |
| Day12Walks.SumIsWalks | days/day12/src/pathfinding.rs:121-133 | the sum over a cave's passages counts the walks through them, each counted once |
| Day12Walks.WalksMeaning | days/day12/src/pathfinding.rs:112-118 | the walks gathered from a cave are exactly the walks through the table from it to the end that keep the small-cave rule |
| Day12Walks.WalksOutMeaning | days/day12/src/pathfinding.rs:121-133 | the walks gathered through a cave's passages are exactly a step along one of them followed by a rule-keeping walk on |
| Day12Walks.CountAllPathsIsWalks | days/day12/src/pathfinding.rs:108-110 | the count from the start with nothing marked is the number of walks from the start to the end in which no small cave appears twice (part 1), or one small cave at most twice and every other at most once (part 2) |
| Day12Walks.LoadNoRepeats | days/day12/src/pathfinding.rs:95-106 | distinct passages load a table that lists no cave twice after another |
| Day12Walks.CountPathsIsWalks | days/day12/src/pathfinding.rs:6-10 | on distinct passages, `count_all_paths` is the number of start-to-end walks keeping the part's small-cave rule |
| Day13Model.Apply | days/day13/src/model.rs:21-31 | a point beyond the line lands strictly before it at the mirror distance, with its other coordinate kept; a point on or before the line stays where it is |
| Day13Model.ApplyIdempotent | days/day13/src/model.rs:21-31 | folding a folded point again along the same line changes nothing |
| Day13Model.ApplyMerges | days/day13/src/model.rs:21-31 | two points land on the same spot exactly when they are equal or mirror images across the line |
| Day13Model.ImageAdd | days/day13/src/model.rs:78-81 | the image of one more dot is the old image plus that dot's image |
| Day13Model.DrainStep | days/day13/src/model.rs:78-81 | draining one more dot puts exactly its image into the scratch set |
| Day13Model.ImageCard | days/day13/src/model.rs:76-85 | a fold never adds dots |
| Day13Model.ImageWithin | days/day13/src/model.rs:21-31 | after a fold every dot lies on or before the line |
| Day13Model.Reverse | days/day13/src/model.rs:62 | the reversed folds hold the written folds back to front |
| Day13Model.ReversedStack | days/day13/src/model.rs:62-77 | popping the reversed list from its end applies the folds in the order written, with the same result |
| Day13Model.FoldSumBound | days/day13/src/model.rs:88-94 | after all folds there are no more dots than at the start, and the reported counts sum to at most folds times dots |
| Day13Model.Input.constructor | days/day13/src/model.rs:60-73 | the folds are stored reversed, the dots are the distinct input points and the scratch set is empty |
| Day13Model.Input.Fold | days/day13/src/model.rs:76-86 | with no fold pending, `None` and nothing changes; otherwise the last stored fold is removed, the dots become their image, and the new count is returned |
| Day13Model.Input.Drain | days/day13/src/model.rs:78-81 | every dot is moved out of the current set and its image into the scratch set |
| Day13Model.Input.FoldAll | days/day13/src/model.rs:88-94 | every pending fold is applied in order and the total is the sum of the counts reported after each |
| Day13Model.FirstFoldCount | days/day13/src/main.rs:34 | part 1 is the number of distinct dots after the first written fold, at most the number of points given |
| Day13Model.DistinctCard | days/day13/src/model.rs:68-70 | deduplicating the points never gives more dots than points |
| Day14Polymer.Insert | days/day14/src/replacer.rs:33-43 | the reference step: the polymer keeps its first element and never shrinks |
| Day14Polymer.PairCountCons | days/day14/src/replacer.rs:17-19 | the pairs of a polymer with one more element in front are the old pairs plus the new front pair |
| Day14Polymer.PairCountPositive | days/day14/src/replacer.rs:17-19 | every adjacent pair that occurs is counted at least once |
| Day14Polymer.NewPairsAdd | days/day14/src/replacer.rs:34-37 | accounting for one more table entry adds its count times the pairs its insertion makes |
| Day14Polymer.NewBytesAdd | days/day14/src/replacer.rs:34-38 | accounting for one more table entry adds its count to the element its rule inserts |
| Day14Polymer.NewPairsNone | days/day14/src/replacer.rs:33-34 | before any entry is drained no new pair has been counted |
| Day14Polymer.NewBytesNone | days/day14/src/replacer.rs:33-34 | before any entry is drained no inserted element has been counted |
| Day14Polymer.NewPairsCovered | days/day14/src/replacer.rs:34-40 | once every ruled pair of the polymer is accounted for, further entries add no pairs |
| Day14Polymer.NewBytesCovered | days/day14/src/replacer.rs:34-40 | once every ruled pair of the polymer is accounted for, further entries add no elements |
| Day14Polymer.InsertPairs | days/day14/src/replacer.rs:33-43 | the pairs after a step are those made by insertions plus the pairs that had no rule |
| Day14Polymer.KeptRuled | days/day14/src/replacer.rs:35 | a pair with a rule never survives a step untouched |
| Day14Polymer.InsertOcc | days/day14/src/replacer.rs:38 | each element's count after a step is its old count plus one per insertion of it |
| Day14Polymer.InsertLength | days/day14/src/replacer.rs:33-43 | with a rule for every adjacent pair, a step turns `n` elements into `2n - 1` and doubles the number of pairs |
| Day14Polymer.InsertNoRules | days/day14/src/replacer.rs:35 | without rules a step changes nothing |
| Day14Replacer.Add | days/day14/src/replacer.rs:18-38 | `entry().or_default() += c` raises exactly that key's count by `c` and leaves every other count alone |
| Day14Replacer.Replacer.constructor | days/day14/src/replacer.rs:13-31 | the pair table counts every adjacent pair and the element table every element of the polymer, with an empty scratch table |
| Day14Replacer.Replacer.Apply | days/day14/src/replacer.rs:33-43 | the tables now describe the polymer after one insertion step: every ruled pair and every element counted exactly, with pairs lacking a rule dropped |
| Day14Replacer.Replacer.Drain | days/day14/src/replacer.rs:34-40 | draining the pair table yields the pairs made by insertions and raises the element counts by the inserted elements |
| Day14Replacer.Replacer.DrainEntry | days/day14/src/replacer.rs:34-40 | one drained entry adds its insertions to the scratch table and the element counts |
| Day14Replacer.Replacer.ApplyN | days/day14/src/replacer.rs:54-56 | the tables describe the polymer after `n` insertion steps |
| Day14Replacer.Replacer.FrequencyDiff | days/day14/src/replacer.rs:45-52 | the count of a most common element minus that of a least common element of the polymer |
| Day14Replacer.CountPairs | days/day14/src/replacer.rs:17-19 | the table counts each adjacent pair of the polymer, with no zero entries |
| Day14Replacer.CountBytes | days/day14/src/replacer.rs:21-23 | the table counts each element of the polymer, with no zero entries |
| Day14Replacer.AccountPairs | days/day14/src/replacer.rs:35-37 | accounting one entry keeps the scratch table equal to the pairs made so far |
| Day14Replacer.AccountBytes | days/day14/src/replacer.rs:35-38 | accounting one entry keeps the element table equal to the elements so far |
| Day14Replacer.MaxCount | days/day14/src/replacer.rs:46-48 | a count of the table no other count exceeds |
| Day14Replacer.MinCount | days/day14/src/replacer.rs:49 | a count of the table no other count is below |
| Day14Replacer.PairCountSnoc | days/day14/src/replacer.rs:17-19 | the pairs of a prefix one element longer are the old pairs plus its last pair |
| Day15Grid.Distance | days/day15/src/grid.rs:45-47 | the Manhattan distance, axis by axis the larger coordinate minus the smaller |
| Day15Grid.DistanceSymmetric | days/day15/src/grid.rs:45-47 | the distance is symmetric and zero exactly between equal positions |
| Day15Grid.DistanceTriangle | days/day15/src/grid.rs:45-47 | the distance obeys the triangle inequality |
| Day15Grid.Lookup | days/day15/src/grid.rs:49-52 | a value exactly when the row exists and the column lies within that row, and then that cell |
| Day15Grid.Neighbors | days/day15/src/grid.rs:54-68 | at most four positions, each one step away; from inside the bounds, exactly the in-bounds positions one step away |
| Day15Grid.Sub | days/day15/src/grid.rs:71-80 | both coordinates lowered by the same amount, which must not underflow |
| Day15Grid.Mul | days/day15/src/grid.rs:82-91 | both coordinates scaled by the same factor |
| Day15Grid.MulBounds | days/day15/src/grid.rs:119-121 | a position lies inside the bounds scaled by `M` exactly when its tile index is below `M` on both axes |
| Day15Grid.BaseBounds | days/day15/src/grid.rs:35-43 | the first row's length by the number of rows |
| Day15Grid.End | days/day15/src/astar.rs:19-24 | the bottom-right position: one less than the bounds on each axis, inside them |
| Day15Grid.TileOffset | days/day15/src/grid.rs:110-111 | the coordinate inside its tile is below the tile's width |
| Day15Grid.Wrap | days/day15/src/grid.rs:116 | `((k - 1) % 9) + 1` lies in 1..=9 |
| Day15Grid.Cost | days/day15/src/grid.rs:96-117 | the plain grid costs the cell at the position; the tiled grid costs something in 1..=9 |
| Day15Grid.MultiplierFirstTile | days/day15/src/grid.rs:107-117 | on the first tile the tiled grid costs what the inner grid costs, for inner costs in 1..=9 |
| Day15Grid.MultiplierNextTile | days/day15/src/grid.rs:107-117 | one tile further right costs one more, wrapping from 9 back to 1 |
| Day15Grid.ShiftDivMod | days/day15/src/grid.rs:110-113 | moving one tile width along an axis keeps the offset and raises the tile index by one |
| Day15Grid.DivModUnique | days/day15/src/grid.rs:110-113 | the tile index and offset are the unique quotient and remainder |
| Day15Grid.WrapNext | days/day15/src/grid.rs:116 | the 1..=9 wrap of `k + 1` follows that of `k`, 9 wrapping to 1 |
| Day15Grid.BaseTraversable | days/day15/src/grid.rs:96-100 | every position inside a rectangular grid has a plain cost |
| Day15Grid.TileCell | days/day15/src/grid.rs:107-117 | on a rectangular grid of 1..=9 every tiled position has a cost |
| Day15Grid.RectCell | days/day15/src/grid.rs:49-52 | in a rectangular grid every row has the first row's columns, each in range |
| Day15Grid.MultiplierTraversable | days/day15/src/grid.rs:107-121 | the tiled grid over a rectangular grid of 1..=9 has a cost at every position inside its bounds |
| Day15Walks.Goal | days/day15/src/astar.rs:19-24 | the goal of every walk lies inside the bounds |
| Day15Walks.PrefixSnoc | days/day15/src/astar.rs:37-39 | extending a walk leaves the risk of its earlier prefixes as it was |
| Day15Walks.WalkSnoc | days/day15/src/astar.rs:37-39 | a step to an in-bounds neighbour extends a walk and adds that neighbour's cost to its risk |
| Day15Walks.Admissible | days/day15/src/search.rs:47-49 | with every cost at least 1 the rest of a walk costs at least the distance it still covers, so the priority's distance term never overestimates |
| Day15Walks.InitInv | days/day15/src/search.rs:13-24 | the search invariant holds once only the start is recorded, at cost 0, and queued |
| Day15Walks.PopInv | days/day15/src/astar.rs:30-37 | popping an entry for a position other than the end leaves the invariant holding everywhere but at that position |
| Day15Walks.VisitUpdate | days/day15/src/search.rs:33-41 | recording a lower (or first) cost for a neighbour and queueing it keeps the invariant |
| Day15Walks.SoundUpdate | days/day15/src/search.rs:33-41 | a newly recorded cost is the risk of a walk to that position |
| Day15Walks.QueuedUpdate | days/day15/src/search.rs:33-41 | the queued priority of an updated position is its recorded cost plus its distance to the end |
| Day15Walks.ClosedUpdate | days/day15/src/search.rs:33-41 | lowering a cost keeps every expanded position's neighbours relaxed |
| Day15Walks.VisitSkip | days/day15/src/search.rs:51-53 | skipping a neighbour already recorded no dearer keeps the invariant |
| Day15Walks.CloseInv | days/day15/src/astar.rs:37-39 | once every neighbour of the popped position is visited the invariant holds again |
| Day15Walks.Frontier | days/day15/src/astar.rs:30-40 | along any walk there is a recorded position, no dearer than the walk so far, that is still queued unless it is the walk's last |
| Day15Walks.GoalOptimal | days/day15/src/astar.rs:30-35 | when the cheapest queued entry is for the end and every cost is at least 1, the end's recorded cost is no dearer than any walk to it |
| Day15Walks.Unreachable | days/day15/src/astar.rs:42 | once the queue is empty no walk reaches the end |
| Day15Walks.Staircase | days/day15/src/astar.rs:19-24 | right along the top row then straight down reaches any in-bounds position |
| Day15Walks.EndReachable | days/day15/src/astar.rs:19-24 | the end can always be reached, so the search never answers `None` |
| Day15Walks.Progress | days/day15/src/search.rs:33-41 | a change of costs that raises none either records a new position or lowers a cost, which bounds the search |
| Day15Search.Cmp | days/day15/src/search.rs:79-89 | the node order is the priority order reversed, so the max-heap pops the lowest priority first |
| Day15Search.GreatestIsCheapest | days/day15/src/search.rs:79-89 | the entries a max-heap may pop are exactly those of least priority |
| Day15Search.GreatestExists | days/day15/src/search.rs:59-61 | a non-empty queue has an entry to pop |
| Day15Search.Pop | days/day15/src/search.rs:59-61 | `None` exactly for an empty heap; otherwise an entry of least priority, removed once |
| Day15Search.NoIncreaseTrans | days/day15/src/search.rs:33-41 | two steps that raise no cost raise none together |
| Day15Search.Search.Start | days/day15/src/search.rs:13-24 | the start recorded at cost 0 and queued with priority 0 |
| Day15Search.Search.Visit | days/day15/src/search.rs:33-41 | a new position or a strictly lower cost is recorded and queued at cost plus distance to the end; otherwise nothing changes; either way the position ends up recorded at no more than the cost |
| Day15Search.Search.Next | days/day15/src/search.rs:59-61 | `None` exactly when the queue is empty; otherwise the position of a least-priority entry, removed once, costs untouched |
| Day15AStar.ProblemOf | days/day15/src/astar.rs:6-24 | the problem a strategy poses: its bounds, its end, and its cost wherever the strategy defines one |
| Day15AStar.StrategyNeighbors | days/day15/src/astar.rs:45-60 | positions one step away; from inside the strategy's bounds, exactly the in-bounds positions one step away |
| Day15AStar.AStar | days/day15/src/astar.rs:27-43 | an answer is the risk of some walk to the end, and no walk is cheaper when every cost is at least 1; `None` only when no walk reaches the end; a one-cell grid answers 0 |
| Day15AStar.Expand | days/day15/src/astar.rs:37-39 | visiting every neighbour of the popped position restores the invariant and raises no cost |
| Day15AStar.VisitNeighbor | days/day15/src/astar.rs:38 | one neighbour visited at the current cost plus its own cost, keeping the invariant part way through the loop |
| Day15Main.FindEnd | days/day15/src/main.rs:159-165 | the bottom-right position of the plain or five-times tiled grid |
| Day15Main.MainCost | days/day15/src/main.rs:124-137 | the strategy's cost: the cell in part 1, the wrapped tile cost in 1..=9 in part 2 |
| Day15Main.MainNeighborsSame | days/day15/src/main.rs:139-157 | the same neighbours as the generic `neighbors`, each as often, in another order |
| Day15Main.MainNeighborsExact | days/day15/src/main.rs:139-157 | positions one step away; from inside the grid, exactly the in-grid positions one step away |
| Day15Main.MainTraversable | days/day15/src/main.rs:124-137 | a rectangular grid of 1..=9 has a cost everywhere inside the grid in either part |
| Day15Main.AStar | days/day15/src/main.rs:91-122 | an answer is the risk of some walk to the end, and no walk is cheaper when every cost is at least 1; `None` only when no walk reaches the end; a one-cell grid answers 0 |
| Day15Main.Relax | days/day15/src/main.rs:107-119 | visiting every neighbour of the popped position restores the invariant and raises no cost |
| Day15Main.RelaxNeighbor | days/day15/src/main.rs:108-118 | one neighbour relaxed, keeping the invariant part way through the loop |

## Left out

- Command-line handling, every `main`, `Cli`/`Options` and `run`, and file reading are not modelled. This includes `read_grid` (days/day15/src/main.rs:39-50, days/day15/src/grid.rs:13-24). The engines take their input as values.
- The parsers built on the nom combinator library are not modelled: days 4, 5, 8, 13 and 14, plus the `parse_str`/`cave`/`passage` grammar of day 12. The library is not part of this model. `Day12Parser.Parse` therefore takes the cave-name pairs already split.
- Display and Debug implementations are not modelled. They only format.
- Parallel execution is modelled sequentially:
  - day 8's `run_parallel` is left out and `run_serial` is modelled;
  - day 6's brute-force `par_iter_mut` simulation is not modelled. `Day06.FishDay` is the standard per-fish rule, in which a fish at timer 0 resets to 6 and spawns a fish at 8, and the bucketed `Day06.Simulate` is proved against it. The brute-force path differs on timer 0: it decrements such a fish to −1 and resets it to 6 without spawning, so on the school [0] after one day it has 1 fish where the rule and the bucketed loop have 2. The two agree when every starting timer is in 1..=8;
  - day 12's `par_iter().map_init` is a sequential sum over neighbours.
- Foreign containers are modelled by what they hold:
  - `SlotMap` keys are structured keys, unique as slot-map keys are;
  - the `PartitionVec` union-find is a component-label map;
  - `BitIter` is the set of set bits;
  - FxHash maps and sets are Dafny maps and sets;
  - the `BinaryHeap` is the multiset of its entries, so the pop order among equal priorities is not fixed.
- Call shapes that exist in only one revision of the source are not reproduced:
  - `Search::<P>::start(grid)` and an `Option`-valued `cost` in days/day15/src/astar.rs; the model uses `Search::start(end)` and the total cost;
  - the `Line` type used by days/day08/src/main.rs; the model defines `Day08Run.Line`.
- Samples that the source reads from input files are not stated, nor are concrete runs of the day 10 interpreter on literal text. Day 10's sample outputs are among them.
- Day11Grid.Grid.Step: the order in which flashing neighbours are queued is not fixed. `Day11Grid.Grid.OffsetsFor` keeps the source's push order exactly. Only the contract of `Day11Grid.Grid.QueueNeighbours` and the cascade proof forget that order, and the result does not depend on it.
- Day10Run.Part1: a balanced line makes the interpreter yield `None`, which ends the iteration for the whole input. This is stated as a lemma rather than avoided.
- Day02.Part1.Input: `i32` overflow of depth or horizontal position is not modelled. The integers are unbounded.
- Day02.Part2.Input: `i32` overflow of aim, depth or horizontal position is not modelled. The integers are unbounded.
- Day03.Strain: requires that the rounds leave at most one number before `width` reaches zero. That is exactly the input on which the source's `width -= 1` does not panic, so no promise is lost.
- Day03.CO2Calc: requires that the least-common rounds leave a survivor. The source's `expect` panics otherwise.
- Day04.Index.CallNumber: requires `num < 128`, where the `u128` shift would panic. `Valid` requires distinct numbers on each board, as puzzle inputs have.
- Day07.Part2: `i32` overflow of the fuel sums is not modelled. The costs are unbounded integers.
- Day08Solver.Solve: requires a pattern that decodes to a digit. The source panics on any other pattern.
- Day08Solver.Solver.AddPattern: the model proves `add` sound (the true wiring stays possible, and a settled solver gives it) but not complete. It does not prove that the ten patterns of a wiring, fed in any order, settle every wire.
- Day09Run.Part1: requires a walkable grid (width above zero). On a zero-width grid the source's iterator never ends (see Findings).
- Day09Basins.Build: requires a walkable grid, for the same reason.
- Day10Run.Part2: requires at least one incomplete line. The source indexes the middle of an empty vector otherwise.
- Day11Grid.Grid.FirstSynchronization: requires that some step synchronises. The source loops forever otherwise.
- Day12Parser.Parse: requires that the number of distinct names fits in `u16`.
- Day12Walks.CountPathsIsWalks: requires distinct passages, none joining a cave to itself. With a repeated passage the source counts a walk once per copy of the passage, so the count is no longer the number of walks.
- Day12Paths.CountPaths: requires a walkable cave map. The start must be present, and every passage must lead to a known cave or the end and never back to the start. No two large caves may be joined, or the source recurses forever. Small-cave codes must stay below the double-visit sentinel.
- Day13Model.Input.Fold: requires every dot to lie within twice the fold line. Otherwise the `usize` subtraction underflows.
- Day14Replacer.Replacer.FrequencyDiff: requires a non-empty frequency table. The source unwraps the minimum and maximum.
- Day15AStar.AStar: requires a traversable grid. The no-cheaper-walk promise holds only when every risk is at least 1.
- Day15Main.AStar: requires a traversable grid. The no-cheaper-walk promise holds only when every risk is at least 1.
- Tiling a grid with the `Multiplier` strategy is not claimed to keep the A* answer from falling, because under the source's cost formula it can fall: the base grid [[1, 9]] answers 9, but under `Multiplier<2>` the walk (0,0), (0,1), (1,1), (2,1), (3,1) costs 2 + 1 + 3 + 2 = 8.
- Machine-integer widths (`usize`, `u8`, `u16`, `u32`, `u64`) elsewhere are unbounded. Only the widths listed above are made explicit.

## Findings

| source | as written | input that shows it | evidently intended | confidence | as-written member | corrected member |
|---|---|---|---|---|---|---|
| days/day08/src/model.rs:97-112 | `flatten_to` loops while the remainder is non-zero, computing it as the completion mask XOR the completed snapshot | adding patterns "abc", "ab" then "c": wire c's candidates become empty after it was recorded complete, so the XOR stays non-zero and the loop never exits | the completion mask AND NOT the snapshot, so the loop ends once no newly completed wire remains | not executed | Day08Solver.AsWrittenStalls | Day08Solver.Solver.FlattenToFrom |
| days/day09/src/grid.rs:70-77 | the width is the first line's length and the other lines are not checked against it | text "\n1" parses to a grid of width 0 with one cell, and the location iterator over it never ends | reject a zero width or unequal lines as bad dimensions | not executed | Day09Grid.ZeroWidthNeverEnds | Day09Grid.CheckedGridIterates |

=== FILE: day01.dfy ===
/**
 * Day 1 (sonar sweep): a state machine that counts depth increases, and a
 * fixed-size ring buffer that feeds window sums into a downstream counter.
 */
module Day01 {
  import opened Wrappers

  /** Rust's `State(Option<(usize, i32)>)`: nothing seen yet, or (count, previous depth). */
  datatype State = Empty | Seen(count: nat, prev: int)

  /** `Solver::solution` for `State`: the count so far, 0 before any input. */
  function StateSolution(s: State): nat
  {
    match s
    case Empty => 0
    case Seen(count, _) => count
  }

  /** `State::transition`: the state after feeding one depth. */
  function Transition(s: State, num: int): (r: State)
    ensures r.Seen? && r.prev == num
    ensures s.Empty? ==> StateSolution(r) == 0
    ensures StateSolution(s) <= StateSolution(r) <= StateSolution(s) + 1
    ensures StateSolution(r) == StateSolution(s) + 1 <==> s.Seen? && num > s.prev
  {
    match s
    case Empty => Seen(0, num)
    case Seen(count, prev) => if num > prev then Seen(count + 1, num) else Seen(count, num)
  }

  /** The state after feeding every number of `xs` in order, starting from `Empty`. */
  function Run(xs: seq<int>): State
  {
    if xs == [] then Empty else Transition(Run(xs[..|xs| - 1]), xs[|xs| - 1])
  }

  /** Feeding one more number is one more transition. */
  lemma RunSnoc(xs: seq<int>, num: int)
    ensures Run(xs + [num]) == Transition(Run(xs), num)
  {
    assert (xs + [num])[..|xs|] == xs;
  }

  /** Reference definition: how many elements are larger than the one before them. */
  function Increases(xs: seq<int>): nat
  {
    if |xs| < 2 then 0
    else Increases(xs[..|xs| - 1]) + (if xs[|xs| - 2] < xs[|xs| - 1] then 1 else 0)
  }

  /** The counter's answer is the number of increases, and it remembers the last depth. */
  lemma {:induction false} RunCountsIncreases(xs: seq<int>)
    ensures StateSolution(Run(xs)) == Increases(xs)
    ensures xs != [] ==> Run(xs) == Seen(Increases(xs), xs[|xs| - 1])
  {
    if xs != [] {
      var init := xs[..|xs| - 1];
      RunCountsIncreases(init);
      if init != [] {
        assert init[|init| - 1] == xs[|xs| - 2];
        assert init[..|init| - 1] == xs[..|xs| - 2];
      }
    }
  }

  /** Sum of a sequence of depths (`Iterator::sum`, without i32 overflow). */
  function Sum(s: seq<int>): int
  {
    if s == [] then 0 else Sum(s[..|s| - 1]) + s[|s| - 1]
  }

  lemma {:induction false} SumConcat(a: seq<int>, b: seq<int>)
    ensures Sum(a + b) == Sum(a) + Sum(b)
  {
    if b == [] {
      assert a + b == a;
    } else {
      assert (a + b)[..|a + b| - 1] == a + b[..|b| - 1];
      assert (a + b)[|a + b| - 1] == b[|b| - 1];
      SumConcat(a, b[..|b| - 1]);
    }
  }

  /** The sums a size-`size` buffer produces for the inputs `xs`: the `k`-th is the sum of inputs `k .. k + size`. */
  function WindowSums(xs: seq<int>, size: nat): (r: seq<int>)
    requires size > 0
    ensures |r| == if |xs| < size then 0 else |xs| - size + 1
  {
    if |xs| < size then []
    else seq(|xs| - size + 1, k requires 0 <= k < |xs| - size + 1 => Sum(xs[k..k + size]))
  }

  /** Pushing one more input adds exactly one sum, of the last `size` inputs, once the window is full. */
  lemma WindowSumsSnoc(xs: seq<int>, num: int, size: nat)
    requires size > 0
    ensures var ys := xs + [num];
      WindowSums(ys, size) ==
        if |ys| < size then WindowSums(xs, size)
        else WindowSums(xs, size) + [Sum(ys[|ys| - size..])]
  {
    var ys := xs + [num];
    if |ys| >= size {
      var l, r := WindowSums(ys, size), WindowSums(xs, size) + [Sum(ys[|ys| - size..])];
      forall k | 0 <= k < |l|
        ensures l[k] == r[k]
      {
        if k < |l| - 1 {
          assert ys[k..k + size] == xs[k..k + size];
          assert |xs| >= size;
          assert r[k] == WindowSums(xs, size)[k] == Sum(xs[k..k + size]);
          assert l[k] == Sum(ys[k..k + size]);
        } else {
          assert k == |ys| - size && ys[k..k + size] == ys[|ys| - size..];
          assert l[k] == Sum(ys[k..k + size]);
          assert r[k] == Sum(ys[|ys| - size..]);
        }
      }
    }
  }

  /**
   * Two consecutive window sums differ by the element entering minus the one
   * leaving, so the windowed counter can compare inputs `size` apart instead.
   */
  lemma WindowStep(xs: seq<int>, size: nat, k: nat)
    requires size > 0 && k + size < |xs|
    ensures WindowSums(xs, size)[k + 1] - WindowSums(xs, size)[k] == xs[k + size] - xs[k]
  {
    var mid := xs[k + 1..k + size];
    assert xs[k..k + size] == [xs[k]] + mid;
    assert xs[k + 1..k + 1 + size] == mid + [xs[k + size]];
    SumConcat([xs[k]], mid);
    SumConcat(mid, [xs[k + size]]);
    assert Sum([xs[k]]) == xs[k] by { assert [xs[k]][..0] == []; }
    assert Sum([xs[k + size]]) == xs[k + size] by { assert [xs[k + size]][..0] == []; }
  }

  lemma ModUnique(a: int, n: int, q: int, r: int)
    requires n > 0 && 0 <= r < n && a == n * q + r
    ensures a % n == r
  {
    var q0, r0 := a / n, a % n;
    assert n * (q0 - q) == r - r0;
    if q0 > q {
      MulAtLeast(n, q0 - q);
    } else if q0 < q {
      MulAtLeast(n, q - q0);
    }
  }

  lemma {:induction false} MulAtLeast(n: int, k: int)
    requires n > 0 && k >= 1
    ensures n * k >= n
  {
    if k > 1 {
      MulAtLeast(n, k - 1);
      assert n * k == n * (k - 1) + n;
    }
  }

  lemma ModSucc(c: nat, size: nat)
    requires size > 0
    ensures (c + 1) % size == if c % size + 1 == size then 0 else c % size + 1
  {
    var q, r := c / size, c % size;
    if r + 1 == size {
      assert c + 1 == size * (q + 1) + 0;
      ModUnique(c + 1, size, q + 1, 0);
    } else {
      ModUnique(c + 1, size, q, r + 1);
    }
  }

  /** Writing the oldest slot of a full rotated window and advancing the cursor drops the oldest element. */
  lemma RotateStep(w: seq<int>, p: nat, last: seq<int>, num: int)
    requires p < |w| && last == w[p..] + w[..p]
    ensures var w', p' := w[p := num], if p + 1 == |w| then 0 else p + 1;
      last[1..] + [num] == w'[p'..] + w'[..p']
  {
    var w' := w[p := num];
    if p + 1 == |w| {
      assert w' == w[..p] + [num];
    } else {
      assert w'[p + 1..] == w[p + 1..];
      assert w'[..p + 1] == w[..p] + [num];
    }
  }

  /** A rotation of the window has the same sum as the window. */
  lemma RotatedSum(w: seq<int>, p: nat)
    requires p <= |w|
    ensures Sum(w[p..] + w[..p]) == Sum(w)
  {
    SumConcat(w[p..], w[..p]);
    SumConcat(w[..p], w[p..]);
    assert w == w[..p] + w[p..];
  }

  /**
   * The ring-buffer invariant on the window contents `w` after `count` pushes
   * of the history `pushed`: while filling, slots `0 .. count` hold the
   * history; once full, reading from the cursor `count % |w|` onwards and
   * wrapping round yields the last `|w|` inputs in order.
   */
  ghost predicate RingHolds(w: seq<int>, count: nat, pushed: seq<int>)
  {
    && |w| > 0
    && count == |pushed|
    && (count < |w| ==> w[..count] == pushed)
    && (count >= |w| ==> pushed[count - |w|..] == w[count % |w|..] + w[..count % |w|])
  }

  /** One push keeps the ring invariant, and a full window sums to the last `|w|` inputs. */
  lemma PushKeepsRing(w: seq<int>, count: nat, pushed: seq<int>, num: int)
    requires RingHolds(w, count, pushed)
    ensures RingHolds(w[count % |w| := num], count + 1, pushed + [num])
    ensures count + 1 >= |w| ==>
      Sum(w[count % |w| := num]) == Sum((pushed + [num])[count + 1 - |w|..])
  {
    var size, p := |w|, count % |w|;
    var w', ys := w[p := num], pushed + [num];
    ModSucc(count, size);
    var p' := (count + 1) % size;
    if count >= size {
      PushFull(w, count, pushed, num, p, p');
    } else {
      assert p == count;
      PushFilling(w, pushed, num);
    }
    if count + 1 >= size {
      RotatedSum(w', p');
    }
  }

  /** A push into a full window: the oldest input leaves, the new one arrives last. */
  lemma PushFull(w: seq<int>, count: nat, pushed: seq<int>, num: int, p: nat, p': nat)
    requires count == |pushed| && |w| <= count && p < |w| && p' == (if p + 1 == |w| then 0 else p + 1)
    requires pushed[count - |w|..] == w[p..] + w[..p]
    ensures (pushed + [num])[count + 1 - |w|..] == w[p := num][p'..] + w[p := num][..p']
  {
    assert (pushed + [num])[count + 1 - |w|..] == pushed[count - |w|..][1..] + [num];
    RotateStep(w, p, pushed[count - |w|..], num);
  }

  /** A push into a window still filling: the history grows in the next slot; the
      push that fills the window leaves it in input order from slot 0. */
  lemma PushFilling(w: seq<int>, pushed: seq<int>, num: int)
    requires |pushed| < |w| && w[..|pushed|] == pushed
    ensures w[|pushed| := num][..|pushed| + 1] == pushed + [num]
    ensures |pushed| + 1 == |w| ==> w[|pushed| := num] == pushed + [num]
  {
    assert w[|pushed| := num][..|pushed| + 1] == w[..|pushed|] + [num];
  }

  /**
   * `Buffer<State, S>`: a ring buffer of `size` slots in front of a depth
   * counter. `pushed` is the ghost history of every number pushed.
   */
  class Buffer {
    const size: nat
    var window: array<int>
    var count: nat
    var next: State
    ghost var pushed: seq<int>

    ghost predicate Valid()
      reads this, window
    {
      && size > 0
      && window.Length == size
      && RingHolds(window[..], count, pushed)
    }

    /** The downstream counter has seen exactly the window sums of the history. */
    ghost predicate Synced()
      reads this
      requires size > 0
    {
      next == Run(WindowSums(pushed, size))
    }

    /** `Buffer::new`: an all-zero window, nothing pushed, a fresh downstream counter. */
    constructor (s: nat)
      requires s > 0
      ensures Valid() && Synced() && fresh(window)
      ensures size == s && count == 0 && pushed == [] && next == Empty
      ensures window[..] == seq(s, _ => 0)
    {
      size := s;
      window := new int[s](_ => 0);
      count := 0;
      next := Empty;
      pushed := [];
    }

    /**
     * `Buffer::push`: overwrite slot `count % size`, bump `count`, and report the
     * sum of the last `size` numbers once at least `size` have been pushed.
     */
    method Push(num: int) returns (r: Option<int>)
      requires Valid()
      modifies this, window
      ensures Valid()
      ensures window == old(window) && next == old(next)
      ensures pushed == old(pushed) + [num]
      ensures window[..] == old(window[..])[old(count) % size := num]
      ensures r.Some? <==> |pushed| >= size
      ensures r.Some? ==> r.value == Sum(pushed[|pushed| - size..])
    {
      PushKeepsRing(window[..], count, pushed, num);
      window[count % size] := num;
      count := count + 1;
      pushed := pushed + [num];
      if count >= size {
        r := Some(Sum(window[..]));
      } else {
        r := None;
      }
    }

    /** `Solver::next` for `Buffer`: push, and forward a produced sum downstream. */
    method Next(num: int)
      requires Valid() && Synced()
      modifies this, window
      ensures Valid() && Synced() && window == old(window)
      ensures pushed == old(pushed) + [num]
    {
      ghost var ws := WindowSums(pushed, size);
      WindowSumsSnoc(pushed, num, size);
      var sum := Push(num);
      if sum.Some? {
        assert WindowSums(pushed, size) == ws + [sum.value];
        RunSnoc(ws, sum.value);
        next := Transition(next, sum.value);
      } else {
        assert WindowSums(pushed, size) == ws;
      }
    }

    /** `Solver::solution` for `Buffer`: the downstream counter's answer. */
    function Solution(): (r: nat)
      reads this
      requires size > 0 && Synced()
      ensures r == Increases(WindowSums(pushed, size))
    {
      RunCountsIncreases(WindowSums(pushed, size));
      StateSolution(next)
    }
  }

  /** `run` with a bare `State`: feed every depth, then report the count of increases. */
  method RunCounter(xs: seq<int>) returns (r: nat)
    ensures r == Increases(xs)
  {
    var state := Empty;
    for i := 0 to |xs|
      invariant state == Run(xs[..i])
    {
      assert xs[..i + 1][..i] == xs[..i];
      state := Transition(state, xs[i]);
    }
    assert xs[..|xs|] == xs;
    RunCountsIncreases(xs);
    r := StateSolution(state);
  }

  /** `run` with a `Buffer` of `size` slots in front of a `State`: counts increases of the window sums. */
  method RunWindowed(xs: seq<int>, size: nat) returns (r: nat)
    requires size > 0
    ensures r == Increases(WindowSums(xs, size))
  {
    var buffer := new Buffer(size);
    for i := 0 to |xs|
      invariant buffer.Valid() && buffer.Synced() && buffer.size == size
      invariant buffer.pushed == xs[..i] && fresh(buffer.window)
    {
      assert xs[..i + 1] == xs[..i] + [xs[i]];
      buffer.Next(xs[i]);
    }
    assert xs[..|xs|] == xs;
    r := buffer.Solution();
  }
}

=== FILE: day02.dfy ===
/**
 * Day 2 (dive): the two ways of steering the submarine, and the hand-written
 * parser that turns one line of whitespace-separated tokens into a command.
 */
module Day02 {
  import opened Wrappers

  datatype Command = Forward(amount: int) | Up(amount: int) | Down(amount: int)

  datatype Position = Position(depth: int, horizontal: int)

  /** `Position::solution`: depth times horizontal distance. */
  function Answer(p: Position): int
  {
    p.depth * p.horizontal
  }

  // ---------------------------------------------------------------------
  // Steering
  // ---------------------------------------------------------------------

  /** How part 1 reads one command. */
  function Steer1(p: Position, c: Command): Position
  {
    match c
    case Forward(x) => p.(horizontal := p.horizontal + x)
    case Up(x) => p.(depth := p.depth - x)
    case Down(x) => p.(depth := p.depth + x)
  }

  /** Part 2's state: a position and an aim. */
  datatype Aimed = Aimed(pos: Position, aim: int)

  /** How part 2 reads one command. */
  function Steer2(s: Aimed, c: Command): Aimed
  {
    match c
    case Forward(x) => s.(pos := Position(s.pos.depth + s.aim * x, s.pos.horizontal + x))
    case Up(x) => s.(aim := s.aim - x)
    case Down(x) => s.(aim := s.aim + x)
  }

  /** Part 1's position after every command, from the origin. */
  function Drive1(cmds: seq<Command>): Position
  {
    if cmds == [] then Position(0, 0) else Steer1(Drive1(cmds[..|cmds| - 1]), cmds[|cmds| - 1])
  }

  /** Part 2's state after every command, from the origin with aim 0. */
  function Drive2(cmds: seq<Command>): Aimed
  {
    if cmds == [] then Aimed(Position(0, 0), 0) else Steer2(Drive2(cmds[..|cmds| - 1]), cmds[|cmds| - 1])
  }

  /** Reference: the total of all `forward` amounts. */
  function Travel(cmds: seq<Command>): int
  {
    if cmds == [] then 0
    else Travel(cmds[..|cmds| - 1]) + (if cmds[|cmds| - 1].Forward? then cmds[|cmds| - 1].amount else 0)
  }

  /** Reference: `down` amounts minus `up` amounts. */
  function Sink(cmds: seq<Command>): int
  {
    if cmds == [] then 0
    else
      var c := cmds[|cmds| - 1];
      Sink(cmds[..|cmds| - 1]) + (if c.Down? then c.amount else if c.Up? then -c.amount else 0)
  }

  /** Reference: each `forward` amount weighted by the net sinking of the commands before it. */
  function AimedDepth(cmds: seq<Command>): int
  {
    if cmds == [] then 0
    else
      var init, c := cmds[..|cmds| - 1], cmds[|cmds| - 1];
      AimedDepth(init) + (if c.Forward? then Sink(init) * c.amount else 0)
  }

  /** Part 1 ends at depth = net sinking and horizontal = total travel. */
  lemma {:induction false} Drive1Closed(cmds: seq<Command>)
    ensures Drive1(cmds) == Position(Sink(cmds), Travel(cmds))
  {
    if cmds != [] {
      Drive1Closed(cmds[..|cmds| - 1]);
    }
  }

  /** Part 2's aim is the net sinking, its horizontal is the total travel, its depth the aimed depth. */
  lemma {:induction false} Drive2Closed(cmds: seq<Command>)
    ensures Drive2(cmds) == Aimed(Position(AimedDepth(cmds), Travel(cmds)), Sink(cmds))
  {
    if cmds != [] {
      Drive2Closed(cmds[..|cmds| - 1]);
    }
  }

  /** Both parts travel equally far, and part 2's aim is exactly part 1's depth. */
  lemma {:induction false} PartsAgree(cmds: seq<Command>)
    ensures Drive2(cmds).pos.horizontal == Drive1(cmds).horizontal
    ensures Drive2(cmds).aim == Drive1(cmds).depth
  {
    Drive1Closed(cmds);
    Drive2Closed(cmds);
  }

  /** `Part1`: a position updated in place by each command. */
  class Part1 {
    var pos: Position

    constructor ()
      ensures pos == Position(0, 0)
    {
      pos := Position(0, 0);
    }

    /** `Part1::input`: forward moves horizontally, up and down change depth. */
    method Input(cmd: Command)
      modifies this
      ensures pos == Steer1(old(pos), cmd)
    {
      match cmd
      case Forward(x) => pos := pos.(horizontal := pos.horizontal + x);
      case Up(x) => pos := pos.(depth := pos.depth - x);
      case Down(x) => pos := pos.(depth := pos.depth + x);
    }
  }

  /** `Part2`: a position and an aim updated in place by each command. */
  class Part2 {
    var pos: Position
    var aim: int

    constructor ()
      ensures pos == Position(0, 0) && aim == 0
    {
      pos := Position(0, 0);
      aim := 0;
    }

    /** `Part2::input`: up and down only turn the aim; forward moves and dives by aim times the amount. */
    method Input(cmd: Command)
      modifies this
      ensures Aimed(pos, aim) == Steer2(Aimed(old(pos), old(aim)), cmd)
    {
      match cmd
      case Forward(x) =>
        pos := Position(pos.depth + aim * x, pos.horizontal + x);
      case Up(x) => aim := aim - x;
      case Down(x) => aim := aim + x;
    }
  }

  /** `run` with `Part1`, once the lines are parsed: net sinking times total travel. */
  method RunPart1(cmds: seq<Command>) returns (answer: int)
    ensures answer == Sink(cmds) * Travel(cmds)
  {
    var solver := new Part1();
    for i := 0 to |cmds|
      invariant solver.pos == Drive1(cmds[..i])
    {
      assert cmds[..i + 1][..i] == cmds[..i];
      solver.Input(cmds[i]);
    }
    assert cmds[..|cmds|] == cmds;
    Drive1Closed(cmds);
    answer := Answer(solver.pos);
  }

  /** `run` with `Part2`, once the lines are parsed: aimed depth times total travel. */
  method RunPart2(cmds: seq<Command>) returns (answer: int)
    ensures answer == AimedDepth(cmds) * Travel(cmds)
  {
    var solver := new Part2();
    for i := 0 to |cmds|
      invariant Aimed(solver.pos, solver.aim) == Drive2(cmds[..i])
    {
      assert cmds[..i + 1][..i] == cmds[..i];
      solver.Input(cmds[i]);
    }
    assert cmds[..|cmds|] == cmds;
    Drive2Closed(cmds);
    answer := Answer(solver.pos);
  }

  // ---------------------------------------------------------------------
  // Integers (`i32::from_str`)
  // ---------------------------------------------------------------------

  const I32_MIN: int := -0x8000_0000
  const I32_MAX: int := 0x7fff_ffff

  /** The kinds of `ParseIntError`. */
  datatype IntErrorKind = Empty | InvalidDigit | PosOverflow | NegOverflow

  predicate IsDigit(c: char)
  {
    '0' <= c <= '9'
  }

  function DigitValue(c: char): nat
    requires IsDigit(c)
  {
    c as int - '0' as int
  }

  predicate AllDigits(s: string)
  {
    forall i :: 0 <= i < |s| ==> IsDigit(s[i])
  }

  /** The value of a digit string read left to right onto `acc`, without bounds. */
  function Horner(ds: string, acc: int): int
    requires AllDigits(ds)
  {
    if ds == [] then acc else Horner(ds[1..], acc * 10 + DigitValue(ds[0]))
  }

  /**
   * The digit loop of `i32::from_str`: digits are consumed left to right, and
   * the first non-digit or the first step leaving the i32 range is the error.
   */
  function Accumulate(ds: string, acc: int, positive: bool): (r: Result<int, IntErrorKind>)
    requires if positive then 0 <= acc <= I32_MAX else I32_MIN <= acc <= 0
    ensures r.Ok? ==> I32_MIN <= r.value <= I32_MAX
    ensures r.Err? ==> r.error != Empty
    ensures r.Ok? ==> AllDigits(ds) && r.value == if positive then Horner(ds, acc) else -Horner(ds, -acc)
  {
    if ds == [] then Ok(acc)
    else if !IsDigit(ds[0]) then Err(InvalidDigit)
    else
      var d := DigitValue(ds[0]);
      var next := if positive then acc * 10 + d else acc * 10 - d;
      if positive && next > I32_MAX then Err(PosOverflow)
      else if !positive && next < I32_MIN then Err(NegOverflow)
      else Accumulate(ds[1..], next, positive)
  }

  lemma {:induction false} HornerAtLeast(ds: string, acc: int)
    requires AllDigits(ds) && acc >= 0
    ensures Horner(ds, acc) >= acc
  {
    if ds != [] {
      HornerAtLeast(ds[1..], acc * 10 + DigitValue(ds[0]));
    }
  }

  /** The digit loop fails only on a non-digit or when the full value leaves the i32 range. */
  lemma {:induction false} AccumulateExact(ds: string, acc: int, positive: bool)
    requires if positive then 0 <= acc <= I32_MAX else I32_MIN <= acc <= 0
    ensures Accumulate(ds, acc, positive).Ok? <==>
      AllDigits(ds) && (if positive then Horner(ds, acc) <= I32_MAX else -Horner(ds, -acc) >= I32_MIN)
  {
    if ds != [] && IsDigit(ds[0]) && AllDigits(ds) {
      var d := DigitValue(ds[0]);
      if positive {
        HornerAtLeast(ds[1..], acc * 10 + d);
      } else {
        HornerAtLeast(ds[1..], -acc * 10 + d);
        assert -(acc * 10 - d) == -acc * 10 + d;
      }
      var next := if positive then acc * 10 + d else acc * 10 - d;
      if (positive && next <= I32_MAX) || (!positive && next >= I32_MIN) {
        AccumulateExact(ds[1..], next, positive);
      }
    }
  }

  /** `i32::from_str`: an optional `+` or `-`, then at least one decimal digit, in range. */
  function ParseI32(s: string): (r: Result<int, IntErrorKind>)
    ensures r.Ok? ==> I32_MIN <= r.value <= I32_MAX
    ensures r == Err(Empty) <==> s == []
  {
    if s == [] then Err(Empty)
    else if (s[0] == '+' || s[0] == '-') && |s| == 1 then Err(InvalidDigit)
    else if s[0] == '+' then Accumulate(s[1..], 0, true)
    else if s[0] == '-' then Accumulate(s[1..], 0, false)
    else Accumulate(s, 0, true)
  }

  /** The decimal rendering of a natural number, most significant digit first. */
  function ShowNat(n: nat): (r: string)
    ensures r != [] && AllDigits(r)
  {
    (if n < 10 then [] else ShowNat(n / 10)) + [('0' as int + n % 10) as char]
  }

  /** The decimal rendering of an integer, with `-` for negatives. */
  function ShowInt(n: int): string
  {
    if n < 0 then "-" + ShowNat(-n) else ShowNat(n)
  }

  lemma {:induction false} HornerSnoc(ds: string, c: char, acc: int)
    requires AllDigits(ds) && IsDigit(c)
    ensures AllDigits(ds + [c])
    ensures Horner(ds + [c], acc) == Horner(ds, acc) * 10 + DigitValue(c)
  {
    if ds != [] {
      assert (ds + [c])[1..] == ds[1..] + [c];
      HornerSnoc(ds[1..], c, acc * 10 + DigitValue(ds[0]));
    }
  }

  lemma {:induction false} HornerShowNat(n: nat)
    ensures Horner(ShowNat(n), 0) == n
  {
    var c := ('0' as int + n % 10) as char;
    if n < 10 {
      assert ShowNat(n) == [c];
      assert ShowNat(n)[1..] == [];
    } else {
      HornerShowNat(n / 10);
      HornerSnoc(ShowNat(n / 10), c, 0);
    }
  }

  /** A numeral: an optional sign, then at least one decimal digit. */
  predicate Numeral(s: string)
  {
    if s != [] && (s[0] == '+' || s[0] == '-') then |s| > 1 && AllDigits(s[1..])
    else s != [] && AllDigits(s)
  }

  function NumeralValue(s: string): int
    requires Numeral(s)
  {
    if s[0] == '-' then -Horner(s[1..], 0)
    else if s[0] == '+' then Horner(s[1..], 0)
    else Horner(s, 0)
  }

  /** `i32::from_str` accepts exactly the numerals whose value fits in an i32, and yields that value. */
  lemma ParseI32Exact(s: string)
    ensures ParseI32(s).Ok? <==> Numeral(s) && I32_MIN <= NumeralValue(s) <= I32_MAX
    ensures ParseI32(s).Ok? ==> ParseI32(s).value == NumeralValue(s)
  {
    if s != [] {
      if s[0] == '+' || s[0] == '-' {
        if |s| > 1 {
          AccumulateExact(s[1..], 0, s[0] == '+');
          if AllDigits(s[1..]) {
            HornerAtLeast(s[1..], 0);
          }
        }
      } else {
        AccumulateExact(s, 0, true);
        if AllDigits(s) {
          HornerAtLeast(s, 0);
        }
      }
    }
  }

  /** Rendering then parsing gives back every i32. */
  lemma ParseShowInt(n: int)
    requires I32_MIN <= n <= I32_MAX
    ensures ParseI32(ShowInt(n)) == Ok(n)
  {
    var s := ShowInt(n);
    if n < 0 {
      assert s[1..] == ShowNat(-n);
      HornerShowNat(-n);
    } else {
      HornerShowNat(n);
      assert IsDigit(s[0]);
    }
    ParseI32Exact(s);
  }

  // ---------------------------------------------------------------------
  // Tokens (`str::split_whitespace`)
  // ---------------------------------------------------------------------

  /** Unicode `White_Space`, as `char::is_whitespace` decides it. */
  predicate IsWhitespace(c: char)
  {
    var n := c as int;
    || 0x09 <= n <= 0x0D || n == 0x20 || n == 0x85 || n == 0xA0 || n == 0x1680
    || 0x2000 <= n <= 0x200A || n == 0x2028 || n == 0x2029 || n == 0x202F
    || n == 0x205F || n == 0x3000
  }

  predicate NoWhitespace(s: string)
  {
    forall i :: 0 <= i < |s| ==> !IsWhitespace(s[i])
  }

  /** A token: non-empty and free of whitespace. */
  predicate IsToken(t: string)
  {
    t != [] && NoWhitespace(t)
  }

  /** The longest prefix of `s` without whitespace. */
  function Word(s: string): (r: string)
    ensures |r| <= |s| && r == s[..|r|] && NoWhitespace(r)
    ensures |r| < |s| ==> IsWhitespace(s[|r|])
  {
    if s == [] || IsWhitespace(s[0]) then [] else [s[0]] + Word(s[1..])
  }

  /** `split_whitespace`: the maximal whitespace-free runs of `s`, in order. */
  function SplitWhitespace(s: string): (r: seq<string>)
    ensures forall i :: 0 <= i < |r| ==> IsToken(r[i])
  {
    if s == [] then []
    else if IsWhitespace(s[0]) then SplitWhitespace(s[1..])
    else
      var w := Word(s);
      [w] + SplitWhitespace(s[|w|..])
  }

  /** Tokens joined by single spaces. */
  function Unwords(ts: seq<string>): string
  {
    if ts == [] then [] else if |ts| == 1 then ts[0] else ts[0] + " " + Unwords(ts[1..])
  }

  lemma {:induction false} WordOfToken(t: string, rest: string)
    requires NoWhitespace(t) && (rest == [] || IsWhitespace(rest[0]))
    ensures Word(t + rest) == t
  {
    if t != [] {
      assert (t + rest)[1..] == t[1..] + rest;
      WordOfToken(t[1..], rest);
    } else {
      assert t + rest == rest;
    }
  }

  /** Splitting tokens joined by spaces gives the tokens back. */
  lemma {:induction false} SplitUnwords(ts: seq<string>)
    requires forall i :: 0 <= i < |ts| ==> IsToken(ts[i])
    ensures SplitWhitespace(Unwords(ts)) == ts
  {
    if ts == [] {
    } else if |ts| == 1 {
      var t := ts[0];
      WordOfToken(t, []);
      assert t + [] == t;
      assert t[|t|..] == [];
    } else {
      var t, rest := ts[0], Unwords(ts[1..]);
      var s := t + " " + rest;
      WordOfToken(t, " " + rest);
      assert s == t + (" " + rest);
      assert s[|t|..] == " " + rest;
      assert (" " + rest)[1..] == rest;
      SplitUnwords(ts[1..]);
    }
  }

  // ---------------------------------------------------------------------
  // Commands
  // ---------------------------------------------------------------------

  datatype ParseError = UnknownVerb(word: string) | BadInteger(kind: IntErrorKind) | IncompleteCommand

  predicate IsVerb(w: string)
  {
    w == "forward" || w == "up" || w == "down"
  }

  function Build(verb: string, n: int): Command
    requires IsVerb(verb)
  {
    if verb == "forward" then Forward(n) else if verb == "up" then Up(n) else Down(n)
  }

  /** What `CommandParser::parse` makes of a token stream. */
  function Interpret(toks: seq<string>): Result<Command, ParseError>
  {
    if toks == [] then Err(IncompleteCommand)
    else if !IsVerb(toks[0]) then Err(UnknownVerb(toks[0]))
    else if |toks| == 1 then Err(IncompleteCommand)
    else
      match ParseI32(toks[1])
      case Err(k) => Err(BadInteger(k))
      case Ok(n) => Ok(Build(toks[0], n))
  }

  /** How many tokens `parse` takes from the stream. */
  function Consumed(toks: seq<string>): (n: nat)
    ensures n <= |toks|
  {
    if toks == [] then 0 else if !IsVerb(toks[0]) || |toks| == 1 then 1 else 2
  }

  /** The parser reads at most a verb and an amount: later tokens never matter. */
  lemma TrailingTokensIgnored(toks: seq<string>, more: seq<string>)
    requires |toks| >= 2 || (toks != [] && !IsVerb(toks[0]))
    ensures Interpret(toks + more) == Interpret(toks)
  {
    if toks != [] {
      assert (toks + more)[0] == toks[0];
      if |toks| >= 2 {
        assert (toks + more)[1] == toks[1];
      }
    }
  }

  /** The line a command is written as: verb, a space, the amount. */
  function Render(c: Command): string
  {
    match c
    case Forward(x) => "forward " + ShowInt(x)
    case Up(x) => "up " + ShowInt(x)
    case Down(x) => "down " + ShowInt(x)
  }

  function Verb(c: Command): string
  {
    match c
    case Forward(_) => "forward"
    case Up(_) => "up"
    case Down(_) => "down"
  }

  /** Every command with an i32 amount parses back from its rendering. */
  lemma RenderParses(c: Command)
    requires I32_MIN <= c.amount <= I32_MAX
    ensures Interpret(SplitWhitespace(Render(c))) == Ok(c)
  {
    var amount := ShowInt(c.amount);
    assert IsToken(amount) by {
      if c.amount < 0 {
        assert amount == "-" + ShowNat(-c.amount);
        forall i | 0 <= i < |amount| ensures !IsWhitespace(amount[i]) {
          if i > 0 { assert amount[i] == ShowNat(-c.amount)[i - 1]; }
        }
      } else {
        forall i | 0 <= i < |amount| ensures !IsWhitespace(amount[i]) {
          assert IsDigit(amount[i]);
        }
      }
    }
    var ts := [Verb(c), amount];
    assert Unwords(ts) == Render(c) by {
      assert Unwords(ts[1..]) == amount;
    }
    SplitUnwords(ts);
    ParseShowInt(c.amount);
  }

  /** `CommandParser`: a token iterator advanced by each read. */
  class CommandParser {
    var tokens: seq<string>

    constructor (toks: seq<string>)
      ensures tokens == toks
    {
      tokens := toks;
    }

    /** `CommandParser::next`: the next token, or `IncompleteCommand` when there is none. */
    method Next() returns (r: Result<string, ParseError>)
      modifies this
      ensures old(tokens) == [] ==> r == Err(IncompleteCommand) && tokens == []
      ensures old(tokens) != [] ==> r == Ok(old(tokens)[0]) && tokens == old(tokens)[1..]
    {
      if tokens == [] {
        r := Err(IncompleteCommand);
      } else {
        r := Ok(tokens[0]);
        tokens := tokens[1..];
      }
    }

    /** `CommandParser::parse_amount`: the next token as an i32, or why not. */
    method ParseAmount() returns (r: Result<int, ParseError>)
      modifies this
      ensures old(tokens) == [] ==> r == Err(IncompleteCommand) && tokens == []
      ensures old(tokens) != [] ==> tokens == old(tokens)[1..]
      ensures old(tokens) != [] ==>
        r == match ParseI32(old(tokens)[0]) case Ok(n) => Ok(n) case Err(k) => Err(BadInteger(k))
    {
      var t := Next();
      if t.Err? {
        return Err(t.error);
      }
      var n := ParseI32(t.value);
      if n.Err? {
        return Err(BadInteger(n.error));
      }
      r := Ok(n.value);
    }

    /** `CommandParser::parse`: a verb, then an amount. */
    method Parse() returns (r: Result<Command, ParseError>)
      modifies this
      ensures r == Interpret(old(tokens))
      ensures tokens == old(tokens)[Consumed(old(tokens))..]
    {
      var verb := Next();
      if verb.Err? {
        return Err(verb.error);
      }
      if !IsVerb(verb.value) {
        return Err(UnknownVerb(verb.value));
      }
      var amount := ParseAmount();
      if amount.Err? {
        return Err(amount.error);
      }
      r := Ok(Build(verb.value, amount.value));
    }
  }

  /** `Command::from_str`: parse the whitespace-separated tokens of a line. */
  method FromStr(s: string) returns (r: Result<Command, ParseError>)
    ensures r == Interpret(SplitWhitespace(s))
  {
    var parser := new CommandParser(SplitWhitespace(s));
    r := parser.Parse();
  }
}

=== FILE: day03.dfy ===
/**
 * Day 3 (binary diagnostic): per-bit counts, the gamma/epsilon rates, the
 * initial split on the top bit, and `strain`, the bit-criteria filter that
 * finds the oxygen-generator and CO2-scrubber ratings.
 */
module Day03 {
  import opened Wrappers

  /** `INPUT_WIDTH`: every report line has 12 binary digits. */
  const INPUT_WIDTH: nat := 12

  /** `std::cmp::Ordering`. */
  datatype Ordering = Less | Equal | Greater

  function Cmp(a: int, b: int): Ordering
  {
    if a < b then Less else if a == b then Equal else Greater
  }

  /** O2's comparison: keep ones when they are at least half (`[Greater, Equal]`). */
  const MOST_COMMON: seq<Ordering> := [Greater, Equal]

  /** CO2's comparison: keep ones when they are fewer than half (`[Less]`). */
  const LEAST_COMMON: seq<Ordering> := [Less]

  /** A `u16` value. */
  type U16 = x: nat | x < 0x1_0000

  function Pow2(w: nat): (p: nat)
    ensures p >= 1
  {
    if w == 0 then 1 else 2 * Pow2(w - 1)
  }

  /** Bit `w` of `n`. */
  predicate Bit(n: nat, w: nat)
  {
    if w == 0 then n % 2 == 1 else Bit(n / 2, w - 1)
  }

  /** `n & (1 << w) > 0` on a `u16`. */
  predicate HasBit(n: U16, w: nat)
    requires w < 16
  {
    Bit(n, w)
  }

  /** A number below `2^w` has no bit at `w` or above. */
  lemma {:induction false} BitAbove(n: nat, w: nat, i: nat)
    requires n < Pow2(w) && w <= i
    ensures !Bit(n, i)
  {
    if i > 0 {
      if w == 0 {
        BitAbove(n / 2, 0, i - 1);
      } else {
        BitAbove(n / 2, w - 1, i - 1);
      }
    }
  }

  /** Numbers below `2^width` with the same low `width` bits are equal. */
  lemma {:induction false} SameBitsSame(x: nat, y: nat, width: nat)
    requires x < Pow2(width) && y < Pow2(width)
    requires forall b :: 0 <= b < width ==> Bit(x, b) == Bit(y, b)
    ensures x == y
  {
    if width > 0 {
      assert Bit(x, 0) == Bit(y, 0);
      forall b | 0 <= b < width - 1
        ensures Bit(x / 2, b) == Bit(y / 2, b)
      {
        assert Bit(x, b + 1) == Bit(y, b + 1);
      }
      SameBitsSame(x / 2, y / 2, width - 1);
    }
  }

  /** Adding `2^k` to a number below `2^k` sets exactly bit `k`. */
  lemma {:induction false} BitOfAddPow(g: nat, k: nat, i: nat)
    requires g < Pow2(k)
    ensures Bit(g + Pow2(k), i) <==> Bit(g, i) || i == k
  {
    if k == 0 {
      assert g == 0;
      if i > 0 {
        BitAbove(0, 0, i - 1);
      }
    } else if i == 0 {
    } else {
      assert (g + Pow2(k)) / 2 == g / 2 + Pow2(k - 1);
      BitOfAddPow(g / 2, k - 1, i - 1);
    }
  }

  /** `2^width - 1 - g` has exactly the low bits that `g` lacks. */
  lemma {:induction false} BitOfComplement(g: nat, width: nat, i: nat)
    requires g < Pow2(width) && i < width
    ensures Bit(Pow2(width) - 1 - g, i) <==> !Bit(g, i)
  {
    if i > 0 {
      assert (Pow2(width) - 1 - g) / 2 == Pow2(width - 1) - 1 - g / 2;
      BitOfComplement(g / 2, width - 1, i - 1);
    }
  }

  /** How many of `data` have bit `w` set. */
  function Ones(data: seq<U16>, w: nat): (r: nat)
    requires w < 16
    ensures r <= |data|
  {
    if data == [] then 0
    else Ones(data[..|data| - 1], w) + (if HasBit(data[|data| - 1], w) then 1 else 0)
  }

  /** The elements of `data` whose bit `w` is `one`, in their original order (`Vec::retain`). */
  function KeepBit(data: seq<U16>, w: nat, one: bool): (r: seq<U16>)
    requires w < 16
    ensures forall i :: 0 <= i < |r| ==> r[i] in data && HasBit(r[i], w) == one
  {
    if data == [] then []
    else
      var init, x := data[..|data| - 1], data[|data| - 1];
      KeepBit(init, w, one) + (if HasBit(x, w) == one then [x] else [])
  }

  /** Splitting a list one longer keeps the split of the shorter list and adds the
      last element on its own side. */
  lemma KeepBitSnoc(init: seq<U16>, x: U16, w: nat, one: bool)
    requires w < 16
    ensures KeepBit(init + [x], w, one) == KeepBit(init, w, one) + (if HasBit(x, w) == one then [x] else [])
  {
    assert (init + [x])[..|init|] == init;
  }

  /** Counting the ones of a list one longer adds the last element's bit. */
  lemma OnesSnoc(init: seq<U16>, x: U16, w: nat)
    requires w < 16
    ensures Ones(init + [x], w) == Ones(init, w) + (if HasBit(x, w) then 1 else 0)
  {
    assert (init + [x])[..|init|] == init;
  }

  /** Splitting on a bit puts every element on exactly one side, and the ones side has `Ones` elements. */
  lemma {:induction false} KeepBitPartition(data: seq<U16>, w: nat)
    requires w < 16
    ensures multiset(KeepBit(data, w, true)) + multiset(KeepBit(data, w, false)) == multiset(data)
    ensures |KeepBit(data, w, true)| == Ones(data, w)
    ensures |KeepBit(data, w, false)| == |data| - Ones(data, w)
  {
    if data != [] {
      var init, x := data[..|data| - 1], data[|data| - 1];
      KeepBitPartition(init, w);
      PartitionSnoc(init, x, w);
      assert data == init + [x];
    }
  }

  lemma PartitionSnoc(init: seq<U16>, x: U16, w: nat)
    requires w < 16
    requires multiset(KeepBit(init, w, true)) + multiset(KeepBit(init, w, false)) == multiset(init)
    requires |KeepBit(init, w, true)| == Ones(init, w)
    requires |KeepBit(init, w, false)| == |init| - Ones(init, w)
    ensures multiset(KeepBit(init + [x], w, true)) + multiset(KeepBit(init + [x], w, false)) == multiset(init + [x])
    ensures |KeepBit(init + [x], w, true)| == Ones(init + [x], w)
    ensures |KeepBit(init + [x], w, false)| == |init + [x]| - Ones(init + [x], w)
  {
    KeepBitSnoc(init, x, w, true);
    KeepBitSnoc(init, x, w, false);
    OnesSnoc(init, x, w);
    var t0, f0 := KeepBit(init, w, true), KeepBit(init, w, false);
    assert multiset(init + [x]) == multiset(init) + multiset{x};
    if HasBit(x, w) {
      assert multiset(t0 + [x]) == multiset(t0) + multiset{x};
    } else {
      assert multiset(f0 + [x]) == multiset(f0) + multiset{x};
    }
  }

  /** `strain`'s decision: keep the ones exactly when `count.cmp(&((len + 1) / 2))` is listed. */
  predicate Include(data: seq<U16>, w: nat, comparison: seq<Ordering>)
    requires w < 16
  {
    Cmp(Ones(data, w), (|data| + 1) / 2) in comparison
  }

  /** One round of `strain` on bit `w`. */
  function Round(data: seq<U16>, w: nat, comparison: seq<Ordering>): seq<U16>
    requires w < 16
  {
    KeepBit(data, w, Include(data, w, comparison))
  }

  /** O2 keeps the most common bit value, ties going to 1; CO2 the least common, ties going to 0. */
  lemma RoundCriteria(data: seq<U16>, w: nat)
    requires w < 16
    ensures Include(data, w, MOST_COMMON) <==> 2 * Ones(data, w) >= |data|
    ensures Include(data, w, LEAST_COMMON) <==> 2 * Ones(data, w) < |data|
  {
  }

  /** The O2 round and the CO2 round on the same list split it between them. */
  lemma RoundsComplementary(data: seq<U16>, w: nat)
    requires w < 16
    ensures multiset(Round(data, w, MOST_COMMON)) + multiset(Round(data, w, LEAST_COMMON)) == multiset(data)
  {
    RoundCriteria(data, w);
    KeepBitPartition(data, w);
  }

  /** O2's round never empties a non-empty list. */
  lemma {:induction false} MostCommonRoundNonEmpty(data: seq<U16>, w: nat)
    requires w < 16 && data != []
    ensures Round(data, w, MOST_COMMON) != []
  {
    RoundCriteria(data, w);
    KeepBitPartition(data, w);
  }

  /** CO2's round empties a non-empty list exactly when every element agrees on bit `w`. */
  lemma {:induction false} LeastCommonRoundEmpty(data: seq<U16>, w: nat)
    requires w < 16 && data != []
    ensures Round(data, w, LEAST_COMMON) == [] <==> Ones(data, w) == 0 || Ones(data, w) == |data|
  {
    RoundCriteria(data, w);
    KeepBitPartition(data, w);
  }

  /** Every element of `data` has the same bits from `w` upwards. */
  predicate AgreeFrom(data: seq<U16>, w: nat)
  {
    forall i, j, b :: 0 <= i < |data| && 0 <= j < |data| && w <= b < 16 ==> HasBit(data[i], b) == HasBit(data[j], b)
  }

  predicate Distinct(data: seq<U16>)
  {
    forall i, j :: 0 <= i < j < |data| ==> data[i] != data[j]
  }

  /** Distinct numbers that agree on every bit are at most one. */
  lemma AgreeEverywhereSingle(data: seq<U16>)
    requires AgreeFrom(data, 0) && Distinct(data)
    ensures |data| <= 1
  {
    if |data| > 1 {
      Pow2Values();
      forall b | 0 <= b < 16 ensures Bit(data[0], b) == Bit(data[1], b) {
        assert HasBit(data[0], b) == HasBit(data[1], b);
      }
      SameBitsSame(data[0], data[1], 16);
    }
  }

  /** A round keeps the list distinct, and its survivors also agree on the bit just examined. */
  lemma RoundKeepsShape(data: seq<U16>, w: nat, comparison: seq<Ordering>)
    requires 0 < w <= 16 && AgreeFrom(data, w) && Distinct(data)
    ensures var r := Round(data, w - 1, comparison); AgreeFrom(r, w - 1) && Distinct(r)
  {
    KeepBitShape(data, w - 1, Include(data, w - 1, comparison));
  }

  lemma {:induction false} KeepBitShape(data: seq<U16>, w: nat, one: bool)
    requires w < 16 && AgreeFrom(data, w + 1) && Distinct(data)
    ensures var r := KeepBit(data, w, one); AgreeFrom(r, w) && Distinct(r)
  {
    if data != [] {
      var init, x := data[..|data| - 1], data[|data| - 1];
      assert data == init + [x];
      KeepBitShape(init, w, one);
      KeepBitSnoc(init, x, w, one);
      var r0 := KeepBit(init, w, one);
      if HasBit(x, w) == one {
        forall i | 0 <= i < |r0|
          ensures r0[i] != x
        {
          var k :| 0 <= k < |init| && init[k] == r0[i];
          assert data[k] == init[k];
        }
      }
    }
    var r := KeepBit(data, w, one);
    AgreeSub(r, data, w + 1);
  }

  /** Elements drawn from a list that agrees from bit `w` up agree from bit `w` up. */
  lemma AgreeSub(r: seq<U16>, data: seq<U16>, w: nat)
    requires forall i :: 0 <= i < |r| ==> r[i] in data
    requires AgreeFrom(data, w)
    ensures AgreeFrom(r, w)
  {
    forall i, j, b | 0 <= i < |r| && 0 <= j < |r| && w <= b < 16
      ensures HasBit(r[i], b) == HasBit(r[j], b)
    {
      var ki :| 0 <= ki < |data| && data[ki] == r[i];
      var kj :| 0 <= kj < |data| && data[kj] == r[j];
    }
  }

  /**
   * `strain` never runs `width` below zero on `data`: every round it starts
   * with more than one number left has a bit to examine.
   */
  predicate Strains(data: seq<U16>, width: nat, comparison: seq<Ordering>)
    requires width <= 16
    decreases width
  {
    |data| <= 1 || (width > 0 && Strains(Round(data, width - 1, comparison), width - 1, comparison))
  }

  /** Distinct numbers agreeing on the bits from `width` up always strain: duplicates are the only way to run out of bits. */
  lemma {:induction false} DistinctStrains(data: seq<U16>, width: nat, comparison: seq<Ordering>)
    requires width <= 16 && AgreeFrom(data, width) && Distinct(data)
    ensures Strains(data, width, comparison)
    decreases width
  {
    if |data| > 1 {
      if width == 0 {
        AgreeEverywhereSingle(data);
      } else {
        RoundKeepsShape(data, width, comparison);
        DistinctStrains(Round(data, width - 1, comparison), width - 1, comparison);
      }
    }
  }

  /**
   * What `strain` leaves in `data`: rounds on bits `width - 1`, `width - 2`, …
   * until at most one number remains.
   */
  function StrainSpec(data: seq<U16>, width: nat, comparison: seq<Ordering>): seq<U16>
    requires width <= 16 && Strains(data, width, comparison)
    decreases width
  {
    if |data| <= 1 then data
    else StrainSpec(Round(data, width - 1, comparison), width - 1, comparison)
  }

  /** `strain` ends with at most one number, taken from the input. */
  lemma {:induction false} StrainSpecResult(data: seq<U16>, width: nat, comparison: seq<Ordering>)
    requires width <= 16 && Strains(data, width, comparison)
    ensures var r := StrainSpec(data, width, comparison); |r| <= 1 && forall x <- r :: x in data
    decreases width
  {
    if |data| > 1 {
      StrainSpecResult(Round(data, width - 1, comparison), width - 1, comparison);
    }
  }

  /** With O2's comparison, `strain` always finds a number in a non-empty list. */
  lemma {:induction false} StrainMostCommonFinds(data: seq<U16>, width: nat)
    requires width <= 16 && Strains(data, width, MOST_COMMON) && data != []
    ensures |StrainSpec(data, width, MOST_COMMON)| == 1
    decreases width
  {
    StrainSpecResult(data, width, MOST_COMMON);
    if |data| > 1 {
      MostCommonRoundNonEmpty(data, width - 1);
      StrainMostCommonFinds(Round(data, width - 1, MOST_COMMON), width - 1);
    }
  }

  /** With CO2's comparison the list can run empty: 0b10 and 0b11 agree on bit 1 and both go. */
  lemma StrainLeastCommonCanEmpty()
    ensures Strains([2, 3], 2, LEAST_COMMON)
    ensures StrainSpec([2, 3], 2, LEAST_COMMON) == []
  {
    var data: seq<U16> := [2, 3];
    assert HasBit(2, 1) && HasBit(3, 1);
    assert Ones(data, 1) == 2 by {
      assert data[..1] == [2];
      assert [2 as U16][..0] == [];
    }
    assert !Include(data, 1, LEAST_COMMON);
    assert KeepBit(data, 1, false) == [] by {
      assert data[..1] == [2];
      assert [2 as U16][..0] == [];
    }
  }

  /** Duplicates strain too when a round removes them: at width 2, [0b00, 0b00, 0b10, 0b11] keeps the ones twice and ends at 0b11. */
  lemma StrainDuplicates()
    ensures Strains([0, 0, 2, 3], 2, MOST_COMMON)
    ensures StrainSpec([0, 0, 2, 3], 2, MOST_COMMON) == [3]
  {
    var data: seq<U16> := [0, 0, 2, 3];
    assert !HasBit(0, 1) && HasBit(2, 1) && HasBit(3, 1);
    assert !HasBit(2, 0) && HasBit(3, 0);
    var p1: seq<U16>, p2: seq<U16>, p3: seq<U16> := [0], [0, 0], [0, 0, 2];
    assert p1[..0] == [] && p2[..1] == p1 && p3[..2] == p2 && data[..3] == p3;
    assert Ones(p1, 1) == 0 && Ones(p2, 1) == 0 && Ones(p3, 1) == 1;
    assert Ones(data, 1) == 2;
    assert Include(data, 1, MOST_COMMON);
    assert KeepBit(p1, 1, true) == [] && KeepBit(p2, 1, true) == [] && KeepBit(p3, 1, true) == [2];
    var r1 := Round(data, 1, MOST_COMMON);
    assert r1 == [2, 3];
    assert r1[..1] == [2] && [2 as U16][..0] == [];
    assert Ones(r1, 0) == 1;
    assert Include(r1, 0, MOST_COMMON);
    assert Round(r1, 0, MOST_COMMON) == [3];
  }

  /** `strain`: narrow `data` in place by bit criteria; the first survivor, if any. */
  method Strain(data: seq<U16>, width: nat, comparison: seq<Ordering>) returns (r: Option<U16>, rest: seq<U16>)
    requires width <= 16 && Strains(data, width, comparison)
    ensures rest == StrainSpec(data, width, comparison)
    ensures r == if rest == [] then None else Some(rest[0])
  {
    rest := data;
    var w: nat := width;
    while |rest| > 1
      invariant w <= width && Strains(rest, w, comparison)
      invariant StrainSpec(rest, w, comparison) == StrainSpec(data, width, comparison)
      decreases w
    {
      w := w - 1;
      var count := Ones(rest, w);
      var keepOnes := Cmp(count, (|rest| + 1) / 2) in comparison;
      rest := KeepBit(rest, w, keepOnes);
    }
    r := if rest == [] then None else Some(rest[0]);
  }

  /** `O2::calc`: `strain` from bit 10 with the most-common comparison; the `expect` always succeeds. */
  method O2Calc(data: seq<U16>) returns (r: U16)
    requires Strains(data, INPUT_WIDTH - 1, MOST_COMMON) && data != []
    ensures [r] == StrainSpec(data, INPUT_WIDTH - 1, MOST_COMMON)
  {
    StrainMostCommonFinds(data, INPUT_WIDTH - 1);
    var found, _ := Strain(data, INPUT_WIDTH - 1, MOST_COMMON);
    r := found.value;
  }

  /** `CO2::calc`: `strain` from bit 10 with the least-common comparison; the `expect` becomes a requirement. */
  method CO2Calc(data: seq<U16>) returns (r: U16)
    requires Strains(data, INPUT_WIDTH - 1, LEAST_COMMON)
    requires StrainSpec(data, INPUT_WIDTH - 1, LEAST_COMMON) != []
    ensures [r] == StrainSpec(data, INPUT_WIDTH - 1, LEAST_COMMON)
  {
    StrainSpecResult(data, INPUT_WIDTH - 1, LEAST_COMMON);
    var found, _ := Strain(data, INPUT_WIDTH - 1, LEAST_COMMON);
    r := found.value;
  }

  /** The counting loop of `populate_arrays`: each set bit of each number bumps its counter. */
  method Populate(numbers: seq<U16>, count: array<nat>)
    requires count.Length == INPUT_WIDTH
    requires forall k :: 0 <= k < |numbers| ==> numbers[k] < 0x1000
    modifies count
    ensures forall i :: 0 <= i < INPUT_WIDTH ==> count[i] == old(count[i]) + Ones(numbers, i)
  {
    for k := 0 to |numbers|
      invariant forall i :: 0 <= i < INPUT_WIDTH ==> count[i] == old(count[i]) + Ones(numbers[..k], i)
    {
      var n := numbers[k];
      assert numbers[..k + 1][..k] == numbers[..k];
      for index := 0 to 16
        invariant forall i :: 0 <= i < INPUT_WIDTH ==>
          count[i] == old(count[i]) + Ones(numbers[..k], i) + (if i < index && HasBit(n, i) then 1 else 0)
      {
        if HasBit(n, index) {
          HighBitClear(n, index);
          count[index] := count[index] + 1;
        }
      }
    }
    assert numbers[..|numbers|] == numbers;
  }

  lemma Pow2Values()
    ensures Pow2(12) == 0x1000 && Pow2(16) == 0x1_0000
  {
    assert Pow2(4) == 16;
    assert Pow2(8) == 256;
  }

  lemma HighBitClear(n: U16, i: nat)
    requires n < 0x1000 && i < 16 && HasBit(n, i)
    ensures i < INPUT_WIDTH
  {
    if i >= 12 {
      Pow2Values();
      BitAbove(n, 12, i);
    }
  }

  /** The gamma fold of `part_1` over the first `|count|` counters: bit `i` set iff `count[i] >= len / 2`. */
  function Gamma(count: seq<nat>, len: nat): (g: nat)
    ensures g < Pow2(|count|)
    ensures forall i :: 0 <= i < |count| ==> (Bit(g, i) <==> count[i] >= len / 2)
  {
    if count == [] then 0
    else
      var k := |count| - 1;
      var prev := Gamma(count[..k], len);
      assert forall i :: 0 <= i < k ==> count[..k][i] == count[i];
      if count[k] >= len / 2 then
        assert forall i :: 0 <= i < |count| ==> (Bit(prev + Pow2(k), i) <==> count[i] >= len / 2) by {
          forall i | 0 <= i < |count|
            ensures Bit(prev + Pow2(k), i) <==> count[i] >= len / 2
          {
            BitOfAddPow(prev, k, i);
          }
        }
        prev + Pow2(k)
      else
        assert !Bit(prev, k) by { BitAbove(prev, k, k); }
        prev
  }

  /**
   * `part_1`: gamma has bit i iff `count[i] >= len / 2`; epsilon, `!gamma & 0xFFF`,
   * is its 12-bit complement: the two share no bit and together make 0xFFF.
   */
  function Part1(count: seq<nat>, len: nat): (r: (nat, nat))
    requires |count| == INPUT_WIDTH
    ensures r.0 < 0x1000 && r.1 < 0x1000 && r.0 + r.1 == 0xFFF
    ensures forall i :: 0 <= i < INPUT_WIDTH ==> (Bit(r.0, i) <==> count[i] >= len / 2)
    ensures forall i :: 0 <= i < INPUT_WIDTH ==> (Bit(r.1, i) <==> !Bit(r.0, i))
  {
    var gamma := Gamma(count, len);
    Pow2Values();
    var epsilon := 0xFFF - gamma;
    assert forall i :: 0 <= i < INPUT_WIDTH ==> (Bit(epsilon, i) <==> !Bit(gamma, i)) by {
      forall i | 0 <= i < INPUT_WIDTH { BitOfComplement(gamma, 12, i); }
    }
    (gamma, epsilon)
  }

  /**
   * `initial_sort`: split on bit `|count| - 1`, the side holding the majority
   * bit value (ties to 1) going to O2 and the other to CO2.
   */
  method InitialSort(numbers: seq<U16>, count: seq<nat>) returns (o2: seq<U16>, co2: seq<U16>)
    requires 0 < |count| <= 16
    ensures var top, initialBit := |count| - 1, count[|count| - 1] >= (|numbers| + 1) / 2;
      o2 == KeepBit(numbers, top, initialBit) && co2 == KeepBit(numbers, top, !initialBit)
    ensures multiset(o2) + multiset(co2) == multiset(numbers)
  {
    var last := count[|count| - 1];
    var initialBit := last >= (|numbers| + 1) / 2;
    var top := |count| - 1;
    o2, co2 := [], [];
    for k := 0 to |numbers|
      invariant o2 == KeepBit(numbers[..k], top, initialBit)
      invariant co2 == KeepBit(numbers[..k], top, !initialBit)
    {
      var n := numbers[k];
      assert numbers[..k + 1] == numbers[..k] + [n];
      KeepBitSnoc(numbers[..k], n, top, initialBit);
      KeepBitSnoc(numbers[..k], n, top, !initialBit);
      if initialBit {
        if HasBit(n, top) { o2 := o2 + [n]; } else { co2 := co2 + [n]; }
      } else {
        if HasBit(n, top) { co2 := co2 + [n]; } else { o2 := o2 + [n]; }
      }
    }
    assert numbers[..|numbers|] == numbers;
    KeepBitPartition(numbers, top);
  }

  /** With true counts, the initial split is exactly the first O2 round and the first CO2 round on the top bit. */
  lemma InitialSortIsFirstRound(numbers: seq<U16>, count: seq<nat>)
    requires |count| == INPUT_WIDTH && count[INPUT_WIDTH - 1] == Ones(numbers, INPUT_WIDTH - 1)
    ensures var initialBit := count[INPUT_WIDTH - 1] >= (|numbers| + 1) / 2;
      KeepBit(numbers, INPUT_WIDTH - 1, initialBit) == Round(numbers, INPUT_WIDTH - 1, MOST_COMMON) &&
      KeepBit(numbers, INPUT_WIDTH - 1, !initialBit) == Round(numbers, INPUT_WIDTH - 1, LEAST_COMMON)
  {
    RoundCriteria(numbers, INPUT_WIDTH - 1);
  }
}

=== FILE: day04.dfy ===
/**
 * Day 4: bingo through an index of spans.
 *
 * Every board contributes one board span (its running total of unmarked
 * numbers), five row spans and five column spans (the sets of numbers still
 * unmarked in that line).  Each cell is an entry that points at its row, its
 * column and its board span, and every number knows the entries that carry it.
 * Calling a number visits exactly those entries; a line that empties makes
 * its board a winner, whose spans are then removed so that it never wins again.
 *
 * The u128 bit sets of the row and column spans are sets of numbers below 128
 * (`1 << num` on a u128 needs that).  The slot-map keys, opaque and unique in
 * the program, are structured keys here: `SpanKey(board, part)` and
 * `EntryKey(board, row, col)` are unique in exactly the same way.
 */
module Day04 {
  import opened Wrappers

  // ------------------------------------------------------------------
  // Spans
  // ------------------------------------------------------------------

  datatype Span = Row(bits: set<nat>) | Col(bits: set<nat>) | BoardSpan(index: nat, total: int)

  /** Adds a number to a span: a line remembers it, a board adds it to its total. */
  function Insert(s: Span, num: nat): Span
    requires num < 128
  {
    match s
    case Row(x) => Row(x + {num})
    case Col(x) => Col(x + {num})
    case BoardSpan(i, x) => BoardSpan(i, x + num)
  }

  /** Only a board span has a score: its board index and its total. */
  function Score(s: Span): (r: Option<(nat, int)>)
    ensures r.Some? <==> s.BoardSpan?
  {
    match s
    case BoardSpan(i, x) => Some((i, x))
    case _ => None
  }

  /** A line is complete when no number of it is left; a board span never is. */
  predicate IsComplete(s: Span)
  {
    match s
    case Row(x) => x == {}
    case Col(x) => x == {}
    case BoardSpan(_, _) => false
  }

  /** Marks a number on a span and says whether the span is now complete. */
  function CallOn(s: Span, num: nat): (r: (Span, bool))
    requires num < 128
    ensures r.1 == IsComplete(r.0)
    ensures r.0.Row? == s.Row? && r.0.Col? == s.Col? && r.0.BoardSpan? == s.BoardSpan?
  {
    var t := match s
      case Row(x) => Row(x - {num})
      case Col(x) => Col(x - {num})
      case BoardSpan(i, x) => BoardSpan(i, x - num);
    (t, IsComplete(t))
  }

  /** Calling a number undoes inserting it, for a span that did not hold it yet. */
  lemma CallUndoesInsert(s: Span, num: nat)
    requires num < 128
    requires !s.BoardSpan? ==> num !in s.bits
    ensures CallOn(Insert(s, num), num).0 == s
  {
    match s
    case Row(x) => assert (x + {num}) - {num} == x;
    case Col(x) => assert (x + {num}) - {num} == x;
    case BoardSpan(_, _) =>
  }

  /** A call completes a line exactly when the called number is all that was left of it. */
  lemma CallCompletesLine(s: Span, num: nat)
    requires num < 128
    ensures CallOn(s, num).1 <==> !s.BoardSpan? && s.bits <= {num}
  {
  }

  // ------------------------------------------------------------------
  // Boards and the reference game
  // ------------------------------------------------------------------

  type Board = seq<seq<nat>>

  /** What building the index asserts of a board (5 x 5), plus numbers below 128. */
  predicate WellFormedBoard(b: Board)
  {
    |b| == 5 && forall r :: 0 <= r < 5 ==> |b[r]| == 5 && forall c :: 0 <= c < 5 ==> b[r][c] < 128
  }

  predicate WellFormed(boards: seq<Board>)
  {
    forall i :: 0 <= i < |boards| ==> WellFormedBoard(boards[i])
  }

  /** A board repeats no number (true of every puzzle input). */
  predicate BoardDistinct(b: Board)
    requires WellFormedBoard(b)
  {
    forall r1, c1, r2, c2 | 0 <= r1 < 5 && 0 <= c1 < 5 && 0 <= r2 < 5 && 0 <= c2 < 5 ::
      b[r1][c1] == b[r2][c2] ==> r1 == r2 && c1 == c2
  }

  predicate DistinctCells(boards: seq<Board>)
    requires WellFormed(boards)
  {
    forall i :: 0 <= i < |boards| ==> BoardDistinct(boards[i])
  }

  function RowSet(b: Board, r: nat): set<nat>
    requires WellFormedBoard(b) && r < 5
  {
    set c | 0 <= c < 5 :: b[r][c]
  }

  function ColSet(b: Board, c: nat): set<nat>
    requires WellFormedBoard(b) && c < 5
  {
    set r | 0 <= r < 5 :: b[r][c]
  }

  function Marked(calls: seq<nat>): set<nat>
  {
    set n | n in calls
  }

  /** The 25 cells of a board, row by row. */
  function Cells(b: Board): (r: seq<nat>)
    requires WellFormedBoard(b)
    ensures |r| == 25 && forall j :: 0 <= j < 25 ==> r[j] == b[j / 5][j % 5]
  {
    seq(25, j requires 0 <= j < 25 => b[j / 5][j % 5])
  }

  function SumOf(xs: seq<nat>): nat
  {
    if xs == [] then 0 else SumOf(xs[..|xs| - 1]) + xs[|xs| - 1]
  }

  function Occurrences(xs: seq<nat>, n: nat): nat
  {
    if xs == [] then 0 else Occurrences(xs[..|xs| - 1], n) + (if xs[|xs| - 1] == n then 1 else 0)
  }

  /** The board total after a history of calls: each call takes its number off once per cell holding it. */
  function TotalAfter(b: Board, calls: seq<nat>): int
    requires WellFormedBoard(b)
  {
    if calls == [] then SumOf(Cells(b))
    else
      var n := calls[|calls| - 1];
      TotalAfter(b, calls[..|calls| - 1]) - n * Occurrences(Cells(b), n)
  }

  /** The sum of the cells not yet marked. */
  function UnmarkedSum(xs: seq<nat>, marked: set<nat>): nat
  {
    if xs == [] then 0
    else UnmarkedSum(xs[..|xs| - 1], marked) + (if xs[|xs| - 1] in marked then 0 else xs[|xs| - 1])
  }

  lemma {:induction false} UnmarkedStep(xs: seq<nat>, marked: set<nat>, n: nat)
    requires n !in marked
    ensures UnmarkedSum(xs, marked + {n}) == UnmarkedSum(xs, marked) - n * Occurrences(xs, n)
  {
    if xs != [] {
      UnmarkedStep(xs[..|xs| - 1], marked, n);
    }
  }

  /**
   * With no number called twice, the running board total is the sum of the
   * unmarked cells: the score the puzzle asks for.
   */
  lemma {:induction false} TotalIsUnmarkedSum(b: Board, calls: seq<nat>)
    requires WellFormedBoard(b)
    requires forall j, k :: 0 <= j < k < |calls| ==> calls[j] != calls[k]
    ensures TotalAfter(b, calls) == UnmarkedSum(Cells(b), Marked(calls))
  {
    if calls == [] {
      assert Marked(calls) == {};
      UnmarkedNone(Cells(b));
    } else {
      var front := calls[..|calls| - 1];
      var n := calls[|calls| - 1];
      TotalIsUnmarkedSum(b, front);
      assert Marked(calls) == Marked(front) + {n} by {
        assert calls == front + [n];
      }
      forall j | 0 <= j < |front|
        ensures front[j] != n
      {
        assert front[j] == calls[j];
      }
      UnmarkedStep(Cells(b), Marked(front), n);
    }
  }

  lemma {:induction false} UnmarkedNone(xs: seq<nat>)
    ensures UnmarkedSum(xs, {}) == SumOf(xs)
  {
    if xs != [] {
      UnmarkedNone(xs[..|xs| - 1]);
    }
  }

  // ------------------------------------------------------------------
  // Keys and the reference index
  // ------------------------------------------------------------------

  datatype Part = Whole | RowOf(r: nat) | ColOf(c: nat)
  datatype SpanKey = SpanKey(board: nat, part: Part)
  datatype EntryKey = EntryKey(board: nat, row: nat, col: nat)
  datatype Entry = Entry(row: SpanKey, col: SpanKey, board: SpanKey)

  const PARTS: set<Part> := {Whole, RowOf(0), RowOf(1), RowOf(2), RowOf(3), RowOf(4),
                             ColOf(0), ColOf(1), ColOf(2), ColOf(3), ColOf(4)}

  predicate ValidPart(p: Part)
  {
    match p
    case Whole => true
    case RowOf(r) => r < 5
    case ColOf(c) => c < 5
  }

  lemma PartsAreValid(p: Part)
    ensures p in PARTS <==> ValidPart(p)
  {
  }

  /** Every span key of the boards in `live`. */
  function KeysOf(live: set<nat>): set<SpanKey>
  {
    set i, p | i in live && p in PARTS :: SpanKey(i, p)
  }

  lemma KeysOfExactly(live: set<nat>)
    ensures forall k :: k in KeysOf(live) <==> k.board in live && ValidPart(k.part)
  {
    assert forall p :: p in PARTS <==> ValidPart(p);
  }

  /** The order in which building the index records a board's span keys for cleanup. */
  function CleanupList(i: nat): (r: seq<SpanKey>)
    ensures |r| == 11 && r[0] == SpanKey(i, Whole)
    ensures forall j :: 0 <= j < 5 ==> r[1 + j] == SpanKey(i, RowOf(j)) && r[6 + j] == SpanKey(i, ColOf(j))
  {
    [SpanKey(i, Whole)]
    + seq(5, r requires 0 <= r < 5 => SpanKey(i, RowOf(r)))
    + seq(5, c requires 0 <= c < 5 => SpanKey(i, ColOf(c)))
  }

  predicate InRange(live: set<nat>, n: nat)
  {
    forall i :: i in live ==> i < n
  }

  /** The span a key should hold once `calls` have been made. */
  function SpanAt(boards: seq<Board>, calls: seq<nat>, k: SpanKey): Span
    requires WellFormed(boards) && k.board < |boards| && ValidPart(k.part)
  {
    var b := boards[k.board];
    match k.part
    case Whole => BoardSpan(k.board, TotalAfter(b, calls))
    case RowOf(r) => Row(RowSet(b, r) - Marked(calls))
    case ColOf(c) => Col(ColSet(b, c) - Marked(calls))
  }

  function RefSpans(boards: seq<Board>, calls: seq<nat>, live: set<nat>): map<SpanKey, Span>
    requires WellFormed(boards) && InRange(live, |boards|)
  {
    map k | k in KeysOf(live) :: SpanAt(boards, calls, k)
  }

  function RefCleanup(live: set<nat>): map<nat, seq<SpanKey>>
  {
    map i | i in live :: CleanupList(i)
  }

  function EntryOf(ek: EntryKey): Entry
  {
    Entry(SpanKey(ek.board, RowOf(ek.row)), SpanKey(ek.board, ColOf(ek.col)), SpanKey(ek.board, Whole))
  }

  predicate ValidEntryKey(boards: seq<Board>, ek: EntryKey)
  {
    ek.board < |boards| && ek.row < 5 && ek.col < 5
  }

  function ValueAt(boards: seq<Board>, ek: EntryKey): nat
    requires WellFormed(boards) && ValidEntryKey(boards, ek)
  {
    boards[ek.board][ek.row][ek.col]
  }

  /** The cell a position in the visiting order stands for: board by board, row by row. */
  function KeyAt(j: nat): EntryKey
  {
    if j >= 25 then
      var k := KeyAt(j - 25);
      EntryKey(k.board + 1, k.row, k.col)
    else if j >= 5 then
      var k := KeyAt(j - 5);
      EntryKey(0, k.row + 1, k.col)
    else
      EntryKey(0, 0, j)
  }

  function Pos(k: EntryKey): nat
  {
    25 * k.board + 5 * k.row + k.col
  }

  lemma {:induction false} KeyAtPos(k: EntryKey)
    requires k.row < 5 && k.col < 5
    ensures KeyAt(Pos(k)) == k
    decreases Pos(k)
  {
    if k.board > 0 {
      KeyAtPos(EntryKey(k.board - 1, k.row, k.col));
    } else if k.row > 0 {
      KeyAtPos(EntryKey(0, k.row - 1, k.col));
    }
  }

  lemma {:induction false} PosKeyAt(j: nat)
    ensures Pos(KeyAt(j)) == j && KeyAt(j).row < 5 && KeyAt(j).col < 5
  {
    if j >= 25 {
      PosKeyAt(j - 25);
    } else if j >= 5 {
      PosKeyAt(j - 5);
    }
  }

  lemma KeyAtValid(boards: seq<Board>, j: nat)
    requires j < 25 * |boards|
    ensures ValidEntryKey(boards, KeyAt(j))
  {
    PosKeyAt(j);
  }

  /** The cells among the first `m` in visiting order (board by board, row by row) that hold `n`. */
  function NumberUpTo(boards: seq<Board>, m: nat, n: nat): seq<EntryKey>
    requires WellFormed(boards) && m <= 25 * |boards|
  {
    if m == 0 then []
    else
      KeyAtValid(boards, m - 1);
      var k := KeyAt(m - 1);
      NumberUpTo(boards, m - 1, n) + (if ValueAt(boards, k) == n then [k] else [])
  }

  lemma NumberUpToSnoc(boards: seq<Board>, m: nat, n: nat)
    requires WellFormed(boards) && m < 25 * |boards|
    ensures KeyAt(m).row < 5 && KeyAt(m).col < 5 && KeyAt(m).board < |boards|
    ensures NumberUpTo(boards, m + 1, n)
         == NumberUpTo(boards, m, n) + (if ValueAt(boards, KeyAt(m)) == n then [KeyAt(m)] else [])
  {
    KeyAtValid(boards, m);
  }

  predicate Increasing(ks: seq<EntryKey>)
  {
    forall j, k :: 0 <= j < k < |ks| ==> Pos(ks[j]) < Pos(ks[k])
  }

  /** The list is in visiting order and holds only cells of `n` seen so far. */
  lemma {:induction false} NumberUpToSound(boards: seq<Board>, m: nat, n: nat)
    requires WellFormed(boards) && m <= 25 * |boards|
    ensures Increasing(NumberUpTo(boards, m, n))
    ensures forall k :: k in NumberUpTo(boards, m, n) ==> ValidEntryKey(boards, k) && ValueAt(boards, k) == n && Pos(k) < m
  {
    if m > 0 {
      var prev := NumberUpTo(boards, m - 1, n);
      NumberUpToSound(boards, m - 1, n);
      PosKeyAt(m - 1);
      KeyAtValid(boards, m - 1);
      var k := KeyAt(m - 1);
      var cur := NumberUpTo(boards, m, n);
      if ValueAt(boards, k) == n {
        assert cur == prev + [k];
        IncreasingSnoc(prev, k);
        forall x | x in cur
          ensures ValidEntryKey(boards, x) && ValueAt(boards, x) == n && Pos(x) < m
        {
          if x != k {
            assert x in prev;
          }
        }
      } else {
        assert cur == prev;
      }
    }
  }

  lemma IncreasingSnoc(ks: seq<EntryKey>, k: EntryKey)
    requires Increasing(ks) && forall x :: x in ks ==> Pos(x) < Pos(k)
    ensures Increasing(ks + [k])
  {
    var ks' := ks + [k];
    forall a, b | 0 <= a < b < |ks'|
      ensures Pos(ks'[a]) < Pos(ks'[b])
    {
      assert ks'[a] == ks[a] && ks[a] in ks;
      if b < |ks| {
        assert ks'[b] == ks[b];
      }
    }
  }

  /** Every cell of `n` seen so far is in the list. */
  lemma {:induction false} NumberUpToComplete(boards: seq<Board>, m: nat, n: nat, k: EntryKey)
    requires WellFormed(boards) && m <= 25 * |boards|
    requires ValidEntryKey(boards, k) && ValueAt(boards, k) == n && Pos(k) < m
    ensures k in NumberUpTo(boards, m, n)
  {
    if Pos(k) == m - 1 {
      KeyAtPos(k);
    } else {
      NumberUpToComplete(boards, m - 1, n, k);
    }
  }

  /** The entry keys recorded under number `n` once every board is indexed. */
  function EntriesOf(boards: seq<Board>, n: nat): (r: seq<EntryKey>)
    requires WellFormed(boards)
    ensures forall k :: k in r ==> ValidEntryKey(boards, k) && ValueAt(boards, k) == n
  {
    NumberUpToSound(boards, 25 * |boards|, n);
    NumberUpTo(boards, 25 * |boards|, n)
  }

  function Lookup(numbers: map<nat, seq<EntryKey>>, n: nat): seq<EntryKey>
  {
    if n in numbers then numbers[n] else []
  }

  lemma EntriesOfIncreasing(boards: seq<Board>, n: nat)
    requires WellFormed(boards)
    ensures Increasing(EntriesOf(boards, n))
  {
    NumberUpToSound(boards, 25 * |boards|, n);
  }

  /** Every cell holding `n` is recorded under `n`. */
  lemma EntriesOfComplete(boards: seq<Board>, n: nat, k: EntryKey)
    requires WellFormed(boards) && ValidEntryKey(boards, k) && ValueAt(boards, k) == n
    ensures k in EntriesOf(boards, n)
  {
    NumberUpToComplete(boards, 25 * |boards|, n, k);
  }

  // ------------------------------------------------------------------
  // Occurrences of the called number on a board
  // ------------------------------------------------------------------

  lemma {:induction false} OccurrencesNone(xs: seq<nat>, n: nat)
    requires forall j :: 0 <= j < |xs| ==> xs[j] != n
    ensures Occurrences(xs, n) == 0
  {
    if xs != [] {
      OccurrencesNone(xs[..|xs| - 1], n);
    }
  }

  lemma {:induction false} OccurrencesOne(xs: seq<nat>, n: nat, at: nat)
    requires at < |xs| && xs[at] == n
    requires forall j :: 0 <= j < |xs| && j != at ==> xs[j] != n
    ensures Occurrences(xs, n) == 1
  {
    var init := xs[..|xs| - 1];
    if at == |xs| - 1 {
      OccurrencesNone(init, n);
    } else {
      OccurrencesOne(init, n, at);
    }
  }

  /** A board without the number: calling it changes none of the board's spans. */
  lemma Absent(b: Board, n: nat)
    requires WellFormedBoard(b)
    requires forall r, c :: 0 <= r < 5 && 0 <= c < 5 ==> b[r][c] != n
    ensures Occurrences(Cells(b), n) == 0
    ensures forall r :: 0 <= r < 5 ==> n !in RowSet(b, r) && n !in ColSet(b, r)
  {
    OccurrencesNone(Cells(b), n);
  }

  /** A board holding the number once, at (r, c): only that row and that column see it. */
  lemma OnlyCell(b: Board, r: nat, c: nat)
    requires WellFormedBoard(b) && BoardDistinct(b) && r < 5 && c < 5
    ensures Occurrences(Cells(b), b[r][c]) == 1
    ensures forall r' :: 0 <= r' < 5 && r' != r ==> b[r][c] !in RowSet(b, r')
    ensures forall c' :: 0 <= c' < 5 && c' != c ==> b[r][c] !in ColSet(b, c')
  {
    OccurrencesOne(Cells(b), b[r][c], 5 * r + c);
  }

  lemma MarkedSnoc(calls: seq<nat>, n: nat)
    ensures Marked(calls + [n]) == Marked(calls) + {n}
  {
  }

  // ------------------------------------------------------------------
  // The reference call
  // ------------------------------------------------------------------

  /** The winner an entry of the called number yields: its board, if its row or column is now fully marked. */
  function WinnerAt(boards: seq<Board>, calls: seq<nat>, live: set<nat>, num: nat, k: EntryKey): seq<(nat, int)>
    requires WellFormed(boards) && ValidEntryKey(boards, k)
  {
    var b := boards[k.board];
    var marked := Marked(calls + [num]);
    if k.board in live && (RowSet(b, k.row) - marked == {} || ColSet(b, k.col) - marked == {})
    then [(k.board, TotalAfter(b, calls + [num]) * num)]
    else []
  }

  function WinnersAmong(boards: seq<Board>, calls: seq<nat>, live: set<nat>, num: nat, ks: seq<EntryKey>): seq<(nat, int)>
    requires WellFormed(boards) && forall k :: k in ks ==> ValidEntryKey(boards, k)
  {
    if ks == [] then []
    else WinnersAmong(boards, calls, live, num, ks[..|ks| - 1]) + WinnerAt(boards, calls, live, num, ks[|ks| - 1])
  }

  /** The winners of calling `num` on the boards in `live`, in the order of the number's entries. */
  function RefWinners(boards: seq<Board>, calls: seq<nat>, live: set<nat>, num: nat): seq<(nat, int)>
    requires WellFormed(boards)
  {
    WinnersAmong(boards, calls, live, num, EntriesOf(boards, num))
  }

  function WinnerBoards(ws: seq<(nat, int)>): set<nat>
  {
    set w | w in ws :: w.0
  }

  function BoardsOf(ks: seq<EntryKey>): set<nat>
  {
    set k | k in ks :: k.board
  }

  /** The spans with the boards in `done` already updated by the call of `num`. */
  function Mixed(boards: seq<Board>, calls: seq<nat>, num: nat, live: set<nat>, done: set<nat>): map<SpanKey, Span>
    requires WellFormed(boards) && InRange(live, |boards|)
  {
    map k | k in KeysOf(live) ::
      if k.board in done then SpanAt(boards, calls + [num], k) else SpanAt(boards, calls, k)
  }

  // ------------------------------------------------------------------
  // What the reference winners mean
  // ------------------------------------------------------------------

  /** The cell of `num` lies on a row or a column all of whose numbers are called. */
  ghost predicate Bingo(b: Board, calls: seq<nat>, num: nat)
    requires WellFormedBoard(b)
  {
    exists r, c :: 0 <= r < 5 && 0 <= c < 5 && b[r][c] == num &&
      (RowSet(b, r) <= Marked(calls) || ColSet(b, c) <= Marked(calls))
  }

  lemma EmptyDifference(s: set<nat>, t: set<nat>)
    ensures s - t == {} <==> s <= t
  {
    if s - t == {} {
      forall x | x in s
        ensures x in t
      {
        assert x !in s - t;
      }
    }
  }

  lemma {:induction false} WinnersAmongSound(boards: seq<Board>, calls: seq<nat>, live: set<nat>, num: nat,
                                             ks: seq<EntryKey>)
    requires WellFormed(boards)
    requires forall k :: k in ks ==> ValidEntryKey(boards, k) && ValueAt(boards, k) == num
    ensures forall w | w in WinnersAmong(boards, calls, live, num, ks) ::
              w.0 in live && w.0 < |boards| && Bingo(boards[w.0], calls + [num], num) &&
              w.1 == TotalAfter(boards[w.0], calls + [num]) * num
  {
    if ks != [] {
      WinnersAmongSound(boards, calls, live, num, ks[..|ks| - 1]);
      var k := ks[|ks| - 1];
      assert k in ks;
      var b := boards[k.board];
      var marked := Marked(calls + [num]);
      EmptyDifference(RowSet(b, k.row), marked);
      EmptyDifference(ColSet(b, k.col), marked);
      assert b[k.row][k.col] == num;
    }
  }

  lemma {:induction false} WinnersAmongHas(boards: seq<Board>, calls: seq<nat>, live: set<nat>, num: nat,
                                           ks: seq<EntryKey>, k: EntryKey)
    requires WellFormed(boards) && forall k :: k in ks ==> ValidEntryKey(boards, k)
    requires k in ks
    ensures forall w | w in WinnerAt(boards, calls, live, num, k) :: w in WinnersAmong(boards, calls, live, num, ks)
  {
    var init := ks[..|ks| - 1];
    if k != ks[|ks| - 1] {
      assert ks == init + [ks[|ks| - 1]];
      assert k in init;
      WinnersAmongHas(boards, calls, live, num, init, k);
    }
  }

  /**
   * Every winner of a call is a board still playing on which the called number
   * completes a row or a column; its score is the board's running total times
   * the number. Only boards still playing win.
   */
  lemma RefWinnersSound(boards: seq<Board>, calls: seq<nat>, live: set<nat>, num: nat)
    requires WellFormed(boards)
    ensures forall w | w in RefWinners(boards, calls, live, num) ::
              w.0 in live && w.0 < |boards| && Bingo(boards[w.0], calls + [num], num) &&
              w.1 == TotalAfter(boards[w.0], calls + [num]) * num
    ensures WinnerBoards(RefWinners(boards, calls, live, num)) <= live
  {
    WinnersAmongSound(boards, calls, live, num, EntriesOf(boards, num));
  }

  /** A board still playing whose row or column through the called number is now all called wins. */
  lemma RefWinnersComplete(boards: seq<Board>, calls: seq<nat>, live: set<nat>, num: nat, i: nat, r: nat, c: nat)
    requires WellFormed(boards) && i < |boards| && i in live && r < 5 && c < 5 && boards[i][r][c] == num
    requires RowSet(boards[i], r) <= Marked(calls + [num]) || ColSet(boards[i], c) <= Marked(calls + [num])
    ensures i in WinnerBoards(RefWinners(boards, calls, live, num))
  {
    var k := EntryKey(i, r, c);
    EntriesOfComplete(boards, num, k);
    WinnersAmongHas(boards, calls, live, num, EntriesOf(boards, num), k);
    var w := (i, TotalAfter(boards[i], calls + [num]) * num);
    assert w in WinnerAt(boards, calls, live, num, k);
    assert w in RefWinners(boards, calls, live, num);
  }

  /** With no number called twice, a winner's score is its unmarked sum times the called number. */
  lemma RefWinnersScore(boards: seq<Board>, calls: seq<nat>, live: set<nat>, num: nat, w: (nat, int))
    requires WellFormed(boards)
    requires forall j, k :: 0 <= j < k < |calls + [num]| ==> (calls + [num])[j] != (calls + [num])[k]
    requires w in RefWinners(boards, calls, live, num)
    ensures w.0 < |boards| && w.1 == UnmarkedSum(Cells(boards[w.0]), Marked(calls + [num])) * num
  {
    RefWinnersSound(boards, calls, live, num);
    TotalIsUnmarkedSum(boards[w.0], calls + [num]);
  }

  lemma {:induction false} WinnersAmongBoards(boards: seq<Board>, calls: seq<nat>, live: set<nat>, num: nat,
                                              ks: seq<EntryKey>)
    requires WellFormed(boards) && forall k :: k in ks ==> ValidEntryKey(boards, k)
    ensures forall w | w in WinnersAmong(boards, calls, live, num, ks) :: w.0 in BoardsOf(ks)
  {
    if ks != [] {
      var init := ks[..|ks| - 1];
      WinnersAmongBoards(boards, calls, live, num, init);
      assert ks == init + [ks[|ks| - 1]];
      assert BoardsOf(init) <= BoardsOf(ks);
    }
  }

  /** No board is listed twice. */
  predicate OncePerBoard(ws: seq<(nat, int)>)
  {
    forall x, y | 0 <= x < y < |ws| :: ws[x].0 != ws[y].0
  }

  lemma {:induction false} WinnersAmongOnce(boards: seq<Board>, calls: seq<nat>, live: set<nat>, num: nat,
                                            ks: seq<EntryKey>)
    requires WellFormed(boards) && DistinctCells(boards) && Increasing(ks)
    requires forall k :: k in ks ==> ValidEntryKey(boards, k) && ValueAt(boards, k) == num
    ensures OncePerBoard(WinnersAmong(boards, calls, live, num, ks))
  {
    if ks != [] {
      var init := ks[..|ks| - 1];
      var last := ks[|ks| - 1];
      WinnersAmongOnce(boards, calls, live, num, init);
      WinnersAmongBoards(boards, calls, live, num, init);
      var front := WinnersAmong(boards, calls, live, num, init);
      LastBoardNew(boards, num, ks);
      OnceSnoc(front, WinnerAt(boards, calls, live, num, last), last.board);
    }
  }

  lemma OnceSnoc(front: seq<(nat, int)>, at: seq<(nat, int)>, b: nat)
    requires OncePerBoard(front) && forall w | w in front :: w.0 != b
    requires |at| <= 1 && forall w | w in at :: w.0 == b
    ensures OncePerBoard(front + at)
  {
    var ws := front + at;
    forall x, y | 0 <= x < y < |ws|
      ensures ws[x].0 != ws[y].0
    {
      if y < |front| {
        assert ws[x] == front[x] && ws[y] == front[y];
      } else {
        assert ws[x] == front[x] && ws[y] == at[0];
        assert front[x] in front && at[0] in at;
      }
    }
  }

  /** A board wins at most once per call, even when a row and a column complete together. */
  lemma RefWinnersOnce(boards: seq<Board>, calls: seq<nat>, live: set<nat>, num: nat)
    requires WellFormed(boards) && DistinctCells(boards)
    ensures OncePerBoard(RefWinners(boards, calls, live, num))
  {
    EntriesOfIncreasing(boards, num);
    WinnersAmongOnce(boards, calls, live, num, EntriesOf(boards, num));
    assert RefWinners(boards, calls, live, num) == WinnersAmong(boards, calls, live, num, EntriesOf(boards, num));
  }

  /** A board that has won is no longer playing, so no later call lets it win again. */
  lemma WinnerNeverAgain(boards: seq<Board>, calls: seq<nat>, live: set<nat>, num: nat, later: seq<nat>, next: nat,
                         live': set<nat>)
    requires WellFormed(boards)
    requires live' <= live - WinnerBoards(RefWinners(boards, calls, live, num))
    ensures WinnerBoards(RefWinners(boards, calls + [num] + later, live', next))
            !! WinnerBoards(RefWinners(boards, calls, live, num))
  {
    RefWinnersSound(boards, calls + [num] + later, live', next);
  }

  // ------------------------------------------------------------------
  // What a call does to the index maps
  // ------------------------------------------------------------------

  /** One entry of the called number: mark it on its board, row and column spans; a completed line wins. */
  function Visit(entries: map<EntryKey, Entry>, spans: map<SpanKey, Span>, winners: seq<(nat, int)>,
                 ek: EntryKey, num: nat): (map<SpanKey, Span>, seq<(nat, int)>)
    requires num < 128
  {
    if ek !in entries then (spans, winners)
    else
      var e := entries[ek];
      if e.row !in spans || e.col !in spans || e.board !in spans
         || e.row == e.col || e.row == e.board || e.col == e.board
      then (spans, winners)
      else
        var board := CallOn(spans[e.board], num).0;
        var row := CallOn(spans[e.row], num);
        var col := CallOn(spans[e.col], num);
        var next := spans[e.board := board][e.row := row.0][e.col := col.0];
        if (row.1 || col.1) && Score(board).Some?
        then (next, winners + [(Score(board).value.0, Score(board).value.1 * num)])
        else (next, winners)
  }

  function InnerFold(entries: map<EntryKey, Entry>, spans: map<SpanKey, Span>, ks: seq<EntryKey>, num: nat)
    : (map<SpanKey, Span>, seq<(nat, int)>)
    requires num < 128
  {
    if ks == [] then (spans, [])
    else
      var prev := InnerFold(entries, spans, ks[..|ks| - 1], num);
      Visit(entries, prev.0, prev.1, ks[|ks| - 1], num)
  }

  function Forget(spans: map<SpanKey, Span>, ks: seq<SpanKey>): map<SpanKey, Span>
  {
    if ks == [] then spans else Forget(spans, ks[..|ks| - 1]) - {ks[|ks| - 1]}
  }

  /** Removing a winner: its cleanup list goes, and every span in it. */
  function RemoveBoard(cleanup: map<nat, seq<SpanKey>>, spans: map<SpanKey, Span>, i: nat)
    : (map<nat, seq<SpanKey>>, map<SpanKey, Span>)
  {
    if i in cleanup then (cleanup - {i}, Forget(spans, cleanup[i])) else (cleanup, spans)
  }

  function RemoveWinners(cleanup: map<nat, seq<SpanKey>>, spans: map<SpanKey, Span>, ws: seq<(nat, int)>)
    : (map<nat, seq<SpanKey>>, map<SpanKey, Span>)
  {
    if ws == [] then (cleanup, spans)
    else
      var prev := RemoveWinners(cleanup, spans, ws[..|ws| - 1]);
      RemoveBoard(prev.0, prev.1, ws[|ws| - 1].0)
  }

  // ------------------------------------------------------------------
  // A call on a well-built index follows the reference
  // ------------------------------------------------------------------

  ghost predicate EntriesBuilt(boards: seq<Board>, entries: map<EntryKey, Entry>)
  {
    (forall k :: k in entries <==> ValidEntryKey(boards, k)) &&
    (forall k :: k in entries ==> entries[k] == EntryOf(k))
  }

  lemma MixedNone(boards: seq<Board>, calls: seq<nat>, num: nat, live: set<nat>)
    requires WellFormed(boards) && InRange(live, |boards|)
    ensures Mixed(boards, calls, num, live, {}) == RefSpans(boards, calls, live)
  {
  }

  /** Once every board holding `num` is updated, the spans are those after the call. */
  lemma MixedAll(boards: seq<Board>, calls: seq<nat>, num: nat, live: set<nat>, done: set<nat>)
    requires WellFormed(boards) && InRange(live, |boards|)
    requires forall k :: ValidEntryKey(boards, k) && ValueAt(boards, k) == num ==> k.board in done
    ensures Mixed(boards, calls, num, live, done) == RefSpans(boards, calls + [num], live)
  {
    var m := Mixed(boards, calls, num, live, done);
    var n := RefSpans(boards, calls + [num], live);
    assert m.Keys == n.Keys;
    forall k | k in m && k.board !in done
      ensures m[k] == n[k]
    {
      var b := boards[k.board];
      forall r, c | 0 <= r < 5 && 0 <= c < 5
        ensures b[r][c] != num
      {
        assert ValidEntryKey(boards, EntryKey(k.board, r, c));
      }
      Untouched(boards, calls, num, k);
    }
    assert m == n;
  }

  /** A span of a board that does not hold the called number does not change. */
  lemma Untouched(boards: seq<Board>, calls: seq<nat>, num: nat, k: SpanKey)
    requires WellFormed(boards) && k.board < |boards| && ValidPart(k.part)
    requires forall r, c :: 0 <= r < 5 && 0 <= c < 5 ==> boards[k.board][r][c] != num
    ensures SpanAt(boards, calls, k) == SpanAt(boards, calls + [num], k)
  {
    var b := boards[k.board];
    MarkedSnoc(calls, num);
    Absent(b, num);
    match k.part
    case Whole =>
    case RowOf(r) =>
      assert RowSet(b, r) - Marked(calls + [num]) == RowSet(b, r) - Marked(calls);
    case ColOf(c) =>
      assert ColSet(b, c) - Marked(calls + [num]) == ColSet(b, c) - Marked(calls);
  }

  lemma VisitStep(boards: seq<Board>, calls: seq<nat>, live: set<nat>, num: nat,
                  entries: map<EntryKey, Entry>, done: set<nat>, w: seq<(nat, int)>, ek: EntryKey)
    requires WellFormed(boards) && DistinctCells(boards) && InRange(live, |boards|) && num < 128
    requires EntriesBuilt(boards, entries)
    requires ValidEntryKey(boards, ek) && ValueAt(boards, ek) == num && ek.board !in done
    ensures Visit(entries, Mixed(boards, calls, num, live, done), w, ek, num)
         == (Mixed(boards, calls, num, live, done + {ek.board}), w + WinnerAt(boards, calls, live, num, ek))
  {
    assert entries[ek] == EntryOf(ek);
    if ek.board in live {
      VisitLive(boards, calls, live, num, entries, done, w, ek);
    } else {
      VisitDead(boards, calls, live, num, entries, done, w, ek);
    }
  }

  lemma VisitLive(boards: seq<Board>, calls: seq<nat>, live: set<nat>, num: nat,
                  entries: map<EntryKey, Entry>, done: set<nat>, w: seq<(nat, int)>, ek: EntryKey)
    requires WellFormed(boards) && DistinctCells(boards) && InRange(live, |boards|) && num < 128
    requires ValidEntryKey(boards, ek) && ValueAt(boards, ek) == num && ek.board !in done && ek.board in live
    requires ek in entries && entries[ek] == EntryOf(ek)
    ensures Visit(entries, Mixed(boards, calls, num, live, done), w, ek, num)
         == (Mixed(boards, calls, num, live, done + {ek.board}), w + WinnerAt(boards, calls, live, num, ek))
  {
    var i := ek.board;
    var b := boards[i];
    var after := calls + [num];
    var before := Mixed(boards, calls, num, live, done);
    var e := EntryOf(ek);
    assert e.board in before && e.row in before && e.col in before by {
      assert e.board in KeysOf(live) && e.row in KeysOf(live) && e.col in KeysOf(live);
    }
    assert CallOn(before[e.board], num).0 == SpanAt(boards, after, e.board) by {
      OnlyCell(b, ek.row, ek.col);
    }
    assert CallOn(before[e.row], num).0 == SpanAt(boards, after, e.row) by {
      MarkedSnoc(calls, num);
    }
    assert CallOn(before[e.col], num).0 == SpanAt(boards, after, e.col) by {
      MarkedSnoc(calls, num);
    }
    VisitThree(entries, before, w, ek, num);
    MixedUpdate(boards, calls, num, live, done, ek);
  }

  /** `Visit` on an entry whose three spans are present. */
  lemma VisitThree(entries: map<EntryKey, Entry>, spans: map<SpanKey, Span>, w: seq<(nat, int)>, ek: EntryKey, num: nat)
    requires num < 128 && ek in entries
    requires var e := entries[ek];
             e.row in spans && e.col in spans && e.board in spans && e.row != e.col && e.row != e.board && e.col != e.board
    requires spans[entries[ek].board].BoardSpan?
    ensures var e := entries[ek];
            var board := CallOn(spans[e.board], num).0;
            var row := CallOn(spans[e.row], num);
            var col := CallOn(spans[e.col], num);
            Visit(entries, spans, w, ek, num)
            == (spans[e.board := board][e.row := row.0][e.col := col.0],
                w + if row.1 || col.1 then [(board.index, board.total * num)] else [])
  {
    var e := entries[ek];
    var row := CallOn(spans[e.row], num);
    var col := CallOn(spans[e.col], num);
    if !(row.1 || col.1) {
      assert w + [] == w;
    }
  }

  /** Updating the three spans of the called cell moves its whole board to "after the call". */
  lemma MixedUpdate(boards: seq<Board>, calls: seq<nat>, num: nat, live: set<nat>, done: set<nat>, ek: EntryKey)
    requires WellFormed(boards) && DistinctCells(boards) && InRange(live, |boards|)
    requires ValidEntryKey(boards, ek) && ValueAt(boards, ek) == num && ek.board in live
    ensures var e := EntryOf(ek);
            var before := Mixed(boards, calls, num, live, done);
            before[e.board := SpanAt(boards, calls + [num], e.board)]
                  [e.row := SpanAt(boards, calls + [num], e.row)]
                  [e.col := SpanAt(boards, calls + [num], e.col)]
            == Mixed(boards, calls, num, live, done + {ek.board})
  {
    var i := ek.board;
    var e := EntryOf(ek);
    var before := Mixed(boards, calls, num, live, done);
    var after := Mixed(boards, calls, num, live, done + {i});
    var next := before[e.board := SpanAt(boards, calls + [num], e.board)]
                      [e.row := SpanAt(boards, calls + [num], e.row)]
                      [e.col := SpanAt(boards, calls + [num], e.col)];
    KeysOfExactly(live);
    forall k
      ensures k in next <==> k in after
    {
    }
    forall k | k in after
      ensures next[k] == after[k]
    {
      if k.board == i && k != e.board && k != e.row && k != e.col {
        Unaffected(boards, calls, num, ek, k);
      }
    }
    assert next == after;
  }

  /** A span of the called cell's board other than its row, column and board span does not change. */
  lemma Unaffected(boards: seq<Board>, calls: seq<nat>, num: nat, ek: EntryKey, k: SpanKey)
    requires WellFormed(boards) && DistinctCells(boards)
    requires ValidEntryKey(boards, ek) && ValueAt(boards, ek) == num
    requires k.board == ek.board && ValidPart(k.part)
    requires k != SpanKey(ek.board, Whole) && k != SpanKey(ek.board, RowOf(ek.row)) && k != SpanKey(ek.board, ColOf(ek.col))
    ensures SpanAt(boards, calls, k) == SpanAt(boards, calls + [num], k)
  {
    var b := boards[ek.board];
    MarkedSnoc(calls, num);
    OnlyCell(b, ek.row, ek.col);
    match k.part
    case RowOf(r) =>
      assert num !in RowSet(b, r);
      assert RowSet(b, r) - Marked(calls + [num]) == RowSet(b, r) - Marked(calls);
    case ColOf(c) =>
      assert num !in ColSet(b, c);
      assert ColSet(b, c) - Marked(calls + [num]) == ColSet(b, c) - Marked(calls);
  }

  lemma VisitDead(boards: seq<Board>, calls: seq<nat>, live: set<nat>, num: nat,
                  entries: map<EntryKey, Entry>, done: set<nat>, w: seq<(nat, int)>, ek: EntryKey)
    requires WellFormed(boards) && InRange(live, |boards|) && num < 128
    requires ValidEntryKey(boards, ek) && ek.board !in live
    requires ek in entries && entries[ek] == EntryOf(ek)
    ensures Visit(entries, Mixed(boards, calls, num, live, done), w, ek, num)
         == (Mixed(boards, calls, num, live, done + {ek.board}), w + WinnerAt(boards, calls, live, num, ek))
  {
    var before := Mixed(boards, calls, num, live, done);
    assert SpanKey(ek.board, Whole) !in before;
    assert before == Mixed(boards, calls, num, live, done + {ek.board});
    assert WinnerAt(boards, calls, live, num, ek) == [];
    assert w + [] == w;
  }

  /** Two distinct cells holding the same number lie on different boards. */
  lemma DifferentBoards(boards: seq<Board>, k1: EntryKey, k2: EntryKey)
    requires WellFormed(boards) && DistinctCells(boards)
    requires ValidEntryKey(boards, k1) && ValidEntryKey(boards, k2)
    requires ValueAt(boards, k1) == ValueAt(boards, k2) && Pos(k1) < Pos(k2)
    ensures k1.board != k2.board
  {
    assert BoardDistinct(boards[k1.board]);
  }

  lemma {:induction false} InnerFoldCorrect(boards: seq<Board>, calls: seq<nat>, live: set<nat>, num: nat,
                                            entries: map<EntryKey, Entry>, ks: seq<EntryKey>)
    requires WellFormed(boards) && DistinctCells(boards) && InRange(live, |boards|) && num < 128
    requires EntriesBuilt(boards, entries)
    requires forall k :: k in ks ==> ValidEntryKey(boards, k) && ValueAt(boards, k) == num
    requires Increasing(ks)
    ensures InnerFold(entries, RefSpans(boards, calls, live), ks, num)
         == (Mixed(boards, calls, num, live, BoardsOf(ks)), WinnersAmong(boards, calls, live, num, ks))
  {
    if ks == [] {
      assert BoardsOf(ks) == {};
      MixedNone(boards, calls, num, live);
    } else {
      var init := ks[..|ks| - 1];
      assert forall k :: k in init ==> k in ks;
      assert Increasing(init);
      InnerFoldCorrect(boards, calls, live, num, entries, init);
      InnerFoldStep(boards, calls, live, num, entries, ks);
    }
  }

  lemma InnerFoldStep(boards: seq<Board>, calls: seq<nat>, live: set<nat>, num: nat,
                      entries: map<EntryKey, Entry>, ks: seq<EntryKey>)
    requires WellFormed(boards) && DistinctCells(boards) && InRange(live, |boards|) && num < 128
    requires EntriesBuilt(boards, entries)
    requires forall k :: k in ks ==> ValidEntryKey(boards, k) && ValueAt(boards, k) == num
    requires Increasing(ks) && ks != []
    requires var init := ks[..|ks| - 1];
             InnerFold(entries, RefSpans(boards, calls, live), init, num)
             == (Mixed(boards, calls, num, live, BoardsOf(init)), WinnersAmong(boards, calls, live, num, init))
    ensures InnerFold(entries, RefSpans(boards, calls, live), ks, num)
         == (Mixed(boards, calls, num, live, BoardsOf(ks)), WinnersAmong(boards, calls, live, num, ks))
  {
    var init := ks[..|ks| - 1];
    var last := ks[|ks| - 1];
    LastBoardNew(boards, num, ks);
    BoardsOfSnoc(ks);
    VisitStep(boards, calls, live, num, entries, BoardsOf(init),
              WinnersAmong(boards, calls, live, num, init), last);
  }

  /** The last of increasing entries of one number sits on a board none of the others is on. */
  lemma LastBoardNew(boards: seq<Board>, num: nat, ks: seq<EntryKey>)
    requires WellFormed(boards) && DistinctCells(boards)
    requires forall k :: k in ks ==> ValidEntryKey(boards, k) && ValueAt(boards, k) == num
    requires Increasing(ks) && ks != []
    ensures ks[|ks| - 1].board !in BoardsOf(ks[..|ks| - 1])
  {
    var init := ks[..|ks| - 1];
    var last := ks[|ks| - 1];
    forall k | k in init
      ensures k.board != last.board
    {
      var j :| 0 <= j < |init| && init[j] == k;
      assert ks[j] == k;
      DifferentBoards(boards, k, last);
    }
  }

  lemma BoardsOfSnoc(ks: seq<EntryKey>)
    requires ks != []
    ensures BoardsOf(ks) == BoardsOf(ks[..|ks| - 1]) + {ks[|ks| - 1].board}
  {
    assert ks == ks[..|ks| - 1] + [ks[|ks| - 1]];
  }

  /**
   * On an index built from the boards, with `calls` made and the boards in `live`
   * still playing, calling `num` leaves every span as the reference says and
   * yields exactly the reference winners.
   */
  lemma InnerCallCorrect(boards: seq<Board>, calls: seq<nat>, live: set<nat>, num: nat,
                         entries: map<EntryKey, Entry>, numbers: map<nat, seq<EntryKey>>)
    requires WellFormed(boards) && DistinctCells(boards) && InRange(live, |boards|) && num < 128
    requires EntriesBuilt(boards, entries)
    requires forall n :: Lookup(numbers, n) == EntriesOf(boards, n)
    ensures InnerFold(entries, RefSpans(boards, calls, live), Lookup(numbers, num), num)
         == (RefSpans(boards, calls + [num], live), RefWinners(boards, calls, live, num))
  {
    var ks := EntriesOf(boards, num);
    EntriesOfIncreasing(boards, num);
    InnerFoldCorrect(boards, calls, live, num, entries, ks);
    forall k | ValidEntryKey(boards, k) && ValueAt(boards, k) == num
      ensures k.board in BoardsOf(ks)
    {
      EntriesOfComplete(boards, num, k);
    }
    MixedAll(boards, calls, num, live, BoardsOf(ks));
  }

  lemma {:induction false} ForgetRemoves(spans: map<SpanKey, Span>, ks: seq<SpanKey>)
    ensures Forget(spans, ks) == spans - (set k | k in ks)
  {
    if ks != [] {
      var init := ks[..|ks| - 1];
      ForgetRemoves(spans, init);
      assert (set k | k in ks) == (set k | k in init) + {ks[|ks| - 1]} by {
        assert ks == init + [ks[|ks| - 1]];
      }
    }
  }

  lemma RemoveBoardCorrect(boards: seq<Board>, calls: seq<nat>, live: set<nat>, i: nat)
    requires WellFormed(boards) && InRange(live, |boards|)
    ensures RemoveBoard(RefCleanup(live), RefSpans(boards, calls, live), i)
         == (RefCleanup(live - {i}), RefSpans(boards, calls, live - {i}))
  {
    if i in live {
      ForgetRemoves(RefSpans(boards, calls, live), CleanupList(i));
      CleanupListKeys(live, i);
      assert RefCleanup(live) - {i} == RefCleanup(live - {i});
      SpansWithout(boards, calls, live, i);
    } else {
      assert live - {i} == live;
    }
  }

  /** The cleanup list of a board names exactly its span keys. */
  lemma CleanupListExactly(i: nat)
    ensures forall k :: k in CleanupList(i) <==> k.board == i && ValidPart(k.part)
  {
    forall k: SpanKey | k.board == i && ValidPart(k.part)
      ensures k in CleanupList(i)
    {
      match k.part
      case Whole => assert k == CleanupList(i)[0];
      case RowOf(r) => assert k == CleanupList(i)[1 + r];
      case ColOf(c) => assert k == CleanupList(i)[6 + c];
    }
  }

  /** The cleanup list of a board names exactly that board's span keys. */
  lemma CleanupListKeys(live: set<nat>, i: nat)
    ensures forall k :: k in KeysOf(live) ==> (k in CleanupList(i) <==> k.board == i)
  {
    forall k | k in KeysOf(live) && k.board == i
      ensures k in CleanupList(i)
    {
      match k.part
      case Whole => assert k == CleanupList(i)[0];
      case RowOf(r) => assert k == CleanupList(i)[1 + r];
      case ColOf(c) => assert k == CleanupList(i)[6 + c];
    }
  }

  lemma SpansWithout(boards: seq<Board>, calls: seq<nat>, live: set<nat>, i: nat)
    requires WellFormed(boards) && InRange(live, |boards|)
    requires forall k :: k in KeysOf(live) ==> (k in CleanupList(i) <==> k.board == i)
    ensures RefSpans(boards, calls, live) - (set k | k in CleanupList(i)) == RefSpans(boards, calls, live - {i})
  {
    var m := RefSpans(boards, calls, live) - (set k | k in CleanupList(i));
    var n := RefSpans(boards, calls, live - {i});
    assert forall k :: k in m <==> k in n;
    assert m == n;
  }

  lemma {:induction false} RemoveWinnersCorrect(boards: seq<Board>, calls: seq<nat>, live: set<nat>, ws: seq<(nat, int)>)
    requires WellFormed(boards) && InRange(live, |boards|)
    ensures RemoveWinners(RefCleanup(live), RefSpans(boards, calls, live), ws)
         == (RefCleanup(live - WinnerBoards(ws)), RefSpans(boards, calls, live - WinnerBoards(ws)))
  {
    if ws == [] {
      assert live - WinnerBoards(ws) == live;
    } else {
      var init := ws[..|ws| - 1];
      var i := ws[|ws| - 1].0;
      RemoveWinnersCorrect(boards, calls, live, init);
      RemoveBoardCorrect(boards, calls, live - WinnerBoards(init), i);
      assert WinnerBoards(ws) == WinnerBoards(init) + {i} by {
        assert ws == init + [ws[|ws| - 1]];
      }
      assert live - WinnerBoards(init) - {i} == live - WinnerBoards(ws);
    }
  }

  // ------------------------------------------------------------------
  // The index
  // ------------------------------------------------------------------

  function Indices(n: nat): (r: set<nat>)
    ensures forall i: int :: i in r <==> 0 <= i < n
  {
    if n == 0 then {} else Indices(n - 1) + {n - 1}
  }

  /** The index maps of `boards`, with `calls` made and the boards in `live` still playing. */
  ghost predicate Indexes(boards: seq<Board>, calls: seq<nat>, live: set<nat>,
                          cleanup: map<nat, seq<SpanKey>>, spans: map<SpanKey, Span>,
                          entries: map<EntryKey, Entry>, numbers: map<nat, seq<EntryKey>>)
  {
    WellFormed(boards) && DistinctCells(boards) && InRange(live, |boards|) &&
    cleanup == RefCleanup(live) &&
    spans == RefSpans(boards, calls, live) &&
    EntriesBuilt(boards, entries) &&
    forall n :: Lookup(numbers, n) == EntriesOf(boards, n)
  }

  /** Removing the winners of a call from an index keeps it an index of the remaining boards. */
  lemma IndexesAfterCall(boards: seq<Board>, calls: seq<nat>, live: set<nat>,
                         entries: map<EntryKey, Entry>, numbers: map<nat, seq<EntryKey>>,
                         num: nat, ws: seq<(nat, int)>, cleanup0: map<nat, seq<SpanKey>>, spans0: map<SpanKey, Span>,
                         cleanup: map<nat, seq<SpanKey>>, spans: map<SpanKey, Span>)
    requires Indexes(boards, calls, live, cleanup0, spans0, entries, numbers)
    requires (cleanup, spans) == RemoveWinners(cleanup0, RefSpans(boards, calls + [num], live), ws)
    ensures Indexes(boards, calls + [num], live - WinnerBoards(ws), cleanup, spans, entries, numbers)
  {
    RemoveWinnersCorrect(boards, calls + [num], live, ws);
  }

  class Index {
    var cleanup: map<nat, seq<SpanKey>>
    var spans: map<SpanKey, Span>
    /** Entries and number lists are only written while the index is built. */
    const entries: map<EntryKey, Entry>
    const numbers: map<nat, seq<EntryKey>>
    /** The boards indexed, the numbers called so far and the boards that have not won yet. */
    ghost const boards: seq<Board>
    ghost var calls: seq<nat>
    ghost var live: set<nat>

    ghost predicate Valid()
      reads this
    {
      Indexes(boards, calls, live, cleanup, spans, entries, numbers)
    }

    /**
     * Indexes the boards: per board one board span holding the sum of its
     * numbers, five row spans and five column spans, all listed under the
     * board for cleanup; one entry per cell, recorded under the cell's number.
     */
    constructor(input: seq<Board>)
      requires WellFormed(input)
      ensures boards == input && calls == [] && live == Indices(|input|)
      ensures cleanup == RefCleanup(live) && spans == RefSpans(input, [], live)
      ensures EntriesBuilt(input, entries)
      ensures forall n :: Lookup(numbers, n) == EntriesOf(input, n)
      ensures DistinctCells(input) ==> Valid()
    {
      var cl: map<nat, seq<SpanKey>> := map[];
      var sp: map<SpanKey, Span> := map[];
      var en: map<EntryKey, Entry> := map[];
      var nu: map<nat, seq<EntryKey>> := map[];
      EntriesNone(input);
      for i := 0 to |input|
        invariant cl == RefCleanup(Indices(i)) && sp == RefSpans(input, [], Indices(i))
        invariant EntriesUpTo(input, en, nu, 25 * i)
      {
        var b := input[i];
        var board, rows, cols := BoardSpans(b, i);
        SpansAtStart(input, i);
        CleanupStep(i);
        cl, sp := AddSpans(input, i, cl, sp, board, rows, cols);
        WithBoard(input, i, sp);
        en, nu := AddEntries(input, i, en, nu);
      }
      cleanup, spans, entries, numbers := cl, sp, en, nu;
      boards, calls, live := input, [], Indices(|input|);
      EntriesAll(input, en, nu);
    }

    /**
     * Calls `num` on the index: marks it on the spans of every entry of the
     * number, then forgets every span of each winning board. Yields the
     * winners (board and score) in entry order, or `None` if no board won.
     */
    method CallNumber(num: nat) returns (r: Option<seq<(nat, int)>>)
      requires Valid() && num < 128
      modifies this
      ensures Valid() && calls == old(calls) + [num]
      ensures var w := RefWinners(boards, old(calls), old(live), num);
              r == (if w == [] then None else Some(w)) && live == old(live) - WinnerBoards(w)
    {
      InnerCallCorrect(boards, calls, live, num, entries, numbers);
      r := InnerCallNumber(num);
      ghost var ws := if r.Some? then r.value else [];
      ghost var spans0 := old(spans);
      var cl, sp := cleanup, spans;
      if r.Some? {
        cl, sp := RemoveAll(cl, sp, r.value);
      }
      IndexesAfterCall(boards, calls, live, entries, numbers, num, ws, cleanup, spans0, cl, sp);
      cleanup, spans, calls, live := cl, sp, calls + [num], live - WinnerBoards(ws);
    }

    /** Marks `num` on the spans of its entries and collects the winners, `None` if there are none. */
    method InnerCallNumber(num: nat) returns (r: Option<seq<(nat, int)>>)
      requires num < 128
      modifies this
      ensures cleanup == old(cleanup) && calls == old(calls) && live == old(live)
      ensures var f := InnerFold(entries, old(spans), Lookup(numbers, num), num);
              spans == f.0 && r == if f.1 == [] then None else Some(f.1)
    {
      var ks := Lookup(numbers, num);
      var sp, winners := spans, [];
      for j := 0 to |ks|
        invariant unchanged(this)
        invariant (sp, winners) == InnerFold(entries, spans, ks[..j], num)
      {
        TakeSnoc(ks, j);
        var ek := ks[j];
        if ek in entries {
          var e := entries[ek];
          if e.row in sp && e.col in sp && e.board in sp && e.row != e.col && e.row != e.board && e.col != e.board {
            var board := CallOn(sp[e.board], num);
            var row := CallOn(sp[e.row], num);
            var col := CallOn(sp[e.col], num);
            sp := sp[e.board := board.0][e.row := row.0][e.col := col.0];
            if row.1 || col.1 {
              var score := Score(board.0);
              if score.Some? {
                winners := winners + [(score.value.0, score.value.1 * num)];
              }
            }
          }
        }
      }
      assert ks[..|ks|] == ks;
      spans := sp;
      r := if |winners| > 0 then Some(winners) else None;
    }
  }

  /** The removal loop of a call: each winner's cleanup list is taken out and its spans forgotten. */
  method RemoveAll(cl0: map<nat, seq<SpanKey>>, sp0: map<SpanKey, Span>, ws: seq<(nat, int)>)
    returns (cl: map<nat, seq<SpanKey>>, sp: map<SpanKey, Span>)
    ensures (cl, sp) == RemoveWinners(cl0, sp0, ws)
  {
    cl, sp := cl0, sp0;
    for j := 0 to |ws|
      invariant (cl, sp) == RemoveWinners(cl0, sp0, ws[..j])
    {
      TakeSnoc(ws, j);
      var i := ws[j].0;
      if i in cl {
        var list := cl[i];
        cl := cl - {i};
        var before := sp;
        for t := 0 to |list|
          invariant sp == Forget(before, list[..t])
        {
          TakeSnoc(list, t);
          sp := sp - {list[t]};
        }
        assert list[..|list|] == list;
      }
    }
    assert ws[..|ws|] == ws;
  }

  /** Before any call, a board's spans hold all its numbers and its whole total. */
  lemma SpansAtStart(input: seq<Board>, i: nat)
    requires WellFormed(input) && i < |input|
    ensures SpanAt(input, [], SpanKey(i, Whole)) == BoardSpan(i, SumOf(Cells(input[i])))
    ensures forall r :: 0 <= r < 5 ==> SpanAt(input, [], SpanKey(i, RowOf(r))) == Row(RowSet(input[i], r))
    ensures forall c :: 0 <= c < 5 ==> SpanAt(input, [], SpanKey(i, ColOf(c))) == Col(ColSet(input[i], c))
  {
    assert Marked([]) == {};
  }

  /** Recording one more board's cleanup list gives the cleanup map of one more board. */
  lemma CleanupStep(i: nat)
    ensures i !in RefCleanup(Indices(i))
    ensures RefCleanup(Indices(i))[i := CleanupList(i)] == RefCleanup(Indices(i + 1))
  {
  }

  /** The numbers of row `r` left of column `n`. */
  function RowUpTo(b: Board, r: nat, n: nat): set<nat>
    requires WellFormedBoard(b) && r < 5 && n <= 5
  {
    set c | 0 <= c < n :: b[r][c]
  }

  /** The numbers of column `c` above row `n`. */
  function ColUpTo(b: Board, c: nat, n: nat): set<nat>
    requires WellFormedBoard(b) && c < 5 && n <= 5
  {
    set r | 0 <= r < n :: b[r][c]
  }

  lemma RowUpToStep(b: Board, r: nat, n: nat)
    requires WellFormedBoard(b) && r < 5 && n < 5
    ensures RowUpTo(b, r, n + 1) == RowUpTo(b, r, n) + {b[r][n]}
  {
  }

  lemma ColUpToStep(b: Board, c: nat, n: nat)
    requires WellFormedBoard(b) && c < 5 && n < 5
    ensures ColUpTo(b, c, n + 1) == ColUpTo(b, c, n) + {b[n][c]}
  {
  }

  /** The first loop of building a board: its board span, row spans and column spans. */
  method BoardSpans(b: Board, i: nat) returns (board: Span, rows: seq<Span>, cols: seq<Span>)
    requires WellFormedBoard(b)
    ensures board == BoardSpan(i, SumOf(Cells(b)))
    ensures |rows| == 5 && forall r :: 0 <= r < 5 ==> rows[r] == Row(RowSet(b, r))
    ensures |cols| == 5 && forall c :: 0 <= c < 5 ==> cols[c] == Col(ColSet(b, c))
  {
    board := BoardSpan(i, 0);
    rows := [Row({}), Row({}), Row({}), Row({}), Row({})];
    cols := [Col({}), Col({}), Col({}), Col({}), Col({})];
    for r := 0 to 5
      invariant |rows| == 5 && |cols| == 5
      invariant board == BoardSpan(i, SumOf(Cells(b)[..5 * r]))
      invariant forall r' :: 0 <= r' < 5 ==> rows[r'] == Row(RowUpTo(b, r', if r' < r then 5 else 0))
      invariant forall c' :: 0 <= c' < 5 ==> cols[c'] == Col(ColUpTo(b, c', r))
    {
      var row;
      row, cols, board := InsertRow(b, i, r, cols, board);
      rows := rows[r := row];
    }
    assert Cells(b)[..25] == Cells(b);
  }

  /** The inner loop of building a board: inserts row `r` into its row span, the column spans and the board span. */
  method InsertRow(b: Board, i: nat, r: nat, cols0: seq<Span>, board0: Span)
    returns (row: Span, cols: seq<Span>, board: Span)
    requires WellFormedBoard(b) && r < 5
    requires board0 == BoardSpan(i, SumOf(Cells(b)[..5 * r]))
    requires |cols0| == 5 && forall c' :: 0 <= c' < 5 ==> cols0[c'] == Col(ColUpTo(b, c', r))
    ensures board == BoardSpan(i, SumOf(Cells(b)[..5 * r + 5]))
    ensures row == Row(RowSet(b, r))
    ensures |cols| == 5 && forall c' :: 0 <= c' < 5 ==> cols[c'] == Col(ColUpTo(b, c', r + 1))
  {
    row, cols, board := Row({}), cols0, board0;
    for c := 0 to 5
      invariant |cols| == 5
      invariant board == BoardSpan(i, SumOf(Cells(b)[..5 * r + c]))
      invariant row == Row(RowUpTo(b, r, c))
      invariant forall c' :: 0 <= c' < 5 ==> cols[c'] == Col(ColUpTo(b, c', if c' < c then r + 1 else r))
    {
      var num := b[r][c];
      BoardStep(b, i, r, c);
      RowUpToStep(b, r, c);
      ColsStep(b, r, c, cols);
      row := Insert(row, num);
      cols := cols[c := Insert(cols[c], num)];
      board := Insert(board, num);
    }
    assert RowUpTo(b, r, 5) == RowSet(b, r);
  }

  lemma BoardStep(b: Board, i: nat, r: nat, c: nat)
    requires WellFormedBoard(b) && r < 5 && c < 5
    ensures Insert(BoardSpan(i, SumOf(Cells(b)[..5 * r + c])), b[r][c])
         == BoardSpan(i, SumOf(Cells(b)[..5 * r + c + 1]))
  {
    CellsSnoc(b, r, c);
  }

  lemma ColsStep(b: Board, r: nat, c: nat, cols: seq<Span>)
    requires WellFormedBoard(b) && r < 5 && c < 5
    requires |cols| == 5 && forall c' :: 0 <= c' < 5 ==> cols[c'] == Col(ColUpTo(b, c', if c' < c then r + 1 else r))
    ensures var next := cols[c := Insert(cols[c], b[r][c])];
            forall c' :: 0 <= c' < 5 ==> next[c'] == Col(ColUpTo(b, c', if c' < c + 1 then r + 1 else r))
  {
    ColUpToStep(b, c, r);
  }

  lemma CellsSnoc(b: Board, r: nat, c: nat)
    requires WellFormedBoard(b) && r < 5 && c < 5
    ensures Cells(b)[..5 * r + c + 1] == Cells(b)[..5 * r + c] + [b[r][c]]
  {
    var j := 5 * r + c;
    assert j / 5 == r && j % 5 == c;
    assert Cells(b)[j] == b[r][c];
    TakeSnoc(Cells(b), j);
  }

  /** Whether `k` is among the first `rows` row keys and `cols` column keys of board `i`, board key included. */
  predicate StoredSoFar(k: SpanKey, i: nat, rows: nat, cols: nat)
  {
    k.board == i &&
    match k.part
    case Whole => true
    case RowOf(r) => r < rows
    case ColOf(c) => c < cols
  }

  /** `sp` is `sp0` with the keys `StoredSoFar(_, i, rows, cols)` set to their spans before any call. */
  ghost predicate StoredOver(input: seq<Board>, sp0: map<SpanKey, Span>, sp: map<SpanKey, Span>,
                             i: nat, rows: nat, cols: nat)
    requires WellFormed(input) && i < |input| && rows <= 5 && cols <= 5
  {
    (forall k :: k in sp <==> k in sp0 || StoredSoFar(k, i, rows, cols)) &&
    (forall k | k in sp :: sp[k] == if StoredSoFar(k, i, rows, cols) then SpanAt(input, [], k) else sp0[k])
  }

  /** Adding all of a board's spans to the spans of the boards before it gives the spans of one more board. */
  lemma WithBoard(input: seq<Board>, i: nat, sp: map<SpanKey, Span>)
    requires WellFormed(input) && i < |input|
    requires StoredOver(input, RefSpans(input, [], Indices(i)), sp, i, 5, 5)
    ensures sp == RefSpans(input, [], Indices(i + 1))
  {
    var before := RefSpans(input, [], Indices(i));
    KeysOfExactly(Indices(i));
    KeysOfExactly(Indices(i + 1));
    var n := RefSpans(input, [], Indices(i + 1));
    forall k
      ensures k in sp <==> k in n
    {
      assert k in before <==> k.board < i && ValidPart(k.part);
      assert k in n <==> k.board < i + 1 && ValidPart(k.part);
    }
    forall k | k in sp
      ensures sp[k] == n[k]
    {
      if !StoredSoFar(k, i, 5, 5) {
        assert k in before;
      }
    }
    assert sp == n;
  }

  lemma TakeSnoc<T>(s: seq<T>, n: nat)
    requires n < |s|
    ensures s[..n + 1] == s[..n] + [s[n]]
  {
  }

  lemma StoredRow(input: seq<Board>, sp0: map<SpanKey, Span>, sp: map<SpanKey, Span>, i: nat, r: nat)
    requires WellFormed(input) && i < |input| && r < 5
    requires StoredOver(input, sp0, sp, i, r, 0)
    ensures StoredOver(input, sp0, sp[SpanKey(i, RowOf(r)) := SpanAt(input, [], SpanKey(i, RowOf(r)))], i, r + 1, 0)
  {
  }

  lemma StoredCol(input: seq<Board>, sp0: map<SpanKey, Span>, sp: map<SpanKey, Span>, i: nat, c: nat)
    requires WellFormed(input) && i < |input| && c < 5
    requires StoredOver(input, sp0, sp, i, 5, c)
    ensures StoredOver(input, sp0, sp[SpanKey(i, ColOf(c)) := SpanAt(input, [], SpanKey(i, ColOf(c)))], i, 5, c + 1)
  {
  }

  lemma StoredWhole(input: seq<Board>, sp0: map<SpanKey, Span>, i: nat)
    requires WellFormed(input) && i < |input|
    ensures StoredOver(input, sp0, sp0[SpanKey(i, Whole) := SpanAt(input, [], SpanKey(i, Whole))], i, 0, 0)
  {
  }

  /** Stores a board's spans and lists their keys under the board for cleanup, board span first. */
  method AddSpans(input: seq<Board>, i: nat, cl0: map<nat, seq<SpanKey>>, sp0: map<SpanKey, Span>,
                  board: Span, rows: seq<Span>, cols: seq<Span>)
    returns (cl: map<nat, seq<SpanKey>>, sp: map<SpanKey, Span>)
    requires WellFormed(input) && i < |input| && i !in cl0
    requires board == SpanAt(input, [], SpanKey(i, Whole))
    requires |rows| == 5 && forall r :: 0 <= r < 5 ==> rows[r] == SpanAt(input, [], SpanKey(i, RowOf(r)))
    requires |cols| == 5 && forall c :: 0 <= c < 5 ==> cols[c] == SpanAt(input, [], SpanKey(i, ColOf(c)))
    ensures cl == cl0[i := CleanupList(i)] && StoredOver(input, sp0, sp, i, 5, 5)
  {
    var list := CleanupList(i);
    var boardKey := SpanKey(i, Whole);
    StoredWhole(input, sp0, i);
    sp := sp0[boardKey := board];
    cl := cl0[i := Lookup'(cl0, i) + [boardKey]];
    assert list[..1] == [boardKey] == Lookup'(cl0, i) + [boardKey];
    cl, sp := AddRowSpans(input, i, cl0, sp0, cl, sp, rows);
    cl, sp := AddColSpans(input, i, cl0, sp0, cl, sp, cols);
    assert list[..11] == list;
  }

  /** The row loop of storing a board's spans. */
  method AddRowSpans(input: seq<Board>, i: nat, cl0: map<nat, seq<SpanKey>>, sp0: map<SpanKey, Span>,
                     clIn: map<nat, seq<SpanKey>>, spIn: map<SpanKey, Span>, rows: seq<Span>)
    returns (cl: map<nat, seq<SpanKey>>, sp: map<SpanKey, Span>)
    requires WellFormed(input) && i < |input|
    requires clIn == cl0[i := CleanupList(i)[..1]] && StoredOver(input, sp0, spIn, i, 0, 0)
    requires |rows| == 5 && forall r :: 0 <= r < 5 ==> rows[r] == SpanAt(input, [], SpanKey(i, RowOf(r)))
    ensures cl == cl0[i := CleanupList(i)[..6]] && StoredOver(input, sp0, sp, i, 5, 0)
  {
    var list := CleanupList(i);
    cl, sp := clIn, spIn;
    for r := 0 to 5
      invariant cl == cl0[i := list[..1 + r]]
      invariant StoredOver(input, sp0, sp, i, r, 0)
    {
      var key := SpanKey(i, RowOf(r));
      assert list[1 + r] == key;
      TakeSnoc(list, 1 + r);
      StoredRow(input, sp0, sp, i, r);
      sp := sp[key := rows[r]];
      cl := cl[i := Lookup'(cl, i) + [key]];
    }
  }

  /** The column loop of storing a board's spans. */
  method AddColSpans(input: seq<Board>, i: nat, cl0: map<nat, seq<SpanKey>>, sp0: map<SpanKey, Span>,
                     clIn: map<nat, seq<SpanKey>>, spIn: map<SpanKey, Span>, cols: seq<Span>)
    returns (cl: map<nat, seq<SpanKey>>, sp: map<SpanKey, Span>)
    requires WellFormed(input) && i < |input|
    requires clIn == cl0[i := CleanupList(i)[..6]] && StoredOver(input, sp0, spIn, i, 5, 0)
    requires |cols| == 5 && forall c :: 0 <= c < 5 ==> cols[c] == SpanAt(input, [], SpanKey(i, ColOf(c)))
    ensures cl == cl0[i := CleanupList(i)[..11]] && StoredOver(input, sp0, sp, i, 5, 5)
  {
    var list := CleanupList(i);
    cl, sp := clIn, spIn;
    for c := 0 to 5
      invariant cl == cl0[i := list[..6 + c]]
      invariant StoredOver(input, sp0, sp, i, 5, c)
    {
      var key := SpanKey(i, ColOf(c));
      assert list[6 + c] == key;
      TakeSnoc(list, 6 + c);
      StoredCol(input, sp0, sp, i, c);
      sp := sp[key := cols[c]];
      cl := cl[i := Lookup'(cl, i) + [key]];
    }
  }

  /** `entry(i).or_default()` on the cleanup map. */
  function Lookup'(cl: map<nat, seq<SpanKey>>, i: nat): seq<SpanKey>
  {
    if i in cl then cl[i] else []
  }

  /** The entries and number lists once the first `m` cells are recorded. */
  ghost predicate EntriesUpTo(input: seq<Board>, en: map<EntryKey, Entry>, nu: map<nat, seq<EntryKey>>, m: nat)
  {
    WellFormed(input) && m <= 25 * |input| && EntriesMapUpTo(en, m) && NumbersUpTo(input, nu, m)
  }

  /** The entries map holds the entry of each of the first `m` cells in visiting order. */
  ghost predicate EntriesMapUpTo(en: map<EntryKey, Entry>, m: nat)
  {
    (forall k :: k in en <==> k.row < 5 && k.col < 5 && Pos(k) < m) &&
    (forall k | k in en :: en[k] == EntryOf(k))
  }

  /** Each number lists its cells among the first `m` in visiting order. */
  ghost predicate NumbersUpTo(input: seq<Board>, nu: map<nat, seq<EntryKey>>, m: nat)
    requires WellFormed(input) && m <= 25 * |input|
  {
    forall n {:trigger NumberUpTo(input, m, n)} :: Lookup(nu, n) == NumberUpTo(input, m, n)
  }

  lemma EntriesNone(input: seq<Board>)
    requires WellFormed(input)
    ensures EntriesUpTo(input, map[], map[], 0)
  {
  }

  lemma EntriesAll(input: seq<Board>, en: map<EntryKey, Entry>, nu: map<nat, seq<EntryKey>>)
    requires EntriesUpTo(input, en, nu, 25 * |input|)
    ensures EntriesBuilt(input, en)
    ensures forall n :: Lookup(nu, n) == EntriesOf(input, n)
  {
    forall n
      ensures Lookup(nu, n) == EntriesOf(input, n)
    {
      assert EntriesOf(input, n) == NumberUpTo(input, 25 * |input|, n);
    }
  }

  lemma EntryStep(input: seq<Board>, en: map<EntryKey, Entry>, nu: map<nat, seq<EntryKey>>, ek: EntryKey,
                  en': map<EntryKey, Entry>, nu': map<nat, seq<EntryKey>>, m: nat, m': nat)
    requires WellFormed(input) && ValidEntryKey(input, ek) && m == Pos(ek) && m' == m + 1
    requires EntriesUpTo(input, en, nu, m)
    requires en' == en[ek := EntryOf(ek)]
    requires nu' == nu[ValueAt(input, ek) := Lookup(nu, ValueAt(input, ek)) + [ek]]
    ensures EntriesUpTo(input, en', nu', m')
  {
    EntryStepKeys(en, ek, en', m, m');
    EntryStepNumbers(input, nu, nu', ek, m, m');
  }

  lemma EntryStepKeys(en: map<EntryKey, Entry>, ek: EntryKey, en': map<EntryKey, Entry>, m: nat, m': nat)
    requires ek.row < 5 && ek.col < 5 && m == Pos(ek) && m' == m + 1
    requires EntriesMapUpTo(en, m)
    requires en' == en[ek := EntryOf(ek)]
    ensures EntriesMapUpTo(en', m')
  {
    forall k
      ensures k in en' <==> k.row < 5 && k.col < 5 && Pos(k) < m'
    {
      if k.row < 5 && k.col < 5 && Pos(k) == m {
        KeyAtPos(k);
        KeyAtPos(ek);
      }
    }
  }

  lemma EntryStepNumbers(input: seq<Board>, nu: map<nat, seq<EntryKey>>, nu': map<nat, seq<EntryKey>>, ek: EntryKey,
                         m: nat, m': nat)
    requires WellFormed(input) && ValidEntryKey(input, ek) && m == Pos(ek) && m' == m + 1
    requires NumbersUpTo(input, nu, m)
    requires nu' == nu[ValueAt(input, ek) := Lookup(nu, ValueAt(input, ek)) + [ek]]
    ensures NumbersUpTo(input, nu', m')
  {
    KeyAtPos(ek);
    forall n
      ensures Lookup(nu', n) == NumberUpTo(input, m', n)
    {
      NumberUpToSnoc(input, m, n);
      if n == ValueAt(input, ek) {
        assert Lookup(nu', n) == Lookup(nu, n) + [ek];
      } else {
        assert Lookup(nu', n) == Lookup(nu, n);
      }
    }
  }

  /** Records one entry per cell of board `i`, under the cell's number, row by row. */
  method AddEntries(input: seq<Board>, i: nat, en0: map<EntryKey, Entry>, nu0: map<nat, seq<EntryKey>>)
    returns (en: map<EntryKey, Entry>, nu: map<nat, seq<EntryKey>>)
    requires WellFormed(input) && i < |input|
    requires EntriesUpTo(input, en0, nu0, 25 * i)
    ensures EntriesUpTo(input, en, nu, 25 * (i + 1))
  {
    en, nu := en0, nu0;
    var base := 25 * i;
    for r := 0 to 5
      invariant EntriesUpTo(input, en, nu, base + 5 * r)
    {
      en, nu := AddRowEntries(input, i, r, en, nu);
      assert base + 5 * r + 5 == base + 5 * (r + 1);
    }
    assert base + 5 * 5 == 25 * (i + 1);
  }

  method AddRowEntries(input: seq<Board>, i: nat, r: nat, en0: map<EntryKey, Entry>, nu0: map<nat, seq<EntryKey>>)
    returns (en: map<EntryKey, Entry>, nu: map<nat, seq<EntryKey>>)
    requires WellFormed(input) && i < |input| && r < 5
    requires EntriesUpTo(input, en0, nu0, 25 * i + 5 * r)
    ensures EntriesUpTo(input, en, nu, 25 * i + 5 * r + 5)
  {
    en, nu := en0, nu0;
    var base := 25 * i + 5 * r;
    for c := 0 to 5
      invariant EntriesUpTo(input, en, nu, base + c)
    {
      var ek := EntryKey(i, r, c);
      var num := input[i][r][c];
      ghost var enBefore, nuBefore := en, nu;
      en := en[ek := Entry(SpanKey(i, RowOf(r)), SpanKey(i, ColOf(c)), SpanKey(i, Whole))];
      nu := nu[num := Lookup(nu, num) + [ek]];
      EntryStep(input, enBefore, nuBefore, ek, en, nu, base + c, base + (c + 1));
    }
  }
}

=== FILE: day05.dfy ===
/**
 * Day 5 (hydrothermal venture): line segments ("arrows") between two points
 * are rasterised point by point, and a board counts how many arrows cover
 * each point.
 */
module Day05 {

  /** A grid point (`i32` coordinates, taken here as unbounded integers). */
  datatype Point = Point(x: int, y: int)

  /** A segment from `from` to `to`, both ends included. */
  datatype Arrow = Arrow(from: Point, to: Point)

  function Abs(n: int): nat
  {
    if n < 0 then -n else n
  }

  function Min(a: int, b: int): int
  {
    if a <= b then a else b
  }

  /** `k` unit steps from `base` in the direction of `diff` (none when `diff` is 0). */
  function Walk(base: int, k: nat, diff: int): int
  {
    if diff < 0 then base - k else if diff > 0 then base + k else base
  }

  /** `&Point - &Point`: the difference of two points. */
  function Sub(a: Point, b: Point): (r: Point)
    ensures Point(b.x + r.x, b.y + r.y) == a
  {
    Point(a.x - b.x, a.y - b.y)
  }

  /** `Arrow::diff_range`: the inclusive range between `base` and `base + diff`, ascending whatever the sign of `diff`. */
  function DiffRange(base: int, diff: int): (r: seq<int>)
    ensures |r| == Abs(diff) + 1
    ensures forall k :: 0 <= k < |r| ==> r[k] == Min(base, base + diff) + k
  {
    var lo := Min(base, base + diff);
    seq(Abs(diff) + 1, k => lo + k)
  }

  function Reverse<T>(s: seq<T>): (r: seq<T>)
    ensures |r| == |s| && forall k :: 0 <= k < |s| ==> r[k] == s[|s| - 1 - k]
  {
    if s == [] then [] else [s[|s| - 1]] + Reverse(s[..|s| - 1])
  }

  /** `Arrow::signed_diff_range`: the same range, but walked from `base` towards `base + diff`. */
  function SignedDiffRange(base: int, diff: int): seq<int>
  {
    if diff < 0 then Reverse(DiffRange(base, diff)) else DiffRange(base, diff)
  }

  /** The signed range starts at `base` and takes one unit step towards `base + diff` at a time. */
  lemma SignedDiffRangeSteps(base: int, diff: int)
    ensures |SignedDiffRange(base, diff)| == Abs(diff) + 1
    ensures forall k :: 0 <= k < |SignedDiffRange(base, diff)| ==>
              SignedDiffRange(base, diff)[k] == Walk(base, k, diff)
  {
  }

  /** `Iterator::zip`: pairs up two sequences, as long as the shorter one. */
  function Zip(a: seq<int>, b: seq<int>): (r: seq<Point>)
    ensures |r| == Min(|a|, |b|)
    ensures forall k :: 0 <= k < |r| ==> r[k] == Point(a[k], b[k])
  {
    if a == [] || b == [] then [] else [Point(a[0], b[0])] + Zip(a[1..], b[1..])
  }

  /** `repeat(x).zip(ys)`: a column of points at `x`. */
  function Column(x: int, ys: seq<int>): (r: seq<Point>)
    ensures |r| == |ys| && forall k :: 0 <= k < |ys| ==> r[k] == Point(x, ys[k])
  {
    if ys == [] then [] else [Point(x, ys[0])] + Column(x, ys[1..])
  }

  /** `repeat(y).zip(xs)` with the pair flipped: a row of points at `y`. */
  function Line(y: int, xs: seq<int>): (r: seq<Point>)
    ensures |r| == |xs| && forall k :: 0 <= k < |xs| ==> r[k] == Point(xs[k], y)
  {
    if xs == [] then [] else [Point(xs[0], y)] + Line(y, xs[1..])
  }

  /** `Arrow::iter`: the points an arrow covers, in the order the iterator yields them. */
  function Iter(a: Arrow): seq<Point>
  {
    var d := Sub(a.to, a.from);
    if d.x == 0 then Column(a.from.x, DiffRange(a.from.y, d.y))
    else if d.y == 0 then Line(a.from.y, DiffRange(a.from.x, d.x))
    else Zip(SignedDiffRange(a.from.x, d.x), SignedDiffRange(a.from.y, d.y))
  }

  /** A vertical arrow covers its column between the two ends, ascending, whichever end comes first. */
  lemma VerticalArrow(a: Arrow)
    requires a.from.x == a.to.x
    ensures |Iter(a)| == Abs(a.to.y - a.from.y) + 1
    ensures forall k :: 0 <= k < |Iter(a)| ==> Iter(a)[k] == Point(a.from.x, Min(a.from.y, a.to.y) + k)
  {
  }

  /** A horizontal arrow covers its row between the two ends, ascending, whichever end comes first. */
  lemma HorizontalArrow(a: Arrow)
    requires a.from.y == a.to.y && a.from.x != a.to.x
    ensures |Iter(a)| == Abs(a.to.x - a.from.x) + 1
    ensures forall k :: 0 <= k < |Iter(a)| ==> Iter(a)[k] == Point(Min(a.from.x, a.to.x) + k, a.from.y)
  {
  }

  /** An arrow whose ends coincide covers exactly that point. */
  lemma ZeroLengthArrow(a: Arrow)
    requires a.from == a.to
    ensures Iter(a) == [a.from]
  {
  }

  /**
   * An arrow that is neither vertical nor horizontal walks one unit on both axes
   * from `from` towards `to`, stopping when the shorter axis runs out; on a true
   * diagonal it ends at `to`.
   */
  lemma DiagonalArrow(a: Arrow)
    requires a.from.x != a.to.x && a.from.y != a.to.y
    ensures var dx, dy := a.to.x - a.from.x, a.to.y - a.from.y;
            |Iter(a)| == Min(Abs(dx), Abs(dy)) + 1 &&
            (forall k :: 0 <= k < |Iter(a)| ==>
               Iter(a)[k] == Point(Walk(a.from.x, k, dx), Walk(a.from.y, k, dy))) &&
            (Abs(dx) == Abs(dy) ==> Iter(a)[|Iter(a)| - 1] == a.to)
  {
    var d := Sub(a.to, a.from);
    SignedDiffRangeSteps(a.from.x, d.x);
    SignedDiffRangeSteps(a.from.y, d.y);
  }

  /** Every arrow covers at least one point and never the same point twice. */
  lemma IterDistinct(a: Arrow)
    ensures |Iter(a)| >= 1
    ensures forall i, j :: 0 <= i < j < |Iter(a)| ==> Iter(a)[i] != Iter(a)[j]
  {
    var d := Sub(a.to, a.from);
    if d.x == 0 {
      VerticalArrow(a);
    } else if d.y == 0 {
      HorizontalArrow(a);
    } else {
      DiagonalArrow(a);
    }
  }

  // ------------------------------------------------------------------
  // The board of overlap counts
  // ------------------------------------------------------------------

  /** How often a point was covered, 0 when it has no entry (`entry(..).or_default()`). */
  function Count(data: map<Point, nat>, p: Point): nat
  {
    if p in data then data[p] else 0
  }

  function Occurrences(ps: seq<Point>, p: Point): nat
  {
    if ps == [] then 0 else Occurrences(ps[..|ps| - 1], p) + (if ps[|ps| - 1] == p then 1 else 0)
  }

  /** The counts after adding one for each of `ps`, in order. */
  function AddAll(data: map<Point, nat>, ps: seq<Point>): map<Point, nat>
  {
    if ps == [] then data
    else
      var before := AddAll(data, ps[..|ps| - 1]);
      var p := ps[|ps| - 1];
      before[p := Count(before, p) + 1]
  }

  lemma AddAllSnoc(data: map<Point, nat>, ps: seq<Point>, i: nat)
    requires i < |ps|
    ensures AddAll(data, ps[..i + 1]) == AddAll(data, ps[..i])[ps[i] := Count(AddAll(data, ps[..i]), ps[i]) + 1]
  {
    assert ps[..i + 1][..i] == ps[..i];
  }

  /** Adding points raises each count by how often the point occurs, and only the points added gain an entry. */
  lemma {:induction false} AddAllCounts(data: map<Point, nat>, ps: seq<Point>, p: Point)
    ensures Count(AddAll(data, ps), p) == Count(data, p) + Occurrences(ps, p)
    ensures p in AddAll(data, ps) <==> p in data || p in ps
  {
    if ps != [] {
      AddAllCounts(data, ps[..|ps| - 1], p);
      assert ps == ps[..|ps| - 1] + [ps[|ps| - 1]];
    }
  }

  lemma {:induction false} OccurrencesDistinct(ps: seq<Point>, p: Point)
    requires forall i, j :: 0 <= i < j < |ps| ==> ps[i] != ps[j]
    ensures Occurrences(ps, p) == if p in ps then 1 else 0
  {
    if ps != [] {
      var init := ps[..|ps| - 1];
      OccurrencesDistinct(init, p);
      assert ps == init + [ps[|ps| - 1]];
      if ps[|ps| - 1] == p {
        assert p !in init by {
          forall i | 0 <= i < |init|
            ensures init[i] != p
          {
            assert init[i] == ps[i];
          }
        }
      }
    }
  }

  /** How many of `arrows` cover `p`. */
  function Coverage(arrows: seq<Arrow>, p: Point): nat
  {
    if arrows == [] then 0
    else Coverage(arrows[..|arrows| - 1], p) + (if p in Iter(arrows[|arrows| - 1]) then 1 else 0)
  }

  /** The counts map only holds points covered at least once. */
  ghost predicate Positive(data: map<Point, nat>)
  {
    forall p | p in data :: data[p] >= 1
  }

  /** Rust's `Board`: a count per point covered so far. */
  class Board {
    var data: map<Point, nat>

    /** The counts are exactly the coverage by the arrows pushed so far. */
    ghost predicate Counts(arrows: seq<Arrow>)
      reads this
    {
      Positive(data) && forall p :: Count(data, p) == Coverage(arrows, p)
    }

    /** `Board::default`: no point covered. */
    constructor ()
      ensures data == map[]
      ensures Counts([])
    {
      data := map[];
    }

    /** `Board::push`: count each point of the arrow once more. */
    method Push(arrow: Arrow)
      modifies this
      ensures data == AddAll(old(data), Iter(arrow))
    {
      var pts := Iter(arrow);
      for i := 0 to |pts|
        invariant data == AddAll(old(data), pts[..i])
      {
        AddAllSnoc(old(data), pts, i);
        data := data[pts[i] := Count(data, pts[i]) + 1];
      }
      assert pts[..|pts|] == pts;
    }

    /** `Board::solutions`: the points with a count above one, with their counts. */
    function Solutions(): (r: map<Point, nat>)
      reads this
      ensures forall p :: p in r <==> Count(data, p) > 1
      ensures forall p | p in r :: r[p] == Count(data, p)
    {
      map p | p in data && data[p] > 1 :: data[p]
    }
  }

  /** Pushing an arrow adds exactly one to every point it covers and leaves every other point alone. */
  lemma PushAddsOne(data: map<Point, nat>, arrow: Arrow, p: Point)
    ensures Count(AddAll(data, Iter(arrow)), p) == Count(data, p) + (if p in Iter(arrow) then 1 else 0)
    ensures p !in Iter(arrow) ==> (p in AddAll(data, Iter(arrow)) <==> p in data)
  {
    AddAllCounts(data, Iter(arrow), p);
    IterDistinct(arrow);
    OccurrencesDistinct(Iter(arrow), p);
  }

  /** Pushing arrow after arrow onto an empty board counts, for each point, the arrows covering it. */
  lemma PushKeepsCounts(data: map<Point, nat>, arrows: seq<Arrow>, arrow: Arrow)
    requires Positive(data) && forall p :: Count(data, p) == Coverage(arrows, p)
    ensures var next := AddAll(data, Iter(arrow));
            Positive(next) && forall p :: Count(next, p) == Coverage(arrows + [arrow], p)
  {
    var next := AddAll(data, Iter(arrow));
    forall p
      ensures Count(next, p) == Coverage(arrows + [arrow], p)
      ensures p in next ==> next[p] >= 1
    {
      PushAddsOne(data, arrow, p);
      assert (arrows + [arrow])[..|arrows|] == arrows;
    }
  }
}

=== FILE: day06.dfy ===
/**
 * Day 6 (lanternfish): fish are grouped by timer into nine buckets, and each
 * day the buckets rotate, with every fish at timer 0 restarting at 6 and
 * spawning a new fish at 8.
 */
module Day06 {

  /** How many fish of `fish` have timer `t`. */
  function CountOf(fish: seq<int>, t: int): nat
  {
    if fish == [] then 0 else CountOf(fish[..|fish| - 1], t) + (if fish[|fish| - 1] == t then 1 else 0)
  }

  /** The nine buckets of a school: bucket `t` counts the fish with timer `t`. */
  function Buckets(fish: seq<int>): (r: seq<nat>)
    ensures |r| == 9
  {
    seq(9, t => CountOf(fish, t))
  }

  function Sum(s: seq<nat>): nat
  {
    if s == [] then 0 else Sum(s[..|s| - 1]) + s[|s| - 1]
  }

  /** One day on the buckets: everything moves down one timer, timer 0 goes to 6 and spawns as many at 8. */
  function Day(c: seq<nat>): (r: seq<nat>)
    requires |c| == 9
    ensures |r| == 9
  {
    [c[1], c[2], c[3], c[4], c[5], c[6], c[7] + c[0], c[8], c[0]]
  }

  /** The buckets after `days` days. */
  function Days(c: seq<nat>, days: nat): (r: seq<nat>)
    requires |c| == 9
    ensures |r| == 9
  {
    if days == 0 then c else Day(Days(c, days - 1))
  }

  /** A day adds exactly as many fish as were at timer 0. */
  lemma DayGrows(c: seq<nat>)
    requires |c| == 9
    ensures Sum(Day(c)) == Sum(c) + c[0]
  {
    var d := Day(c);
    assert Sum(d) == d[0] + d[1] + d[2] + d[3] + d[4] + d[5] + d[6] + d[7] + d[8] by {
      SumNine(d);
    }
    SumNine(c);
  }

  lemma SumTake(c: seq<nat>, k: nat)
    requires k < |c|
    ensures Sum(c[..k + 1]) == Sum(c[..k]) + c[k]
  {
    assert c[..k + 1][..k] == c[..k];
  }

  lemma SumNine(c: seq<nat>)
    requires |c| == 9
    ensures Sum(c) == c[0] + c[1] + c[2] + c[3] + c[4] + c[5] + c[6] + c[7] + c[8]
  {
    assert c[..0] == [];
    SumTake(c, 0); SumTake(c, 1); SumTake(c, 2); SumTake(c, 3); SumTake(c, 4);
    SumTake(c, 5); SumTake(c, 6); SumTake(c, 7); SumTake(c, 8);
    assert c[..9] == c;
  }

  /** Bucket-wise addition. */
  function Add(a: seq<nat>, b: seq<nat>): (r: seq<nat>)
    requires |a| == 9 && |b| == 9
    ensures |r| == 9
  {
    seq(9, i requires 0 <= i < 9 => a[i] + b[i])
  }

  lemma SumAdd(a: seq<nat>, b: seq<nat>)
    requires |a| == 9 && |b| == 9
    ensures Sum(Add(a, b)) == Sum(a) + Sum(b)
  {
    SumNine(a);
    SumNine(b);
    SumNine(Add(a, b));
  }

  // ------------------------------------------------------------------
  // Reference: the fish one by one
  // ------------------------------------------------------------------

  /** One fish's day: its timer drops by one, or at 0 it restarts at 6 and a newborn at 8 joins. */
  function FishOne(t: int): seq<int>
  {
    if t == 0 then [6, 8] else [t - 1]
  }

  /** A day for every fish of the school, in order. */
  function FishDay(fish: seq<int>): seq<int>
  {
    if fish == [] then [] else FishDay(fish[..|fish| - 1]) + FishOne(fish[|fish| - 1])
  }

  ghost predicate Timers(fish: seq<int>)
  {
    forall i | 0 <= i < |fish| :: 0 <= fish[i] <= 8
  }

  lemma CountOfConcat(a: seq<int>, b: seq<int>, t: int)
    ensures CountOf(a + b, t) == CountOf(a, t) + CountOf(b, t)
  {
    if b == [] {
      assert a + b == a;
    } else {
      assert (a + b)[..|a + b| - 1] == a + b[..|b| - 1];
      assert (a + b)[|a + b| - 1] == b[|b| - 1];
      CountOfConcat(a, b[..|b| - 1], t);
    }
  }

  lemma BucketsConcat(a: seq<int>, b: seq<int>)
    ensures Buckets(a + b) == Add(Buckets(a), Buckets(b))
  {
    forall t | 0 <= t < 9
      ensures Buckets(a + b)[t] == Add(Buckets(a), Buckets(b))[t]
    {
      CountOfConcat(a, b, t);
    }
  }

  lemma BucketsOne(x: int)
    ensures forall u :: 0 <= u < 9 ==> Buckets([x])[u] == if u == x then 1 else 0
  {
    forall u | 0 <= u < 9
      ensures Buckets([x])[u] == if u == x then 1 else 0
    {
      assert [x][..0] == [];
      assert CountOf([x], u) == CountOf([], u) + (if x == u then 1 else 0);
    }
  }

  /** A single fish's day, counted in buckets, is a day on its bucket. */
  lemma OneFish(t: int)
    requires 0 <= t <= 8
    ensures Buckets(FishOne(t)) == Day(Buckets([t]))
  {
    BucketsOne(t);
    if t == 0 {
      assert [6, 8] == [6] + [8];
      BucketsConcat([6], [8]);
      BucketsOne(6);
      BucketsOne(8);
    } else {
      BucketsOne(t - 1);
    }
  }

  /** Days on the buckets add up: a day on two schools together is the sum of their days. */
  lemma DayAdd(a: seq<nat>, b: seq<nat>)
    requires |a| == 9 && |b| == 9
    ensures Day(Add(a, b)) == Add(Day(a), Day(b))
  {
  }

  /** A day keeps every timer within 0 to 8. */
  lemma {:induction false} FishDayTimers(fish: seq<int>)
    requires Timers(fish)
    ensures Timers(FishDay(fish))
  {
    if fish != [] {
      var init := fish[..|fish| - 1];
      var t := fish[|fish| - 1];
      FishDayTimers(init);
      var rest := FishDay(init);
      forall i | 0 <= i < |FishDay(fish)|
        ensures 0 <= FishDay(fish)[i] <= 8
      {
        if i >= |rest| {
          assert FishDay(fish)[i] == FishOne(t)[i - |rest|];
        } else {
          assert FishDay(fish)[i] == rest[i];
        }
      }
    }
  }

  /** The buckets follow the fish: a day on the buckets is a day on every fish, counted. */
  lemma {:induction false} DayMatchesFish(fish: seq<int>)
    requires Timers(fish)
    ensures Buckets(FishDay(fish)) == Day(Buckets(fish))
  {
    if fish != [] {
      var init := fish[..|fish| - 1];
      var t := fish[|fish| - 1];
      DayMatchesFish(init);
      BucketsConcat(FishDay(init), FishOne(t));
      assert fish == init + [t];
      BucketsConcat(init, [t]);
      OneFish(t);
      DayAdd(Buckets(init), Buckets([t]));
    }
  }

  // ------------------------------------------------------------------
  // The simulation as the program runs it
  // ------------------------------------------------------------------

  /** `rotate_left(1)` on the nine buckets. */
  method RotateLeft(a: array<nat>)
    requires a.Length == 9
    modifies a
    ensures a[..] == old(a[1..]) + [old(a[0])]
  {
    var first := a[0];
    for i := 0 to 8
      invariant a[..i] == old(a[1..i + 1])
      invariant a[i..] == old(a[i..])
    {
      a[i] := a[i + 1];
    }
    a[8] := first;
  }

  /** `fish_count[f as usize] += 1` for every fish. */
  method CountFish(fish: seq<int>) returns (counts: array<nat>)
    requires Timers(fish)
    ensures fresh(counts) && counts[..] == Buckets(fish)
  {
    counts := new nat[9](_ => 0);
    for i := 0 to |fish|
      invariant counts[..] == Buckets(fish[..i])
    {
      assert fish[..i + 1] == fish[..i] + [fish[i]];
      BucketsConcat(fish[..i], [fish[i]]);
      counts[fish[i]] := counts[fish[i]] + 1;
    }
    assert fish[..|fish|] == fish;
  }

  /** Counts the fish into buckets, runs `days` days and sums the buckets. */
  method Simulate(fish: seq<int>, days: nat) returns (total: nat)
    requires Timers(fish)
    ensures total == Sum(Days(Buckets(fish), days))
  {
    var counts := CountFish(fish);
    for d := 0 to days
      invariant counts[..] == Days(Buckets(fish), d)
    {
      DayStep(counts);
    }
    total := SumAll(counts);
  }

  /** One day of the simulation: rotate, then add the spawning fish back at 6 and put the newborns at 8. */
  method DayStep(counts: array<nat>)
    requires counts.Length == 9
    modifies counts
    ensures counts[..] == Day(old(counts[..]))
  {
    var next := counts[0];
    RotateLeft(counts);
    counts[6] := counts[6] + next;
    counts[8] := next;
  }

  /** `iter().sum()` over the buckets. */
  method SumAll(a: array<nat>) returns (s: nat)
    ensures s == Sum(a[..])
  {
    s := 0;
    for i := 0 to a.Length
      invariant s == Sum(a[..i])
    {
      assert a[..i + 1][..i] == a[..i];
      s := s + a[i];
    }
    assert a[..a.Length] == a[..];
  }

  /** The total after `days` days is the starting number of fish plus everyone spawned on the way. */
  lemma {:induction false} DaysCount(fish: seq<int>, days: nat)
    requires Timers(fish)
    ensures Sum(Days(Buckets(fish), days)) == Sum(Days(Buckets(fish), 0)) + Spawned(Buckets(fish), days)
  {
    if days > 0 {
      DaysCount(fish, days - 1);
      DayGrows(Days(Buckets(fish), days - 1));
    }
  }

  /** How many fish are born in the first `days` days. */
  function Spawned(c: seq<nat>, days: nat): nat
    requires |c| == 9
  {
    if days == 0 then 0 else Spawned(c, days - 1) + Days(c, days - 1)[0]
  }

  /** Counting buckets is the same as counting fish: the buckets hold every fish. */
  lemma {:induction false} BucketsHoldAll(fish: seq<int>)
    requires Timers(fish)
    ensures Sum(Buckets(fish)) == |fish|
  {
    if fish != [] {
      var init := fish[..|fish| - 1];
      var t := fish[|fish| - 1];
      assert forall i | 0 <= i < |init| :: init[i] == fish[i];
      BucketsHoldAll(init);
      assert fish == init + [t];
      BucketsConcat(init, [t]);
      SumAdd(Buckets(init), Buckets([t]));
      SumNine(Buckets([t]));
      BucketsOne(t);
    } else {
      SumNine(Buckets(fish));
    }
  }
}

=== FILE: day07.dfy ===
/**
 * Day 7 (the treachery of whales): crabs at horizontal positions must all move
 * to one position, and the answer is the cheapest such position's total fuel,
 * at one unit per step (part 1) or at the triangular cost d(d+1)/2 (part 2).
 */
module Day07 {
  import opened Sorting

  function Abs(n: int): nat
  {
    if n < 0 then -n else n
  }

  function Min(a: int, b: int): int
  {
    if a <= b then a else b
  }

  const I32_MAX: int := 0x7fff_ffff

  // ------------------------------------------------------------------
  // The two fuel costs
  // ------------------------------------------------------------------

  /** Part-1 fuel to bring every crab to `i`: one unit per step. */
  function Cost(data: seq<int>, i: int): nat
  {
    if data == [] then 0 else Cost(data[..|data| - 1], i) + Abs(data[|data| - 1] - i)
  }

  /** Part-2 fuel for a distance `d`, as the program computes it: with n = d + 1, n(n-1)/2. */
  function Triangle(d: nat): nat
  {
    var n := d + 1;
    (n * (n - 1)) / 2
  }

  /** The n-th step of a crab's move costs n, so a move of `d` costs 1 + 2 + ... + d. */
  lemma {:induction false} TriangleSteps(d: nat)
    ensures d > 0 ==> Triangle(d) == Triangle(d - 1) + d
    ensures Triangle(0) == 0
  {
    if d > 0 {
      assert (d + 1) * d == (d - 1 + 1) * (d - 1) + 2 * d;
    }
  }

  /** Part-2 fuel to bring every crab to `i`. */
  function Cost2(data: seq<int>, i: int): nat
  {
    if data == [] then 0 else Cost2(data[..|data| - 1], i) + Triangle(Abs(data[|data| - 1] - i))
  }

  /** How many crabs sit strictly left of `i`. */
  function Below(data: seq<int>, i: int): nat
  {
    if data == [] then 0 else Below(data[..|data| - 1], i) + (if data[|data| - 1] < i then 1 else 0)
  }

  /** `data.iter().map(|n| n - start).sum()`. */
  function Offsets(data: seq<int>, start: int): int
  {
    if data == [] then 0 else Offsets(data[..|data| - 1], start) + (data[|data| - 1] - start)
  }

  /** Moving the target one step right costs one more per crab on its left and one less per crab on its right. */
  lemma {:induction false} CostStep(data: seq<int>, i: int)
    ensures Cost(data, i) == Cost(data, i - 1) + Below(data, i) - (|data| - Below(data, i))
  {
    if data != [] {
      CostStep(data[..|data| - 1], i);
    }
  }

  /** The program's starting score is the cost of the position just left of the smallest crab. */
  lemma {:induction false} StartScore(data: seq<int>, start: int)
    requires forall k | 0 <= k < |data| :: data[k] >= start
    ensures |data| + Offsets(data, start) == Cost(data, start - 1)
  {
    if data != [] {
      StartScore(data[..|data| - 1], start);
    }
  }

  /** In sorted data, the crabs left of `i` are exactly the first `k` once `k` separates them. */
  lemma {:induction false} BelowSplit(data: seq<int>, i: int, k: nat)
    requires k <= |data|
    requires forall j | 0 <= j < k :: data[j] < i
    requires forall j | k <= j < |data| :: data[j] >= i
    ensures Below(data, i) == k
  {
    if data != [] {
      if k == |data| {
        BelowSplit(data[..|data| - 1], i, k - 1);
      } else {
        BelowSplit(data[..|data| - 1], i, k);
      }
    }
  }

  lemma {:induction false} CostNonNegativeStart(data: seq<int>, start: int)
    requires forall k | 0 <= k < |data| :: data[k] >= start
    ensures Below(data, start) == 0
  {
    if data != [] {
      CostNonNegativeStart(data[..|data| - 1], start);
    }
  }

  // ------------------------------------------------------------------
  // The two searches
  // ------------------------------------------------------------------

  /** The least part-1 cost over the positions from the smallest to the largest crab, by the incremental score. */
  method Part1(data: seq<int>) returns (min: int)
    requires data != [] && Sorted(data)
    ensures Least(data, data[0], data[|data| - 1], min, false)
  {
    var start, end := data[0], data[|data| - 1];
    var score := |data| + Offsets(data, start);
    StartScore(data, start);
    CostNonNegativeStart(data, start);
    CostStep(data, start);
    min := score;
    var index: nat := 0;
    for i := start to end + 1
      invariant index < |data|
      invariant forall j | 0 <= j < index :: data[j] < i
      invariant score == Cost(data, i - 1)
      invariant i == start ==> min == Cost(data, start - 1)
      invariant i > start ==> exists p | start <= p < i :: min == Fuel(data, p, false)
      invariant forall p | start <= p < i :: min <= Fuel(data, p, false)
    {
      index := SkipBelow(data, i, index);
      CostStep(data, i);
      score := score + index;
      score := score - (|data| - index);
      min := Min(min, score);
      assert Fuel(data, i, false) == score;
    }
  }

  /**
   * The inner `while data[index] < i` loop: moves `index` to the number of crabs left of `i`.
   * It never runs past the end, because the last crab is at or right of `i`.
   */
  method SkipBelow(data: seq<int>, i: int, index0: nat) returns (index: nat)
    requires Sorted(data) && index0 < |data| && i <= data[|data| - 1]
    requires forall j | 0 <= j < index0 :: data[j] < i
    ensures index < |data| && index == Below(data, i)
    ensures forall j | 0 <= j < index :: data[j] < i
  {
    index := index0;
    while data[index] < i
      invariant index < |data|
      invariant forall j | 0 <= j < index :: data[j] < i
      decreases |data| - index
    {
      index := index + 1;
    }
    BelowSplit(data, i, index);
  }

  /** The least part-2 cost over the positions from the smallest to the largest crab, capped at `i32::MAX`. */
  method Part2(data: seq<int>) returns (min: int)
    requires data != [] && Sorted(data)
    ensures min <= I32_MAX
    ensures Least(data, data[0], data[|data| - 1], min, true)
  {
    var start, end := data[0], data[|data| - 1];
    min := I32_MAX;
    for i := start to end + 1
      invariant min <= I32_MAX
      invariant min == I32_MAX || exists p | start <= p < i :: min == Fuel(data, p, true)
      invariant forall p | start <= p < i :: min <= Fuel(data, p, true)
    {
      var cost := Cost2(data, i);
      min := Min(min, cost);
      assert Fuel(data, i, true) == cost;
      if min == cost {
        assert start <= i < i + 1 && min == Fuel(data, i, true);
      }
    }
  }

  /**
   * `min` is the least fuel of the chosen part over the positions `lo` to `hi`;
   * part 2 may instead stay at its starting value `i32::MAX`.
   */
  ghost predicate Least(data: seq<int>, lo: int, hi: int, min: int, part2: bool)
  {
    (forall i | lo <= i <= hi :: min <= Fuel(data, i, part2)) &&
    ((part2 && min == I32_MAX) || exists i | lo <= i <= hi :: min == Fuel(data, i, part2))
  }

  lemma LeastPermutation(a: seq<int>, b: seq<int>, lo: int, hi: int, min: int, part2: bool)
    requires multiset(a) == multiset(b) && Least(a, lo, hi, min, part2)
    ensures Least(b, lo, hi, min, part2)
  {
    forall i
      ensures Fuel(a, i, part2) == Fuel(b, i, part2)
    {
      FuelPermutation(a, b, i, part2);
    }
  }

  /** Sorts the positions and runs the chosen part: the answer is the least fuel over the span of the crabs. */
  method Solve(data: seq<int>, part2: bool) returns (min: int)
    requires data != []
    ensures var s := Sort(data);
            |s| == |data| && Least(data, s[0], s[|s| - 1], min, part2)
  {
    var sorted := Sort(data);
    assert |sorted| == |data| by {
      assert |multiset(sorted)| == |multiset(data)|;
    }
    if part2 {
      min := Part2(sorted);
    } else {
      min := Part1(sorted);
    }
    LeastPermutation(sorted, data, sorted[0], sorted[|sorted| - 1], min, part2);
  }

  /** The fuel of either part. */
  function Fuel(data: seq<int>, i: int, part2: bool): nat
  {
    if part2 then Cost2(data, i) else Cost(data, i)
  }

  lemma {:induction false} FuelConcat(a: seq<int>, b: seq<int>, i: int, part2: bool)
    ensures Fuel(a + b, i, part2) == Fuel(a, i, part2) + Fuel(b, i, part2)
  {
    if b == [] {
      assert a + b == a;
    } else {
      assert (a + b)[..|a + b| - 1] == a + b[..|b| - 1];
      assert (a + b)[|a + b| - 1] == b[|b| - 1];
      FuelConcat(a, b[..|b| - 1], i, part2);
      assert b[..|b| - 1] + [] == b[..|b| - 1];
    }
  }

  lemma MultisetCancel(a: seq<int>, b1: seq<int>, b2: seq<int>, x: int)
    requires multiset(a + [x]) == multiset(b1 + [x] + b2)
    ensures multiset(a) == multiset(b1 + b2)
  {
    assert multiset(a + [x]) == multiset(a) + multiset{x};
    assert multiset(b1 + [x] + b2) == multiset(b1) + multiset{x} + multiset(b2);
    assert multiset(b1 + b2) == multiset(b1) + multiset(b2);
    assert multiset(a) == multiset(a + [x]) - multiset{x};
    assert multiset(b1) + multiset(b2) == multiset(b1) + multiset{x} + multiset(b2) - multiset{x};
  }

  /** The fuel does not depend on the order of the crabs. */
  lemma {:induction false} FuelPermutation(a: seq<int>, b: seq<int>, i: int, part2: bool)
    requires multiset(a) == multiset(b)
    ensures Fuel(a, i, part2) == Fuel(b, i, part2)
    decreases |a|
  {
    if a == [] {
      assert |multiset(b)| == 0;
    } else {
      var x := a[|a| - 1];
      var a' := a[..|a| - 1];
      assert a == a' + [x];
      assert x in multiset(b);
      var k :| 0 <= k < |b| && b[k] == x;
      var b1, b2 := b[..k], b[k + 1..];
      assert b == b1 + [x] + b2;
      MultisetCancel(a', b1, b2, x);
      assert |a'| < |a|;
      FuelPermutation(a', b1 + b2, i, part2);
      FuelConcat(a', [x], i, part2);
      FuelConcat(b1 + [x], b2, i, part2);
      FuelConcat(b1, [x], i, part2);
      FuelConcat(b1, b2, i, part2);
    }
  }
}

=== FILE: day08_main.dfy ===
/**
 * Day 8, the serial driver: part 1 counts the output patterns whose length
 * names one digit; part 2 feeds each line's ten patterns to one solver
 * until it settles, decodes the four outputs as a base-ten number and sums
 * those numbers over the lines.
 */
module Day08Run {
  import opened Wrappers
  import opened Day08Pattern
  import opened Day08Tables
  import opened Day08Solver

  /** One input line: the observed patterns, then the output patterns. */
  datatype Line = Line(patterns: seq<Pattern>, output: seq<Pattern>)

  /** Every pattern holds segment bits only, as parsing guarantees. */
  predicate AllSegments(ps: seq<Pattern>)
  {
    forall k | 0 <= k < |ps| :: Segments(ps[k])
  }

  predicate WellFormed(l: Line)
  {
    AllSegments(l.patterns) && AllSegments(l.output)
  }

  // ------------------------------------------------------------------
  // Part 1
  // ------------------------------------------------------------------

  /** How many patterns of `ps` have a length that names exactly one digit. */
  function CountUnique(ps: seq<Pattern>): (r: nat)
    requires AllSegments(ps)
    ensures r <= |ps|
  {
    if ps == [] then 0
    else
      var last := ps[|ps| - 1];
      SegmentsCount(last);
      CountUnique(ps[..|ps| - 1]) + if |PossibleNumbers(last)| == 1 then 1 else 0
  }

  /** Part 1 over every line's outputs. */
  function Part1(lines: seq<Line>): nat
    requires forall k | 0 <= k < |lines| :: WellFormed(lines[k])
  {
    if lines == [] then 0
    else
      var last := lines[|lines| - 1];
      assert WellFormed(last);
      Part1(lines[..|lines| - 1]) + CountUnique(last.output)
  }

  /** A pattern names one digit exactly when it lights two, three, four or seven segments. */
  lemma UniqueIsEasyLength(p: Pattern)
    requires Segments(p)
    ensures CountOnes(p) < 8
    ensures |PossibleNumbers(p)| == 1 <==> CountOnes(p) in {2, 3, 4, 7}
  {
    SegmentsCount(p);
    UniqueLengths(CountOnes(p));
  }

  /** How many of `ds` are 1, 4, 7 or 8. */
  function CountEasy(ds: seq<nat>): nat
  {
    if ds == [] then 0 else CountEasy(ds[..|ds| - 1]) + if ds[|ds| - 1] in {1, 4, 7, 8} then 1 else 0
  }

  /** The patterns shown for the digits `ds` through wiring `w`. */
  function ObservedAll(w: seq<nat>, ds: seq<nat>): (r: seq<Pattern>)
    requires |w| == 7 && (forall i | 0 <= i < 7 :: w[i] < 7) && Digits(ds)
    ensures |r| == |ds| && AllSegments(r)
    ensures forall k | 0 <= k < |ds| :: r[k] == Observed(w, ds[k])
  {
    seq(|ds|, k requires 0 <= k < |ds| => Observed(w, ds[k]))
  }

  lemma ObservedAllTail(w: seq<nat>, ds: seq<nat>)
    requires |w| == 7 && (forall i | 0 <= i < 7 :: w[i] < 7) && Digits(ds) && ds != []
    ensures Digits(ds[1..])
    ensures ObservedAll(w, ds)[0] == Observed(w, ds[0])
    ensures ObservedAll(w, ds)[1..] == ObservedAll(w, ds[1..])
  {
    assert forall k | 0 <= k < |ds| - 1 :: ds[1..][k] == ds[k + 1];
  }

  /** Through any wiring, part 1 counts exactly the 1s, 4s, 7s and 8s among the outputs. */
  lemma {:induction false} CountUniqueIsEasy(w: seq<nat>, ds: seq<nat>)
    requires Wiring(w) && Digits(ds)
    ensures CountUnique(ObservedAll(w, ds)) == CountEasy(ds)
  {
    if ds != [] {
      var init := ds[..|ds| - 1];
      var d := ds[|ds| - 1];
      CountUniqueIsEasy(w, init);
      assert ObservedAll(w, ds)[..|ds| - 1] == ObservedAll(w, init);
      ObservedCount(w, d);
      SegmentCounts();
      UniqueIsEasyLength(Observed(w, d));
    }
  }

  // ------------------------------------------------------------------
  // Part 2
  // ------------------------------------------------------------------

  /** Feeds `ps` in order to a solver holding `c`: the solution from the first pattern that settles every wire. */
  function Feed(c: seq<Pattern>, ps: seq<Pattern>): (r: Option<seq<Pattern>>)
    requires |c| == 7 && AllSegments(ps)
    ensures r.Some? ==> |r.value| == 7
    decreases |ps|
  {
    if ps == [] then None
    else
      var first := AddResult(c, ps[0]);
      if first.Some? then first else Feed(Add(c, ps[0]), ps[1..])
  }

  lemma SuffixSegments(ps: seq<Pattern>, j: nat)
    requires AllSegments(ps) && j <= |ps|
    ensures AllSegments(ps[j..])
  {
    forall k | 0 <= k < |ps| - j
      ensures Segments(ps[j..][k])
    {
      assert ps[j..][k] == ps[j + k];
    }
  }

  lemma SuffixStep(ps: seq<Pattern>, j: nat)
    requires AllSegments(ps) && j < |ps|
    ensures AllSegments(ps[j..]) && AllSegments(ps[j + 1..])
    ensures ps[j..] != [] && ps[j..][0] == ps[j] && ps[j..][1..] == ps[j + 1..]
  {
    SuffixSegments(ps, j);
    SuffixSegments(ps, j + 1);
  }

  /** A pattern that settles the solver ends the feeding with its solution. */
  lemma FeedSettles(c: seq<Pattern>, ps: seq<Pattern>)
    requires |c| == 7 && AllSegments(ps) && ps != [] && AddResult(c, ps[0]).Some?
    ensures Feed(c, ps) == AddResult(c, ps[0])
  {
  }

  /** A pattern that does not settle the solver passes the narrowed state on to the rest. */
  lemma FeedContinues(c: seq<Pattern>, ps: seq<Pattern>)
    requires |c| == 7 && AllSegments(ps) && ps != [] && AddResult(c, ps[0]).None?
    requires AllSegments(ps[1..])
    ensures Feed(c, ps) == Feed(Add(c, ps[0]), ps[1..])
  {
  }

  /** Every output maps onto one of the ten canonical digits. */
  predicate Decodable(sol: seq<Pattern>, outs: seq<Pattern>)
    requires |sol| == 7 && AllSegments(outs)
  {
    forall k | 0 <= k < |outs| :: DecodesTo(sol, outs[k])
  }

  /** The pattern maps onto one of the ten canonical digits. */
  predicate DecodesTo(sol: seq<Pattern>, p: Pattern)
    requires |sol| == 7 && Segments(p)
  {
    exists d | 0 <= d < 10 :: NUMBER_TO_PATTERN[d] == MapPattern(sol, p)
  }

  /** The outputs read as the digits of a base-ten number, most significant first. */
  function Decode(sol: seq<Pattern>, outs: seq<Pattern>): nat
    requires |sol| == 7 && AllSegments(outs) && Decodable(sol, outs)
  {
    if outs == [] then 0
    else
      DecodablePrefix(sol, outs, |outs| - 1);
      Decode(sol, outs[..|outs| - 1]) * 10 + Solve(sol, outs[|outs| - 1])
  }

  lemma DecodablePrefix(sol: seq<Pattern>, outs: seq<Pattern>, n: nat)
    requires |sol| == 7 && AllSegments(outs) && Decodable(sol, outs) && n <= |outs|
    ensures AllSegments(outs[..n]) && Decodable(sol, outs[..n])
  {
    forall k | 0 <= k < n
      ensures outs[..n][k] == outs[k]
    {
    }
  }

  /** Decoding one more output shifts the number one decimal place and adds its digit. */
  lemma DecodeSnoc(sol: seq<Pattern>, outs: seq<Pattern>, k: nat)
    requires |sol| == 7 && AllSegments(outs) && Decodable(sol, outs) && k < |outs|
    ensures AllSegments(outs[..k]) && Decodable(sol, outs[..k])
    ensures AllSegments(outs[..k + 1]) && Decodable(sol, outs[..k + 1])
    ensures Segments(outs[k]) && DecodesTo(sol, outs[k])
    ensures Decode(sol, outs[..k + 1]) == Decode(sol, outs[..k]) * 10 + Solve(sol, outs[k])
  {
    DecodablePrefix(sol, outs, k);
    DecodablePrefix(sol, outs, k + 1);
    assert outs[..k + 1][..k] == outs[..k];
    assert outs[..k + 1][k] == outs[k];
  }

  /** The digits `ds` read as a base-ten number, most significant first. */
  function Number(ds: seq<nat>): nat
  {
    if ds == [] then 0 else Number(ds[..|ds| - 1]) * 10 + ds[|ds| - 1]
  }

  /** A line the solver can answer for: if it settles, every output decodes. */
  predicate Answerable(l: Line)
  {
    WellFormed(l) &&
    var s := Feed(Fill(ALL), l.patterns);
    s.Some? ==> Decodable(s.value, l.output)
  }

  /** What a line adds to the sum: its decoded outputs, or nothing when the solver never settles. */
  function LineValue(l: Line): nat
    requires Answerable(l)
  {
    match Feed(Fill(ALL), l.patterns)
    case None => 0
    case Some(sol) => Decode(sol, l.output)
  }

  function Part2(lines: seq<Line>): nat
    requires forall k | 0 <= k < |lines| :: Answerable(lines[k])
  {
    if lines == [] then 0 else Part2(lines[..|lines| - 1]) + LineValue(lines[|lines| - 1])
  }

  /** The outputs decoded one by one, as the inner `for` of `run_serial` does. */
  method DecodeOutputs(sol: seq<Pattern>, outs: seq<Pattern>) returns (answer: nat)
    requires |sol| == 7 && AllSegments(outs) && Decodable(sol, outs)
    ensures answer == Decode(sol, outs)
  {
    answer := 0;
    DecodablePrefix(sol, outs, 0);
    for k := 0 to |outs|
      invariant AllSegments(outs[..k]) && Decodable(sol, outs[..k])
      invariant answer == Decode(sol, outs[..k])
    {
      DecodeSnoc(sol, outs, k);
      answer := answer * 10 + Solve(sol, outs[k]);
    }
    assert outs[..|outs|] == outs;
  }

  /** Feeds one line to the solver, as the body of the `'OUTER` loop does. */
  method SolveLine(solver: Solver, l: Line) returns (answer: nat)
    requires solver.Valid() && Answerable(l)
    modifies solver.solutions, solver.solution
    ensures answer == LineValue(l)
  {
    solver.Reset();
    var ps := l.patterns;
    answer := 0;
    assert ps[0..] == ps;
    for j := 0 to |ps|
      invariant AllSegments(ps[j..])
      invariant Feed(Fill(ALL), ps) == Feed(solver.solutions[..], ps[j..])
    {
      SuffixStep(ps, j);
      ghost var before := solver.solutions[..];
      var r := solver.AddPattern(ps[j]);
      if r.Some? {
        SettledLine(l, before, j);
        answer := DecodeOutputs(r.value, l.output);
        return;
      }
      FeedContinues(before, ps[j..]);
    }
    UnsettledLine(Fill(ALL), ps, solver.solutions[..]);
  }

  /** When the `j`th pattern settles the solver, its solution answers the line. */
  lemma SettledLine(l: Line, c: seq<Pattern>, j: nat)
    requires Answerable(l) && |c| == 7 && j < |l.patterns|
    requires AllSegments(l.patterns[j..]) && Feed(Fill(ALL), l.patterns) == Feed(c, l.patterns[j..])
    requires l.patterns[j..] != [] && l.patterns[j..][0] == l.patterns[j]
    requires AddResult(c, l.patterns[j]).Some?
    ensures Feed(Fill(ALL), l.patterns) == AddResult(c, l.patterns[j])
    ensures Decodable(AddResult(c, l.patterns[j]).value, l.output)
    ensures LineValue(l) == Decode(AddResult(c, l.patterns[j]).value, l.output)
  {
    FeedSettles(c, l.patterns[j..]);
  }

  /** When no pattern settles the solver, feeding the whole line gives nothing. */
  lemma UnsettledLine(start: seq<Pattern>, ps: seq<Pattern>, c: seq<Pattern>)
    requires |start| == 7 && |c| == 7 && AllSegments(ps)
    requires AllSegments(ps[|ps|..]) && Feed(start, ps) == Feed(c, ps[|ps|..])
    ensures Feed(start, ps) == None
  {
    assert ps[|ps|..] == [];
  }

  /** `run_serial`, part 2: one solver, reset for every line, and the sum of the line values. */
  method RunSerial(lines: seq<Line>) returns (sum: nat)
    requires forall k | 0 <= k < |lines| :: Answerable(lines[k])
    ensures sum == Part2(lines)
  {
    var solver := new Solver();
    sum := 0;
    for i := 0 to |lines|
      invariant solver.Valid()
      invariant sum == Part2(lines[..i])
    {
      assert lines[..i + 1][..i] == lines[..i];
      var answer := SolveLine(solver, lines[i]);
      sum := sum + answer;
    }
    assert lines[..|lines|] == lines;
  }

  // ------------------------------------------------------------------
  // Correctness on a consistent line
  // ------------------------------------------------------------------

  /** Any solution the solver returns for patterns seen through the true wiring is that wiring. */
  lemma {:induction false} FeedIsWiring(c: seq<Pattern>, w: seq<nat>, ds: seq<nat>)
    requires Wiring(w) && Sound(c, w) && Digits(ds)
    ensures var s := Feed(c, ObservedAll(w, ds));
            s.Some? ==> forall i | 0 <= i < 7 :: s.value[i] == Pattern(Single(w[i]))
    decreases |ds|
  {
    if ds != [] {
      var ps := ObservedAll(w, ds);
      ObservedAllTail(w, ds);
      AddSound(c, w, ds[0]);
      var next := Add(c, ps[0]);
      if AllDone(next) {
        FeedSettles(c, ps);
        SolutionIsWiring(next, w);
      } else {
        FeedContinues(c, ps);
        FeedIsWiring(next, w, ds[1..]);
      }
    }
  }

  /** With the true wiring, the outputs decode to the digits they show. */
  lemma {:induction false} DecodeIsNumber(sol: seq<Pattern>, w: seq<nat>, ds: seq<nat>)
    requires Wiring(w) && Digits(ds) && |sol| == 7
    requires forall i | 0 <= i < 7 :: sol[i] == Pattern(Single(w[i]))
    ensures Decodable(sol, ObservedAll(w, ds))
    ensures Decode(sol, ObservedAll(w, ds)) == Number(ds)
  {
    var outs := ObservedAll(w, ds);
    forall k | 0 <= k < |outs|
      ensures DecodesTo(sol, outs[k])
    {
      DecodeObserved(sol, w, ds[k]);
    }
    if ds != [] {
      var init := ds[..|ds| - 1];
      DecodeIsNumber(sol, w, init);
      assert outs[..|outs| - 1] == ObservedAll(w, init);
      DecodeObserved(sol, w, ds[|ds| - 1]);
    }
  }

  /**
   * A line whose patterns and outputs are digits seen through one wiring is
   * answerable, and it adds either nothing (the solver never settled) or
   * exactly the number its outputs show.
   */
  lemma LineValueCorrect(w: seq<nat>, digits: seq<nat>, shown: seq<nat>)
    requires Wiring(w) && Digits(digits) && Digits(shown)
    ensures Answerable(Line(ObservedAll(w, digits), ObservedAll(w, shown)))
    ensures var l := Line(ObservedAll(w, digits), ObservedAll(w, shown));
            LineValue(l) == 0 || LineValue(l) == Number(shown)
    ensures Feed(Fill(ALL), ObservedAll(w, digits)).Some? ==>
              LineValue(Line(ObservedAll(w, digits), ObservedAll(w, shown))) == Number(shown)
  {
    var ps := ObservedAll(w, digits);
    DefaultSound(w);
    FeedIsWiring(Fill(ALL), w, digits);
    var s := Feed(Fill(ALL), ps);
    if s.Some? {
      DecodeIsNumber(s.value, w, shown);
    }
  }
}

=== FILE: day08_pattern.dfy ===
/**
 * Day 8 (seven-segment search), the bit-set layer. A `Pattern` is a byte
 * whose low seven bits stand for the segments (or wires) `a` to `g`; the
 * byte is modelled as its eight bits, least significant first, so that
 * `bits[i]` is the bit the source tests with `1 << i`.
 */
module Day08Pattern {
  import opened Wrappers

  /** A `u8` as its eight bits, bit `i` at position `i`. */
  type Byte = s: seq<bool> | |s| == 8 witness [false, false, false, false, false, false, false, false]

  /** Rust's `Pattern(u8)`. */
  datatype Pattern = Pattern(bits: Byte)

  /** The numeric value of a byte, `sum of 2^i over the set bits i`. */
  function Value(b: seq<bool>): nat
  {
    if b == [] then 0 else (if b[0] then 1 else 0) + 2 * Value(b[1..])
  }

  /** `1 << i`: the byte with only bit `i` set. */
  function Single(i: nat): (r: Byte)
    requires i < 8
    ensures forall j | 0 <= j < 8 :: r[j] <==> j == i
  {
    seq(8, j => j == i)
  }

  /** `Pattern::MASK`, `(1 << 7) - 1`: the seven segment bits. */
  const MASK: Byte := [true, true, true, true, true, true, true, false]
  /** `Pattern::ALL`: every segment. */
  const ALL: Pattern := Pattern(MASK)
  /** `Pattern::ZERO`: no segment. */
  const ZERO: Pattern := Pattern([false, false, false, false, false, false, false, false])

  /** `MASK` is worth `(1 << 7) - 1`. */
  lemma MaskValue()
    ensures Value(MASK) == 127 && Value(ZERO.bits) == 0
  {
  }

  /** The pattern uses only the seven segment bits. */
  predicate Segments(p: Pattern)
  {
    !p.bits[7]
  }

  /** The method `Pattern::not`: the complement within the seven segments (`!x & MASK`). */
  function Not(p: Pattern): (r: Pattern)
    ensures Segments(r)
    ensures forall i | 0 <= i < 7 :: r.bits[i] <==> !p.bits[i]
  {
    Pattern(seq(8, i requires 0 <= i < 8 => !p.bits[i] && MASK[i]))
  }

  /** The operator `!`: flips all eight bits, the eighth included. */
  function Complement(p: Pattern): (r: Pattern)
    ensures forall i | 0 <= i < 8 :: r.bits[i] <==> !p.bits[i]
  {
    Pattern(seq(8, i requires 0 <= i < 8 => !p.bits[i]))
  }

  /** `&` and `&=`: keeps the bits set in both. */
  function And(a: Pattern, b: Pattern): (r: Pattern)
    ensures forall i | 0 <= i < 8 :: r.bits[i] <==> a.bits[i] && b.bits[i]
  {
    Pattern(seq(8, i requires 0 <= i < 8 => a.bits[i] && b.bits[i]))
  }

  /** `|` and `|=`: keeps the bits set in either. */
  function Or(a: Pattern, b: Pattern): (r: Pattern)
    ensures forall i | 0 <= i < 8 :: r.bits[i] <==> a.bits[i] || b.bits[i]
  {
    Pattern(seq(8, i requires 0 <= i < 8 => a.bits[i] || b.bits[i]))
  }

  /** `^`: keeps the bits set in exactly one. */
  function Xor(a: Pattern, b: Pattern): (r: Pattern)
    ensures forall i | 0 <= i < 8 :: r.bits[i] <==> a.bits[i] != b.bits[i]
  {
    Pattern(seq(8, i requires 0 <= i < 8 => a.bits[i] != b.bits[i]))
  }

  /** `&=` with the same mask twice is the same as once. */
  lemma AndIdempotent(a: Pattern, m: Pattern)
    ensures And(And(a, m), m) == And(a, m)
  {
  }

  /** Complementing twice gives the pattern back, and `not` is `!` masked to the seven segments. */
  lemma ComplementInvolution(p: Pattern)
    ensures Complement(Complement(p)) == p
    ensures Segments(p) ==> Not(Not(p)) == p
    ensures And(Complement(p), ALL) == Not(p)
  {
  }

  // ------------------------------------------------------------------
  // Counting and enumerating bits
  // ------------------------------------------------------------------

  /** How many of the bits below `n` are set. */
  function CountBelow(b: Byte, n: nat): (r: nat)
    requires n <= 8
    ensures r <= n
  {
    if n == 0 then 0 else CountBelow(b, n - 1) + (if b[n - 1] then 1 else 0)
  }

  /** `Pattern::count_ones`. */
  function CountOnes(p: Pattern): (r: nat)
    ensures r <= 8
  {
    CountBelow(p.bits, 8)
  }

  /** `Pattern::is_done`: exactly one segment left. */
  predicate IsDone(p: Pattern)
  {
    CountOnes(p) == 1
  }

  /** The positions of the set bits below `n`, ascending. */
  function IndicesBelow(b: Byte, n: nat): (r: seq<nat>)
    requires n <= 8
    ensures |r| == CountBelow(b, n)
    ensures forall k | 0 <= k < |r| :: r[k] < n && b[r[k]]
    ensures forall i | 0 <= i < n && b[i] :: i in r
    ensures forall k, l | 0 <= k < l < |r| :: r[k] < r[l]
  {
    if n == 0 then [] else IndicesBelow(b, n - 1) + (if b[n - 1] then [n - 1] else [])
  }

  /** `Pattern::indicies` (a `BitIter`): the positions of the set bits, ascending. */
  function Indices(p: Pattern): (r: seq<nat>)
    ensures |r| == CountOnes(p)
    ensures forall k | 0 <= k < |r| :: r[k] < 8 && p.bits[r[k]]
    ensures forall i | 0 <= i < 8 && p.bits[i] :: i in r
    ensures forall k, l | 0 <= k < l < |r| :: r[k] < r[l]
  {
    IndicesBelow(p.bits, 8)
  }

  /** Two patterns share no bit. */
  predicate Disjoint(a: Pattern, b: Pattern)
  {
    forall i | 0 <= i < 8 :: !(a.bits[i] && b.bits[i])
  }

  /** The bits of two disjoint patterns add up. */
  lemma {:induction false} CountDisjointOr(a: Pattern, b: Pattern, n: nat)
    requires Disjoint(a, b) && n <= 8
    ensures CountBelow(Or(a, b).bits, n) == CountBelow(a.bits, n) + CountBelow(b.bits, n)
  {
    if n > 0 {
      CountDisjointOr(a, b, n - 1);
    }
  }

  /** A pattern is done exactly when it is a single bit, and that bit is its first index. */
  lemma DoneIsSingleBit(p: Pattern)
    ensures IsDone(p) <==> exists i | 0 <= i < 8 :: p.bits == Single(i)
    ensures IsDone(p) ==> p.bits == Single(Indices(p)[0])
  {
    if IsDone(p) {
      DoneSingle(p);
    }
    if exists i | 0 <= i < 8 :: p.bits == Single(i) {
      var i :| 0 <= i < 8 && p.bits == Single(i);
      SingleDone(p, i);
    }
  }

  lemma DoneSingle(p: Pattern)
    requires IsDone(p)
    ensures p.bits == Single(Indices(p)[0])
  {
    var r := Indices(p);
    var i := r[0];
    forall j | 0 <= j < 8
      ensures p.bits[j] == Single(i)[j]
    {
      if p.bits[j] {
        assert j in r;
      }
    }
  }

  lemma SingleDone(p: Pattern, i: nat)
    requires i < 8 && p.bits == Single(i)
    ensures IsDone(p)
  {
    CountSingle(i, 8);
  }

  lemma {:induction false} CountSingle(i: nat, n: nat)
    requires i < 8 && n <= 8
    ensures CountBelow(Single(i), n) == if i < n then 1 else 0
  {
    if n > 0 {
      CountSingle(i, n - 1);
    }
  }

  /** A pattern is empty exactly when it has no index. */
  lemma EmptyHasNoIndices(p: Pattern)
    ensures CountOnes(p) == 0 <==> p == ZERO
  {
    if CountOnes(p) == 0 {
      forall i | 0 <= i < 8
        ensures !p.bits[i]
      {
        assert p.bits[i] ==> i in Indices(p);
      }
    }
    if p == ZERO {
      assert Indices(p) == [];
    }
  }

  // ------------------------------------------------------------------
  // Characters
  // ------------------------------------------------------------------

  /** `char_index`: the offset of a letter from `a`. */
  function CharIndex(c: char): int
  {
    c as int - 'a' as int
  }

  predicate IsSegmentChar(c: char)
  {
    'a' as int <= c as int <= 'g' as int
  }

  /** Appending a letter to a parsable string ORs in its bit. */
  lemma ParseSnoc(s: string, c: char)
    requires Parse(s).Ok? && IsSegmentChar(c)
    ensures Parse(s + [c]) == Ok(Or(Parse(s).value, Pattern(Single(CharIndex(c)))))
  {
    assert (s + [c])[..|s|] == s;
  }

  /** `FromStr for Pattern`: ORs `1 << char_index(c)` for each letter; the first character outside `a..=g` is the error. */
  function Parse(s: string): (r: Result<Pattern, char>)
    ensures r.Ok? ==> Segments(r.value)
  {
    if s == [] then Ok(ZERO)
    else
      match Parse(s[..|s| - 1])
      case Err(e) => Err(e)
      case Ok(l) =>
        var c := s[|s| - 1];
        if IsSegmentChar(c) then Ok(Or(l, Pattern(Single(CharIndex(c))))) else Err(c)
  }

  /** Parsing succeeds exactly on letters `a..=g`; a failure names the first other character. */
  lemma {:induction false} ParseOutcome(s: string)
    ensures Parse(s).Ok? <==> forall k | 0 <= k < |s| :: IsSegmentChar(s[k])
    ensures Parse(s).Err? ==>
              exists k | 0 <= k < |s| :: s[k] == Parse(s).error && !IsSegmentChar(s[k]) &&
                                         forall j | 0 <= j < k :: IsSegmentChar(s[j])
  {
    if s != [] {
      var init := s[..|s| - 1];
      ParseOutcome(init);
      assert forall j | 0 <= j < |init| :: s[j] == init[j];
      if Parse(init).Err? {
        var k :| 0 <= k < |init| && init[k] == Parse(init).error && !IsSegmentChar(init[k]) &&
                 forall j | 0 <= j < k :: IsSegmentChar(init[j]);
        assert s[k] == init[k];
      }
    }
  }

  /** A parsed pattern holds exactly the letters of the input, repeated letters collapsing. */
  lemma {:induction false} ParseBits(s: string, i: nat)
    requires i < 8 && Parse(s).Ok?
    ensures Parse(s).value.bits[i] <==> exists k | 0 <= k < |s| :: CharIndex(s[k]) == i
  {
    if s != [] {
      var init := s[..|s| - 1];
      ParseBits(init, i);
      if exists k | 0 <= k < |init| :: CharIndex(init[k]) == i {
        var k :| 0 <= k < |init| && CharIndex(init[k]) == i;
        assert s[k] == init[k];
      }
      if exists k | 0 <= k < |s| :: CharIndex(s[k]) == i {
        var k :| 0 <= k < |s| && CharIndex(s[k]) == i;
        if k < |init| {
          assert init[k] == s[k];
        }
      }
    }
  }

  /** The letters of the set bits below `n`. */
  function CharsBelow(b: Byte, n: nat): (r: string)
    requires n <= 8
    ensures |r| == |IndicesBelow(b, n)|
    ensures forall k | 0 <= k < |r| :: r[k] == (IndicesBelow(b, n)[k] + 'a' as int) as char
  {
    if n == 0 then []
    else CharsBelow(b, n - 1) + (if b[n - 1] then [(n - 1 + 'a' as int) as char] else [])
  }

  /** `ToString for Pattern` (`chars().collect()`): the letters of the set bits, in order. */
  function ToString(p: Pattern): string
  {
    CharsBelow(p.bits, 8)
  }

  /** The bits of `b` below `n`. */
  function LowPart(b: Byte, n: nat): (r: Byte)
    ensures forall i | 0 <= i < 8 :: r[i] <==> i < n && b[i]
  {
    seq(8, i requires 0 <= i < 8 => i < n && b[i])
  }

  lemma {:induction false} ParseCharsBelow(b: Byte, n: nat)
    requires n <= 7
    ensures Parse(CharsBelow(b, n)) == Ok(Pattern(LowPart(b, n)))
  {
    if n == 0 {
      assert LowPart(b, 0) == ZERO.bits;
    } else {
      ParseCharsBelow(b, n - 1);
      ParseCharsStep(b, n);
    }
  }

  lemma ParseCharsStep(b: Byte, n: nat)
    requires 0 < n <= 7
    requires Parse(CharsBelow(b, n - 1)) == Ok(Pattern(LowPart(b, n - 1)))
    ensures Parse(CharsBelow(b, n)) == Ok(Pattern(LowPart(b, n)))
  {
    if b[n - 1] {
      ParseCharsSet(b, n);
    } else {
      assert CharsBelow(b, n) == CharsBelow(b, n - 1);
      assert LowPart(b, n - 1) == LowPart(b, n);
    }
  }

  lemma ParseCharsSet(b: Byte, n: nat)
    requires 0 < n <= 7 && b[n - 1]
    requires Parse(CharsBelow(b, n - 1)) == Ok(Pattern(LowPart(b, n - 1)))
    ensures Parse(CharsBelow(b, n)) == Ok(Pattern(LowPart(b, n)))
  {
    var c := (n - 1 + 'a' as int) as char;
    CharsSet(b, n);
    ParseSnoc(CharsBelow(b, n - 1), c);
    OrLow(b, n);
  }

  lemma CharsSet(b: Byte, n: nat)
    requires 0 < n <= 7 && b[n - 1]
    ensures CharsBelow(b, n) == CharsBelow(b, n - 1) + [(n - 1 + 'a' as int) as char]
    ensures CharIndex((n - 1 + 'a' as int) as char) == n - 1
  {
  }

  lemma OrLow(b: Byte, n: nat)
    requires 0 < n <= 7 && b[n - 1]
    ensures Or(Pattern(LowPart(b, n - 1)), Pattern(Single(n - 1))) == Pattern(LowPart(b, n))
  {
    assert Or(Pattern(LowPart(b, n - 1)), Pattern(Single(n - 1))).bits == LowPart(b, n);
  }

  /** Printing then parsing gives back every pattern of the seven segments. */
  lemma ParseToString(p: Pattern)
    requires Segments(p)
    ensures Parse(ToString(p)) == Ok(p)
  {
    ParseCharsBelow(p.bits, 7);
    assert CharsBelow(p.bits, 8) == CharsBelow(p.bits, 7);
    assert LowPart(p.bits, 7) == p.bits;
  }

  /** Only letters `a..=g` come out of printing a pattern of the seven segments. */
  lemma ToStringLetters(p: Pattern)
    requires Segments(p)
    ensures forall k | 0 <= k < |ToString(p)| :: IsSegmentChar(ToString(p)[k])
  {
    var r := ToString(p);
    forall k | 0 <= k < |r|
      ensures IsSegmentChar(r[k])
    {
      var i := IndicesBelow(p.bits, 8)[k];
      assert p.bits[i];
    }
  }

  // ------------------------------------------------------------------
  // The const constructor from letters
  // ------------------------------------------------------------------

  /** The bits of the first `n` letters of a list, ORed left to right. */
  function CharListBits(list: seq<char>, n: nat): Byte
    requires n <= |list|
    requires forall k | 0 <= k < |list| :: IsSegmentChar(list[k])
  {
    if n == 0 then ZERO.bits
    else
      var c := list[n - 1];
      assert IsSegmentChar(c);
      Or(Pattern(CharListBits(list, n - 1)), Pattern(Single(CharIndex(c)))).bits
  }

  /** `Pattern::from_char_list`, as its `while` loop computes it; it agrees with parsing the same letters. */
  method FromCharList(list: seq<char>) returns (r: Pattern)
    requires forall k | 0 <= k < |list| :: IsSegmentChar(list[k])
    ensures r == Pattern(CharListBits(list, |list|))
    ensures Parse(list) == Ok(r)
  {
    var p := ZERO;
    var i := 0;
    while i < |list|
      invariant 0 <= i <= |list|
      invariant p.bits == CharListBits(list, i)
    {
      p := Or(p, Pattern(Single(CharIndex(list[i]))));
      i := i + 1;
    }
    r := p;
    ParseCharList(list, |list|);
    assert list[..|list|] == list;
  }

  /** On a list of letters, parsing a prefix and the const constructor agree. */
  lemma {:induction false} ParseCharList(list: seq<char>, n: nat)
    requires n <= |list|
    requires forall k | 0 <= k < |list| :: IsSegmentChar(list[k])
    ensures Parse(list[..n]) == Ok(Pattern(CharListBits(list, n)))
  {
    if n > 0 {
      ParseCharList(list, n - 1);
      assert list[..n] == list[..n - 1] + [list[n - 1]];
      ParseSnoc(list[..n - 1], list[n - 1]);
    }
  }
}

=== FILE: day08_solver.dfy ===
/**
 * Day 8, the deduction engine: one candidate set of segments per observed
 * wire, narrowed by each pattern seen, then flattened (a wire whose set is
 * a single segment removes that segment from every other wire) until no
 * new wire is settled.
 */
module Day08Solver {
  import opened Wrappers
  import opened Day08Pattern
  import opened Day08Tables

  /** Seven copies of `p`. */
  function Fill(p: Pattern): (r: seq<Pattern>)
    ensures |r| == 7 && forall i | 0 <= i < 7 :: r[i] == p
  {
    seq(7, _ => p)
  }

  /** Positions that name one of the seven wires. */
  predicate WireList(ws: seq<nat>)
  {
    forall k | 0 <= k < |ws| :: ws[k] < 7
  }

  lemma SegmentIndices(p: Pattern)
    requires Segments(p)
    ensures WireList(Indices(p))
  {
  }

  // ------------------------------------------------------------------
  // Narrowing
  // ------------------------------------------------------------------

  /** ANDs `m` into the candidates of the wires `ws`, one after another. */
  function Narrow(c: seq<Pattern>, ws: seq<nat>, m: Pattern): (r: seq<Pattern>)
    requires |c| == 7 && WireList(ws)
    ensures |r| == 7
  {
    if ws == [] then c
    else
      var r0 := Narrow(c, ws[..|ws| - 1], m);
      var w := ws[|ws| - 1];
      r0[w := And(r0[w], m)]
  }

  /** Narrowing ANDs the mask into exactly the listed wires, however often each is listed. */
  lemma {:induction false} NarrowPointwise(c: seq<Pattern>, ws: seq<nat>, m: Pattern)
    requires |c| == 7 && WireList(ws)
    ensures forall j | 0 <= j < 7 :: Narrow(c, ws, m)[j] == if j in ws then And(c[j], m) else c[j]
  {
    if ws != [] {
      var init := ws[..|ws| - 1];
      NarrowPointwise(c, init, m);
      assert ws == init + [ws[|ws| - 1]];
      forall j | 0 <= j < 7 && j in init
        ensures And(And(c[j], m), m) == And(c[j], m)
      {
        AndIdempotent(c[j], m);
      }
    }
  }

  /** `propagate_constraints`: lit wires keep only segments some digit of that length lights; unlit wires lose
    * the segments all such digits light, and, when the length names one digit, every segment it lights. */
  function Propagate(c: seq<Pattern>, p: Pattern): (r: seq<Pattern>)
    requires |c| == 7 && Segments(p)
    ensures |r| == 7
  {
    SegmentsCount(p);
    SegmentIndices(p);
    SegmentIndices(Not(p));
    var union := PossibleChars(p);
    var c1 := Narrow(c, Indices(p), union);
    var c2 := Narrow(c1, Indices(Not(p)), Complement(RequiredChars(p)));
    if |PossibleNumbers(p)| == 1 then Narrow(c2, Indices(Not(p)), Complement(union)) else c2
  }

  /** What propagation does to one wire, lit or unlit. */
  lemma PropagatePointwise(c: seq<Pattern>, p: Pattern, j: nat)
    requires |c| == 7 && Segments(p) && j < 7
    ensures CountOnes(p) < 8
    ensures p.bits[j] ==> Propagate(c, p)[j] == And(c[j], PossibleChars(p))
    ensures !p.bits[j] && |PossibleNumbers(p)| != 1 ==>
              Propagate(c, p)[j] == And(c[j], Complement(RequiredChars(p)))
    ensures !p.bits[j] && |PossibleNumbers(p)| == 1 ==>
              Propagate(c, p)[j] == And(And(c[j], Complement(RequiredChars(p))), Complement(PossibleChars(p)))
  {
    SegmentsCount(p);
    SegmentIndices(p);
    SegmentIndices(Not(p));
    var union := PossibleChars(p);
    var c1 := Narrow(c, Indices(p), union);
    var c2 := Narrow(c1, Indices(Not(p)), Complement(RequiredChars(p)));
    NarrowPointwise(c, Indices(p), union);
    NarrowPointwise(c1, Indices(Not(p)), Complement(RequiredChars(p)));
    NarrowPointwise(c2, Indices(Not(p)), Complement(union));
    if p.bits[j] {
      assert j in Indices(p);
      assert j !in Indices(Not(p));
    } else {
      assert j !in Indices(p);
      assert j in Indices(Not(p));
    }
  }

  // ------------------------------------------------------------------
  // Flattening
  // ------------------------------------------------------------------

  /** `completion_mask`: the fold that sets bit `i` for every settled wire `i` below `n`. */
  function MaskBelow(c: seq<Pattern>, n: nat): (r: Pattern)
    requires |c| == 7 && n <= 7
    ensures forall i | 0 <= i < 8 :: r.bits[i] <==> i < n && IsDone(c[i])
  {
    if n == 0 then ZERO
    else Or(MaskBelow(c, n - 1), if IsDone(c[n - 1]) then Pattern(Single(n - 1)) else ZERO)
  }

  /** `completion_mask`: bit `i` is set exactly when wire `i` is settled on one segment. */
  function CompletionMask(c: seq<Pattern>): (r: Pattern)
    requires |c| == 7
    ensures Segments(r)
    ensures forall i | 0 <= i < 7 :: r.bits[i] <==> IsDone(c[i])
  {
    MaskBelow(c, 7)
  }

  /** `flatten_out`: every wire whose candidates differ from wire `i`'s loses wire `i`'s candidates. */
  function FlattenOut(c: seq<Pattern>, i: nat): (r: seq<Pattern>)
    requires |c| == 7 && i < 7
    ensures |r| == 7
  {
    seq(7, j requires 0 <= j < 7 => if c[j] != c[i] then And(c[j], Complement(c[i])) else c[j])
  }

  /** Flattening out each of `ks` in turn (the `for` over `BitIter::from(completed)`). */
  function FlattenAll(c: seq<Pattern>, ks: seq<nat>): (r: seq<Pattern>)
    requires |c| == 7 && WireList(ks)
    ensures |r| == 7
  {
    if ks == [] then c else FlattenOut(FlattenAll(c, ks[..|ks| - 1]), ks[|ks| - 1])
  }

  /** The settled wires not yet flattened, `completion_mask & !complete & MASK`. */
  function Remains(c: seq<Pattern>, complete: Pattern): (r: Pattern)
    requires |c| == 7
    ensures Segments(r) && Disjoint(r, complete)
    ensures forall i | 0 <= i < 7 :: r.bits[i] <==> IsDone(c[i]) && !complete.bits[i]
  {
    And(CompletionMask(c), Not(complete))
  }

  /** Adding a non-empty set of new wires to `complete` raises its count. */
  lemma RemainsGrow(c: seq<Pattern>, complete: Pattern)
    requires |c| == 7 && Segments(complete) && Remains(c, complete) != ZERO
    ensures Segments(Or(complete, Remains(c, complete)))
    ensures CountOnes(Or(complete, Remains(c, complete))) > CountOnes(complete)
  {
    var completed := Remains(c, complete);
    CountDisjointOr(completed, complete, 8);
    assert Or(completed, complete) == Or(complete, completed);
    EmptyHasNoIndices(completed);
  }

  /** `flatten_to`, with the remaining set computed as intended (see `RemainsAsWritten`). */
  function FlattenTo(c: seq<Pattern>, complete: Pattern): (r: seq<Pattern>)
    requires |c| == 7 && Segments(complete)
    ensures |r| == 7
    decreases 8 - CountOnes(complete)
  {
    var completed := Remains(c, complete);
    if completed == ZERO then c
    else
      RemainsGrow(c, complete);
      SegmentIndices(completed);
      FlattenTo(FlattenAll(c, Indices(completed)), Or(complete, completed))
  }

  /** `add`: propagate the pattern, then flatten everything that became settled. */
  function Add(c: seq<Pattern>, p: Pattern): (r: seq<Pattern>)
    requires |c| == 7 && Segments(p)
    ensures |r| == 7
  {
    FlattenTo(Propagate(c, p), CompletionMask(c))
  }

  /** Every wire is settled on one segment. */
  predicate AllDone(c: seq<Pattern>)
    requires |c| == 7
  {
    forall i | 0 <= i < 7 :: IsDone(c[i])
  }

  /** `solution`: each wire's segment as `1 << first index`. */
  function SolutionOf(c: seq<Pattern>): (r: seq<Pattern>)
    requires |c| == 7 && AllDone(c)
    ensures |r| == 7
  {
    seq(7, i requires 0 <= i < 7 => Pattern(Single(Indices(c[i])[0])))
  }

  /** When every wire is settled, the solution is the candidate sets themselves. */
  lemma SolutionIsCandidates(c: seq<Pattern>)
    requires |c| == 7 && AllDone(c)
    ensures SolutionOf(c) == c
  {
    forall i | 0 <= i < 7
      ensures SolutionOf(c)[i] == c[i]
    {
      DoneIsSingleBit(c[i]);
    }
  }

  /** `return_solution_if_done` after `add`. */
  function AddResult(c: seq<Pattern>, p: Pattern): Option<seq<Pattern>>
    requires |c| == 7 && Segments(p)
  {
    var r := Add(c, p);
    if AllDone(r) then Some(SolutionOf(r)) else None
  }

  // ------------------------------------------------------------------
  // Only narrowing
  // ------------------------------------------------------------------

  /** Every candidate of `a` is a candidate of `b`. */
  predicate Within(a: seq<Pattern>, b: seq<Pattern>)
    requires |a| == 7 && |b| == 7
  {
    forall i, s | 0 <= i < 7 && 0 <= s < 8 :: a[i].bits[s] ==> b[i].bits[s]
  }

  lemma {:induction false} NarrowWithin(c: seq<Pattern>, ws: seq<nat>, m: Pattern)
    requires |c| == 7 && WireList(ws)
    ensures Within(Narrow(c, ws, m), c)
  {
    NarrowPointwise(c, ws, m);
  }

  lemma PropagateWithin(c: seq<Pattern>, p: Pattern)
    requires |c| == 7 && Segments(p)
    ensures Within(Propagate(c, p), c)
  {
    forall j | 0 <= j < 7
      ensures forall s | 0 <= s < 8 :: Propagate(c, p)[j].bits[s] ==> c[j].bits[s]
    {
      PropagatePointwise(c, p, j);
    }
  }

  lemma {:induction false} FlattenAllWithin(c: seq<Pattern>, ks: seq<nat>)
    requires |c| == 7 && WireList(ks)
    ensures Within(FlattenAll(c, ks), c)
  {
    if ks != [] {
      FlattenAllWithin(c, ks[..|ks| - 1]);
    }
  }

  lemma {:induction false} FlattenToWithin(c: seq<Pattern>, complete: Pattern)
    requires |c| == 7 && Segments(complete)
    ensures Within(FlattenTo(c, complete), c)
    decreases 8 - CountOnes(complete)
  {
    var completed := Remains(c, complete);
    if completed != ZERO {
      RemainsGrow(c, complete);
      SegmentIndices(completed);
      var next := FlattenAll(c, Indices(completed));
      FlattenAllWithin(c, Indices(completed));
      FlattenToWithin(next, Or(complete, completed));
    }
  }

  /** `add` only ever removes candidates: every update is an AND. */
  lemma AddWithin(c: seq<Pattern>, p: Pattern)
    requires |c| == 7 && Segments(p)
    ensures Within(Add(c, p), c)
  {
    PropagateWithin(c, p);
    FlattenToWithin(Propagate(c, p), CompletionMask(c));
  }

  // ------------------------------------------------------------------
  // Soundness against a true wiring
  // ------------------------------------------------------------------

  /** A wiring: wire `i` drives segment `w[i]`, and every segment is driven by exactly one wire. */
  ghost predicate Wiring(w: seq<nat>)
  {
    |w| == 7 && (forall i | 0 <= i < 7 :: w[i] < 7) &&
    (forall i, j | 0 <= i < j < 7 :: w[i] != w[j]) &&
    (forall s | 0 <= s < 7 :: s in w)
  }

  /** The pattern shown for digit `d` through wiring `w`: wire `i` is lit when its segment is. */
  function Observed(w: seq<nat>, d: nat): (r: Pattern)
    requires |w| == 7 && (forall i | 0 <= i < 7 :: w[i] < 7) && d < 10
    ensures Segments(r)
    ensures forall i | 0 <= i < 7 :: r.bits[i] <==> NUMBER_TO_PATTERN[d].bits[w[i]]
  {
    Pattern(seq(8, i requires 0 <= i < 8 => i < 7 && NUMBER_TO_PATTERN[d].bits[w[i]]))
  }

  /** Every wire's true segment is still among its candidates. */
  ghost predicate Sound(c: seq<Pattern>, w: seq<nat>)
    requires Wiring(w)
  {
    |c| == 7 && forall i | 0 <= i < 7 :: c[i].bits[w[i]]
  }

  /** A default solver holds every wiring. */
  lemma DefaultSound(w: seq<nat>)
    requires Wiring(w)
    ensures Sound(Fill(ALL), w)
  {
  }

  /** The set of bits below `n`. */
  ghost function BitSet(b: Byte, n: nat): set<nat>
    requires n <= 8
  {
    set i | 0 <= i < n && b[i]
  }

  lemma {:induction false} CountIsCard(b: Byte, n: nat)
    requires n <= 8
    ensures CountBelow(b, n) == |BitSet(b, n)|
  {
    if n > 0 {
      CountIsCard(b, n - 1);
      if b[n - 1] {
        assert BitSet(b, n) == BitSet(b, n - 1) + {n - 1};
      } else {
        assert BitSet(b, n) == BitSet(b, n - 1);
      }
    }
  }

  /** The segments driven by the wires of `a`. */
  ghost function Image(w: seq<nat>, a: set<nat>): set<nat>
    requires Wiring(w) && forall i | i in a :: i < 7
  {
    set i | i in a :: w[i]
  }

  /** A wiring drives as many segments as there are wires. */
  lemma ImageCard(w: seq<nat>, a: set<nat>)
    requires Wiring(w) && forall i | i in a :: i < 7
    ensures |Image(w, a)| == |a|
    decreases |a|
  {
    if a != {} {
      var x :| x in a;
      var rest := a - {x};
      ImageCard(w, rest);
      assert Image(w, a) == Image(w, rest) + {w[x]};
      assert w[x] !in Image(w, rest);
    }
  }

  /** Through a wiring, a digit lights as many wires as it has segments. */
  lemma ObservedCount(w: seq<nat>, d: nat)
    requires Wiring(w) && d < 10
    ensures CountOnes(Observed(w, d)) == SegmentCount(d)
  {
    var o := Observed(w, d);
    var t := NUMBER_TO_PATTERN[d];
    CountIsCard(o.bits, 8);
    CountIsCard(t.bits, 8);
    ObservedImage(w, d);
    ImageCard(w, BitSet(o.bits, 8));
  }

  /** The wiring carries the lit wires of an observed digit onto the digit's lit segments. */
  lemma ObservedImage(w: seq<nat>, d: nat)
    requires Wiring(w) && d < 10
    ensures forall i | i in BitSet(Observed(w, d).bits, 8) :: i < 7
    ensures Image(w, BitSet(Observed(w, d).bits, 8)) == BitSet(NUMBER_TO_PATTERN[d].bits, 8)
  {
    var o := Observed(w, d);
    var t := NUMBER_TO_PATTERN[d];
    var a := BitSet(o.bits, 8);
    TableSegments(d);
    forall s | s in BitSet(t.bits, 8)
      ensures s in Image(w, a)
    {
      assert s < 7;
      assert s in w;
      var i :| 0 <= i < 7 && w[i] == s;
      assert i in a;
    }
  }

  /** No canonical digit lights the eighth bit. */
  lemma TableSegments(d: nat)
    requires d < 10
    ensures Segments(NUMBER_TO_PATTERN[d])
  {
    TableDistinct();
  }

  /** Seeing a digit through the true wiring keeps every wire's true segment. */
  lemma PropagateSound(c: seq<Pattern>, w: seq<nat>, d: nat)
    requires Wiring(w) && d < 10 && Sound(c, w)
    ensures Sound(Propagate(c, Observed(w, d)), w)
  {
    var p := Observed(w, d);
    ObservedCount(w, d);
    DigitBetween(d);
    forall j | 0 <= j < 7
      ensures Propagate(c, p)[j].bits[w[j]]
    {
      PropagatePointwise(c, p, j);
    }
  }

  /** A settled wire loses nothing when another settled wire is flattened out. */
  lemma FlattenOutKeepsDone(c: seq<Pattern>, i: nat, j: nat)
    requires |c| == 7 && i < 7 && j < 7 && IsDone(c[i]) && IsDone(c[j])
    ensures FlattenOut(c, i)[j] == c[j]
  {
    DoneIsSingleBit(c[i]);
    DoneIsSingleBit(c[j]);
    if c[j] != c[i] {
      assert Indices(c[j])[0] != Indices(c[i])[0];
      assert And(c[j], Complement(c[i])).bits == c[j].bits;
    }
  }

  /** Flattening out a settled wire keeps every wire's true segment. */
  lemma FlattenOutSound(c: seq<Pattern>, w: seq<nat>, i: nat)
    requires Wiring(w) && Sound(c, w) && i < 7 && IsDone(c[i])
    ensures Sound(FlattenOut(c, i), w)
  {
    DoneIsSingleBit(c[i]);
    assert Indices(c[i])[0] == w[i];
  }

  /** The wires of `ks` are all settled in `c`. */
  predicate AllSettled(c: seq<Pattern>, ks: seq<nat>)
    requires |c| == 7 && WireList(ks)
  {
    forall k | 0 <= k < |ks| :: IsDone(c[ks[k]])
  }

  /** Flattening out settled wires one after another keeps them settled and keeps the wiring. */
  lemma {:induction false} FlattenAllSound(c: seq<Pattern>, w: seq<nat>, ks: seq<nat>)
    requires Wiring(w) && Sound(c, w) && WireList(ks) && AllSettled(c, ks)
    ensures Sound(FlattenAll(c, ks), w)
    ensures forall k | 0 <= k < |ks| :: FlattenAll(c, ks)[ks[k]] == c[ks[k]]
  {
    if ks != [] {
      var init := ks[..|ks| - 1];
      var last := ks[|ks| - 1];
      FlattenAllSound(c, w, init);
      var mid := FlattenAll(c, init);
      assert mid[last] == c[last] by {
        FlattenAllKeeps(c, init, last);
      }
      FlattenOutSound(mid, w, last);
      forall k | 0 <= k < |ks|
        ensures FlattenOut(mid, last)[ks[k]] == c[ks[k]]
      {
        FlattenAllKeeps(c, init, ks[k]);
        FlattenOutKeepsDone(mid, last, ks[k]);
      }
    }
  }

  /** A wire settled in `c` is unchanged by flattening out settled wires. */
  lemma {:induction false} FlattenAllKeeps(c: seq<Pattern>, ks: seq<nat>, j: nat)
    requires |c| == 7 && WireList(ks) && AllSettled(c, ks) && j < 7 && IsDone(c[j])
    ensures FlattenAll(c, ks)[j] == c[j]
  {
    if ks != [] {
      var init := ks[..|ks| - 1];
      var last := ks[|ks| - 1];
      assert AllSettled(c, init);
      FlattenAllKeeps(c, init, j);
      FlattenAllKeeps(c, init, last);
      FlattenOutKeepsDone(FlattenAll(c, init), last, j);
    }
  }

  /** The whole flattening loop keeps every wire's true segment. */
  lemma {:induction false} FlattenToSound(c: seq<Pattern>, w: seq<nat>, complete: Pattern)
    requires Wiring(w) && Sound(c, w) && Segments(complete)
    ensures Sound(FlattenTo(c, complete), w)
    decreases 8 - CountOnes(complete)
  {
    var completed := Remains(c, complete);
    if completed != ZERO {
      RemainsGrow(c, complete);
      SegmentIndices(completed);
      var ks := Indices(completed);
      FlattenAllSound(c, w, ks);
      FlattenToSound(FlattenAll(c, ks), w, Or(complete, completed));
    }
  }

  /** Feeding the solver a digit seen through the true wiring keeps that wiring possible. */
  lemma AddSound(c: seq<Pattern>, w: seq<nat>, d: nat)
    requires Wiring(w) && d < 10 && Sound(c, w)
    ensures Sound(Add(c, Observed(w, d)), w)
  {
    PropagateSound(c, w, d);
    FlattenToSound(Propagate(c, Observed(w, d)), w, CompletionMask(c));
  }

  /** Once every wire is settled, a sound solver has found the true wiring. */
  lemma SolutionIsWiring(c: seq<Pattern>, w: seq<nat>)
    requires Wiring(w) && Sound(c, w) && AllDone(c)
    ensures forall i | 0 <= i < 7 :: SolutionOf(c)[i] == Pattern(Single(w[i]))
  {
    forall i | 0 <= i < 7
      ensures SolutionOf(c)[i] == Pattern(Single(w[i]))
    {
      DoneIsSingleBit(c[i]);
      assert Indices(c[i])[0] == w[i];
    }
  }

  // ------------------------------------------------------------------
  // Decoding
  // ------------------------------------------------------------------

  /** `map_pattern` over the first `n` set wires: the OR of their mapped segments. */
  function MapIndices(sol: seq<Pattern>, ks: seq<nat>): (r: Pattern)
    requires |sol| == 7 && WireList(ks)
    ensures forall s | 0 <= s < 8 :: r.bits[s] <==> exists k | 0 <= k < |ks| :: sol[ks[k]].bits[s]
  {
    if ks == [] then ZERO
    else
      var r := Or(MapIndices(sol, ks[..|ks| - 1]), sol[ks[|ks| - 1]]);
      assert forall s | 0 <= s < 8 :: r.bits[s] <==> exists k | 0 <= k < |ks| :: sol[ks[k]].bits[s] by {
        forall s | 0 <= s < 8
          ensures r.bits[s] <==> exists k | 0 <= k < |ks| :: sol[ks[k]].bits[s]
        {
          var init := ks[..|ks| - 1];
          if exists k | 0 <= k < |ks| :: sol[ks[k]].bits[s] {
            var k :| 0 <= k < |ks| && sol[ks[k]].bits[s];
            if k < |init| {
              assert init[k] == ks[k];
            }
          }
          if exists k | 0 <= k < |init| :: sol[init[k]].bits[s] {
            var k :| 0 <= k < |init| && sol[init[k]].bits[s];
            assert ks[k] == init[k];
          }
        }
      }
      r
  }

  /** `Solution::map_pattern`: ORs the segment of every lit wire. */
  function MapPattern(sol: seq<Pattern>, p: Pattern): Pattern
    requires |sol| == 7 && Segments(p)
  {
    SegmentIndices(p);
    MapIndices(sol, Indices(p))
  }

  /** The first digit whose canonical pattern is `q`, if any. */
  function Position(q: Pattern, from: nat): (r: Option<nat>)
    requires from <= 10
    ensures r.Some? ==> from <= r.value < 10 && NUMBER_TO_PATTERN[r.value] == q
    ensures r.None? <==> forall d | from <= d < 10 :: NUMBER_TO_PATTERN[d] != q
    decreases 10 - from
  {
    if from == 10 then None
    else if NUMBER_TO_PATTERN[from] == q then Some(from)
    else Position(q, from + 1)
  }

  /** `Solution::solve`: the digit whose canonical pattern the mapped segments form; the source panics when there is none. */
  function Solve(sol: seq<Pattern>, p: Pattern): (r: nat)
    requires |sol| == 7 && Segments(p)
    requires exists d | 0 <= d < 10 :: NUMBER_TO_PATTERN[d] == MapPattern(sol, p)
    ensures r < 10 && NUMBER_TO_PATTERN[r] == MapPattern(sol, p)
  {
    Position(MapPattern(sol, p), 0).value
  }

  /** With the true wiring as the map, a digit's observed pattern decodes to that digit. */
  lemma DecodeObserved(sol: seq<Pattern>, w: seq<nat>, d: nat)
    requires Wiring(w) && d < 10 && |sol| == 7
    requires forall i | 0 <= i < 7 :: sol[i] == Pattern(Single(w[i]))
    ensures MapPattern(sol, Observed(w, d)) == NUMBER_TO_PATTERN[d]
    ensures Solve(sol, Observed(w, d)) == d
  {
    MapObserved(sol, w, d);
    var r := Solve(sol, Observed(w, d));
    TableDistinct();
    assert NUMBER_TO_PATTERN[r] == NUMBER_TO_PATTERN[d];
  }

  /** Mapping an observed digit through its true wiring gives back the digit's segments. */
  lemma MapObserved(sol: seq<Pattern>, w: seq<nat>, d: nat)
    requires Wiring(w) && d < 10 && |sol| == 7
    requires forall i | 0 <= i < 7 :: sol[i] == Pattern(Single(w[i]))
    ensures MapPattern(sol, Observed(w, d)) == NUMBER_TO_PATTERN[d]
  {
    var o := Observed(w, d);
    var t := NUMBER_TO_PATTERN[d];
    var ks := Indices(o);
    TableSegments(d);
    forall s | 0 <= s < 8
      ensures MapPattern(sol, o).bits[s] == t.bits[s]
    {
      if t.bits[s] {
        assert s < 7;
        assert s in w;
        var i :| 0 <= i < 7 && w[i] == s;
        assert i in ks;
        var k :| 0 <= k < |ks| && ks[k] == i;
        assert sol[ks[k]].bits[s];
      }
    }
  }

  // ------------------------------------------------------------------
  // The flattening loop as written
  // ------------------------------------------------------------------

  /** `compute_remains_to_be_flattened` as written: `(completion_mask ^ complete) & MASK`. */
  function RemainsAsWritten(c: seq<Pattern>, complete: Pattern): Pattern
    requires |c| == 7
  {
    And(Xor(CompletionMask(c), complete), ALL)
  }

  /** While every wire in `complete` is still settled, the written XOR and the intended AND-NOT agree. */
  lemma AsWrittenAgrees(c: seq<Pattern>, complete: Pattern)
    requires |c| == 7 && Segments(complete)
    requires forall i | 0 <= i < 7 && complete.bits[i] :: IsDone(c[i])
    ensures RemainsAsWritten(c, complete) == Remains(c, complete)
  {
    assert RemainsAsWritten(c, complete).bits == Remains(c, complete).bits;
  }

  /** The sound solver never unsettles a wire, so on a true wiring the written loop is the intended one. */
  lemma SoundStaysSettled(c: seq<Pattern>, w: seq<nat>, c2: seq<Pattern>, i: nat)
    requires Wiring(w) && Sound(c, w) && Sound(c2, w) && Within(c2, c) && i < 7 && IsDone(c[i])
    ensures IsDone(c2[i])
  {
    DoneIsSingleBit(c[i]);
    assert Indices(c[i])[0] == w[i];
    assert c2[i].bits == c[i].bits;
  }

  /** The state reached by "abc", "ab" and then "c": wire c has lost its last candidate. */
  function StalledState(): (r: seq<Pattern>)
    ensures |r| == 7
  {
    [CF, CF, ZERO, BDEG, BDEG, BDEG, BDEG]
  }

  /** Two lit bits make a pattern that is not settled. */
  lemma {:induction false} CountTwo(b: Byte, x: nat, y: nat, n: nat)
    requires x < y < 8 && b[x] && b[y] && n <= 8
    ensures CountBelow(b, n) >= (if x < n then 1 else 0) + (if y < n then 1 else 0)
  {
    if n > 0 {
      CountTwo(b, x, y, n - 1);
    }
  }

  /** No wire of the stalled state is settled. */
  lemma StalledUnsettled()
    ensures CompletionMask(StalledState()) == ZERO
  {
    var c := StalledState();
    CountTwo(c[0].bits, 2, 5, 8);
    CountTwo(c[3].bits, 1, 3, 8);
    EmptyHasNoIndices(ZERO);
    assert CompletionMask(c).bits == ZERO.bits;
  }

  /** The only set index of a single bit is that bit. */
  lemma IndicesSingle(i: nat)
    requires i < 8
    ensures Indices(Pattern(Single(i))) == [i]
  {
    var p := Pattern(Single(i));
    SingleDone(p, i);
    DoneSingle(p);
    assert Single(Indices(p)[0])[i];
    assert Indices(p) == [Indices(p)[0]];
  }

  /** Flattening out a wire with no candidates left removes nothing. */
  lemma FlattenOutEmpty(c: seq<Pattern>, i: nat)
    requires |c| == 7 && i < 7 && c[i] == ZERO
    ensures FlattenOut(c, i) == c
  {
    forall j | 0 <= j < 7
      ensures FlattenOut(c, i)[j] == c[j]
    {
      assert And(c[j], Complement(ZERO)).bits == c[j].bits;
    }
  }

  /**
   * From that state, with wire c recorded as complete, the written loop finds
   * wire c still to be flattened and `complete` stays the same; with
   * `StalledFlattenIdle` below, `flatten_to` never returns.
   */
  lemma AsWrittenStalls(complete: Pattern)
    requires complete == Pattern(Single(2))
    ensures RemainsAsWritten(StalledState(), complete) == complete != ZERO
    ensures Or(complete, RemainsAsWritten(StalledState(), complete)) == complete
  {
    StalledUnsettled();
    assert complete.bits[2];
    assert RemainsAsWritten(StalledState(), complete).bits == complete.bits;
    assert Or(complete, complete).bits == complete.bits;
  }

  /** Flattening out a one-wire list is flattening out that wire. */
  lemma FlattenAllOne(c: seq<Pattern>, k: nat)
    requires |c| == 7 && k < 7
    ensures FlattenAll(c, [k]) == FlattenOut(c, k)
  {
    assert [k][..0] == [];
  }

  /** Flattening out wire c, the only wire left to flatten, leaves the stalled state as it is. */
  lemma StalledFlattenIdle(c: seq<Pattern>, complete: Pattern)
    requires c == StalledState() && complete == Pattern(Single(2))
    ensures Indices(complete) == [2]
    ensures FlattenAll(c, Indices(complete)) == c
  {
    IndicesSingle(2);
    FlattenAllOne(c, 2);
    FlattenOutEmpty(c, 2);
  }

  /** The state after "abc" and "ab": wires a and b on {c, f}, wire c settled on segment a, the rest on {b, d, e, g}. */
  function BeforeStall(): (r: seq<Pattern>)
    ensures |r| == 7
  {
    [CF, CF, Pattern(Single(0)), BDEG, BDEG, BDEG, BDEG]
  }

  /** Before "c" arrives, wire c is the one settled wire. */
  lemma BeforeStallMask()
    ensures CompletionMask(BeforeStall()) == Pattern(Single(2))
  {
    var c := BeforeStall();
    CountTwo(c[0].bits, 2, 5, 8);
    CountTwo(c[3].bits, 1, 3, 8);
    SingleDone(c[2], 0);
    assert CompletionMask(c).bits == Single(2);
  }

  /** No digit has a single segment, so a one-segment pattern rules nothing in and nothing out. */
  lemma NoDigitOfOne(p: Pattern)
    requires CountOnes(p) == 1
    ensures PossibleNumbers(p) == [] && PossibleChars(p) == ZERO && RequiredChars(p) == ZERO
  {
    SegmentCounts();
    assert PossibleChars(p).bits == ZERO.bits;
    assert RequiredChars(p).bits == ZERO.bits;
  }

  /** Seeing a one-segment pattern empties its wire and leaves every other wire alone. */
  lemma PropagateOne(c: seq<Pattern>, p: Pattern)
    requires |c| == 7 && Segments(p) && CountOnes(p) == 1
    ensures Propagate(c, p) == seq(7, j requires 0 <= j < 7 => if p.bits[j] then ZERO else c[j])
  {
    NoDigitOfOne(p);
    forall j | 0 <= j < 7
      ensures Propagate(c, p)[j] == if p.bits[j] then ZERO else c[j]
    {
      PropagatePointwise(c, p, j);
      assert And(c[j], ZERO).bits == ZERO.bits;
      assert And(c[j], Complement(ZERO)).bits == c[j].bits;
    }
  }

  /** Seeing "c" in the state before the stall gives the stalled state. */
  lemma StallReached(c: seq<Pattern>, p: Pattern)
    requires c == BeforeStall() && p == Pattern(Single(2))
    ensures Propagate(c, p) == StalledState()
  {
    SingleDone(p, 2);
    PropagateOne(c, p);
    StalledPointwise(c, p);
  }

  lemma StalledPointwise(c: seq<Pattern>, p: Pattern)
    requires c == BeforeStall() && p == Pattern(Single(2))
    ensures seq(7, j requires 0 <= j < 7 => if p.bits[j] then ZERO else c[j]) == StalledState()
  {
    var e := seq(7, j requires 0 <= j < 7 => if p.bits[j] then ZERO else c[j]);
    assert e[2] == ZERO;
    assert forall j | 0 <= j < 7 && j != 2 :: e[j] == c[j];
  }

  /** With the intended remainder the same state is left at once. */
  lemma IntendedLeaves()
    ensures FlattenTo(StalledState(), Pattern(Single(2))) == StalledState()
  {
    var c := StalledState();
    StalledUnsettled();
    assert Remains(c, Pattern(Single(2))).bits == ZERO.bits;
  }

  // ------------------------------------------------------------------
  // Reaching the stall from the default state
  // ------------------------------------------------------------------

  /** The pattern "abc": wires a, b and c lit. */
  const ABC: Pattern := Pattern([true, true, true, false, false, false, false, false])
  /** The pattern "ab": wires a and b lit. */
  const AB: Pattern := Pattern([true, true, false, false, false, false, false, false])
  /** The segments of the digit 7. */
  const ACF: Pattern := Pattern([true, false, true, false, false, true, false, false])
  /** The segments of the digit 1. */
  const CF: Pattern := Pattern([false, false, true, false, false, true, false, false])
  /** The segments lit by neither 7 nor 1. */
  const BDEG: Pattern := Pattern([false, true, false, true, true, false, true, false])

  /** A length drawn by one digit only: every lookup is that digit's pattern. */
  lemma UniqueChars(p: Pattern, d: nat)
    requires d < 10 && CountOnes(p) == SegmentCount(d) && |LEN_TO_NUMS[CountOnes(p)]| == 1
    ensures CountOnes(p) < 8
    ensures PossibleNumbers(p) == [d]
    ensures PossibleChars(p) == NUMBER_TO_PATTERN[d] && RequiredChars(p) == NUMBER_TO_PATTERN[d]
  {
    DigitBetween(d);
    TableSegments(d);
    var k := CountOnes(p);
    LenToNumsExact(k, d);
    LenToNumsDigits();
    assert LEN_TO_NUMS[k] == [d];
    forall i | 0 <= i < 8
      ensures RequiredChars(p).bits[i] == NUMBER_TO_PATTERN[d].bits[i]
    {
      IntersectionMeaning([d], i);
    }
  }

  /** A pattern only the digit whose segments are `m` can draw, lighting exactly the wires below `lit`. */
  predicate DrawnOnlyBy(p: Pattern, m: Pattern, lit: nat)
  {
    Segments(p) && CountOnes(p) < 8 && |PossibleNumbers(p)| == 1 &&
    PossibleChars(p) == m && RequiredChars(p) == m &&
    forall i | 0 <= i < 7 :: p.bits[i] <==> i < lit
  }

  /** "abc" has three segments, so it can only be a 7. */
  lemma SevenLookups(p: Pattern)
    requires p == ABC
    ensures DrawnOnlyBy(p, ACF, 3)
  {
    SegmentCountsHigh();
    assert CountOnes(p) == 3;
    UniqueChars(p, 7);
  }

  /** "ab" has two segments, so it can only be a 1. */
  lemma OneLookups(p: Pattern)
    requires p == AB
    ensures DrawnOnlyBy(p, CF, 2)
  {
    SegmentCountsLow();
    assert CountOnes(p) == 2;
    UniqueChars(p, 1);
  }

  /** For a pattern only one digit can draw, lit wires keep that digit's segments and unlit wires lose them. */
  lemma UniqueWire(c: seq<Pattern>, p: Pattern, j: nat, m: Pattern)
    requires |c| == 7 && Segments(p) && j < 7 && CountOnes(p) < 8 && |PossibleNumbers(p)| == 1
    requires PossibleChars(p) == m && RequiredChars(p) == m
    ensures Propagate(c, p)[j] == if p.bits[j] then And(c[j], m) else And(c[j], Complement(m))
  {
    PropagatePointwise(c, p, j);
    AndIdempotent(c[j], Complement(m));
  }

  /** After "abc": wires a, b and c on {a, c, f} (the digit 7), the rest on {b, d, e, g}. */
  function AfterSeven(): (r: seq<Pattern>)
    ensures |r| == 7
  {
    [ACF, ACF, ACF, BDEG, BDEG, BDEG, BDEG]
  }

  /** The segment arithmetic of the first step. */
  lemma SevenMasks()
    ensures And(ALL, ACF) == ACF && And(ALL, Complement(ACF)) == BDEG
  {
    assert And(ALL, ACF).bits == ACF.bits;
    assert And(ALL, Complement(ACF)).bits == BDEG.bits;
  }

  /** One wire of the default state after a 7 on wires a, b and c. */
  lemma SevenWire(c: seq<Pattern>, p: Pattern, j: nat)
    requires |c| == 7 && (forall i | 0 <= i < 7 :: c[i] == ALL) && j < 7
    requires DrawnOnlyBy(p, ACF, 3)
    ensures Propagate(c, p)[j] == AfterSeven()[j]
  {
    UniqueWire(c, p, j, ACF);
    SevenMasks();
  }

  /** Seeing a 7 on wires a, b and c in the default state narrows every wire by it. */
  lemma SevenPropagates(c: seq<Pattern>, p: Pattern)
    requires |c| == 7 && (forall i | 0 <= i < 7 :: c[i] == ALL)
    requires DrawnOnlyBy(p, ACF, 3)
    ensures Propagate(c, p) == AfterSeven()
  {
    forall j | 0 <= j < 7
      ensures Propagate(c, p)[j] == AfterSeven()[j]
    {
      SevenWire(c, p, j);
    }
  }

  /** No wire is settled after "abc", so none is left to flatten. */
  lemma AfterSevenUnsettled()
    ensures CompletionMask(AfterSeven()) == ZERO
    ensures RemainsAsWritten(AfterSeven(), ZERO) == Remains(AfterSeven(), ZERO) == ZERO
  {
    var c := AfterSeven();
    CountTwo(c[0].bits, 0, 2, 8);
    CountTwo(c[3].bits, 1, 3, 8);
    assert CompletionMask(c).bits == ZERO.bits;
    assert Remains(c, ZERO).bits == ZERO.bits;
    AsWrittenAgrees(c, ZERO);
  }

  /** The default state has no settled wire either. */
  lemma DefaultUnsettled(c: seq<Pattern>)
    requires |c| == 7 && (forall i | 0 <= i < 7 :: c[i] == ALL)
    ensures CompletionMask(c) == ZERO
  {
    CountTwo(ALL.bits, 0, 1, 8);
    assert CompletionMask(c).bits == ZERO.bits;
  }

  /** With nothing newly settled, `flatten_to` returns the state as it is. */
  lemma FlattenToIdle(c: seq<Pattern>, complete: Pattern)
    requires |c| == 7 && Segments(complete) && Remains(c, complete) == ZERO
    ensures FlattenTo(c, complete) == c
  {
  }

  /** `add` of a 7 on wires a, b and c in the default state: nothing becomes settled, so nothing is flattened. */
  lemma AddSeven(c: seq<Pattern>, p: Pattern)
    requires |c| == 7 && (forall i | 0 <= i < 7 :: c[i] == ALL)
    requires DrawnOnlyBy(p, ACF, 3)
    ensures Add(c, p) == AfterSeven()
  {
    SevenPropagates(c, p);
    DefaultUnsettled(c);
    AfterSevenUnsettled();
    FlattenToIdle(AfterSeven(), ZERO);
  }

  /** The segment arithmetic of the second step. */
  lemma OneMasks()
    ensures And(ACF, CF) == CF && And(ACF, Complement(CF)) == Pattern(Single(0))
    ensures And(BDEG, Complement(CF)) == BDEG
  {
    assert And(ACF, CF).bits == CF.bits;
    assert And(ACF, Complement(CF)).bits == Single(0);
    assert And(BDEG, Complement(CF)).bits == BDEG.bits;
  }

  /** One wire of the state after "abc" once a 1 is seen on wires a and b. */
  lemma OneWire(c: seq<Pattern>, p: Pattern, j: nat)
    requires |c| == 7 && (forall i | 0 <= i < 7 :: c[i] == AfterSeven()[i]) && j < 7
    requires DrawnOnlyBy(p, CF, 2)
    ensures Propagate(c, p)[j] == BeforeStall()[j]
  {
    UniqueWire(c, p, j, CF);
    OneMasks();
  }

  /** Seeing a 1 on wires a and b after "abc" narrows wires a and b to {c, f} and leaves wire c on segment a. */
  lemma OnePropagates(c: seq<Pattern>, p: Pattern)
    requires |c| == 7 && (forall i | 0 <= i < 7 :: c[i] == AfterSeven()[i])
    requires DrawnOnlyBy(p, CF, 2)
    ensures Propagate(c, p) == BeforeStall()
  {
    forall j | 0 <= j < 7
      ensures Propagate(c, p)[j] == BeforeStall()[j]
    {
      OneWire(c, p, j);
    }
  }

  /** Flattening out wire c (segment a) in the state before the stall removes nothing. */
  lemma BeforeStallFlattenIdle(c: seq<Pattern>)
    requires c == BeforeStall()
    ensures FlattenAll(c, Indices(Pattern(Single(2)))) == c
  {
    IndicesSingle(2);
    FlattenAllOne(c, 2);
    assert And(CF, Complement(c[2])).bits == CF.bits;
    assert And(BDEG, Complement(c[2])).bits == BDEG.bits;
    forall j | 0 <= j < 7
      ensures FlattenOut(c, 2)[j] == c[j]
    {
    }
  }

  /** Before the stall only wire c is left to flatten, and once it is nothing is; the written XOR agrees both times. */
  lemma BeforeStallRemains()
    ensures RemainsAsWritten(BeforeStall(), ZERO) == Remains(BeforeStall(), ZERO) == Pattern(Single(2))
    ensures RemainsAsWritten(BeforeStall(), Pattern(Single(2))) == Remains(BeforeStall(), Pattern(Single(2))) == ZERO
  {
    var c := BeforeStall();
    var two := Pattern(Single(2));
    BeforeStallMask();
    assert Remains(c, ZERO).bits == two.bits;
    assert Remains(c, two).bits == ZERO.bits;
    SingleDone(c[2], 0);
    AsWrittenAgrees(c, ZERO);
    AsWrittenAgrees(c, two);
  }

  /** `flatten_to` from nothing complete, on the state before the stall: one round flattens wire c, then it stops. */
  lemma BeforeStallFlattens(c: seq<Pattern>)
    requires c == BeforeStall()
    ensures FlattenTo(c, ZERO) == c
  {
    var two := Pattern(Single(2));
    BeforeStallRemains();
    BeforeStallFlattenIdle(c);
    assert Or(ZERO, two).bits == two.bits;
    FlattenToIdle(c, two);
  }

  /** `add` of a 1 on wires a and b after "abc": wire c becomes settled, is flattened out with no effect, and the loop stops. */
  lemma AddOne(c: seq<Pattern>, p: Pattern)
    requires |c| == 7 && (forall i | 0 <= i < 7 :: c[i] == AfterSeven()[i])
    requires DrawnOnlyBy(p, CF, 2)
    ensures Add(c, p) == BeforeStall()
  {
    OnePropagates(c, p);
    AfterSevenUnsettled();
    assert CompletionMask(c) == ZERO;
    BeforeStallFlattens(BeforeStall());
  }

  /** From the default state, "abc" then "ab" reach the state before the stall; `AfterSevenUnsettled` and
    * `BeforeStallRemains` show the written remainder takes the same steps on the way. */
  lemma FeedReachesBeforeStall()
    ensures Segments(ABC) && Segments(AB)
    ensures Add(Fill(ALL), ABC) == AfterSeven()
    ensures Add(Add(Fill(ALL), ABC), AB) == BeforeStall()
  {
    SevenLookups(ABC);
    AddSeven(Fill(ALL), ABC);
    OneLookups(AB);
    AddOne(AfterSeven(), AB);
  }

  // ------------------------------------------------------------------
  // The solver object
  // ------------------------------------------------------------------

  /** Rust's `Solver`: the candidate segments of each wire and the decoded solution. */
  class Solver {
    const solutions: array<Pattern>
    const solution: array<Pattern>

    ghost predicate Valid()
      reads this
    {
      solutions.Length == 7 && solution.Length == 7 && solutions != solution
    }

    /** `Solver::default`: every wire may be any segment, and the solution is empty. */
    constructor ()
      ensures Valid() && fresh(solutions) && fresh(solution)
      ensures solutions[..] == Fill(ALL) && solution[..] == Fill(ZERO)
    {
      solutions := new Pattern[7](_ => ALL);
      solution := new Pattern[7](_ => ZERO);
    }

    /** `Solver::reset`: back to the default state. */
    method Reset()
      requires Valid()
      modifies solutions, solution
      ensures solutions[..] == Fill(ALL) && solution[..] == Fill(ZERO)
    {
      for i := 0 to 7
        invariant forall j | 0 <= j < i :: solutions[j] == ALL && solution[j] == ZERO
      {
        solutions[i] := ALL;
        solution[i] := ZERO;
      }
    }

    /** ANDs `m` into the candidates of each wire of `ws` (one `for` of `propagate_constraints`). */
    method NarrowAll(ws: seq<nat>, m: Pattern)
      requires Valid() && WireList(ws)
      modifies solutions
      ensures solutions[..] == Narrow(old(solutions[..]), ws, m)
    {
      for k := 0 to |ws|
        invariant solutions[..] == Narrow(old(solutions[..]), ws[..k], m)
      {
        assert ws[..k + 1][..k] == ws[..k];
        solutions[ws[k]] := And(solutions[ws[k]], m);
      }
      assert ws[..|ws|] == ws;
    }

    /** `Solver::propagate_constraints`. */
    method PropagateConstraints(p: Pattern)
      requires Valid() && Segments(p)
      modifies solutions
      ensures solutions[..] == Propagate(old(solutions[..]), p)
    {
      SegmentsCount(p);
      SegmentIndices(p);
      SegmentIndices(Not(p));
      var union := PossibleChars(p);
      NarrowAll(Indices(p), union);
      var intersection := RequiredChars(p);
      NarrowAll(Indices(Not(p)), Complement(intersection));
      if |PossibleNumbers(p)| == 1 {
        NarrowAll(Indices(Not(p)), Complement(union));
      }
    }

    /** `Solver::flatten_out`. */
    method FlattenOutAt(i: nat)
      requires Valid() && i < 7
      modifies solutions
      ensures solutions[..] == FlattenOut(old(solutions[..]), i)
    {
      var mask := solutions[i];
      for j := 0 to 7
        invariant solutions[i] == mask
        invariant forall k | 0 <= k < j :: solutions[k] == FlattenOut(old(solutions[..]), i)[k]
        invariant forall k | j <= k < 7 :: solutions[k] == old(solutions[k])
      {
        if solutions[j] != mask {
          solutions[j] := And(solutions[j], Complement(mask));
        }
      }
    }

    /** One pass of the `flatten_to` loop: flatten out each wire of `ks` in turn. */
    method FlattenEach(ks: seq<nat>)
      requires Valid() && WireList(ks)
      modifies solutions
      ensures solutions[..] == FlattenAll(old(solutions[..]), ks)
    {
      for k := 0 to |ks|
        invariant solutions[..] == FlattenAll(old(solutions[..]), ks[..k])
      {
        assert ks[..k + 1][..k] == ks[..k];
        FlattenOutAt(ks[k]);
      }
      assert ks[..|ks|] == ks;
    }

    /** `Solver::flatten_to`, with the remainder computed as intended. */
    method FlattenToFrom(complete0: Pattern)
      requires Valid() && Segments(complete0)
      modifies solutions
      ensures solutions[..] == FlattenTo(old(solutions[..]), complete0)
    {
      var complete := complete0;
      var completed := Remains(solutions[..], complete);
      while completed != ZERO
        invariant Segments(complete) && completed == Remains(solutions[..], complete)
        invariant FlattenTo(solutions[..], complete) == FlattenTo(old(solutions[..]), complete0)
        decreases 8 - CountOnes(complete)
      {
        RemainsGrow(solutions[..], complete);
        SegmentIndices(completed);
        FlattenEach(Indices(completed));
        complete := Or(complete, completed);
        completed := Remains(solutions[..], complete);
      }
    }

    /** `Solver::return_solution_if_done` with `Solver::solution`. */
    method ReturnSolutionIfDone() returns (r: Option<seq<Pattern>>)
      requires Valid()
      modifies solution
      ensures AllDone(solutions[..]) ==> r == Some(SolutionOf(solutions[..])) && solution[..] == r.value
      ensures !AllDone(solutions[..]) ==> r == None && solution[..] == old(solution[..])
    {
      if forall i | 0 <= i < 7 :: IsDone(solutions[i]) {
        assert AllDone(solutions[..]);
        for i := 0 to 7
          invariant forall j | 0 <= j < i :: solution[j] == SolutionOf(solutions[..])[j]
        {
          solution[i] := Pattern(Single(Indices(solutions[i])[0]));
        }
        assert solution[..] == SolutionOf(solutions[..]);
        r := Some(solution[..]);
      } else {
        r := None;
      }
    }

    /** `Solver::add`: the solution once every wire is settled. */
    method AddPattern(p: Pattern) returns (r: Option<seq<Pattern>>)
      requires Valid() && Segments(p)
      modifies solutions, solution
      ensures solutions[..] == Add(old(solutions[..]), p)
      ensures r == AddResult(old(solutions[..]), p)
      ensures r.Some? ==> solution[..] == r.value
      ensures r.None? ==> solution[..] == old(solution[..])
    {
      var complete := CompletionMask(solutions[..]);
      PropagateConstraints(p);
      FlattenToFrom(complete);
      r := ReturnSolutionIfDone();
    }
  }

  /** `From<Pattern> for Solver`: a default solver fed one pattern. */
  method FromPattern(p: Pattern) returns (s: Solver)
    requires Segments(p)
    ensures s.Valid() && fresh(s.solutions) && fresh(s.solution)
    ensures s.solutions[..] == Add(Fill(ALL), p)
  {
    s := new Solver();
    var _ := s.AddPattern(p);
  }
}

=== FILE: day08_tables.dfy ===
/**
 * Day 8, the constant tables: the canonical segments of each digit and,
 * indexed by a pattern's number of segments, the digits it may be, the
 * segments any of them light and the segments all of them light.
 */
module Day08Tables {
  import opened Day08Pattern

  /**
   * `NUMBER_TO_PATTERN`: the canonical pattern of each digit, bit `i` for
   * letter `'a' + i`: 0 = abcefg, 1 = cf, 2 = acdeg, 3 = acdfg, 4 = bcdf,
   * 5 = abdfg, 6 = abdefg, 7 = acf, 8 = abcdefg, 9 = abcdfg.
   */
  const NUMBER_TO_PATTERN: seq<Pattern> := [
    Pattern([true, true, true, false, true, true, true, false]),
    Pattern([false, false, true, false, false, true, false, false]),
    Pattern([true, false, true, true, true, false, true, false]),
    Pattern([true, false, true, true, false, true, true, false]),
    Pattern([false, true, true, true, false, true, false, false]),
    Pattern([true, true, false, true, false, true, true, false]),
    Pattern([true, true, false, true, true, true, true, false]),
    Pattern([true, false, true, false, false, true, false, false]),
    Pattern([true, true, true, true, true, true, true, false]),
    Pattern([true, true, true, true, false, true, true, false])
  ]

  /** `LEN_TO_NUMS`: the digits drawn with a given number of segments. */
  const LEN_TO_NUMS: seq<seq<nat>> := [[], [], [1], [7], [4], [2, 3, 5], [0, 6, 9], [8]]

  /** The canonical patterns light only the seven segments, and no two digits share one. */
  lemma TableDistinct()
    ensures forall d | 0 <= d < 10 :: Segments(NUMBER_TO_PATTERN[d])
    ensures forall d, e | 0 <= d < e < 10 :: NUMBER_TO_PATTERN[d] != NUMBER_TO_PATTERN[e]
  {
    var t := NUMBER_TO_PATTERN;
    assert t[0].bits[0] != t[1].bits[0];
    assert t[0].bits[1] != t[2].bits[1];
    assert t[0].bits[1] != t[3].bits[1];
    assert t[0].bits[0] != t[4].bits[0];
    assert t[0].bits[2] != t[5].bits[2];
    assert t[0].bits[2] != t[6].bits[2];
    assert t[0].bits[1] != t[7].bits[1];
    assert t[0].bits[3] != t[8].bits[3];
    assert t[0].bits[3] != t[9].bits[3];
    assert t[1].bits[0] != t[2].bits[0];
    assert t[1].bits[0] != t[3].bits[0];
    assert t[1].bits[1] != t[4].bits[1];
    assert t[1].bits[0] != t[5].bits[0];
    assert t[1].bits[0] != t[6].bits[0];
    assert t[1].bits[0] != t[7].bits[0];
    assert t[1].bits[0] != t[8].bits[0];
    assert t[1].bits[0] != t[9].bits[0];
    assert t[2].bits[4] != t[3].bits[4];
    assert t[2].bits[0] != t[4].bits[0];
    assert t[2].bits[1] != t[5].bits[1];
    assert t[2].bits[1] != t[6].bits[1];
    assert t[2].bits[3] != t[7].bits[3];
    assert t[2].bits[1] != t[8].bits[1];
    assert t[2].bits[1] != t[9].bits[1];
    assert t[3].bits[0] != t[4].bits[0];
    assert t[3].bits[1] != t[5].bits[1];
    assert t[3].bits[1] != t[6].bits[1];
    assert t[3].bits[3] != t[7].bits[3];
    assert t[3].bits[1] != t[8].bits[1];
    assert t[3].bits[1] != t[9].bits[1];
    assert t[4].bits[0] != t[5].bits[0];
    assert t[4].bits[0] != t[6].bits[0];
    assert t[4].bits[0] != t[7].bits[0];
    assert t[4].bits[0] != t[8].bits[0];
    assert t[4].bits[0] != t[9].bits[0];
    assert t[5].bits[4] != t[6].bits[4];
    assert t[5].bits[1] != t[7].bits[1];
    assert t[5].bits[2] != t[8].bits[2];
    assert t[5].bits[2] != t[9].bits[2];
    assert t[6].bits[1] != t[7].bits[1];
    assert t[6].bits[2] != t[8].bits[2];
    assert t[6].bits[2] != t[9].bits[2];
    assert t[7].bits[1] != t[8].bits[1];
    assert t[7].bits[1] != t[9].bits[1];
    assert t[8].bits[4] != t[9].bits[4];
  }

  /** How many segments each digit lights. */
  function SegmentCount(d: nat): nat
    requires d < 10
  {
    CountOnes(NUMBER_TO_PATTERN[d])
  }

  lemma SegmentCounts()
    ensures SegmentCount(0) == 6 && SegmentCount(1) == 2 && SegmentCount(2) == 5 && SegmentCount(3) == 5
    ensures SegmentCount(4) == 4 && SegmentCount(5) == 5 && SegmentCount(6) == 6 && SegmentCount(7) == 3
    ensures SegmentCount(8) == 7 && SegmentCount(9) == 6
  {
    SegmentCountsLow();
    SegmentCountsHigh();
  }

  lemma SegmentCountsLow()
    ensures SegmentCount(0) == 6 && SegmentCount(1) == 2 && SegmentCount(2) == 5 && SegmentCount(3) == 5
    ensures SegmentCount(4) == 4
  {
  }

  lemma SegmentCountsHigh()
    ensures SegmentCount(5) == 5 && SegmentCount(6) == 6 && SegmentCount(7) == 3
    ensures SegmentCount(8) == 7 && SegmentCount(9) == 6
  {
  }

  /** `LEN_TO_NUMS[k]` lists exactly the digits with `k` segments, each once. */
  lemma LenToNumsExact(k: nat, d: nat)
    requires k < 8 && d < 10
    ensures d in LEN_TO_NUMS[k] <==> SegmentCount(d) == k
  {
    SegmentCounts();
  }

  /** The lists of `LEN_TO_NUMS` hold digits, with no repeats. */
  lemma LenToNumsDigits()
    ensures forall k, j | 0 <= k < 8 && 0 <= j < |LEN_TO_NUMS[k]| :: LEN_TO_NUMS[k][j] < 10
    ensures forall k, i, j | 0 <= k < 8 && 0 <= i < j < |LEN_TO_NUMS[k]| :: LEN_TO_NUMS[k][i] != LEN_TO_NUMS[k][j]
  {
  }

  /** A segment count names a single digit exactly for 2, 3, 4 and 7 segments (the digits 1, 7, 4 and 8). */
  lemma UniqueLengths(k: nat)
    requires k < 8
    ensures |LEN_TO_NUMS[k]| == 1 <==> k in {2, 3, 4, 7}
  {
  }

  // ------------------------------------------------------------------
  // Unions and intersections of digits
  // ------------------------------------------------------------------

  predicate Digits(list: seq<nat>)
  {
    forall k | 0 <= k < |list| :: list[k] < 10
  }

  /** Some digit of `list` lights segment `i`. */
  predicate AnyLights(list: seq<nat>, i: nat)
    requires Digits(list) && i < 8
  {
    exists k | 0 <= k < |list| :: NUMBER_TO_PATTERN[list[k]].bits[i]
  }

  lemma AnyLightsSnoc(list: seq<nat>, i: nat)
    requires Digits(list) && list != [] && i < 8
    ensures AnyLights(list, i) <==> AnyLights(list[..|list| - 1], i) || NUMBER_TO_PATTERN[list[|list| - 1]].bits[i]
  {
    var init := list[..|list| - 1];
    if AnyLights(list, i) {
      var k :| 0 <= k < |list| && NUMBER_TO_PATTERN[list[k]].bits[i];
      if k < |init| {
        assert init[k] == list[k];
      }
    }
    if AnyLights(init, i) {
      var k :| 0 <= k < |init| && NUMBER_TO_PATTERN[init[k]].bits[i];
      assert list[k] == init[k];
    }
  }

  /** The OR of the digits' patterns, left to right. */
  function UnionOf(list: seq<nat>): (r: Pattern)
    requires Digits(list)
    ensures forall i | 0 <= i < 8 :: r.bits[i] <==> AnyLights(list, i)
  {
    if list == [] then ZERO
    else
      var r := Or(UnionOf(list[..|list| - 1]), NUMBER_TO_PATTERN[list[|list| - 1]]);
      assert forall i | 0 <= i < 8 :: r.bits[i] <==> AnyLights(list, i) by {
        forall i | 0 <= i < 8
          ensures r.bits[i] <==> AnyLights(list, i)
        {
          AnyLightsSnoc(list, i);
        }
      }
      r
  }

  /** The AND of the digits' patterns starting from `MASK`; the empty list gives ZERO. */
  function IntersectionOf(list: seq<nat>): (r: Pattern)
    requires Digits(list)
  {
    if list == [] then ZERO else AndAll(list)
  }

  /** `MASK` ANDed with every digit's pattern, left to right. */
  function AndAll(list: seq<nat>): (r: Pattern)
    requires Digits(list)
    ensures forall i | 0 <= i < 8 :: r.bits[i] <==> i < 7 && forall k | 0 <= k < |list| :: NUMBER_TO_PATTERN[list[k]].bits[i]
  {
    if list == [] then ALL
    else
      var init := list[..|list| - 1];
      var r := And(AndAll(init), NUMBER_TO_PATTERN[list[|list| - 1]]);
      assert forall i | 0 <= i < 8 :: r.bits[i] <==> i < 7 && forall k | 0 <= k < |list| :: NUMBER_TO_PATTERN[list[k]].bits[i] by {
        forall i | 0 <= i < 8
          ensures r.bits[i] <==> i < 7 && forall k | 0 <= k < |list| :: NUMBER_TO_PATTERN[list[k]].bits[i]
        {
          assert forall k | 0 <= k < |init| :: init[k] == list[k];
        }
      }
      r
  }

  /** A non-empty list's intersection is what all its digits light; the empty list's is nothing. */
  lemma IntersectionMeaning(list: seq<nat>, i: nat)
    requires Digits(list) && i < 8
    ensures IntersectionOf(list).bits[i] <==> list != [] && i < 7 && forall k | 0 <= k < |list| :: NUMBER_TO_PATTERN[list[k]].bits[i]
  {
  }

  /** `Pattern::from_numbers_union`, as its `while` loop computes it. */
  method FromNumbersUnion(list: seq<nat>) returns (r: Pattern)
    requires Digits(list)
    ensures r == UnionOf(list)
  {
    var p := ZERO;
    var i := 0;
    while i < |list|
      invariant 0 <= i <= |list|
      invariant p == UnionOf(list[..i])
    {
      assert list[..i + 1][..i] == list[..i];
      p := Or(p, NUMBER_TO_PATTERN[list[i]]);
      i := i + 1;
    }
    assert list[..i] == list;
    r := p;
  }

  /** `Pattern::from_numbers_intersection`, as its early return and `while` loop compute it. */
  method FromNumbersIntersection(list: seq<nat>) returns (r: Pattern)
    requires Digits(list)
    ensures r == IntersectionOf(list)
  {
    if list == [] {
      return ZERO;
    }
    var p := ALL;
    var i := 0;
    while i < |list|
      invariant 0 <= i <= |list|
      invariant p == AndAll(list[..i])
    {
      assert list[..i + 1][..i] == list[..i];
      p := And(p, NUMBER_TO_PATTERN[list[i]]);
      i := i + 1;
    }
    assert list[..i] == list;
    r := p;
  }

  /** `LEN_TO_UNION`. */
  function LenToUnion(k: nat): Pattern
    requires k < 8
  {
    LenToNumsDigits();
    UnionOf(LEN_TO_NUMS[k])
  }

  /** `LEN_TO_INTERSECTION`. */
  function LenToIntersection(k: nat): Pattern
    requires k < 8
  {
    LenToNumsDigits();
    IntersectionOf(LEN_TO_NUMS[k])
  }

  /** No digit has zero or one segment, so both tables are ZERO there. */
  lemma ShortLengthsEmpty()
    ensures LenToUnion(0) == ZERO && LenToUnion(1) == ZERO
    ensures LenToIntersection(0) == ZERO && LenToIntersection(1) == ZERO
  {
  }

  /** A digit's pattern lies between the intersection and the union of the digits of its length. */
  lemma DigitBetween(d: nat)
    requires d < 10
    ensures SegmentCount(d) < 8
    ensures forall i | 0 <= i < 8 :: NUMBER_TO_PATTERN[d].bits[i] ==> LenToUnion(SegmentCount(d)).bits[i]
    ensures forall i | 0 <= i < 8 :: LenToIntersection(SegmentCount(d)).bits[i] ==> NUMBER_TO_PATTERN[d].bits[i]
    ensures |LEN_TO_NUMS[SegmentCount(d)]| == 1 ==> LenToUnion(SegmentCount(d)) == NUMBER_TO_PATTERN[d]
  {
    var k := SegmentCount(d);
    LenToNumsExact(k, d);
    LenToNumsDigits();
    var list := LEN_TO_NUMS[k];
    var j :| 0 <= j < |list| && list[j] == d;
    forall i | 0 <= i < 8
      ensures LenToIntersection(k).bits[i] ==> NUMBER_TO_PATTERN[d].bits[i]
    {
      IntersectionMeaning(list, i);
    }
    if |list| == 1 {
      assert list == [d];
      forall i | 0 <= i < 8
        ensures LenToUnion(k).bits[i] == NUMBER_TO_PATTERN[d].bits[i]
      {
      }
    }
  }

  // ------------------------------------------------------------------
  // The lookups indexed by segment count
  // ------------------------------------------------------------------

  /** A pattern of the seven segments has at most seven of them. */
  lemma SegmentsCount(p: Pattern)
    requires Segments(p)
    ensures CountOnes(p) <= 7
  {
  }

  /** `Pattern::possible_numbers`: the digits with as many segments as `p`. */
  function PossibleNumbers(p: Pattern): (r: seq<nat>)
    requires CountOnes(p) < 8
    ensures forall d | 0 <= d < 10 :: d in r <==> SegmentCount(d) == CountOnes(p)
  {
    forall d | 0 <= d < 10
      ensures d in LEN_TO_NUMS[CountOnes(p)] <==> SegmentCount(d) == CountOnes(p)
    {
      LenToNumsExact(CountOnes(p), d);
    }
    LenToNumsDigits();
    LEN_TO_NUMS[CountOnes(p)]
  }

  /** `Pattern::possible_chars`: every segment some digit of that length lights. */
  function PossibleChars(p: Pattern): (r: Pattern)
    requires CountOnes(p) < 8
    ensures forall i | 0 <= i < 8 :: r.bits[i] <==>
              exists d | 0 <= d < 10 :: SegmentCount(d) == CountOnes(p) && NUMBER_TO_PATTERN[d].bits[i]
  {
    var r := LenToUnion(CountOnes(p));
    forall i | 0 <= i < 8
      ensures r.bits[i] <==> exists d | 0 <= d < 10 :: SegmentCount(d) == CountOnes(p) && NUMBER_TO_PATTERN[d].bits[i]
    {
      LenToNumsDigits();
      var list := LEN_TO_NUMS[CountOnes(p)];
      if exists d | 0 <= d < 10 :: SegmentCount(d) == CountOnes(p) && NUMBER_TO_PATTERN[d].bits[i] {
        var d :| 0 <= d < 10 && SegmentCount(d) == CountOnes(p) && NUMBER_TO_PATTERN[d].bits[i];
        LenToNumsExact(CountOnes(p), d);
        var j :| 0 <= j < |list| && list[j] == d;
      }
      if r.bits[i] {
        var j :| 0 <= j < |list| && NUMBER_TO_PATTERN[list[j]].bits[i];
        LenToNumsExact(CountOnes(p), list[j]);
      }
    }
    r
  }

  /** `Pattern::required_chars`: every segment all digits of that length light (nothing if there is none). */
  function RequiredChars(p: Pattern): (r: Pattern)
    requires CountOnes(p) < 8
    ensures forall i | 0 <= i < 8 :: r.bits[i] <==>
              i < 7 && PossibleNumbers(p) != [] &&
              forall d | 0 <= d < 10 && SegmentCount(d) == CountOnes(p) :: NUMBER_TO_PATTERN[d].bits[i]
  {
    var r := LenToIntersection(CountOnes(p));
    forall i | 0 <= i < 8
      ensures r.bits[i] <==> i < 7 && PossibleNumbers(p) != [] &&
                             forall d | 0 <= d < 10 && SegmentCount(d) == CountOnes(p) :: NUMBER_TO_PATTERN[d].bits[i]
    {
      LenToNumsDigits();
      var list := LEN_TO_NUMS[CountOnes(p)];
      IntersectionMeaning(list, i);
      if r.bits[i] {
        forall d | 0 <= d < 10 && SegmentCount(d) == CountOnes(p)
          ensures NUMBER_TO_PATTERN[d].bits[i]
        {
          LenToNumsExact(CountOnes(p), d);
        }
      }
      if i < 7 && list != [] && forall d | 0 <= d < 10 && SegmentCount(d) == CountOnes(p) :: NUMBER_TO_PATTERN[d].bits[i] {
        forall k | 0 <= k < |list|
          ensures NUMBER_TO_PATTERN[list[k]].bits[i]
        {
          LenToNumsExact(CountOnes(p), list[k]);
        }
      }
    }
    r
  }
}

=== FILE: day09_basins.dfy ===
/**
 * Day 9, basins: `Grid::build` queues every pair of neighbouring cells that
 * are both below 9 and unions them in a partition of the flat cell indices.
 *
 * The partition (a union-find vector in the source) is modelled by what it
 * means: a label per cell, where union relabels the whole class of one cell
 * with the label of the other.  The result is that two cells share a label
 * exactly when they are connected through neighbouring cells below 9.
 */
module Day09Basins {
  import opened Wrappers
  import opened Day09Grid

  /** Grids the location iterator walks to the end: a positive width, or no data at all. */
  predicate Walkable(g: Grid)
  {
    g.width > 0 || |g.cells| == 0
  }

  // ------------------------------------------------------------------
  // Connectivity
  // ------------------------------------------------------------------

  /** Two cells joined directly: both on the data, neither of height 9, one step apart. */
  predicate Linked(g: Grid, i: nat, j: nat)
  {
    i < |g.cells| && j < |g.cells| && g.cells[i] != 9 && g.cells[j] != 9 &&
    Adjacent(LocAt(g, i), LocAt(g, j))
  }

  ghost predicate IsPath(g: Grid, p: seq<nat>)
  {
    |p| > 0 && forall k :: 0 <= k < |p| - 1 ==> Linked(g, p[k], p[k + 1])
  }

  /** Cells `i` and `j` lie in one basin: a path of linked cells leads from one to the other. */
  ghost predicate Connected(g: Grid, i: nat, j: nat)
  {
    i < |g.cells| && j < |g.cells| &&
    exists p :: IsPath(g, p) && p[0] == i && p[|p| - 1] == j
  }

  lemma ConnectedRefl(g: Grid, i: nat)
    requires i < |g.cells|
    ensures Connected(g, i, i)
  {
    assert IsPath(g, [i]);
  }

  lemma LinkedConnected(g: Grid, i: nat, j: nat)
    requires Linked(g, i, j)
    ensures Connected(g, i, j) && Connected(g, j, i)
  {
    assert IsPath(g, [i, j]);
    assert IsPath(g, [j, i]);
  }

  lemma ConnectedTrans(g: Grid, i: nat, j: nat, k: nat)
    requires Connected(g, i, j) && Connected(g, j, k)
    ensures Connected(g, i, k)
  {
    var p :| IsPath(g, p) && p[0] == i && p[|p| - 1] == j;
    var q :| IsPath(g, q) && q[0] == j && q[|q| - 1] == k;
    var r := p + q[1..];
    forall n | 0 <= n < |r| - 1
      ensures Linked(g, r[n], r[n + 1])
    {
      if n < |p| - 1 {
        assert r[n] == p[n] && r[n + 1] == p[n + 1];
      } else {
        assert r[n] == q[n - |p| + 1] && r[n + 1] == q[n - |p| + 2];
      }
    }
    assert IsPath(g, r);
  }

  lemma ConnectedSym(g: Grid, i: nat, j: nat)
    requires Connected(g, i, j)
    ensures Connected(g, j, i)
  {
    var p :| IsPath(g, p) && p[0] == i && p[|p| - 1] == j;
    var r := seq(|p|, n requires 0 <= n < |p| => p[|p| - 1 - n]);
    forall n | 0 <= n < |r| - 1
      ensures Linked(g, r[n], r[n + 1])
    {
      assert Linked(g, p[|p| - 2 - n], p[|p| - 1 - n]);
    }
    assert IsPath(g, r);
  }

  /** No path leaves a cell of height 9. */
  lemma NineAlone(g: Grid, i: nat, j: nat)
    requires i < |g.cells| && g.cells[i] == 9 && Connected(g, i, j)
    ensures j == i
  {
    var p :| IsPath(g, p) && p[0] == i && p[|p| - 1] == j;
    assert |p| == 1 || Linked(g, p[0], p[1]);
  }

  // ------------------------------------------------------------------
  // The queue
  // ------------------------------------------------------------------

  /** The pairs the inner loop of `build` pushes for cell `k`: one per neighbour below 9, in neighbour order. */
  function PairsTo(g: Grid, k: nat, ns: seq<Loc>): seq<(nat, nat)>
    requires forall q :: q in ns ==> Get(g, q.x, q.y).Some?
  {
    if ns == [] then []
    else
      var q := ns[|ns| - 1];
      PairsTo(g, k, ns[..|ns| - 1]) + (if Item(g, q) != 9 then [(k, Index(g, q))] else [])
  }

  /** The pair for one neighbour accessor's answer, if it is a neighbour below 9. */
  function PairOf(g: Grid, k: nat, o: Option<Loc>): seq<(nat, nat)>
  {
    if o.Some? && Get(g, o.value.x, o.value.y).Some? && Item(g, o.value) != 9 then [(k, Index(g, o.value))] else []
  }

  /** The pairs `build` pushes for the k-th location: none for a 9, else one per neighbour below 9 in neighbour order. */
  function CellPairs(g: Grid, k: nat): seq<(nat, nat)>
  {
    if k < |g.cells| && g.cells[k] != 9 then
      var l := LocAt(g, k);
      PairOf(g, k, Top(g, l)) + PairOf(g, k, Bottom(g, l)) + PairOf(g, k, Left(g, l)) + PairOf(g, k, Right(g, l))
    else []
  }

  lemma {:induction false} PairsToAppend(g: Grid, k: nat, a: seq<Loc>, b: seq<Loc>)
    requires forall q :: q in a + b ==> Get(g, q.x, q.y).Some?
    ensures PairsTo(g, k, a + b) == PairsTo(g, k, a) + PairsTo(g, k, b)
  {
    if b != [] {
      assert (a + b)[..|a + b| - 1] == a + b[..|b| - 1];
      PairsToAppend(g, k, a, b[..|b| - 1]);
    } else {
      assert a + b == a;
    }
  }

  lemma PairsToOne(g: Grid, k: nat, o: Option<Loc>)
    requires o.Some? ==> Get(g, o.value.x, o.value.y).Some?
    ensures PairsTo(g, k, OptionSeq(o)) == PairOf(g, k, o)
  {
    if o.Some? {
      assert OptionSeq(o)[..0] == [];
    }
  }

  /** The per-accessor pairs are the inner loop's filter over `neighbors`. */
  lemma CellPairsNeighbors(g: Grid, k: nat)
    requires k < |g.cells| && g.cells[k] != 9
    ensures CellPairs(g, k) == PairsTo(g, k, Neighbors(g, LocAt(g, k)))
  {
    var l := LocAt(g, k);
    var t, b, le, r := OptionSeq(Top(g, l)), OptionSeq(Bottom(g, l)), OptionSeq(Left(g, l)), OptionSeq(Right(g, l));
    assert Neighbors(g, l) == t + b + le + r;
    PairsToAppend(g, k, t + b + le, r);
    PairsToAppend(g, k, t + b, le);
    PairsToAppend(g, k, t, b);
    PairsToOne(g, k, Top(g, l));
    PairsToOne(g, k, Bottom(g, l));
    PairsToOne(g, k, Left(g, l));
    PairsToOne(g, k, Right(g, l));
  }

  /** The queue after the first `m` locations. */
  function Queue(g: Grid, m: nat): seq<(nat, nat)>
  {
    if m == 0 then [] else Queue(g, m - 1) + CellPairs(g, m - 1)
  }

  lemma {:induction false} PairsToMeaning(g: Grid, k: nat, ns: seq<Loc>, pr: (nat, nat))
    requires forall q :: q in ns ==> Get(g, q.x, q.y).Some?
    ensures pr in PairsTo(g, k, ns) <==> pr.0 == k && exists q :: q in ns && Item(g, q) != 9 && pr.1 == Index(g, q)
  {
    if ns != [] {
      var q := ns[|ns| - 1];
      PairsToMeaning(g, k, ns[..|ns| - 1], pr);
      assert forall q' :: q' in ns <==> q' in ns[..|ns| - 1] || q' == q;
    }
  }

  lemma QueueStep(g: Grid, k: nat, queue: seq<(nat, nat)>, pairs: seq<(nat, nat)>)
    requires queue == Queue(g, k) && pairs == CellPairs(g, k)
    ensures queue + pairs == Queue(g, k + 1)
  {
  }

  lemma CellPairsFirst(g: Grid, k: nat, pr: (nat, nat))
    ensures pr in CellPairs(g, k) ==> pr.0 == k
  {
    if k < |g.cells| && g.cells[k] != 9 {
      CellPairsNeighbors(g, k);
      PairsToMeaning(g, k, Neighbors(g, LocAt(g, k)), pr);
    }
  }

  lemma {:induction false} QueueMeaning(g: Grid, m: nat, pr: (nat, nat))
    ensures pr in Queue(g, m) <==> pr.0 < m && pr in CellPairs(g, pr.0)
  {
    if m > 0 {
      var k := m - 1;
      var c := CellPairs(g, k);
      QueueMeaning(g, k, pr);
      CellPairsFirst(g, k, pr);
      QueueStep(g, k, Queue(g, k), c);
      if pr.0 == k {
        assert pr in Queue(g, m) <==> pr in c;
      } else {
        assert pr in Queue(g, m) <==> pr in Queue(g, k);
      }
    }
  }

  /** The k-th location is on the grid and holds the k-th height. */
  lemma CellAt(g: Grid, k: nat)
    requires g.width > 0 && k < |g.cells|
    ensures InGrid(g, LocAt(g, k)) && Index(g, LocAt(g, k)) == k && Item(g, LocAt(g, k)) == g.cells[k]
  {
    LocAtIndex(g, k);
  }

  /** What `get` finds at the position the iterator holds after `k` steps. */
  lemma GetAt(g: Grid, k: nat)
    requires Walkable(g)
    ensures g.width > 0 ==> Get(g, LocAt(g, k).x, LocAt(g, k).y) == (if k < |g.cells| then Some(g.cells[k]) else None)
    ensures g.width == 0 ==> forall x: nat, y: nat :: Get(g, x, y) == None
  {
    if g.width > 0 {
      LocAtIndex(g, k);
    }
  }

  /** The queue holds exactly the linked pairs, each in both directions. */
  lemma QueueIsLinks(g: Grid, i: nat, j: nat)
    requires g.width > 0
    ensures (i, j) in Queue(g, |g.cells|) <==> Linked(g, i, j)
  {
    QueueMeaning(g, |g.cells|, (i, j));
    if i < |g.cells| {
      CellAt(g, i);
      var l := LocAt(g, i);
      NeighborsExact(g, l);
      if g.cells[i] != 9 {
        CellPairsNeighbors(g, i);
        PairsToMeaning(g, i, Neighbors(g, l), (i, j));
      }
      if (i, j) in Queue(g, |g.cells|) {
        var q :| q in Neighbors(g, l) && Item(g, q) != 9 && j == Index(g, q);
        RowMajorOrder(g, 0, q);
        CellAt(g, j);
      }
      if Linked(g, i, j) {
        CellAt(g, j);
        assert LocAt(g, j) in Neighbors(g, l);
      }
    }
  }

  // ------------------------------------------------------------------
  // The partition
  // ------------------------------------------------------------------

  /** Every cell in a set of its own, labelled by its index. */
  function Singletons(n: nat): (r: seq<nat>)
    ensures |r| == n && forall i :: 0 <= i < n ==> r[i] == i
  {
    seq(n, i => i)
  }

  /** `PartitionVec::union(a, b)`: the class of `b` takes the label of `a`, so the two classes become one. */
  function Union(lab: seq<nat>, a: nat, b: nat): (r: seq<nat>)
    requires a < |lab| && b < |lab|
    ensures |r| == |lab|
  {
    seq(|lab|, i requires 0 <= i < |lab| => if lab[i] == lab[b] then lab[a] else lab[i])
  }

  predicate InRange(q: seq<(nat, nat)>, n: nat)
  {
    forall k :: 0 <= k < |q| ==> q[k].0 < n && q[k].1 < n
  }

  /** The unions of the queue's pairs, in order. */
  function UnionAll(lab: seq<nat>, q: seq<(nat, nat)>): (r: seq<nat>)
    requires InRange(q, |lab|)
    ensures |r| == |lab|
  {
    if q == [] then lab
    else
      var pr := q[|q| - 1];
      Union(UnionAll(lab, q[..|q| - 1]), pr.0, pr.1)
  }

  lemma QueueInRange(g: Grid)
    requires g.width > 0
    ensures InRange(Queue(g, |g.cells|), |g.cells|)
  {
    var q := Queue(g, |g.cells|);
    forall k | 0 <= k < |q|
      ensures q[k].0 < |g.cells| && q[k].1 < |g.cells|
    {
      QueueIsLinks(g, q[k].0, q[k].1);
    }
  }

  /** The partition `build` leaves in the grid: one label per cell. */
  function Basins(g: Grid): (r: seq<nat>)
    requires Walkable(g)
    ensures |r| == |g.cells|
  {
    if g.width == 0 then []
    else
      QueueInRange(g);
      UnionAll(Singletons(|g.cells|), Queue(g, |g.cells|))
  }

  /** Equal labels only ever join connected cells. */
  ghost predicate Sound(g: Grid, lab: seq<nat>)
  {
    |lab| == |g.cells| &&
    forall i, j :: 0 <= i < |lab| && 0 <= j < |lab| && lab[i] == lab[j] ==> Connected(g, i, j)
  }

  lemma UnionSound(g: Grid, lab: seq<nat>, a: nat, b: nat)
    requires Sound(g, lab) && Linked(g, a, b)
    ensures Sound(g, Union(lab, a, b))
  {
    var r := Union(lab, a, b);
    LinkedConnected(g, a, b);
    forall i, j | 0 <= i < |r| && 0 <= j < |r| && r[i] == r[j]
      ensures Connected(g, i, j)
    {
      if lab[i] == lab[b] && lab[j] != lab[b] {
        // i lies with b, j with a
        ConnectedTrans(g, i, b, a);
        ConnectedTrans(g, i, a, j);
      } else if lab[i] != lab[b] && lab[j] == lab[b] {
        ConnectedTrans(g, i, a, b);
        ConnectedTrans(g, i, b, j);
      }
    }
  }

  lemma {:induction false} UnionAllSound(g: Grid, q: seq<(nat, nat)>)
    requires InRange(q, |g.cells|)
    requires forall k :: 0 <= k < |q| ==> Linked(g, q[k].0, q[k].1)
    ensures Sound(g, UnionAll(Singletons(|g.cells|), q))
  {
    if q == [] {
      forall i | 0 <= i < |g.cells|
        ensures Connected(g, i, i)
      {
        ConnectedRefl(g, i);
      }
    } else {
      UnionAllSound(g, q[..|q| - 1]);
      UnionSound(g, UnionAll(Singletons(|g.cells|), q[..|q| - 1]), q[|q| - 1].0, q[|q| - 1].1);
    }
  }

  /** Every pair of the queue ends up with one label. */
  lemma {:induction false} UnionAllJoins(lab: seq<nat>, q: seq<(nat, nat)>, k: nat)
    requires InRange(q, |lab|) && k < |q|
    ensures UnionAll(lab, q)[q[k].0] == UnionAll(lab, q)[q[k].1]
  {
    var before := UnionAll(lab, q[..|q| - 1]);
    if k < |q| - 1 {
      UnionAllJoins(lab, q[..|q| - 1], k);
    }
  }

  /** Cells linked by the queue share labels all along a path. */
  lemma {:induction false} PathSameLabel(g: Grid, lab: seq<nat>, p: seq<nat>)
    requires IsPath(g, p) && |lab| == |g.cells| && p[0] < |lab|
    requires forall i: nat, j: nat :: Linked(g, i, j) ==> lab[i] == lab[j]
    ensures p[|p| - 1] < |lab| && lab[p[0]] == lab[p[|p| - 1]]
  {
    if |p| > 1 {
      assert Linked(g, p[0], p[1]);
      assert IsPath(g, p[1..]);
      PathSameLabel(g, lab, p[1..]);
    }
  }

  /**
   * The basins are the connected components: two cells share a label exactly
   * when a path of neighbouring cells below 9 joins them.
   */
  lemma BasinsAreComponents(g: Grid, i: nat, j: nat)
    requires Walkable(g) && i < |g.cells| && j < |g.cells|
    ensures Basins(g)[i] == Basins(g)[j] <==> Connected(g, i, j)
  {
    var q := Queue(g, |g.cells|);
    QueueInRange(g);
    forall k | 0 <= k < |q|
      ensures Linked(g, q[k].0, q[k].1)
    {
      QueueIsLinks(g, q[k].0, q[k].1);
    }
    UnionAllSound(g, q);
    var lab := Basins(g);
    forall a: nat, b: nat | Linked(g, a, b)
      ensures lab[a] == lab[b]
    {
      QueueIsLinks(g, a, b);
      var k :| 0 <= k < |q| && q[k] == (a, b);
      UnionAllJoins(Singletons(|g.cells|), q, k);
    }
    if Connected(g, i, j) {
      var p :| IsPath(g, p) && p[0] == i && p[|p| - 1] == j;
      PathSameLabel(g, lab, p);
    }
  }

  lemma BasinsPartition(g: Grid)
    requires Walkable(g)
    ensures forall i, j :: 0 <= i < |g.cells| && 0 <= j < |g.cells| ==>
              (Basins(g)[i] == Basins(g)[j] <==> Connected(g, i, j))
  {
    forall i, j | 0 <= i < |g.cells| && 0 <= j < |g.cells|
      ensures Basins(g)[i] == Basins(g)[j] <==> Connected(g, i, j)
    {
      BasinsAreComponents(g, i, j);
    }
  }

  /** A cell of height 9 is a basin of its own. */
  lemma NineIsSingleton(g: Grid, i: nat, j: nat)
    requires Walkable(g) && i < |g.cells| && j < |g.cells| && g.cells[i] == 9
    ensures Basins(g)[j] == Basins(g)[i] <==> j == i
  {
    BasinsAreComponents(g, i, j);
    if Connected(g, i, j) {
      NineAlone(g, i, j);
    }
  }

  // ------------------------------------------------------------------
  // Basin sizes
  // ------------------------------------------------------------------

  /** Each label names a cell of its own class. */
  predicate Representative(lab: seq<nat>)
  {
    forall i :: 0 <= i < |lab| ==> lab[i] < |lab| && lab[lab[i]] == lab[i]
  }

  lemma {:induction false} UnionAllRepresentative(lab: seq<nat>, q: seq<(nat, nat)>)
    requires Representative(lab) && InRange(q, |lab|)
    ensures Representative(UnionAll(lab, q))
  {
    if q != [] {
      UnionAllRepresentative(lab, q[..|q| - 1]);
      var before := UnionAll(lab, q[..|q| - 1]);
      var r := Union(before, q[|q| - 1].0, q[|q| - 1].1);
      forall i | 0 <= i < |r|
        ensures r[i] < |r| && r[r[i]] == r[i]
      {
      }
    }
  }

  /** Every cell's label is the index of a cell of its basin that carries that label itself. */
  lemma BasinsLabelled(g: Grid)
    requires Walkable(g)
    ensures Representative(Basins(g))
  {
    if g.width > 0 {
      QueueInRange(g);
      UnionAllRepresentative(Singletons(|g.cells|), Queue(g, |g.cells|));
    }
  }

  /** The number of cells among the first `k` labelled `v`. */
  function CountLabel(lab: seq<nat>, v: nat, k: nat): (r: nat)
    requires k <= |lab|
    ensures r <= k
  {
    if k == 0 then 0 else CountLabel(lab, v, k - 1) + (if lab[k - 1] == v then 1 else 0)
  }

  /** `basins().map(count)`: the size of each class, listed by its representative among the first `m` cells. */
  function BasinSizes(lab: seq<nat>, m: nat): (r: seq<nat>)
    requires m <= |lab|
    ensures |r| <= m
    ensures forall k :: 0 <= k < |r| ==> r[k] >= 1
  {
    if m == 0 then []
    else
      var r := m - 1;
      if lab[r] == r then
        CountLabelSelf(lab, r, |lab|);
        BasinSizes(lab, r) + [CountLabel(lab, r, |lab|)]
      else BasinSizes(lab, r)
  }

  lemma {:induction false} CountLabelSelf(lab: seq<nat>, r: nat, k: nat)
    requires r < k <= |lab| && lab[r] == r
    ensures CountLabel(lab, r, k) >= 1
  {
    if k - 1 > r {
      CountLabelSelf(lab, r, k - 1);
    }
  }

  /** The cells among the first `m` that carry their own index as label, ascending: one per class. */
  function Representatives(lab: seq<nat>, m: nat): (reps: seq<nat>)
    requires m <= |lab|
    ensures forall k :: 0 <= k < |reps| ==> reps[k] < m && lab[reps[k]] == reps[k]
    ensures forall k1, k2 :: 0 <= k1 < k2 < |reps| ==> reps[k1] < reps[k2]
    ensures forall r :: 0 <= r < m && lab[r] == r ==> r in reps
  {
    if m == 0 then []
    else Representatives(lab, m - 1) + (if lab[m - 1] == m - 1 then [m - 1] else [])
  }

  /** `BasinSizes` lists one count per representative, in the order of the representatives. */
  lemma {:induction false} BasinSizesByRepresentative(lab: seq<nat>, m: nat)
    requires m <= |lab|
    ensures |BasinSizes(lab, m)| == |Representatives(lab, m)|
    ensures forall k :: 0 <= k < |Representatives(lab, m)| ==>
              BasinSizes(lab, m)[k] == CountLabel(lab, Representatives(lab, m)[k], |lab|)
  {
    if m > 0 {
      BasinSizesByRepresentative(lab, m - 1);
    }
  }

  /** The number of cells among the first `k` labelled `v` is the size of the set of those cells. */
  lemma {:induction false} CountLabelIsCard(lab: seq<nat>, v: nat, k: nat)
    requires k <= |lab|
    ensures CountLabel(lab, v, k) == |set j | 0 <= j < k && lab[j] == v|
  {
    if k > 0 {
      CountLabelIsCard(lab, v, k - 1);
      var before := set j | 0 <= j < k - 1 && lab[j] == v;
      var after := set j | 0 <= j < k && lab[j] == v;
      if lab[k - 1] == v {
        assert after == before + {k - 1};
      } else {
        assert after == before;
      }
    }
  }

  /** The basin of cell `r`: every cell a path of neighbouring cells below 9 joins to it. */
  ghost function Basin(g: Grid, r: nat): set<nat>
  {
    set j | 0 <= j < |g.cells| && Connected(g, r, j)
  }

  /** The count listed for a representative is the size of its basin. */
  lemma RepresentativeCount(g: Grid, r: nat)
    requires Walkable(g) && r < |g.cells| && Basins(g)[r] == r
    ensures CountLabel(Basins(g), r, |g.cells|) == |Basin(g, r)|
  {
    var lab := Basins(g);
    CountLabelIsCard(lab, r, |lab|);
    forall j | 0 <= j < |lab|
      ensures lab[j] == r <==> Connected(g, r, j)
    {
      BasinsAreComponents(g, r, j);
    }
    assert (set j | 0 <= j < |lab| && lab[j] == r) == Basin(g, r);
  }

  /** Different representatives lie in different basins. */
  lemma RepresentativesApart(g: Grid, k1: nat, k2: nat)
    requires Walkable(g)
    requires k1 < |Representatives(Basins(g), |g.cells|)| && k2 < |Representatives(Basins(g), |g.cells|)|
    requires Connected(g, Representatives(Basins(g), |g.cells|)[k1], Representatives(Basins(g), |g.cells|)[k2])
    ensures k1 == k2
  {
    var reps := Representatives(Basins(g), |g.cells|);
    BasinsAreComponents(g, reps[k1], reps[k2]);
    assert reps[k1] == reps[k2];
  }

  /** Every cell lies in the basin of its label, which is a representative. */
  lemma LabelIsRepresentative(g: Grid, i: nat)
    requires Walkable(g) && i < |g.cells|
    ensures Basins(g)[i] in Representatives(Basins(g), |g.cells|)
    ensures Connected(g, Basins(g)[i], i)
  {
    var lab := Basins(g);
    BasinsLabelled(g);
    var r := lab[i];
    assert lab[r] == r;
    BasinsAreComponents(g, r, i);
  }

  /**
   * `basins().map(count)` on the partition `build` leaves lists one size per
   * basin: the entries stand for representatives of pairwise different
   * basins, every cell lies in the basin of the representative its label
   * names, and each entry is the number of cells of its basin.
   */
  lemma BasinSizesAreBasins(g: Grid)
    requires Walkable(g)
    ensures var lab := Basins(g);
            var reps := Representatives(lab, |lab|);
            var sizes := BasinSizes(lab, |lab|);
            |sizes| == |reps| &&
            (forall k :: 0 <= k < |reps| ==> reps[k] < |g.cells| && sizes[k] == |Basin(g, reps[k])|) &&
            (forall k1, k2 :: 0 <= k1 < |reps| && 0 <= k2 < |reps| && Connected(g, reps[k1], reps[k2]) ==> k1 == k2) &&
            (forall i :: 0 <= i < |g.cells| ==> lab[i] in reps && Connected(g, lab[i], i))
  {
    var lab := Basins(g);
    var reps := Representatives(lab, |lab|);
    var sizes := BasinSizes(lab, |lab|);
    BasinSizesByRepresentative(lab, |lab|);
    forall k | 0 <= k < |reps|
      ensures sizes[k] == |Basin(g, reps[k])|
    {
      RepresentativeCount(g, reps[k]);
    }
    forall k1, k2 | 0 <= k1 < |reps| && 0 <= k2 < |reps| && Connected(g, reps[k1], reps[k2])
      ensures k1 == k2
    {
      RepresentativesApart(g, k1, k2);
    }
    forall i | 0 <= i < |g.cells|
      ensures lab[i] in reps && Connected(g, lab[i], i)
    {
      LabelIsRepresentative(g, i);
    }
  }

  // ------------------------------------------------------------------
  // Building the grid
  // ------------------------------------------------------------------

  /** The inner loop of `build` for the k-th location: its neighbours below 9 paired with it. */
  method NeighborPairs(g: Grid, loc: Loc, ghost k: nat) returns (pairs: seq<(nat, nat)>)
    requires g.width > 0 && k < |g.cells| && loc == LocAt(g, k)
    ensures pairs == CellPairs(g, k)
  {
    CellAt(g, k);
    pairs := [];
    if g.cells[k] != 9 {
      CellPairsNeighbors(g, k);
    }
    if Item(g, loc) != 9 {
      var buf := new Loc[4](_ => Loc(0, 0));
      var len := FillNeighbors(g, loc, buf);
      var j := 0;
      while j < len
        invariant 0 <= j <= len
        invariant pairs == PairsTo(g, k, buf[..j])
      {
        var nb := buf[j];
        assert buf[..j + 1] == buf[..j] + [nb];
        if Item(g, nb) != 9 {
          pairs := pairs + [(Index(g, loc), Index(g, nb))];
        }
        j := j + 1;
      }
      assert buf[..len] == Neighbors(g, loc);
    }
  }

  /** The unions of `build`, one queued pair after the other. */
  method UnionQueue(n: nat, queue: seq<(nat, nat)>) returns (labels: seq<nat>)
    requires InRange(queue, n)
    ensures labels == UnionAll(Singletons(n), queue)
  {
    labels := Singletons(n);
    var m := 0;
    while m < |queue|
      invariant m <= |queue| && |labels| == n
      invariant labels == UnionAll(Singletons(n), queue[..m])
    {
      assert queue[..m + 1][..m] == queue[..m];
      labels := Union(labels, queue[m].0, queue[m].1);
      m := m + 1;
    }
    assert queue[..m] == queue;
  }

  /** The first loop of `build`: the location iterator drives it, and each location adds its pairs. */
  method QueueLocations(g: Grid) returns (queue: seq<(nat, nat)>)
    requires Walkable(g)
    ensures queue == Queue(g, |g.cells|)
  {
    var it := new LocationIter(g);
    queue := [];
    ghost var k: nat := 0;
    while true
      invariant it.grid == g && k <= |g.cells|
      invariant g.width > 0 ==> Loc(it.x, it.y) == LocAt(g, k)
      invariant queue == Queue(g, k)
      decreases |g.cells| - k
    {
      GetAt(g, k);
      ghost var before := Loc(it.x, it.y);
      var r := it.Next();
      if r.None? {
        assert k == |g.cells|;
        break;
      }
      assert Loc(it.x, it.y) == Advance(g, before) && r.value == before;
      assert g.width > 0 && k < |g.cells|;
      assert LocAt(g, k + 1) == Advance(g, LocAt(g, k));
      var pairs := NeighborPairs(g, r.value, k);
      QueueStep(g, k, queue, pairs);
      queue := queue + pairs;
      k := k + 1;
    }
  }

  /**
   * `Grid::build`: queues each cell below 9 with each of its neighbours below
   * 9, then unions every queued pair.  The labels it leaves are the
   * connected components.
   */
  method Build(g: Grid) returns (labels: seq<nat>)
    requires Walkable(g)
    ensures labels == Basins(g)
    ensures forall i, j :: 0 <= i < |labels| && 0 <= j < |labels| ==>
              (labels[i] == labels[j] <==> Connected(g, i, j))
  {
    var queue := QueueLocations(g);
    if g.width > 0 {
      QueueInRange(g);
      labels := UnionQueue(|g.cells|, queue);
    } else {
      labels := [];
    }
    assert labels == Basins(g);
    BasinsPartition(g);
  }
}

=== FILE: day09_grid.dfy ===
/**
 * Day 9 (smoke basin), the height map: one flat run of digits with a row
 * width, the neighbours of a location, low points, and the iterator that
 * walks the locations in row-major order.
 *
 * A location is a plain pair of coordinates; the source's `Location` also
 * borrows its grid, which here is passed alongside.
 */
module Day09Grid {
  import opened Wrappers

  /** `Grid`: `width` cells per row (the source's `x`), the heights stored row after row. */
  datatype Grid = Grid(width: nat, cells: seq<nat>)

  /** `Location`: a position, which need not lie on the data. */
  datatype Loc = Loc(x: nat, y: nat)

  datatype ParseGridError = BadInt(c: char) | BadDimensions

  /** The product a·b, as `a` rows of `b` cells. */
  function Mul(a: nat, b: nat): nat
  {
    if a == 0 then 0 else Mul(a - 1, b) + b
  }

  /** `Location::index`: the flat index of a position. */
  function Index(g: Grid, l: Loc): nat
  {
    Mul(l.y, g.width) + l.x
  }

  /** `Grid::get`: the height at flat index y·width + x, none past the end of the data. */
  function Get(g: Grid, x: nat, y: nat): Option<nat>
  {
    if Mul(y, g.width) + x < |g.cells| then Some(g.cells[Mul(y, g.width) + x]) else None
  }

  /** A position that is both inside its row and on the data. */
  predicate InGrid(g: Grid, l: Loc)
  {
    l.x < g.width && Index(g, l) < |g.cells|
  }

  /** `get` does not look at rows: a column past the row end reads the next row. */
  lemma GetWrapsRows(g: Grid, x: nat, y: nat)
    ensures Get(g, g.width + x, y) == Get(g, x, y + 1)
  {
    assert Mul(y + 1, g.width) == Mul(y, g.width) + g.width;
  }

  /** `Location::item`: the height of a location the source expects to exist. */
  function Item(g: Grid, l: Loc): nat
    requires Get(g, l.x, l.y).Some?
  {
    Get(g, l.x, l.y).value
  }

  /** `Location::deref_grid_with_y`: the same column on row `y`, if `get` finds it. */
  function DerefY(g: Grid, l: Loc, y: nat): Option<Loc>
  {
    if Get(g, l.x, y).Some? then Some(Loc(l.x, y)) else None
  }

  /** `Location::deref_grid_with_x`: column `x` of the same row, if `get` finds it and `x` is inside the row. */
  function DerefX(g: Grid, l: Loc, x: nat): Option<Loc>
  {
    if Get(g, x, l.y).Some? && x < g.width then Some(Loc(x, l.y)) else None
  }

  function Top(g: Grid, l: Loc): Option<Loc>
  {
    if l.y == 0 then None else DerefY(g, l, l.y - 1)
  }

  function Bottom(g: Grid, l: Loc): Option<Loc>
  {
    DerefY(g, l, l.y + 1)
  }

  function Left(g: Grid, l: Loc): Option<Loc>
  {
    if l.x == 0 then None else DerefX(g, l, l.x - 1)
  }

  function Right(g: Grid, l: Loc): Option<Loc>
  {
    DerefX(g, l, l.x + 1)
  }

  /**
   * For a location on the grid: there is a top neighbour exactly when y > 0
   * and a left one exactly when x > 0; a bottom or right neighbour exists
   * exactly when that position is itself on the grid.
   */
  lemma AccessorsMeaning(g: Grid, l: Loc)
    requires InGrid(g, l)
    ensures Top(g, l) == (if l.y > 0 then Some(Loc(l.x, l.y - 1)) else None)
    ensures Bottom(g, l) == (if InGrid(g, Loc(l.x, l.y + 1)) then Some(Loc(l.x, l.y + 1)) else None)
    ensures Left(g, l) == (if l.x > 0 then Some(Loc(l.x - 1, l.y)) else None)
    ensures Right(g, l) == (if InGrid(g, Loc(l.x + 1, l.y)) then Some(Loc(l.x + 1, l.y)) else None)
  {
    if l.y > 0 {
      assert Mul(l.y, g.width) == Mul(l.y - 1, g.width) + g.width;
    }
  }

  /** `right` stops at the row end even where `get` would go on reading the next row. */
  lemma RightStopsAtRowEnd(g: Grid, l: Loc)
    requires l.x + 1 == g.width && Index(g, l) + 1 < |g.cells|
    ensures Get(g, l.x + 1, l.y).Some? && Right(g, l) == None
  {
  }

  function OptionSeq(o: Option<Loc>): seq<Loc>
  {
    if o.Some? then [o.value] else []
  }

  /** `Location::neighbors`: the existing neighbours in the order top, bottom, left, right. */
  function Neighbors(g: Grid, l: Loc): (r: seq<Loc>)
    ensures |r| <= 4
    ensures forall q :: q in r ==> Get(g, q.x, q.y).Some?
  {
    OptionSeq(Top(g, l)) + OptionSeq(Bottom(g, l)) + OptionSeq(Left(g, l)) + OptionSeq(Right(g, l))
  }

  /** Two positions one unit step apart, horizontally or vertically. */
  predicate Adjacent(a: Loc, b: Loc)
  {
    (a.x == b.x && (a.y + 1 == b.y || b.y + 1 == a.y)) ||
    (a.y == b.y && (a.x + 1 == b.x || b.x + 1 == a.x))
  }

  /** The neighbours of a location on the grid are exactly the adjacent positions on the grid. */
  lemma NeighborsExact(g: Grid, l: Loc)
    requires InGrid(g, l)
    ensures forall q :: q in Neighbors(g, l) <==> Adjacent(l, q) && InGrid(g, q)
  {
    AccessorsMeaning(g, l);
    if l.y > 0 {
      assert Mul(l.y, g.width) == Mul(l.y - 1, g.width) + g.width;
      assert InGrid(g, Loc(l.x, l.y - 1));
    }
  }

  /** `Location::push_neighbor`: stores a present neighbour at `len` and counts it. */
  method PushNeighbor(buf: array<Loc>, len: nat, o: Option<Loc>) returns (len': nat)
    requires buf.Length == 4 && len + |OptionSeq(o)| <= 4
    modifies buf
    ensures len' == len + |OptionSeq(o)|
    ensures buf[..len'] == old(buf[..len]) + OptionSeq(o)
  {
    len' := len;
    if o.Some? {
      buf[len'] := o.value;
      len' := len' + 1;
    }
  }

  /** `Location::neighbors` as the source runs it: filling a four-slot buffer and returning its used prefix. */
  method FillNeighbors(g: Grid, l: Loc, buf: array<Loc>) returns (len: nat)
    requires buf.Length == 4
    modifies buf
    ensures len <= 4 && buf[..len] == Neighbors(g, l)
  {
    len := 0;
    len := PushNeighbor(buf, len, Top(g, l));
    len := PushNeighbor(buf, len, Bottom(g, l));
    len := PushNeighbor(buf, len, Left(g, l));
    len := PushNeighbor(buf, len, Right(g, l));
  }

  /** `Location::is_low_point`: every neighbour is strictly higher. */
  predicate IsLowPoint(g: Grid, l: Loc)
    requires Get(g, l.x, l.y).Some?
  {
    forall q :: q in Neighbors(g, l) ==> Item(g, q) > Item(g, l)
  }

  /** A location on the grid is a low point iff every adjacent position on the grid is strictly higher. */
  lemma LowPointMeaning(g: Grid, l: Loc)
    requires InGrid(g, l)
    ensures IsLowPoint(g, l) <==> forall q :: Adjacent(l, q) && InGrid(g, q) ==> Item(g, q) > Item(g, l)
  {
    NeighborsExact(g, l);
  }

  /** `Location::risk`: the height plus one. */
  function Risk(g: Grid, l: Loc): nat
    requires Get(g, l.x, l.y).Some?
  {
    Item(g, l) + 1
  }

  // ------------------------------------------------------------------
  // Row-major iteration
  // ------------------------------------------------------------------

  /** One step of `LocationIter::next`: x advances and wraps to 0 on the next row at the row width. */
  function Advance(g: Grid, l: Loc): Loc
  {
    if l.x + 1 >= g.width then Loc(0, l.y + 1) else Loc(l.x + 1, l.y)
  }

  /** The position the iterator holds after `k` steps from (0, 0). */
  function LocAt(g: Grid, k: nat): Loc
  {
    if k == 0 then Loc(0, 0) else Advance(g, LocAt(g, k - 1))
  }

  /** With a positive width the k-th position is inside its row and has flat index k. */
  lemma {:induction false} LocAtIndex(g: Grid, k: nat)
    requires g.width > 0
    ensures LocAt(g, k).x < g.width && Index(g, LocAt(g, k)) == k
  {
    if k > 0 {
      LocAtIndex(g, k - 1);
      var l := LocAt(g, k - 1);
      if l.x + 1 >= g.width {
        assert Mul(l.y + 1, g.width) == Mul(l.y, g.width) + g.width;
      }
    }
  }

  lemma {:induction false} MulMono(a: nat, b: nat, c: nat)
    requires a <= b
    ensures Mul(a, c) <= Mul(b, c)
  {
    if a < b {
      MulMono(a, b - 1, c);
    }
  }

  /** A position inside its row lies before every later row. */
  lemma RowBound(g: Grid, a: Loc, y: nat)
    requires a.x < g.width
    ensures a.y < y ==> Index(g, a) < Mul(y, g.width)
  {
    if a.y < y {
      MulMono(a.y + 1, y, g.width);
    }
  }

  /** Inside the row, the flat index determines the position. */
  lemma IndexInjective(g: Grid, a: Loc, b: Loc)
    requires a.x < g.width && b.x < g.width && Index(g, a) == Index(g, b)
    ensures a == b
  {
    RowBound(g, a, b.y);
    RowBound(g, b, a.y);
  }

  /**
   * With a positive width the iteration is a bijection from 0 .. |cells| onto
   * the positions on the grid: the k-th step yields the cell of flat index k,
   * and each cell of the grid is reached at the step given by its flat index.
   */
  lemma RowMajorOrder(g: Grid, k: nat, l: Loc)
    requires g.width > 0
    ensures InGrid(g, LocAt(g, k)) <==> k < |g.cells|
    ensures InGrid(g, l) ==> LocAt(g, Index(g, l)) == l
  {
    LocAtIndex(g, k);
    if InGrid(g, l) {
      LocAtIndex(g, Index(g, l));
      IndexInjective(g, LocAt(g, Index(g, l)), l);
    }
  }

  /** `LocationIter`: walks the locations of a grid row after row. */
  class LocationIter {
    const grid: Grid
    var x: nat
    var y: nat

    /** `LocationIter::new`: starts at (0, 0). */
    constructor (g: Grid)
      ensures grid == g && x == 0 && y == 0
    {
      grid := g;
      x := 0;
      y := 0;
    }

    /** `LocationIter::next`: ends (and stays put) once `get` fails, otherwise yields the current position and advances. */
    method Next() returns (r: Option<Loc>)
      modifies this
      ensures Get(grid, old(x), old(y)).None? ==> r == None && x == old(x) && y == old(y)
      ensures Get(grid, old(x), old(y)).Some? ==>
                r == Some(Loc(old(x), old(y))) && Loc(x, y) == Advance(grid, Loc(old(x), old(y)))
    {
      if Get(grid, x, y).None? {
        return None;
      }
      r := Some(Loc(x, y));
      x := x + 1;
      if x >= grid.width {
        x := 0;
        y := y + 1;
      }
    }
  }

  // ------------------------------------------------------------------
  // Parsing
  // ------------------------------------------------------------------

  predicate IsDigit(c: char)
  {
    '0' <= c <= '9'
  }

  function DigitValue(c: char): nat
    requires IsDigit(c)
  {
    (c as int - '0' as int) as nat
  }

  /** The lines' characters in order (`lines().flat_map(chars)`). */
  function Concat(lines: seq<string>): (r: string)
    ensures |lines| > 0 ==> |r| >= |lines[0]| && r[..|lines[0]|] == lines[0]
  {
    if lines == [] then [] else lines[0] + Concat(lines[1..])
  }

  /**
   * Every character as a digit (`to_digit(10)`), collected into a `Result`
   * that stops at the first character that is not one.
   */
  function Digits(cs: string): (r: Result<seq<nat>, ParseGridError>)
    ensures r.Ok? <==> forall k :: 0 <= k < |cs| ==> IsDigit(cs[k])
    ensures r.Ok? ==> |r.value| == |cs| && forall k :: 0 <= k < |cs| ==> r.value[k] == DigitValue(cs[k])
    ensures r.Err? ==> exists k :: 0 <= k < |cs| && !IsDigit(cs[k]) && r.error == BadInt(cs[k]) &&
                                   forall j :: 0 <= j < k ==> IsDigit(cs[j])
  {
    if cs == [] then Ok([])
    else if !IsDigit(cs[0]) then Err(BadInt(cs[0]))
    else
      match Digits(cs[1..])
      case Err(e) =>
        assert forall j :: 1 <= j < |cs| ==> cs[j] == cs[1..][j - 1];
        Err(e)
      case Ok(ds) => Ok([DigitValue(cs[0])] + ds)
  }

  /**
   * `Grid::from_str`: the digits are read first, so a bad character wins;
   * then the width is the length of the first line, and there is none for an
   * empty input.
   */
  function ParseGrid(lines: seq<string>): (r: Result<Grid, ParseGridError>)
    ensures r.Ok? <==> lines != [] && forall k :: 0 <= k < |Concat(lines)| ==> IsDigit(Concat(lines)[k])
    ensures r.Ok? ==> r.value.width == |lines[0]| && Digits(Concat(lines)) == Ok(r.value.cells)
    ensures r == Err(BadDimensions) <==> lines == []
  {
    match Digits(Concat(lines))
    case Err(e) => Err(e)
    case Ok(ds) => if lines == [] then Err(BadDimensions) else Ok(Grid(|lines[0]|, ds))
  }

  /** An input whose first line is empty but which has digits later parses to a grid of width 0. */
  lemma ZeroWidthAccepted(lines: seq<string>)
    requires lines == ["", "1"]
    ensures ParseGrid(lines) == Ok(Grid(0, [1]))
  {
    assert lines[1..] == ["1"] && lines[1..][1..] == [];
    assert Concat(lines[1..]) == "1" + Concat([]);
    assert Concat(lines) == "" + "1";
    assert "1"[1..] == [] && DigitValue('1') == 1;
    assert Digits("1"[1..]) == Ok([]);
    assert Digits("1") == Ok([DigitValue('1')] + []);
    assert Concat(lines) == "1" && |lines[0]| == 0;
    assert [DigitValue('1')] + [] == [1];
    assert ParseGrid(lines) == Ok(Grid(|lines[0]|, [DigitValue('1')] + []));
  }

  /** On a grid of width 0 with data, every position the iterator reaches is found by `get`: it never ends. */
  lemma {:induction false} ZeroWidthNeverEnds(g: Grid, k: nat)
    requires g.width == 0 && |g.cells| > 0
    ensures LocAt(g, k) == Loc(0, k) && Get(g, 0, k) == Some(g.cells[0])
  {
    if k > 0 {
      ZeroWidthNeverEnds(g, k - 1);
    }
  }

  /** Every line as long as the first: the grid has even dimensions. */
  predicate Rectangular(lines: seq<string>)
  {
    forall k :: 0 <= k < |lines| ==> |lines[k]| == |lines[0]|
  }

  /** `from_str` with the dimension check its `BadDimensions` error describes. */
  function ParseGridChecked(lines: seq<string>): (r: Result<Grid, ParseGridError>)
    ensures r.Ok? ==> ParseGrid(lines) == r && Rectangular(lines)
    ensures ParseGrid(lines).Ok? && Rectangular(lines) ==> r == ParseGrid(lines)
  {
    match ParseGrid(lines)
    case Err(e) => Err(e)
    case Ok(g) => if Rectangular(lines) then Ok(g) else Err(BadDimensions)
  }

  lemma {:induction false} ConcatLength(lines: seq<string>)
    requires lines != [] && Rectangular(lines)
    ensures |Concat(lines)| == |lines| * |lines[0]|
  {
    if |lines| > 1 {
      ConcatLength(lines[1..]);
    }
  }

  /**
   * A checked grid holds whole rows, and its width is positive unless it has
   * no data at all, so the iterator ends after exactly one step per cell.
   */
  lemma CheckedGridIterates(lines: seq<string>)
    requires ParseGridChecked(lines).Ok?
    ensures var g := ParseGridChecked(lines).value;
      |g.cells| == |lines| * g.width && (g.width > 0 || g.cells == [])
  {
    ConcatLength(lines);
  }
}

=== FILE: day09_main.dfy ===
/**
 * Day 9, the two answers: the summed risk of the low points, and the product
 * of the three largest basin sizes kept in a four-slot array.
 */
module Day09Run {
  import opened Day09Grid
  import opened Day09Basins
  import opened Wrappers
  import opened Sorting

  // ------------------------------------------------------------------
  // Part 1
  // ------------------------------------------------------------------

  /** Cell `k` is lower than every cell one step away from it, read off the flat data. */
  ghost predicate LowCell(g: Grid, k: nat)
    requires k < |g.cells|
  {
    forall j :: 0 <= j < |g.cells| ==> LowerThan(g, k, j)
  }

  /** Cell `k` is lower than cell `j` if the two are one step apart. */
  ghost predicate LowerThan(g: Grid, k: nat, j: nat)
    requires k < |g.cells| && j < |g.cells|
  {
    Adjacent(LocAt(g, k), LocAt(g, j)) ==> g.cells[j] > g.cells[k]
  }

  /** The neighbour machinery finds exactly the low cells. */
  lemma LowPointIsLowCell(g: Grid, k: nat)
    requires g.width > 0 && k < |g.cells|
    ensures Get(g, LocAt(g, k).x, LocAt(g, k).y).Some?
    ensures IsLowPoint(g, LocAt(g, k)) <==> LowCell(g, k)
  {
    CellAt(g, k);
    var l := LocAt(g, k);
    LowPointMeaning(g, l);
    if IsLowPoint(g, l) {
      forall j | 0 <= j < |g.cells|
        ensures LowerThan(g, k, j)
      {
        CellAt(g, j);
      }
    }
    if LowCell(g, k) {
      forall q | Adjacent(l, q) && InGrid(g, q)
        ensures Item(g, q) > Item(g, l)
      {
        RowMajorOrder(g, 0, q);
        CellAt(g, Index(g, q));
        assert LowerThan(g, k, Index(g, q));
      }
    }
  }

  /** The sum part 1 means: height + 1 for each low cell, in flat order. */
  ghost function LowRisk(g: Grid, m: nat): nat
    requires m <= |g.cells|
  {
    if m == 0 then 0 else LowRisk(g, m - 1) + LowTerm(g, m - 1)
  }

  /** What cell `k` adds to that sum. */
  ghost function LowTerm(g: Grid, k: nat): nat
    requires k < |g.cells|
  {
    if LowCell(g, k) then g.cells[k] + 1 else 0
  }

  /** What `get` finds where the iterator stands after `k` steps. */
  lemma IterAt(g: Grid, k: nat, l: Loc)
    requires Walkable(g) && (g.width > 0 ==> l == LocAt(g, k))
    ensures Get(g, l.x, l.y) == if g.width > 0 && k < |g.cells| then Some(g.cells[k]) else None
  {
    GetAt(g, k);
  }

  /**
   * The `filter(is_low_point).map(risk)` stage for one location, the k-th:
   * its risk if it is a low point, else nothing, which is the k-th term of
   * the low-risk sum.
   */
  method LowPointRisk(g: Grid, l: Loc, ghost k: nat) returns (risk: nat)
    requires g.width > 0 && k < |g.cells| && l == LocAt(g, k)
    ensures LowRisk(g, k + 1) == LowRisk(g, k) + risk
  {
    LowPointIsLowCell(g, k);
    CellAt(g, k);
    if IsLowPoint(g, l) {
      risk := Risk(g, l);
    } else {
      risk := 0;
    }
  }

  /**
   * `part_1`: walks the locations with the grid's iterator and adds the risk
   * of each low point.  The total is height + 1 summed over exactly the cells
   * lower than all their neighbours.
   */
  method Part1(g: Grid) returns (total: nat)
    requires Walkable(g)
    ensures total == LowRisk(g, |g.cells|)
  {
    var it := new LocationIter(g);
    total := 0;
    ghost var k: nat := 0;
    while true
      invariant it.grid == g && k <= |g.cells|
      invariant g.width > 0 ==> Loc(it.x, it.y) == LocAt(g, k)
      invariant total == LowRisk(g, k)
      decreases |g.cells| - k
    {
      ghost var before := Loc(it.x, it.y);
      IterAt(g, k, before);
      var r := it.Next();
      if r.None? {
        assert k == |g.cells|;
        break;
      }
      assert Loc(it.x, it.y) == Advance(g, before) && r.value == before;
      assert g.width > 0 && k < |g.cells|;
      assert LocAt(g, k + 1) == Advance(g, LocAt(g, k));
      var l := r.value;
      var risk := LowPointRisk(g, l, k);
      total := total + risk;
      k := k + 1;
    }
  }

  // ------------------------------------------------------------------
  // Part 2
  // ------------------------------------------------------------------

  /**
   * One round of `part_2`'s loop: `size` overwrites slot 0, then
   * `highest.sort_unstable()`.  The other three slots are already ascending,
   * so sorting moves the new value up to its place.
   */
  method ReplaceLowest(h: array<nat>, size: nat)
    requires h.Length == 4 && Sorted(h[1..])
    modifies h
    ensures h[..] == InsertSorted(size, old(h[1..]))
  {
    ghost var t := h[1..];
    h[0] := size;
    var i := 0;
    while i < 3 && h[i] > h[i + 1]
      invariant 0 <= i <= 3 && h[i] == size
      invariant forall j :: 0 <= j < i ==> h[j] == t[j] && t[j] < size
      invariant forall j :: i < j < 4 ==> h[j] == t[j - 1]
    {
      h[i], h[i + 1] := h[i + 1], h[i];
      i := i + 1;
    }
    InsertAt(size, t, i);
    assert h[..] == t[..i] + [size] + t[i..];
  }

  /** The four zeros `highest` starts with: missing basins count as size 0. */
  function Zeros(): multiset<nat>
  {
    multiset{0, 0, 0, 0}
  }

  /** `t` holds the three largest of the sizes (padded with zeros), ascending. */
  ghost predicate TopThree(t: seq<int>, sizes: seq<nat>)
  {
    |t| == 3 && Sorted(t) &&
    multiset(t) <= multiset(sizes) + Zeros() &&
    forall v :: v in (multiset(sizes) + Zeros()) - multiset(t) ==> v <= t[0]
  }

  /**
   * The state of `highest` after the sizes in `seen`: ascending, and together
   * with the sizes dropped from slot 0 it holds exactly the seen sizes and the
   * four starting zeros, none of the dropped ones above slot 1.
   */
  ghost predicate Highest(h: seq<int>, dropped: multiset<int>, seen: seq<nat>)
  {
    |h| == 4 && Sorted(h) &&
    multiset(h) + dropped == multiset(seen) + Zeros() &&
    forall v :: v in dropped ==> v <= h[1]
  }

  /** One more element of a prefix. */
  lemma PrefixStep(s: seq<nat>, k: nat)
    requires k < |s|
    ensures s[..k + 1] == s[..k] + [s[k]]
  {
  }

  /** `highest` starts as four zeros with nothing seen and nothing dropped. */
  lemma HighestStart()
    ensures Highest([0, 0, 0, 0], multiset{}, [])
  {
    assert multiset([0, 0, 0, 0]) == Zeros();
  }

  /** One round of the loop: overwrite slot 0 with `s`, sort, and the state still holds. */
  lemma KeepTop(h: seq<int>, s: nat, dropped: multiset<int>, seen: seq<nat>)
    requires Highest(h, dropped, seen)
    ensures Highest(InsertSorted(s, h[1..]), dropped + multiset{h[0]}, seen + [s])
  {
    var t := h[1..];
    var r := InsertSorted(s, t);
    var d := dropped + multiset{h[0]};
    InsertSortedOk(s, t);
    assert h[0] <= h[1] <= r[1];
    forall v | v in d
      ensures v <= r[1]
    {
      if v != h[0] {
        assert v in dropped;
      }
    }
    KeepTopBag(h, s, dropped, seen);
  }

  /** The multiset half of `KeepTop`: slot 0 moves to the dropped sizes, `s` comes in. */
  lemma KeepTopBag(h: seq<int>, s: nat, dropped: multiset<int>, seen: seq<nat>)
    requires |h| == 4 && multiset(h) + dropped == multiset(seen) + Zeros()
    ensures multiset(InsertSorted(s, h[1..])) + (dropped + multiset{h[0]}) == multiset(seen + [s]) + Zeros()
  {
    var t := h[1..];
    InsertSortedPerm(s, t);
    assert h == [h[0]] + t;
    assert multiset(h) == multiset{h[0]} + multiset(t);
    assert multiset(seen + [s]) == multiset(seen) + multiset{s};
    Exchange(multiset(t), multiset{s}, dropped, multiset{h[0]}, multiset(seen), Zeros());
  }

  /** Swapping one element for another on both sides of a multiset equation. */
  lemma Exchange(a: multiset<int>, s: multiset<int>, d: multiset<int>, h0: multiset<int>, m: multiset<int>, z: multiset<int>)
    requires h0 + a + d == m + z
    ensures (a + s) + (d + h0) == (m + s) + z
  {
    forall x
      ensures ((a + s) + (d + h0))[x] == ((m + s) + z)[x]
    {
      assert (h0 + a + d)[x] == (m + z)[x];
    }
  }

  lemma Leftover(a: multiset<int>, h0: int, t: multiset<int>, all: multiset<int>, bound: int)
    requires all == multiset{h0} + t + a
    requires h0 <= bound && forall v :: v in a ==> v <= bound
    ensures t <= all && forall v :: v in all - t ==> v <= bound
  {
    assert all - t == multiset{h0} + a;
  }

  /** `product` multiplies the three largest sizes (padded with zeros). */
  ghost predicate IsAnswer(product: nat, sizes: seq<nat>)
  {
    exists t: seq<nat> :: TopThree(t, sizes) && product == Product(t)
  }

  /** `iter().product()`: the product of the elements, 1 for none. */
  function Product(s: seq<nat>): nat
  {
    if s == [] then 1 else s[0] * Product(s[1..])
  }

  /** The product of the last three slots, once every size is seen, is the answer. */
  lemma HighestAnswer(h: seq<nat>, dropped: multiset<int>, sizes: seq<nat>)
    requires Highest(h, dropped, sizes)
    ensures IsAnswer(Product(h[1..]), sizes)
  {
    HighestHoldsTop(h, dropped, sizes);
  }

  /** Once every size is seen, the last three slots are the top three. */
  lemma HighestHoldsTop(h: seq<int>, dropped: multiset<int>, sizes: seq<nat>)
    requires Highest(h, dropped, sizes)
    ensures TopThree(h[1..], sizes)
  {
    var t := h[1..];
    assert h == [h[0]] + t;
    assert forall i, j :: 0 <= i < j < |t| ==> t[i] == h[i + 1] && t[j] == h[j + 1];
    Leftover(dropped, h[0], multiset(t), multiset(sizes) + Zeros(), h[1]);
  }

  /**
   * `part_2`: every basin size overwrites slot 0 of `highest`, which is then
   * sorted again; `highest` stays ascending and its last three slots are the
   * three largest sizes seen, so the answer is their product.
   */
  method Part2(sizes: seq<nat>) returns (product: nat)
    ensures IsAnswer(product, sizes)
  {
    var highest := new nat[4](_ => 0);
    ghost var dropped: multiset<int> := multiset{};
    assert highest[..] == [0, 0, 0, 0];
    assert sizes[..0] == [];
    HighestStart();
    ghost var cur: seq<int> := highest[..];
    for k := 0 to |sizes|
      invariant highest[..] == cur
      invariant Highest(cur, dropped, sizes[..k])
    {
      ghost var next := InsertSorted(sizes[k], cur[1..]);
      KeepTop(cur, sizes[k], dropped, sizes[..k]);
      SortedTail(cur);
      ReplaceLowest(highest, sizes[k]);
      PrefixStep(sizes, k);
      dropped := dropped + multiset{cur[0]};
      cur := next;
      assert highest[..] == cur;
      assert Highest(cur, dropped, sizes[..k + 1]);
    }
    assert sizes[..|sizes|] == sizes;
    product := Product(highest[1..]);
    HighestAnswer(highest[..], dropped, sizes);
  }

  lemma {:induction false} SubMultisetSize(a: multiset<nat>, b: multiset<nat>)
    requires a <= b
    ensures |a| <= |b|
    decreases |a|
  {
    if a != multiset{} {
      var x :| x in a;
      SubMultisetSize(a - multiset{x}, b - multiset{x});
      assert |a - multiset{x}| == |a| - 1;
      assert |b - multiset{x}| == |b| - 1;
    }
  }

  /** With fewer than three basins the smallest of the three is a padding zero, so the product is 0. */
  lemma FewBasinsGiveZero(t: seq<nat>, sizes: seq<nat>)
    requires TopThree(t, sizes) && |sizes| < 3
    ensures Product(t) == 0
  {
    if t[0] > 0 {
      forall v | v in multiset(t)
        ensures multiset(t)[v] <= multiset(sizes)[v]
      {
        assert v in t;
        assert v > 0;
      }
      assert multiset(t) <= multiset(sizes);
      SubMultisetSize(multiset(t), multiset(sizes));
      assert false;
    } else {
      assert Product(t) == t[0] * Product(t[1..]);
    }
  }

  /** `part_2` on the partition `build` left: the sizes of all basins, 9s included as singletons. */
  method Part2Of(labels: seq<nat>) returns (product: nat)
    ensures IsAnswer(product, BasinSizes(labels, |labels|))
  {
    product := Part2(BasinSizes(labels, |labels|));
  }
}

=== FILE: day10_command.dfy ===
/** Day 10: one-symbol commands and the stream of them read from the puzzle text. */
module Day10Command {
  import opened Wrappers
  import opened Day10Delimiter
  import opened Utf8

  /** What a single symbol asks the interpreter to do. */
  datatype Command = Open(d: Delimiter) | Close(d: Delimiter) | EndLine

  datatype CommandParseError = TooLong | UnknownSymbol(symbol: string)

  /** `Command::from_str`: anything over one byte is too long; otherwise one of nine symbols. */
  function ParseCommand(s: string): Result<Command, CommandParseError>
  {
    if ByteLen(s) > 1 then Err(TooLong)
    else if s == "(" then Ok(Open(Paren))
    else if s == ")" then Ok(Close(Paren))
    else if s == "[" then Ok(Open(Square))
    else if s == "]" then Ok(Close(Square))
    else if s == "{" then Ok(Open(Curly))
    else if s == "}" then Ok(Close(Curly))
    else if s == "<" then Ok(Open(Angle))
    else if s == ">" then Ok(Close(Angle))
    else if s == "\n" then Ok(EndLine)
    else Err(UnknownSymbol(s))
  }

  /** The symbol that spells a command. */
  function Symbol(c: Command): char
  {
    match c
    case Open(Paren) => '('
    case Close(Paren) => ')'
    case Open(Square) => '['
    case Close(Square) => ']'
    case Open(Curly) => '{'
    case Close(Curly) => '}'
    case Open(Angle) => '<'
    case Close(Angle) => '>'
    case EndLine => '\n'
  }

  /** Every command parses back from its own symbol. */
  lemma ParseSymbol(c: Command)
    ensures ParseCommand([Symbol(c)]) == Ok(c)
  {
    CharByteLen(Symbol(c));
  }

  /** Only the nine one-symbol strings parse, each to the command it spells. */
  lemma ParseOnlySymbols(s: string)
    ensures ParseCommand(s).Ok? ==> s == [Symbol(ParseCommand(s).value)]
  {
  }

  /** The two error cases: more than one byte is TooLong, and any other one-byte
      (or empty) string that is not a symbol is reported verbatim as UnknownSymbol. */
  lemma ParseErrors(s: string)
    ensures ParseCommand(s) == Err(TooLong) <==> ByteLen(s) > 1
    ensures ParseCommand(s).Err? && ParseCommand(s).error.UnknownSymbol? <==>
              ByteLen(s) <= 1 && forall c: Command :: s != [Symbol(c)]
    ensures ParseCommand(s).Err? && ParseCommand(s).error.UnknownSymbol? ==>
              ParseCommand(s).error.symbol == s
  {
    if ParseCommand(s).Ok? {
      ParseOnlySymbols(s);
    }
    if ByteLen(s) <= 1 && exists c: Command :: s == [Symbol(c)] {
      var c: Command :| s == [Symbol(c)];
      ParseSymbol(c);
    }
  }

  /** A single character is too long exactly when it is not ASCII. */
  lemma CharTooLong(c: char)
    ensures ParseCommand([c]) == Err(TooLong) <==> c as int >= 0x80
  {
    CharByteLen(c);
  }

  /** `Command::stream`: the text is split into its characters and each is parsed. */
  function Stream(input: string): (r: seq<Result<Command, CommandParseError>>)
    ensures |r| == |input|
    ensures forall i :: 0 <= i < |input| ==> r[i] == ParseCommand([input[i]])
  {
    if input == [] then [] else [ParseCommand([input[0]])] + Stream(input[1..])
  }

  /** The text that spells a sequence of commands. */
  function Render(cmds: seq<Command>): (r: string)
    ensures |r| == |cmds|
  {
    if cmds == [] then [] else [Symbol(cmds[0])] + Render(cmds[1..])
  }

  /** Every command successfully parsed, as the stream would yield it. */
  function AllOk(cmds: seq<Command>): seq<Result<Command, CommandParseError>>
  {
    if cmds == [] then [] else [Ok(cmds[0])] + AllOk(cmds[1..])
  }

  /** Streaming a rendered program gives back exactly its commands, in order. */
  lemma {:induction false} StreamRender(cmds: seq<Command>)
    ensures Stream(Render(cmds)) == AllOk(cmds)
  {
    if cmds != [] {
      StreamRender(cmds[1..]);
      ParseSymbol(cmds[0]);
      assert Render(cmds)[1..] == Render(cmds[1..]);
    }
  }

  /** Streaming is compositional: text is parsed symbol by symbol. */
  lemma {:induction false} StreamAppend(a: string, b: string)
    ensures Stream(a + b) == Stream(a) + Stream(b)
  {
    if a != [] {
      assert (a + b)[1..] == a[1..] + b;
      StreamAppend(a[1..], b);
    }
  }
}

=== FILE: day10_delimiter.dfy ===
/** Day 10: the four kinds of bracket and their two score tables. */
module Day10Delimiter {

  /** The bracket kinds, declared in the order the derived `Ord` follows. */
  datatype Delimiter = Paren | Square | Curly | Angle

  /** Position of a kind in the declaration, which is what the derived order compares. */
  function Rank(d: Delimiter): nat
  {
    match d
    case Paren => 0
    case Square => 1
    case Curly => 2
    case Angle => 3
  }

  /** The derived `<` on delimiters. */
  predicate Less(a: Delimiter, b: Delimiter)
  {
    Rank(a) < Rank(b)
  }

  /** Points for a line corrupted by this closing kind. */
  function SyntaxScore(d: Delimiter): nat
  {
    match d
    case Paren => 3
    case Square => 57
    case Curly => 1197
    case Angle => 25137
  }

  /** Points for appending this closing kind while completing a line. */
  function AutocompleteScore(d: Delimiter): nat
  {
    match d
    case Paren => 1
    case Square => 2
    case Curly => 3
    case Angle => 4
  }

  /** The derived order is a strict total order: Paren < Square < Curly < Angle. */
  lemma OrderIsTotal(a: Delimiter, b: Delimiter)
    ensures Less(Paren, Square) && Less(Square, Curly) && Less(Curly, Angle)
    ensures a == b || Less(a, b) || Less(b, a)
    ensures !(Less(a, b) && Less(b, a))
  {
  }

  /** An autocomplete score is one more than the kind's rank, so it lies in 1..=4. */
  lemma AutocompleteIsRank(d: Delimiter)
    ensures AutocompleteScore(d) == Rank(d) + 1
    ensures 1 <= AutocompleteScore(d) <= 4
  {
  }

  /** Distinct kinds have distinct autocomplete scores. */
  lemma AutocompleteInjective(a: Delimiter, b: Delimiter)
    ensures AutocompleteScore(a) == AutocompleteScore(b) <==> a == b
  {
    AutocompleteIsRank(a);
    AutocompleteIsRank(b);
  }

  /** Both score tables grow along the derived order. */
  lemma ScoresFollowOrder(a: Delimiter, b: Delimiter)
    ensures Less(a, b) <==> SyntaxScore(a) < SyntaxScore(b)
    ensures Less(a, b) <==> AutocompleteScore(a) < AutocompleteScore(b)
  {
  }
}

=== FILE: day10_interpreter.dfy ===
/** Day 10: the bracket interpreter. It reads a stream of commands, keeps a stack
    of open delimiters, latches the first error of each line and reports one
    item per line that is corrupted or incomplete. */
module Day10Interpreter {
  import opened Wrappers
  import opened Day10Delimiter
  import opened Day10Command

  /** What a line can go wrong with; `line` and `column` say where. */
  datatype InterpreterError<E> =
    | StreamError(cause: E, line: nat, column: nat)
    | LineIncomplete(expected: seq<Delimiter>, line: nat, column: nat)
    | ClosedWhileBalanced(found: Delimiter, line: nat, column: nat)
    | MismatchClosed(open: Delimiter, found: Delimiter, line: nat, column: nat)

  /** `InterpreterError::is_corrupted`. */
  predicate IsCorrupted<E>(e: InterpreterError<E>)
  {
    e.MismatchClosed?
  }

  /** `InterpreterError::is_incomplete`. */
  predicate IsIncomplete<E>(e: InterpreterError<E>)
  {
    e.LineIncomplete?
  }

  /** Score of the closers that complete a line: a left fold of `s * 5 + autocomplete`. */
  function CompletionScore(ds: seq<Delimiter>): nat
  {
    if ds == [] then 0
    else CompletionScore(ds[..|ds| - 1]) * 5 + AutocompleteScore(ds[|ds| - 1])
  }

  /** `InterpreterError::score`. */
  function Score<E>(e: InterpreterError<E>): Option<nat>
  {
    match e
    case LineIncomplete(f, _, _) => Some(CompletionScore(f))
    case ClosedWhileBalanced(_, _, _) => Some(0)
    case MismatchClosed(_, f, _, _) => Some(SyntaxScore(f))
    case StreamError(_, _, _) => None
  }

  /** Only stream errors go unscored; a corrupted line scores its offending delimiter. */
  lemma ScoreCases<E>(e: InterpreterError<E>)
    ensures Score(e).None? <==> e.StreamError?
    ensures IsCorrupted(e) ==> Score(e) == Some(SyntaxScore(e.found)) && Score(e).value >= 3
  {
  }

  /** A completion's score is written in base 5 with digits 1..=4, so a non-empty
      completion scores at least 1 and its last closer is the score's last digit. */
  lemma CompletionScoreDigits(ds: seq<Delimiter>)
    ensures ds == [] <==> CompletionScore(ds) == 0
    ensures ds != [] ==> (CompletionScore(ds) % 5 == AutocompleteScore(ds[|ds| - 1])
                          && CompletionScore(ds) / 5 == CompletionScore(ds[..|ds| - 1]))
  {
    if ds != [] {
      AutocompleteIsRank(ds[|ds| - 1]);
    }
  }

  /** Different completions never score the same. */
  lemma {:induction false} CompletionScoreInjective(a: seq<Delimiter>, b: seq<Delimiter>)
    requires CompletionScore(a) == CompletionScore(b)
    ensures a == b
    decreases |a|
  {
    CompletionScoreDigits(a);
    CompletionScoreDigits(b);
    if a != [] {
      assert b != [];
      AutocompleteInjective(a[|a| - 1], b[|b| - 1]);
      CompletionScoreInjective(a[..|a| - 1], b[..|b| - 1]);
      assert a == a[..|a| - 1] + [a[|a| - 1]];
      assert b == b[..|b| - 1] + [b[|b| - 1]];
    }
  }

  /** The stack reversed: innermost open delimiter first. */
  function Reverse(s: seq<Delimiter>): (r: seq<Delimiter>)
    ensures |r| == |s|
    ensures forall i :: 0 <= i < |s| ==> r[i] == s[|s| - 1 - i]
  {
    if s == [] then [] else [s[|s| - 1]] + Reverse(s[..|s| - 1])
  }

  /** Everything the interpreter keeps between calls; `pos` is how far the stream has been read. */
  datatype Machine<E> = Machine(pos: nat, line: nat, column: nat,
                                stack: seq<Delimiter>, state: Option<InterpreterError<E>>)

  /** `Interpreter::new`. */
  function Start<E>(): Machine<E>
  {
    Machine(0, 0, 0, [], None)
  }

  predicate IsEndLine<E>(item: Result<Command, E>)
  {
    item.Ok? && item.value.EndLine?
  }

  /** A run of stream items inside one line. */
  predicate IsLine<E>(xs: seq<Result<Command, E>>)
  {
    forall i :: 0 <= i < |xs| ==> !IsEndLine(xs[i])
  }

  /** `handle_close`: pop the innermost open delimiter, or complain about an empty stack. */
  function CloseOn<E>(m: Machine<E>, c: Delimiter): (r: Machine<E>)
    ensures r.pos == m.pos && r.line == m.line && r.column == m.column
  {
    if m.stack == [] then m.(state := Some(ClosedWhileBalanced(c, m.line, m.column)))
    else
      var o := m.stack[|m.stack| - 1];
      m.(stack := m.stack[..|m.stack| - 1],
         state := if o != c then Some(MismatchClosed(o, c, m.line, m.column)) else m.state)
  }

  /** The latch only ever holds an error found inside a line, never an incomplete-line report. */
  predicate Latchable<E>(state: Option<InterpreterError<E>>)
  {
    state.None? || !state.value.LineIncomplete?
  }

  /** One pass of the loop in `next` for an item that does not end the line:
      the item is read, the column advances and, unless an error is already
      latched, the command is carried out. */
  function Step<E>(m: Machine<E>, item: Result<Command, E>): (r: Machine<E>)
    requires !IsEndLine(item)
    ensures r.pos == m.pos + 1 && r.column == m.column + 1 && r.line == m.line
    ensures Latchable(m.state) ==> Latchable(r.state)
  {
    var m1 := m.(pos := m.pos + 1, column := m.column + 1, state := None);
    match (m.state, item)
    case (Some(e), _) => m1.(state := Some(e))
    case (None, Ok(Close(c))) => CloseOn(m1, c)
    case (None, Ok(Open(o))) => m1.(stack := m1.stack + [o])
    case (None, Err(e)) => m1.(state := Some(StreamError(e, m1.line, m1.column)))
  }

  /** The item just read, ending the line, with the latched error taken out. */
  function AtNewline<E>(m: Machine<E>): Machine<E>
  {
    m.(pos := m.pos + 1, column := m.column + 1, state := None)
  }

  /** The steps for a run of items inside one line. */
  function Feed<E>(m: Machine<E>, xs: seq<Result<Command, E>>): (r: Machine<E>)
    requires IsLine(xs)
    ensures r.pos == m.pos + |xs| && r.column == m.column + |xs| && r.line == m.line
    ensures Latchable(m.state) ==> Latchable(r.state)
    decreases |xs|
  {
    if xs == [] then m else Feed(Step(m, xs[0]), xs[1..])
  }

  /** `handle_line_ending`: report the latched error, else an unfinished stack
      (reversed), else nothing; then move to the start of the next line. */
  function LineEnding<E>(m: Machine<E>, state: Option<InterpreterError<E>>)
    : (Option<Result<(), InterpreterError<E>>>, Machine<E>)
  {
    var res :=
      if state.Some? then Some(Err(state.value))
      else if m.stack == [] then None
      else Some(Err(LineIncomplete(Reverse(m.stack), m.line, m.column)));
    (res, m.(line := m.line + 1, column := 0, stack := []))
  }

  /** `Iterator::next`: read items until a line ends (returning its verdict) or
      the stream runs out (returning nothing). */
  function NextSpec<E>(items: seq<Result<Command, E>>, m: Machine<E>)
    : (r: (Option<Result<(), InterpreterError<E>>>, Machine<E>))
    requires m.pos <= |items|
    ensures r.1.pos <= |items|
    ensures r.0.Some? ==> r.0.value.Err?
    ensures r.0.Some? ==> r.1.pos > m.pos && r.1.line == m.line + 1 && r.1.column == 0
                          && r.1.stack == [] && r.1.state.None?
    decreases |items| - m.pos
  {
    if m.pos == |items| then (None, m)
    else if IsEndLine(items[m.pos]) then
      LineEnding(AtNewline(m), m.state)
    else NextSpec(items, Step(m, items[m.pos]))
  }

  /** The errors the interpreter yields, in order, until `next` returns nothing. */
  function Yields<E>(items: seq<Result<Command, E>>, m: Machine<E>): seq<InterpreterError<E>>
    requires m.pos <= |items|
    decreases |items| - m.pos
  {
    var (r, m') := NextSpec(items, m);
    if r.None? then [] else [r.value.error] + Yields(items, m')
  }

  /** The first error of a line wins: once latched, later items of the line
      neither replace it nor touch the stack. */
  lemma {:induction false} FirstErrorWins<E>(m: Machine<E>, xs: seq<Result<Command, E>>)
    requires IsLine(xs) && m.state.Some?
    ensures Feed(m, xs).state == m.state && Feed(m, xs).stack == m.stack
    decreases |xs|
  {
    if xs != [] {
      FirstErrorWins(Step(m, xs[0]), xs[1..]);
    }
  }

  /** Feeding a line in two pieces is feeding it whole. */
  lemma {:induction false} FeedAppend<E>(m: Machine<E>, xs: seq<Result<Command, E>>, ys: seq<Result<Command, E>>)
    requires IsLine(xs) && IsLine(ys)
    ensures IsLine(xs + ys) && Feed(m, xs + ys) == Feed(Feed(m, xs), ys)
    decreases |xs|
  {
    assert IsLine(xs + ys) by {
      forall i | 0 <= i < |xs + ys|
        ensures !IsEndLine((xs + ys)[i])
      {
        if i < |xs| { assert (xs + ys)[i] == xs[i]; } else { assert (xs + ys)[i] == ys[i - |xs|]; }
      }
    }
    if xs == [] {
      assert xs + ys == ys;
    } else {
      assert (xs + ys)[0] == xs[0];
      assert (xs + ys)[1..] == xs[1..] + ys;
      FeedAppend(Step(m, xs[0]), xs[1..], ys);
    }
  }

  /** `next` consumes exactly one line: the items before the first newline are
      stepped through and the newline hands the latched error to `handle_line_ending`. */
  lemma {:induction false} NextConsumesLine<E>(items: seq<Result<Command, E>>, m: Machine<E>,
                                               xs: seq<Result<Command, E>>)
    requires m.pos + |xs| < |items| && items[m.pos..m.pos + |xs|] == xs
    requires IsLine(xs) && IsEndLine(items[m.pos + |xs|])
    ensures NextSpec(items, m) == LineEnding(AtNewline(Feed(m, xs)), Feed(m, xs).state)
    decreases |xs|
  {
    if xs != [] {
      assert items[m.pos] == xs[0];
      var m' := Step(m, xs[0]);
      assert items[m'.pos..m'.pos + |xs[1..]|] == xs[1..];
      NextConsumesLine(items, m', xs[1..]);
    }
  }

  /** A last line with no newline produces no item; its commands are still read. */
  lemma {:induction false} UnterminatedLineYieldsNothing<E>(items: seq<Result<Command, E>>, m: Machine<E>)
    requires m.pos <= |items| && IsLine(items[m.pos..])
    ensures NextSpec(items, m) == (None, Feed(m, items[m.pos..]))
    decreases |items| - m.pos
  {
    if m.pos < |items| {
      assert items[m.pos..][0] == items[m.pos];
      assert items[m.pos..][1..] == items[m.pos + 1..];
      UnterminatedLineYieldsNothing(items, Step(m, items[m.pos]));
    }
  }

  /** `Ok(())` is never produced: every reported line is an error. */
  lemma NeverOk<E>(items: seq<Result<Command, E>>, m: Machine<E>)
    requires m.pos <= |items|
    ensures NextSpec(items, m).0 != Some(Ok(()))
  {
  }

  /** One closing command per entry of `ds`, in order. */
  function Closers<E>(ds: seq<Delimiter>): (r: seq<Result<Command, E>>)
    ensures |r| == |ds| && IsLine(r)
    ensures forall i :: 0 <= i < |ds| ==> r[i] == Ok(Close(ds[i]))
  {
    if ds == [] then [] else [Ok(Close(ds[0]))] + Closers(ds[1..])
  }

  /** Closing the reversed stack, innermost first, empties it without an error. */
  lemma {:induction false} CompletionCloses<E>(m: Machine<E>)
    requires m.state.None?
    ensures Feed(m, Closers<E>(Reverse(m.stack))).state.None?
    ensures Feed(m, Closers<E>(Reverse(m.stack))).stack == []
    decreases |m.stack|
  {
    if m.stack != [] {
      var s := m.stack;
      var rest := Reverse(s[..|s| - 1]);
      assert Reverse(s) == [s[|s| - 1]] + rest;
      assert Closers<E>(Reverse(s))[1..] == Closers<E>(rest);
      var m' := Step(m, Ok(Close(s[|s| - 1])));
      assert m'.stack == s[..|s| - 1] && m'.state.None?;
      CompletionCloses(m');
    }
  }

  /** The three outcomes of `handle_line_ending`. */
  lemma LineEndingOutcome<E>(m: Machine<E>, state: Option<InterpreterError<E>>)
    ensures var r := LineEnding(m, state).0;
            && (r.None? <==> state.None? && m.stack == [])
            && (state.Some? ==> r == Some(Err(state.value)))
            && (state.None? && m.stack != [] ==> r == Some(Err(LineIncomplete(Reverse(m.stack), m.line, m.column))))
  {
  }

  /** What `next` reports for a line: nothing exactly when the line leaves no
      error and an empty stack, its first error if it has one, and otherwise
      the unfinished stack, innermost first, at the newline's column. */
  lemma {:induction false} LineVerdict<E>(items: seq<Result<Command, E>>, m: Machine<E>, xs: seq<Result<Command, E>>)
    requires m.pos + |xs| < |items| && items[m.pos..m.pos + |xs|] == xs
    requires IsLine(xs) && IsEndLine(items[m.pos + |xs|])
    ensures var f := Feed(m, xs);
            var r := NextSpec(items, m).0;
            && (r.None? <==> f.state.None? && f.stack == [])
            && (f.state.Some? ==> r == Some(Err(f.state.value)))
            && (f.state.None? && f.stack != [] ==>
                  r == Some(Err(LineIncomplete(Reverse(f.stack), m.line, m.column + |xs| + 1))))
  {
    NextConsumesLine(items, m, xs);
    var f := Feed(m, xs);
    LineEndingOutcome(AtNewline(f), f.state);
  }

  /** The closers reported for an incomplete line, appended to it, balance it. */
  lemma {:induction false} IncompleteLineCompletes<E>(items: seq<Result<Command, E>>, m: Machine<E>, xs: seq<Result<Command, E>>)
    requires m.pos + |xs| < |items| && items[m.pos..m.pos + |xs|] == xs
    requires IsLine(xs) && IsEndLine(items[m.pos + |xs|])
    requires m.state.None?
    ensures var r := NextSpec(items, m).0;
            r.Some? && r.value.error.LineIncomplete? ==>
              var g := Feed(m, xs + Closers<E>(r.value.error.expected));
              g.state.None? && g.stack == []
  {
    var r := NextSpec(items, m).0;
    if r.Some? && r.value.error.LineIncomplete? {
      LineVerdict(items, m, xs);
      var f := Feed(m, xs);
      assert f.state.None? && r.value.error.expected == Reverse(f.stack);
      FeedAppend(m, xs, Closers<E>(Reverse(f.stack)));
      CompletionCloses(f);
    }
  }

  /** A balanced line makes `next` return nothing, so nothing after it is ever reported. */
  lemma {:induction false} BalancedLineEndsIteration<E>(items: seq<Result<Command, E>>, m: Machine<E>, xs: seq<Result<Command, E>>)
    requires m.pos + |xs| < |items| && items[m.pos..m.pos + |xs|] == xs
    requires IsLine(xs) && IsEndLine(items[m.pos + |xs|])
    requires m.stack == [] && m.state.None?
    requires Feed(m, xs).state.None? && Feed(m, xs).stack == []
    ensures Yields(items, m) == []
  {
    LineVerdict(items, m, xs);
  }

  /** `Interpreter`: an iterator over per-line verdicts, drawing on `items` from `pos`. */
  class Interpreter<E> {
    const items: seq<Result<Command, E>>
    var pos: nat
    var line: nat
    var column: nat
    var stack: seq<Delimiter>
    var state: Option<InterpreterError<E>>

    ghost predicate Valid()
      reads this
    {
      pos <= |items|
    }

    function Snapshot(): Machine<E>
      reads this
    {
      Machine(pos, line, column, stack, state)
    }

    /** `Interpreter::new`. */
    constructor(stream: seq<Result<Command, E>>)
      ensures items == stream && Valid() && Snapshot() == Start()
    {
      items := stream;
      pos, line, column, stack, state := 0, 0, 0, [], None;
    }

    /** `handle_line_ending`. */
    method HandleLineEnding(st: Option<InterpreterError<E>>) returns (res: Option<Result<(), InterpreterError<E>>>)
      modifies this
      ensures (res, Snapshot()) == LineEnding(old(Snapshot()), st)
    {
      if st.Some? {
        res := Some(Err(st.value));
      } else if stack == [] {
        res := None;
      } else {
        stack := Reverse(stack);
        res := Some(Err(LineIncomplete(stack, line, column)));
      }
      line := line + 1;
      column := 0;
      stack := [];
    }

    /** `handle_close`. */
    method HandleClose(c: Delimiter)
      modifies this
      ensures Snapshot() == CloseOn(old(Snapshot()), c)
    {
      if stack != [] {
        var o := stack[|stack| - 1];
        stack := stack[..|stack| - 1];
        if o != c {
          state := Some(MismatchClosed(o, c, line, column));
        }
      } else {
        state := Some(ClosedWhileBalanced(c, line, column));
      }
    }

    /** `Iterator::next`. */
    method Next() returns (res: Option<Result<(), InterpreterError<E>>>)
      requires Valid()
      modifies this
      ensures Valid()
      ensures (res, Snapshot()) == NextSpec(items, old(Snapshot()))
    {
      while true
        invariant Valid()
        invariant NextSpec(items, Snapshot()) == NextSpec(items, old(Snapshot()))
        decreases |items| - pos
      {
        if pos == |items| {
          return None;
        }
        ghost var before := Snapshot();
        var next := items[pos];
        pos := pos + 1;
        column := column + 1;
        var st := state;
        state := None;
        match (st, next) {
          case (_, Ok(EndLine)) =>
            res := HandleLineEnding(st);
            return;
          case (Some(e), _) =>
            state := Some(e);
          case (None, Ok(Close(c))) =>
            HandleClose(c);
          case (None, Ok(Open(o))) =>
            stack := stack + [o];
          case (None, Err(e)) =>
            state := Some(StreamError(e, line, column));
        }
        assert Snapshot() == Step(before, next);
      }
    }
  }
}

=== FILE: day10_main.dfy ===
/** Day 10 answers: the syntax-error total of the corrupted lines and the middle
    autocomplete score of the incomplete ones. */
module Day10Run {
  import opened Wrappers
  import opened Day10Delimiter
  import opened Day10Command
  import opened Day10Interpreter
  import Sorting

  /** Runs the interpreter to exhaustion, keeping the reported errors in order
      (`filter_map(Result::err)`). */
  method Errors<E>(it: Interpreter<E>) returns (errs: seq<InterpreterError<E>>)
    requires it.Valid()
    modifies it
    ensures errs == Yields(it.items, old(it.Snapshot()))
  {
    errs := [];
    while true
      invariant it.Valid()
      invariant errs + Yields(it.items, it.Snapshot()) == Yields(it.items, old(it.Snapshot()))
      decreases |it.items| - it.pos
    {
      ghost var before := it.Snapshot();
      var r := it.Next();
      if r.None? {
        assert Yields(it.items, before) == [];
        assert errs + [] == errs;
        return;
      }
      assert Yields(it.items, before) == [r.value.error] + Yields(it.items, it.Snapshot());
      errs := errs + [r.value.error];
    }
  }

  /** `part_1`'s filter and sum: the scores of the corrupted lines' errors. */
  function CorruptedTotal<E>(errs: seq<InterpreterError<E>>): nat
  {
    if errs == [] then 0
    else (if IsCorrupted(errs[0]) && Score(errs[0]).Some? then Score(errs[0]).value else 0)
         + CorruptedTotal(errs[1..])
  }

  /** `part_2`'s filter: the scores of the incomplete lines' errors, in order. */
  function IncompleteScores<E>(errs: seq<InterpreterError<E>>): seq<nat>
  {
    if errs == [] then []
    else (if IsIncomplete(errs[0]) && Score(errs[0]).Some? then [Score(errs[0]).value] else [])
         + IncompleteScores(errs[1..])
  }

  /** The syntax score of each mismatched closer, summed: what part 1 is meant to count. */
  function MismatchSum<E>(errs: seq<InterpreterError<E>>): nat
  {
    if errs == [] then 0
    else (match errs[0] case MismatchClosed(_, found, _, _) => SyntaxScore(found) case _ => 0)
         + MismatchSum(errs[1..])
  }

  /** Part 1 adds up exactly the offending closers of the corrupted lines; incomplete
      lines, unexpected closers on a balanced stack and stream errors add nothing. */
  lemma {:induction false} CorruptedTotalIsMismatchSum<E>(errs: seq<InterpreterError<E>>)
    ensures CorruptedTotal(errs) == MismatchSum(errs)
  {
    if errs != [] {
      ScoreCases(errs[0]);
      CorruptedTotalIsMismatchSum(errs[1..]);
    }
  }

  /** Part 1's total is taken line by line. */
  lemma {:induction false} CorruptedTotalAppend<E>(a: seq<InterpreterError<E>>, b: seq<InterpreterError<E>>)
    ensures CorruptedTotal(a + b) == CorruptedTotal(a) + CorruptedTotal(b)
  {
    if a == [] {
      assert a + b == b;
    } else {
      assert (a + b)[0] == a[0];
      assert (a + b)[1..] == a[1..] + b;
      CorruptedTotalAppend(a[1..], b);
    }
  }

  /** Part 2's scores are collected line by line, in order. */
  lemma {:induction false} IncompleteScoresAppend<E>(a: seq<InterpreterError<E>>, b: seq<InterpreterError<E>>)
    ensures IncompleteScores(a + b) == IncompleteScores(a) + IncompleteScores(b)
  {
    if a == [] {
      assert a + b == b;
    } else {
      assert (a + b)[0] == a[0];
      assert (a + b)[1..] == a[1..] + b;
      IncompleteScoresAppend(a[1..], b);
    }
  }

  /** Every incomplete line the interpreter reports names at least one closer. */
  lemma {:induction false} IncompleteReportsNonEmpty<E>(items: seq<Result<Command, E>>, m: Machine<E>)
    requires m.pos <= |items| && Latchable(m.state)
    ensures forall e :: e in Yields(items, m) && e.LineIncomplete? ==> |e.expected| > 0
    decreases |items| - m.pos
  {
    var (r, m') := NextSpec(items, m);
    if r.Some? {
      NonEmptyReport(items, m);
      IncompleteReportsNonEmpty(items, m');
    }
  }

  /** The report of one call to `next`, when it is an incomplete line, names at least one closer. */
  lemma {:induction false} NonEmptyReport<E>(items: seq<Result<Command, E>>, m: Machine<E>)
    requires m.pos <= |items| && Latchable(m.state)
    ensures var r := NextSpec(items, m).0;
            r.Some? && r.value.error.LineIncomplete? ==> |r.value.error.expected| > 0
    decreases |items| - m.pos
  {
    if m.pos < |items| && !IsEndLine(items[m.pos]) {
      NonEmptyReport(items, Step(m, items[m.pos]));
    }
  }

  /** Hence every score part 2 collects from the interpreter is positive. */
  lemma {:induction false} IncompleteScoresPositive<E>(errs: seq<InterpreterError<E>>)
    requires forall e :: e in errs && e.LineIncomplete? ==> |e.expected| > 0
    ensures forall i :: 0 <= i < |IncompleteScores(errs)| ==> IncompleteScores(errs)[i] > 0
  {
    if errs != [] {
      if errs[0].LineIncomplete? {
        CompletionScoreDigits(errs[0].expected);
      }
      assert forall e :: e in errs[1..] ==> e in errs;
      IncompleteScoresPositive(errs[1..]);
    }
  }

  /** `part_1`. */
  method Part1(source: string) returns (total: nat)
    ensures total == MismatchSum(Yields(Stream(source), Start()))
  {
    var it := new Interpreter(Stream(source));
    var errs := Errors(it);
    total := CorruptedTotal(errs);
    CorruptedTotalIsMismatchSum(errs);
  }

  /** `part_2`: the middle of the incomplete-line scores once sorted. Indexing an
      empty vector panics, so there must be at least one incomplete line. */
  method Part2(source: string) returns (middle: nat)
    requires |IncompleteScores(Yields(Stream(source), Start()))| > 0
    ensures var scores := IncompleteScores(Yields(Stream(source), Start()));
            && middle in scores && middle > 0
            && forall t :: Sorting.Sorted(t) && multiset(t) == multiset(scores) ==> middle == t[|t| / 2]
  {
    var it := new Interpreter(Stream(source));
    var errs := Errors(it);
    var results := IncompleteScores(errs);
    var sorted := Sorting.Sort(results);
    assert sorted[|sorted| / 2] in multiset(results) by {
      assert |sorted| == |multiset(sorted)| == |results|;
      assert sorted[|sorted| / 2] in multiset(sorted);
    }
    middle := sorted[|sorted| / 2];
    forall t | Sorting.Sorted(t) && multiset(t) == multiset(results)
      ensures middle == t[|t| / 2]
    {
      Sorting.SortedUnique(sorted, t);
    }
    IncompleteReportsNonEmpty(it.items, Start());
    IncompleteScoresPositive(errs);
  }
}

=== FILE: day11_flash.dfy ===
/** Day 11: what one step of the octopus grid means, independently of the
    order in which the cascade is worked off. Every cell gains one unit of
    energy, plus one for each neighbour that flashes; a cell flashes (at most
    once) when its energy exceeds 9, and a flashed cell ends the step at 0.
    The flashing cells are the least set closed under that rule. */
module Day11Flash {
  import opened Day11Offsets

  /** How many cells of `F` neighbour `c`; a zero-width grid has no cells. */
  ghost function Lit(w: nat, F: set<nat>, c: nat): nat
  {
    if w == 0 then 0 else |set f | f in F && Adjacent(w, f, c)|
  }

  /** Energy of cell `c` after the step's own increment and one unit per flashing neighbour. */
  ghost function Energy(w: nat, e: seq<nat>, F: set<nat>, c: nat): nat
    requires c < |e|
  {
    e[c] + 1 + Lit(w, F, c)
  }

  /** `G` contains every cell whose energy, counting the flashes in `G`, exceeds 9. */
  ghost predicate Closed(w: nat, e: seq<nat>, G: set<nat>)
  {
    forall c :: 0 <= c < |e| && Energy(w, e, G, c) > 9 ==> c in G
  }

  /** Cell `c` belongs to every closed set. */
  ghost predicate Forced(w: nat, e: seq<nat>, c: nat)
  {
    forall G :: Closed(w, e, G) ==> c in G
  }

  /** The cells that flash: those in every closed set. */
  ghost function Flashed(w: nat, e: seq<nat>): set<nat>
  {
    set c: nat | c < |e| && Forced(w, e, c)
  }

  /** The grid after one step. */
  ghost function After(w: nat, e: seq<nat>): (r: seq<nat>)
    ensures |r| == |e|
  {
    seq(|e|, c requires 0 <= c < |e| => if c in Flashed(w, e) then 0 else Energy(w, e, Flashed(w, e), c))
  }

  /** A subset of a set is no larger. */
  lemma SubsetCard<T>(A: set<T>, B: set<T>)
    requires A <= B
    ensures |A| <= |B|
  {
    assert A * B == A && A + B == B;
    assert |B - A| + |A| == |B| by {
      assert A - B == {};
    }
  }

  /** More flashes never light a cell less. */
  lemma LitMono(w: nat, F: set<nat>, G: set<nat>, c: nat)
    requires F <= G
    ensures Lit(w, F, c) <= Lit(w, G, c)
  {
    if w > 0 {
      SubsetCard(set f | f in F && Adjacent(w, f, c), set f | f in G && Adjacent(w, f, c));
    }
  }

  /** One more flash lights exactly the cells next to it once more. */
  lemma LitAdd(w: nat, F: set<nat>, f: nat, c: nat)
    requires f !in F
    ensures Lit(w, F + {f}, c) == Lit(w, F, c) + (if w > 0 && Adjacent(w, f, c) then 1 else 0)
  {
    if w > 0 {
      var A := set x | x in F && Adjacent(w, x, c);
      var B := set x | x in F + {f} && Adjacent(w, x, c);
      if Adjacent(w, f, c) {
        assert B == A + {f};
      } else {
        assert B == A;
      }
    }
  }

  /** A cell is never its own neighbour, so removing it from `F` leaves its own light unchanged. */
  lemma LitWithout(w: nat, F: set<nat>, c: nat)
    ensures Lit(w, F - {c}, c) == Lit(w, F, c)
  {
    if w > 0 {
      assert (set f | f in F - {c} && Adjacent(w, f, c)) == (set f | f in F && Adjacent(w, f, c));
    }
  }

  /** The flashing cells form the least closed set. */
  lemma FlashedLeast(w: nat, e: seq<nat>)
    ensures Closed(w, e, Flashed(w, e))
    ensures forall G :: Closed(w, e, G) ==> Flashed(w, e) <= G
  {
    var P := Flashed(w, e);
    forall c | 0 <= c < |e| && Energy(w, e, P, c) > 9
      ensures c in P
    {
      forall G | Closed(w, e, G)
        ensures c in G
      {
        LitMono(w, P, G, c);
      }
    }
  }

  /** A closed set below every closed set is the set of flashing cells. */
  lemma LeastIsFlashed(w: nat, e: seq<nat>, F: set<nat>)
    requires forall c :: c in F ==> c < |e|
    requires Closed(w, e, F)
    requires forall G :: Closed(w, e, G) ==> F <= G
    ensures F == Flashed(w, e)
  {
    FlashedLeast(w, e);
  }

  /** A cell flashes exactly when its energy, counting its flashing neighbours, exceeds 9. */
  lemma FlashedFixed(w: nat, e: seq<nat>, c: nat)
    requires c < |e|
    ensures c in Flashed(w, e) <==> Energy(w, e, Flashed(w, e), c) > 9
  {
    var P := Flashed(w, e);
    FlashedLeast(w, e);
    if c in P && Energy(w, e, P, c) <= 9 {
      var P' := P - {c};
      LitWithout(w, P, c);
      forall d | 0 <= d < |e| && Energy(w, e, P', d) > 9
        ensures d in P'
      {
        LitMono(w, P', P, d);
      }
      assert false;
    }
  }

  /** After a step every cell holds 0..=9, and it is 0 exactly when it flashed. */
  lemma AfterMeaning(w: nat, e: seq<nat>)
    ensures forall c :: 0 <= c < |e| ==> After(w, e)[c] <= 9
    ensures forall c :: 0 <= c < |e| ==> (After(w, e)[c] == 0 <==> c in Flashed(w, e))
  {
    forall c | 0 <= c < |e|
      ensures After(w, e)[c] <= 9
    {
      FlashedFixed(w, e, c);
    }
  }

  /** The grid after `k` steps. */
  ghost function Run(w: nat, e: seq<nat>, k: nat): (r: seq<nat>)
    ensures |r| == |e|
  {
    if k == 0 then e else After(w, Run(w, e, k - 1))
  }

  /** The flashes of the first `k` steps, summed. */
  ghost function FlashTotal(w: nat, e: seq<nat>, k: nat): nat
  {
    if k == 0 then 0 else FlashTotal(w, e, k - 1) + |Flashed(w, Run(w, e, k - 1))|
  }

  /** Step `k` (counting from 1) makes every cell flash. */
  ghost predicate SyncAt(w: nat, e: seq<nat>, k: nat)
  {
    k >= 1 && |Flashed(w, Run(w, e, k - 1))| == |e|
  }
}

=== FILE: day11_grid.dfy ===
/** Day 11: the octopus grid as the program keeps it, a flat vector of energy
    levels plus a work queue, and the step that drains the queue. */
module Day11Grid {
  import opened Wrappers
  import opened Utf8
  import opened Day11Offsets
  import opened Day11Flash

  /** Every listed index appears exactly once in a duplicate-free list. */
  lemma {:induction false} DistinctCount(s: seq<nat>, d: nat)
    requires Distinct(s)
    ensures multiset(s)[d] == if d in s then 1 else 0
  {
    if s != [] {
      assert s == [s[0]] + s[1..];
      assert Distinct(s[1..]) by {
        forall j, k | 0 <= j < k < |s[1..]|
          ensures s[1..][j] != s[1..][k]
        {
          assert s[1..][j] == s[j + 1] && s[1..][k] == s[k + 1];
        }
      }
      assert s[0] !in s[1..] by {
        forall j | 0 <= j < |s[1..]|
          ensures s[1..][j] != s[0]
        {
          assert s[1..][j] == s[j + 1];
        }
      }
      DistinctCount(s[1..], d);
    }
  }

  /** A cell is lit at most once per flashed cell. */
  lemma LitAtMost(w: nat, F: set<nat>, c: nat)
    ensures Lit(w, F, c) <= |F|
  {
    if w > 0 {
      SubsetCard((set f | f in F && Adjacent(w, f, c)), F);
    }
  }

  /** `o` lists every in-grid neighbour of cell `c`, each exactly once. */
  ghost predicate Neighbours(w: nat, n: nat, c: nat, o: seq<nat>)
    requires w > 0
  {
    Distinct(o) && forall x: nat :: x in o <==> x < n && Adjacent(w, c, x)
  }

  /** `offsets_for` lists the neighbours. */
  lemma OffsetsNeighbours(w: nat, n: nat, c: nat)
    requires w > 0
    ensures Neighbours(w, n, c, Offsets(w, n, c))
  {
    OffsetsExact(w, n, c);
  }

  /** Flashing cell `c` queues each of its neighbours once and lights each of them once. */
  lemma QueueFlash(w: nat, n: nat, q: seq<nat>, F: set<nat>, c: nat, d: nat, o: seq<nat>)
    requires w > 0 && c !in F && d < n && Neighbours(w, n, c, o)
    ensures multiset(q + o)[d] == multiset(q)[d] + (if Adjacent(w, c, d) then 1 else 0)
    ensures Lit(w, F + {c}, d) == Lit(w, F, d) + (if Adjacent(w, c, d) then 1 else 0)
  {
    DistinctCount(o, d);
    LitAdd(w, F, c, d);
  }

  /** Cells flashed so far lie before `k`, inside the grid, and hold 0; the queue holds grid indices. */
  ghost predicate Flashes(a: seq<nat>, q: seq<nat>, F: set<nat>, k: nat)
  {
    (forall c :: c in F ==> c < k && c < |a| && a[c] == 0) && (forall x :: x in q ==> x < |a|)
  }

  /** A cell not flashed holds 0..=9, and at least 1 once the first pass has reached it;
      the first pass has not yet touched the cells from `k` on. */
  ghost predicate Levels(e: seq<nat>, a: seq<nat>, F: set<nat>, k: nat)
  {
    |a| == |e|
    && (forall c :: 0 <= c < |a| && c !in F ==> a[c] <= 9 && (c < k ==> a[c] >= 1))
    && (forall c :: k <= c < |a| ==> a[c] == e[c])
  }

  /** Energy bookkeeping of a cell not flashed: what it holds plus its pending queue entries is
      its starting energy, its own increment once reached and one unit per flashed neighbour. */
  ghost predicate Tally(w: nat, e: seq<nat>, a: seq<nat>, q: seq<nat>, F: set<nat>, k: nat)
    requires |a| == |e|
  {
    forall c :: 0 <= c < |a| && c !in F ==> a[c] + multiset(q)[c] == e[c] + (if c < k then 1 else 0) + Lit(w, F, c)
  }

  /** Every cell flashed so far flashes in every closed set. */
  ghost predicate Least(w: nat, e: seq<nat>, F: set<nat>)
  {
    forall G :: Closed(w, e, G) ==> F <= G
  }

  /** The state of a step in progress: the first pass has reached cell `k`. */
  ghost predicate Progress(w: nat, e: seq<nat>, a: seq<nat>, q: seq<nat>, F: set<nat>, k: nat)
  {
    k <= |e| && (|e| > 0 ==> w > 0)
    && Flashes(a, q, F, k) && Levels(e, a, F, k) && Tally(w, e, a, q, F, k) && Least(w, e, F)
  }

  /** Cells that have not flashed yet. */
  ghost function Unflashed(n: nat, F: set<nat>): set<nat>
  {
    set c: nat | c < n && c !in F
  }

  lemma UnflashedShrinks(n: nat, F: set<nat>, c: nat)
    requires c < n && c !in F
    ensures |Unflashed(n, F + {c})| < |Unflashed(n, F)|
  {
    assert Unflashed(n, F) == Unflashed(n, F + {c}) + {c};
  }

  lemma ProgressStart(w: nat, e: seq<nat>)
    requires |e| > 0 ==> w > 0
    requires forall c :: 0 <= c < |e| ==> e[c] <= 9
    ensures Progress(w, e, e, [], {}, 0)
  {
    forall c | 0 <= c < |e|
      ensures e[c] + multiset([])[c] == e[c] + 0 + Lit(w, {}, c)
    {
      LitAtMost(w, {}, c);
    }
  }

  /** Flashing cell `c` keeps the energy bookkeeping of every other cell not flashed: each
      neighbour gains one queue entry and one flashed neighbour. */
  lemma TallyFlash(w: nat, e: seq<nat>, a: seq<nat>, q: seq<nat>, F: set<nat>, k: nat, c: nat, k': nat, o: seq<nat>)
    requires |a| == |e| && w > 0 && c < |e| && c !in F && Neighbours(w, |e|, c, o)
    requires Tally(w, e, a, q, F, k)
    requires k' == k || (k' == k + 1 && c == k)
    ensures Tally(w, e, a[c := 0], q + o, F + {c}, k')
  {
    var n := |e|;
    var a', q', F' := a[c := 0], q + o, F + {c};
    var m: multiset<nat> := multiset(q');
    forall d: nat | d < n && d !in F'
      ensures a'[d] + m[d] == e[d] + (if d < k' then 1 else 0) + Lit(w, F', d)
    {
      QueueFlash(w, n, q, F, c, d, o);
    }
  }

  /** A cell whose energy, counting only the flashes so far, exceeds 9 flashes in every closed set. */
  lemma LeastFlash(w: nat, e: seq<nat>, F: set<nat>, c: nat)
    requires Least(w, e, F) && c < |e| && e[c] + 1 + Lit(w, F, c) > 9
    ensures Least(w, e, F + {c})
  {
    forall G | Closed(w, e, G)
      ensures F + {c} <= G
    {
      LitMono(w, F, G, c);
      assert Energy(w, e, G, c) > 9;
    }
  }

  /** The first pass raises cell `k` without making it flash. */
  lemma FirstPassCalm(w: nat, e: seq<nat>, a: seq<nat>, q: seq<nat>, F: set<nat>, k: nat)
    requires Progress(w, e, a, q, F, k) && k < |e| && e[k] + 1 <= 9
    ensures Progress(w, e, a[k := e[k] + 1], q, F, k + 1)
  {
  }

  /** The first pass raises cell `k` past 9: it flashes, drops to 0 and queues its neighbours. */
  lemma FirstPassFlash(w: nat, e: seq<nat>, a: seq<nat>, q: seq<nat>, F: set<nat>, k: nat, o: seq<nat>)
    requires Progress(w, e, a, q, F, k) && k < |e| && e[k] + 1 > 9 && Neighbours(w, |e|, k, o)
    ensures Progress(w, e, a[k := 0], q + o, F + {k}, k + 1)
  {
    TallyFlash(w, e, a, q, F, k, k, k + 1, o);
    LeastFlash(w, e, F, k);
  }

  /** Popping the last queue entry `c` hands its pending unit to the cell itself. */
  lemma TallyPop(w: nat, e: seq<nat>, a: seq<nat>, q: seq<nat>, F: set<nat>, c: nat)
    requires |a| == |e| && Tally(w, e, a, q, F, |e|)
    requires q != [] && c == q[|q| - 1] && c < |e|
    ensures c !in F ==> Tally(w, e, a[c := a[c] + 1], q[..|q| - 1], F, |e|)
    ensures c in F ==> Tally(w, e, a, q[..|q| - 1], F, |e|)
    ensures multiset(q)[c] >= 1
  {
    assert q == q[..|q| - 1] + [c];
  }

  /** Popping a cell that already flashed this step changes nothing else. */
  lemma PopFlashed(w: nat, e: seq<nat>, a: seq<nat>, q: seq<nat>, F: set<nat>, c: nat)
    requires Progress(w, e, a, q, F, |e|) && q != [] && c == q[|q| - 1] && c < |e| && a[c] == 0
    ensures Progress(w, e, a, q[..|q| - 1], F, |e|)
  {
    assert c in F;
    TallyPop(w, e, a, q, F, c);
    assert q == q[..|q| - 1] + [c];
    var p := q[..|q| - 1];
    forall x | x in p
      ensures x < |a|
    {
      assert x in q;
    }
  }

  /** Popping a cell that has not flashed raises it by one without making it flash. */
  lemma PopCalm(w: nat, e: seq<nat>, a: seq<nat>, q: seq<nat>, F: set<nat>, c: nat)
    requires Progress(w, e, a, q, F, |e|) && q != [] && c == q[|q| - 1] && c < |e| && a[c] != 0 && a[c] + 1 <= 9
    ensures Progress(w, e, a[c := a[c] + 1], q[..|q| - 1], F, |e|)
  {
    assert c !in F;
    TallyPop(w, e, a, q, F, c);
    assert q == q[..|q| - 1] + [c];
    var p := q[..|q| - 1];
    forall x | x in p
      ensures x < |a|
    {
      assert x in q;
    }
  }

  /** Popping a cell that has not flashed raises it past 9: it flashes, drops to 0 and
      queues its neighbours. */
  lemma PopFlash(w: nat, e: seq<nat>, a: seq<nat>, q: seq<nat>, F: set<nat>, c: nat, o: seq<nat>)
    requires Progress(w, e, a, q, F, |e|) && q != [] && c == q[|q| - 1] && c < |e| && a[c] != 0 && a[c] + 1 > 9
    requires Neighbours(w, |e|, c, o)
    ensures Progress(w, e, a[c := 0], q[..|q| - 1] + o, F + {c}, |e|)
  {
    var p := q[..|q| - 1];
    assert q == p + [c];
    forall x | x in p
      ensures x < |a|
    {
      assert x in q;
    }
    assert c !in F;
    TallyPop(w, e, a, q, F, c);
    var b := a[c := a[c] + 1];
    assert b[c := 0] == a[c := 0];
    TallyFlash(w, e, b, p, F, |e|, c, |e|, o);
    LeastFlash(w, e, F, c);
  }

  /** Number of zero cells (`filter(|o| o == 0).count()`). */
  function CountZeros(s: seq<nat>): nat
  {
    if s == [] then 0 else CountZeros(s[..|s| - 1]) + (if s[|s| - 1] == 0 then 1 else 0)
  }

  /** The positions holding 0. */
  ghost function ZeroSet(s: seq<nat>): set<int>
  {
    set c | 0 <= c < |s| && s[c] == 0
  }

  /** The zero count is the number of zero positions. */
  lemma {:induction false} CountZerosSet(s: seq<nat>)
    ensures CountZeros(s) == |ZeroSet(s)|
  {
    if s != [] {
      var p := s[..|s| - 1];
      CountZerosSet(p);
      if s[|s| - 1] == 0 {
        assert ZeroSet(s) == ZeroSet(p) + {|s| - 1};
      } else {
        assert ZeroSet(s) == ZeroSet(p);
      }
    } else {
      assert ZeroSet(s) == {};
    }
  }

  /** The number of zero cells after a step is the number of cells that flashed during it. */
  lemma FlashCount(w: nat, e: seq<nat>)
    ensures CountZeros(After(w, e)) == |Flashed(w, e)|
  {
    AfterMeaning(w, e);
    CountZerosSet(After(w, e));
    assert ZeroSet(After(w, e)) == Flashed(w, e);
  }

  /** Once the queue is empty the flashed set is exactly the step's flashing cells and the
      grid is the grid after the step. */
  lemma ProgressDone(w: nat, e: seq<nat>, a: seq<nat>, F: set<nat>)
    requires Progress(w, e, a, [], F, |e|)
    ensures F == Flashed(w, e) && a == After(w, e)
  {
    forall c | 0 <= c < |e| && Energy(w, e, F, c) > 9
      ensures c in F
    {
    }
    LeastIsFlashed(w, e, F);
  }

  lemma Append4(a: seq<nat>, b: seq<nat>, c: seq<nat>, d: seq<nat>)
    ensures a + b + c + d == a + (b + c + d)
  {
  }

  /** All cells below `n`. */
  function Range(n: nat): (r: set<nat>)
    ensures |r| == n
    ensures forall c: nat :: c in r <==> c < n
  {
    if n == 0 then {}
    else
      var p := Range(n - 1);
      var r := p + {n - 1};
      assert n - 1 !in p;
      assert |r| == |p| + 1;
      assert forall c :: c in r <==> c in p || c == n - 1;
      r
  }

  /** A set of cells below `n` has `n` members exactly when it holds all of them. */
  lemma FullSet(P: set<nat>, n: nat)
    requires forall c :: c in P ==> c < n
    ensures |P| == n <==> forall c: nat :: c < n ==> c in P
  {
    var R := Range(n);
    assert P <= R;
    if |P| == n {
      forall c: nat | c < n
        ensures c in P
      {
        if c !in P {
          SubsetCard(P, R - {c});
        }
      }
    } else if forall c: nat :: c < n ==> c in P {
      assert R <= P;
      SubsetCard(R, P);
      SubsetCard(P, R);
    }
  }

  /** Step `k` synchronises the grid exactly when it leaves every cell at 0. */
  lemma SyncAllZero(w: nat, e: seq<nat>, k: nat)
    requires k >= 1
    ensures SyncAt(w, e, k) <==> forall c :: 0 <= c < |e| ==> Run(w, e, k)[c] == 0
  {
    var s := Run(w, e, k - 1);
    assert Run(w, e, k) == After(w, s);
    AfterMeaning(w, s);
    FullSet(Flashed(w, s), |s|);
  }

  /** `GridParseError`: a character that is not a decimal digit (with the 0-based line),
      or a line whose byte length differs from the first (expected, 1-based line, found). */
  datatype GridParseError = BadCharacter(c: char, line: nat) | UnevenGridDimensions(expected: nat, line: nat, found: nat)

  /** `char::to_digit(10)` succeeds on the ASCII digits only. */
  predicate IsDigit(c: char)
  {
    '0' <= c <= '9'
  }

  function DigitValue(c: char): (v: nat)
    requires IsDigit(c)
    ensures v <= 9
  {
    c as int - '0' as int
  }

  /** Prefixes already collected cells to a parse outcome. */
  function Then(pre: seq<nat>, r: Result<seq<nat>, GridParseError>): Result<seq<nat>, GridParseError>
  {
    if r.Ok? then Ok(pre + r.value) else r
  }

  /** One line's digits, or the first character of it that is not a digit. */
  function LineDigits(line: string, ln: nat): (r: Result<seq<nat>, GridParseError>)
    ensures r.Ok? <==> forall j :: 0 <= j < |line| ==> IsDigit(line[j])
    ensures r.Ok? ==> |r.value| == |line| && forall j :: 0 <= j < |line| ==> r.value[j] == DigitValue(line[j])
    ensures r.Err? ==> exists j :: 0 <= j < |line| && !IsDigit(line[j]) && r.error == BadCharacter(line[j], ln)
                                   && forall i :: 0 <= i < j ==> IsDigit(line[i])
  {
    if line == [] then Ok([])
    else if !IsDigit(line[0]) then Err(BadCharacter(line[0], ln))
    else
      var rest := LineDigits(line[1..], ln);
      assert forall j :: 1 <= j < |line| ==> line[j] == line[1..][j - 1];
      Then([DigitValue(line[0])], rest)
  }

  /** The lines' characters in order. */
  function Concat(lines: seq<string>): string
  {
    if lines == [] then [] else lines[0] + Concat(lines[1..])
  }

  /** Lines `k..` of the input: each line after the first must be `width` bytes long, and
      its characters must all be digits. */
  function Rows(lines: seq<string>, width: nat, k: nat): Result<seq<nat>, GridParseError>
    requires k <= |lines|
    decreases |lines| - k
  {
    if k == |lines| then Ok([])
    else if k > 0 && ByteLen(lines[k]) != width then Err(UnevenGridDimensions(width, k + 1, ByteLen(lines[k])))
    else if LineDigits(lines[k], k).Err? then LineDigits(lines[k], k)
    else Then(LineDigits(lines[k], k).value, Rows(lines, width, k + 1))
  }

  /** Width of the grid: the byte length of the first line, 0 for no lines. */
  function Width(lines: seq<string>): nat
  {
    if lines == [] then 0 else ByteLen(lines[0])
  }

  /** `Grid::from_str` on the input's lines: the width and the cells, or the first error. */
  function ParseGrid(lines: seq<string>): Result<seq<nat>, GridParseError>
  {
    Rows(lines, Width(lines), 0)
  }

  /** A line is well formed at position `k`: as wide as the first line, and all digits. */
  predicate GoodLine(lines: seq<string>, k: nat)
    requires k < |lines|
  {
    ByteLen(lines[k]) == Width(lines) && forall j :: 0 <= j < |lines[k]| ==> IsDigit(lines[k][j])
  }

  lemma ThenNil(r: Result<seq<nat>, GridParseError>)
    ensures Then([], r) == r
  {
    if r.Ok? {
      assert [] + r.value == r.value;
    }
  }

  lemma ThenThen(a: seq<nat>, b: seq<nat>, r: Result<seq<nat>, GridParseError>)
    ensures Then(a, Then(b, r)) == Then(a + b, r)
  {
    if r.Ok? {
      assert a + (b + r.value) == (a + b) + r.value;
    }
  }

  /** The rows from `k` on parse exactly when every one of them is well formed, and then the
      cells are their digits in order. */
  lemma {:induction false} RowsMeaning(lines: seq<string>, k: nat)
    requires k <= |lines|
    ensures Rows(lines, Width(lines), k).Ok? <==> forall j :: k <= j < |lines| ==> GoodLine(lines, j)
    ensures Rows(lines, Width(lines), k).Ok? ==>
              var cs := Concat(lines[k..]);
              var r := Rows(lines, Width(lines), k).value;
              |r| == |cs| && forall i :: 0 <= i < |cs| ==> IsDigit(cs[i]) && r[i] == DigitValue(cs[i])
    decreases |lines| - k
  {
    if k < |lines| {
      RowsMeaning(lines, k + 1);
      if forall j :: k <= j < |lines| ==> GoodLine(lines, j) {
        assert GoodLine(lines, k);
      }
      if Rows(lines, Width(lines), k).Ok? {
        assert GoodLine(lines, k);
      }
      assert lines[k..][1..] == lines[k + 1..];
      var cs := Concat(lines[k..]);
      assert cs == lines[k] + Concat(lines[k + 1..]);
      if Rows(lines, Width(lines), k).Ok? {
        var r := Rows(lines, Width(lines), k).value;
        var d := LineDigits(lines[k], k).value;
        var rest := Rows(lines, Width(lines), k + 1).value;
        assert r == d + rest;
        forall i | 0 <= i < |cs|
          ensures IsDigit(cs[i]) && r[i] == DigitValue(cs[i])
        {
          if i >= |lines[k]| {
            assert cs[i] == Concat(lines[k + 1..])[i - |lines[k]|];
          }
        }
      }
    }
  }

  lemma {:induction false} ConcatLength(lines: seq<string>, m: nat)
    requires forall j :: 0 <= j < |lines| ==> |lines[j]| == m
    ensures |Concat(lines)| == |lines| * m
  {
    if lines != [] {
      ConcatLength(lines[1..], m);
    }
  }

  /** The grid parses exactly when every line is well formed. Its cells are then the digits
      of the lines in order, each line has `width` cells, and a grid of width 0 is empty. */
  lemma ParseGridMeaning(lines: seq<string>)
    ensures ParseGrid(lines).Ok? <==> forall j :: 0 <= j < |lines| ==> GoodLine(lines, j)
    ensures ParseGrid(lines).Ok? ==>
              var cs := Concat(lines);
              var r := ParseGrid(lines).value;
              |r| == |cs| && (forall i :: 0 <= i < |cs| ==> IsDigit(cs[i]) && r[i] == DigitValue(cs[i]))
              && (forall j :: 0 <= j < |lines| ==> |lines[j]| == Width(lines))
              && |r| == |lines| * Width(lines)
  {
    RowsMeaning(lines, 0);
    assert lines[0..] == lines;
    if ParseGrid(lines).Ok? {
      forall j | 0 <= j < |lines|
        ensures |lines[j]| == Width(lines)
      {
        assert GoodLine(lines, j);
        AsciiByteLen(lines[j]);
      }
      ConcatLength(lines, Width(lines));
    }
  }

  /** When parsing fails, the error is about the first line that is not well formed: its
      width when that differs, and otherwise its first non-digit character. */
  lemma {:induction false} RowsError(lines: seq<string>, k: nat)
    requires k <= |lines| && Rows(lines, Width(lines), k).Err?
    ensures exists j :: k <= j < |lines| && (forall i :: k <= i < j ==> GoodLine(lines, i)) &&
              var err := Rows(lines, Width(lines), k).error;
              if j > 0 && ByteLen(lines[j]) != Width(lines)
              then err == UnevenGridDimensions(Width(lines), j + 1, ByteLen(lines[j]))
              else !GoodLine(lines, j) && LineDigits(lines[j], j) == Err(err)
    decreases |lines| - k
  {
    if k > 0 && ByteLen(lines[k]) != Width(lines) {
    } else if LineDigits(lines[k], k).Err? {
    } else {
      RowsError(lines, k + 1);
      var j :| k + 1 <= j < |lines| && (forall i :: k + 1 <= i < j ==> GoodLine(lines, i)) &&
              var err := Rows(lines, Width(lines), k + 1).error;
              if j > 0 && ByteLen(lines[j]) != Width(lines)
              then err == UnevenGridDimensions(Width(lines), j + 1, ByteLen(lines[j]))
              else !GoodLine(lines, j) && LineDigits(lines[j], j) == Err(err);
      assert GoodLine(lines, k);
    }
  }

  /** `Grid`: the width, the work queue (empty between steps) and the energy levels. */
  class Grid {
    const width: nat
    var queue: seq<nat>
    const octopodes: array<nat>

    /** Between steps the queue is empty, every level is in 0..=9, and cells imply a width. */
    ghost predicate Valid()
      reads this, octopodes
    {
      queue == [] && (octopodes.Length > 0 ==> width > 0)
      && forall c :: 0 <= c < octopodes.Length ==> octopodes[c] <= 9
    }

    constructor (width: nat, cells: seq<nat>)
      requires |cells| > 0 ==> width > 0
      requires forall c :: 0 <= c < |cells| ==> cells[c] <= 9
      ensures Valid() && this.width == width && octopodes[..] == cells && fresh(octopodes)
    {
      this.width := width;
      queue := [];
      octopodes := new nat[|cells|](i requires 0 <= i < |cells| => cells[i]);
    }

    /** `push_into_buf`: an index inside the grid is written at `len`, which grows by one. */
    method PushIntoBuf(data: nat, len: nat, buf: array<nat>, ghost pushed: seq<nat>) returns (len': nat)
      requires len <= buf.Length && (data < octopodes.Length ==> len < buf.Length)
      requires buf[..len] == pushed
      modifies buf
      ensures len' == len + |Keep(data, octopodes.Length)| && len' <= buf.Length
      ensures buf[..len'] == pushed + Keep(data, octopodes.Length)
    {
      len' := len;
      if data < octopodes.Length {
        buf[len] := data;
        len' := len + 1;
      }
    }

    /** The left-column block of `offsets_for`: up-left, left, down-left. */
    method PushLeft(index: nat, len: nat, buf: array<nat>, ghost start: seq<nat>) returns (len': nat)
      requires width > 0 && len + 3 <= buf.Length && buf[..len] == start
      modifies buf
      ensures len' == len + |LeftColumn(width, octopodes.Length, index)| && len' <= len + 3
      ensures buf[..len'] == start + LeftColumn(width, octopodes.Length, index)
    {
      ghost var n := octopodes.Length;
      ModPositive(index, width);
      len' := len;
      if index % width > 0 {
        ghost var up: seq<nat> := [];
        if index > width {
          len' := PushIntoBuf(index - 1 - width, len', buf, start);
          up := Keep(index - 1 - width, n);
        } else {
          assert start + up == start;
        }
        len' := PushIntoBuf(index - 1, len', buf, start + up);
        len' := PushIntoBuf(index - 1 + width, len', buf, start + up + Keep(index - 1, n));
        Append4(start, up, Keep(index - 1, n), Keep(index - 1 + width, n));
      } else {
        assert start + [] == start;
      }
    }

    /** The right-column block of `offsets_for`: up-right, right, down-right. */
    method PushRight(index: nat, len: nat, buf: array<nat>, ghost start: seq<nat>) returns (len': nat)
      requires width > 0 && len + 3 <= buf.Length && buf[..len] == start
      modifies buf
      ensures len' == len + |RightColumn(width, octopodes.Length, index)| && len' <= len + 3
      ensures buf[..len'] == start + RightColumn(width, octopodes.Length, index)
    {
      ghost var n := octopodes.Length;
      len' := len;
      if (index + 1) % width > 0 {
        ghost var up: seq<nat> := [];
        if index + 1 > width {
          len' := PushIntoBuf(index + 1 - width, len', buf, start);
          up := Keep(index + 1 - width, n);
        } else {
          assert start + up == start;
        }
        len' := PushIntoBuf(index + 1, len', buf, start + up);
        len' := PushIntoBuf(index + 1 + width, len', buf, start + up + Keep(index + 1, n));
        Append4(start, up, Keep(index + 1, n), Keep(index + 1 + width, n));
      } else {
        assert start + [] == start;
      }
    }

    /** The centre block of `offsets_for`: up, down. */
    method PushCenter(index: nat, len: nat, buf: array<nat>, ghost start: seq<nat>) returns (len': nat)
      requires width > 0 && len + 2 <= buf.Length && buf[..len] == start
      modifies buf
      ensures len' == len + |SameColumn(width, octopodes.Length, index)| && len' <= len + 2
      ensures buf[..len'] == start + SameColumn(width, octopodes.Length, index)
    {
      ghost var n := octopodes.Length;
      ghost var up: seq<nat> := [];
      len' := len;
      if index >= width {
        len' := PushIntoBuf(index - width, len', buf, start);
        up := Keep(index - width, n);
      } else {
        assert start + up == start;
      }
      len' := PushIntoBuf(index + width, len', buf, start + up);
      assert start + up + Keep(index + width, n) == start + (up + Keep(index + width, n));
    }

    /** `offsets_for`: fills `buf` with the in-grid neighbours of `index`. */
    method OffsetsFor(index: nat, buf: array<nat>) returns (len: nat)
      requires width > 0 && buf.Length == 8
      modifies buf
      ensures len <= 8 && buf[..len] == Offsets(width, octopodes.Length, index)
    {
      ghost var left, right := LeftColumn(width, octopodes.Length, index), RightColumn(width, octopodes.Length, index);
      len := PushLeft(index, 0, buf, []);
      assert [] + left == left;
      len := PushRight(index, len, buf, left);
      len := PushCenter(index, len, buf, left + right);
    }

    /** `queue.extend_from_slice(offsets_for(index, buf))`: queues every neighbour of `index` once. */
    method QueueNeighbours(index: nat, buf: array<nat>)
      requires width > 0 && buf.Length == 8
      modifies this, buf
      ensures |queue| >= |old(queue)| && queue[..|old(queue)|] == old(queue)
      ensures Neighbours(width, octopodes.Length, index, queue[|old(queue)|..])
    {
      var len := OffsetsFor(index, buf);
      OffsetsNeighbours(width, octopodes.Length, index);
      queue := queue + buf[..len];
      assert queue[|old(queue)|..] == buf[..len];
    }

    /** The first pass of `step`: every cell gains one, and a cell past 9 flashes, drops
        to 0 and queues its neighbours. */
    method FirstPass(buf: array<nat>) returns (ghost F: set<nat>)
      requires Valid() && buf.Length == 8 && buf != octopodes
      modifies this, octopodes, buf
      ensures Progress(width, old(octopodes[..]), octopodes[..], queue, F, octopodes.Length)
    {
      ghost var e := octopodes[..];
      F := {};
      ProgressStart(width, e);
      var i := 0;
      while i < octopodes.Length
        invariant 0 <= i <= octopodes.Length
        invariant Progress(width, e, octopodes[..], queue, F, i)
      {
        F := Bump(i, buf, e, F);
        i := i + 1;
      }
    }

    /** One round of the first pass: cell `i` gains one, and past 9 it flashes, drops to 0
        and queues its neighbours. */
    method Bump(i: nat, buf: array<nat>, ghost e: seq<nat>, ghost F: set<nat>) returns (ghost F': set<nat>)
      requires buf.Length == 8 && buf != octopodes && i < octopodes.Length
      requires Progress(width, e, octopodes[..], queue, F, i)
      modifies this, octopodes, buf
      ensures Progress(width, e, octopodes[..], queue, F', i + 1)
    {
      ghost var a := octopodes[..];
      F' := F;
      octopodes[i] := octopodes[i] + 1;
      if octopodes[i] > 9 {
        octopodes[i] := 0;
        ghost var q := queue;
        QueueNeighbours(i, buf);
        ghost var o := queue[|q|..];
        assert queue == q + o;
        FirstPassFlash(width, e, a, q, F, i, o);
        F' := F + {i};
        assert octopodes[..] == a[i := 0];
      } else {
        FirstPassCalm(width, e, a, queue, F, i);
        assert octopodes[..] == a[i := e[i] + 1];
      }
    }

    /** One round of the cascade: the last queued cell is popped; unless it already flashed
        it gains one, and past 9 it flashes, drops to 0 and queues its neighbours. */
    method Relieve(buf: array<nat>, ghost e: seq<nat>, ghost F: set<nat>) returns (ghost F': set<nat>)
      requires buf.Length == 8 && buf != octopodes && queue != []
      requires Progress(width, e, octopodes[..], queue, F, octopodes.Length)
      modifies this, octopodes, buf
      ensures Progress(width, e, octopodes[..], queue, F', octopodes.Length)
      ensures |Unflashed(octopodes.Length, F')| < |Unflashed(octopodes.Length, F)|
              || (F' == F && |queue| < |old(queue)|)
    {
      ghost var a, q := octopodes[..], queue;
      assert queue[|queue| - 1] in queue;
      var c := queue[|queue| - 1];
      queue := queue[..|queue| - 1];
      F' := F;
      if octopodes[c] != 0 {
        octopodes[c] := octopodes[c] + 1;
        if octopodes[c] > 9 {
          octopodes[c] := 0;
          ghost var p := queue;
          QueueNeighbours(c, buf);
          ghost var o := queue[|p|..];
          assert queue == p + o;
          PopFlash(width, e, a, q, F, c, o);
          UnflashedShrinks(octopodes.Length, F, c);
          F' := F + {c};
          assert octopodes[..] == a[c := 0];
        } else {
          PopCalm(width, e, a, q, F, c);
          assert octopodes[..] == a[c := a[c] + 1];
        }
      } else {
        PopFlashed(width, e, a, q, F, c);
      }
    }

    /** The cascade of `step`: queued cells that have not flashed gain one, and flash in
        turn once past 9, until the queue is empty. */
    method Cascade(buf: array<nat>, ghost e: seq<nat>, ghost F0: set<nat>) returns (ghost F: set<nat>)
      requires buf.Length == 8 && buf != octopodes
      requires Progress(width, e, octopodes[..], queue, F0, octopodes.Length)
      modifies this, octopodes, buf
      ensures Progress(width, e, octopodes[..], [], F, octopodes.Length) && queue == []
    {
      F := F0;
      while queue != []
        invariant Progress(width, e, octopodes[..], queue, F, octopodes.Length)
        decreases |Unflashed(octopodes.Length, F)|, |queue|
      {
        F := Relieve(buf, e, F);
      }
    }

    /** `step`: every cell gains one; cells past 9 flash, reset to 0 and queue their
        neighbours, which gain one each unless they already flashed. Returns the flashes. */
    method Step() returns (flashes: nat)
      requires Valid()
      modifies this, octopodes
      ensures Valid()
      ensures octopodes[..] == After(width, old(octopodes[..]))
      ensures flashes == |Flashed(width, old(octopodes[..]))|
    {
      ghost var e := octopodes[..];
      var buf := new nat[8];
      ghost var F := FirstPass(buf);
      F := Cascade(buf, e, F);
      ProgressDone(width, e, octopodes[..], F);
      AfterMeaning(width, e);
      FlashCount(width, e);
      flashes := CountZeros(octopodes[..]);
    }

    /** `step_n`: `n` steps, returning the flashes of all of them together. */
    method StepN(n: nat) returns (total: nat)
      requires Valid()
      modifies this, octopodes
      ensures Valid()
      ensures octopodes[..] == Run(width, old(octopodes[..]), n)
      ensures total == FlashTotal(width, old(octopodes[..]), n)
    {
      ghost var e := octopodes[..];
      total := 0;
      for k := 0 to n
        invariant Valid()
        invariant octopodes[..] == Run(width, e, k)
        invariant total == FlashTotal(width, e, k)
      {
        var flashes := Step();
        total := total + flashes;
      }
    }

    /** `first_synchronization`: the number (from 1) of the first step in which every cell
        flashes. The search is unbounded, so such a step must exist. */
    method FirstSynchronization() returns (step: nat)
      requires Valid()
      requires exists k :: SyncAt(width, octopodes[..], k)
      modifies this, octopodes
      ensures SyncAt(width, old(octopodes[..]), step)
      ensures forall j :: 1 <= j < step ==> !SyncAt(width, old(octopodes[..]), j)
    {
      ghost var e := octopodes[..];
      ghost var bound: nat :| SyncAt(width, e, bound);
      var len := octopodes.Length;
      step := 1;
      while true
        invariant Valid() && 1 <= step <= bound
        invariant octopodes[..] == Run(width, e, step - 1)
        invariant forall j :: 1 <= j < step ==> !SyncAt(width, e, j)
        decreases bound - step
      {
        var count := Step();
        if count == len {
          return;
        }
        step := step + 1;
      }
    }
  }

  /** The inner loop of `from_str`: each character of line `ln` is read as a digit and
      pushed after `cells`, stopping at the first that is not one. */
  method PushDigits(line: string, ln: nat, cells: seq<nat>) returns (r: Result<seq<nat>, GridParseError>)
    ensures r == Then(cells, LineDigits(line, ln))
  {
    ghost var part: seq<nat> := [];
    var acc := cells;
    var j := 0;
    assert line[j..] == line;
    ThenNil(LineDigits(line, ln));
    while j < |line|
      invariant 0 <= j <= |line|
      invariant acc == cells + part
      invariant LineDigits(line, ln) == Then(part, LineDigits(line[j..], ln))
    {
      var c := line[j];
      if !IsDigit(c) {
        assert LineDigits(line[j..], ln) == Err(BadCharacter(c, ln));
        return Err(BadCharacter(c, ln));
      }
      assert line[j..][0] == c && line[j..][1..] == line[j + 1..];
      assert LineDigits(line[j..], ln) == Then([DigitValue(c)], LineDigits(line[j + 1..], ln));
      ThenThen(part, [DigitValue(c)], LineDigits(line[j + 1..], ln));
      acc := acc + [DigitValue(c)];
      part := part + [DigitValue(c)];
      j := j + 1;
    }
    assert line[j..] == [] && part + [] == part;
    assert acc == cells + part;
    r := Ok(acc);
  }

  /** One more well-formed line moves its digits from the rows still to read to the cells read. */
  lemma RowsStep(lines: seq<string>, W: nat, ln: nat, cells: seq<nat>)
    requires ln < |lines| && (ln > 0 ==> ByteLen(lines[ln]) == W)
    requires LineDigits(lines[ln], ln).Ok?
    ensures Then(cells, Rows(lines, W, ln))
            == Then(cells + LineDigits(lines[ln], ln).value, Rows(lines, W, ln + 1))
  {
    ThenThen(cells, LineDigits(lines[ln], ln).value, Rows(lines, W, ln + 1));
  }

  /** Parsed cells are digits, and there are none unless the width is positive. */
  lemma ParsedCells(lines: seq<string>, cells: seq<nat>)
    requires ParseGrid(lines) == Then(cells, Ok([]))
    ensures ParseGrid(lines) == Ok(cells)
    ensures |cells| > 0 ==> Width(lines) > 0
    ensures forall c :: 0 <= c < |cells| ==> cells[c] <= 9
  {
    assert cells + [] == cells;
    ParseGridMeaning(lines);
  }

  /** `from_str`: reads the lines in order, taking the width from the first one, and builds the grid. */
  method FromStr(lines: seq<string>) returns (r: Result<Grid, GridParseError>)
    ensures r.Err? <==> ParseGrid(lines).Err?
    ensures r.Err? ==> r.error == ParseGrid(lines).error
    ensures r.Ok? ==> fresh(r.value) && fresh(r.value.octopodes) && r.value.Valid()
                      && r.value.width == Width(lines) && r.value.octopodes[..] == ParseGrid(lines).value
  {
    ghost var W := Width(lines);
    var width := 0;
    var cells: seq<nat> := [];
    var ln := 0;
    ThenNil(ParseGrid(lines));
    while ln < |lines|
      invariant 0 <= ln <= |lines|
      invariant width == (if ln == 0 then 0 else W)
      invariant ParseGrid(lines) == Then(cells, Rows(lines, W, ln))
    {
      var line := lines[ln];
      if ln == 0 {
        width := ByteLen(line);
      } else if ByteLen(line) != width {
        return Err(UnevenGridDimensions(width, ln + 1, ByteLen(line)));
      }
      var pushed := PushDigits(line, ln, cells);
      if pushed.Err? {
        return Err(pushed.error);
      }
      RowsStep(lines, W, ln, cells);
      cells := pushed.value;
      ln := ln + 1;
    }
    ParsedCells(lines, cells);
    var g := new Grid(width, cells);
    r := Ok(g);
  }
}

=== FILE: day11_offsets.dfy ===
/** Day 11: the eight neighbours of a cell in a row-major grid stored as one
    flat vector, as `Grid::offsets_for` lists them. */
module Day11Offsets {

  /** Row of flat index `i` in a grid `w` cells wide. */
  function Row(w: nat, i: nat): nat
    requires w > 0
  {
    i / w
  }

  /** Column of flat index `i` in a grid `w` cells wide. */
  function Col(w: nat, i: nat): nat
    requires w > 0
  {
    i % w
  }

  /** Two different cells touching horizontally, vertically or diagonally. */
  predicate Adjacent(w: nat, a: nat, b: nat)
    requires w > 0
  {
    a != b && -1 <= Row(w, a) - Row(w, b) <= 1 && -1 <= Col(w, a) - Col(w, b) <= 1
  }

  /** `push_into_buf`: an index is kept only when it lies inside the grid. */
  function Keep(d: nat, n: nat): seq<nat>
  {
    if d < n then [d] else []
  }

  /** The neighbours in the column to the left: up, level, down. */
  function LeftColumn(w: nat, n: nat, i: nat): seq<nat>
    requires w > 0
  {
    if i % w > 0 then
      (if i > w then Keep(i - 1 - w, n) else []) + Keep(i - 1, n) + Keep(i - 1 + w, n)
    else []
  }

  /** The neighbours in the column to the right: up, level, down. */
  function RightColumn(w: nat, n: nat, i: nat): seq<nat>
    requires w > 0
  {
    if (i + 1) % w > 0 then
      (if i + 1 > w then Keep(i + 1 - w, n) else []) + Keep(i + 1, n) + Keep(i + 1 + w, n)
    else []
  }

  /** The neighbours straight up and straight down. */
  function SameColumn(w: nat, n: nat, i: nat): seq<nat>
    requires w > 0
  {
    (if i >= w then Keep(i - w, n) else []) + Keep(i + w, n)
  }

  /** `offsets_for`: left column, right column, then the cell's own column. */
  function Offsets(w: nat, n: nat, i: nat): seq<nat>
    requires w > 0
  {
    LeftColumn(w, n, i) + RightColumn(w, n, i) + SameColumn(w, n, i)
  }

  /** A cell off the first column has a predecessor. */
  lemma ModPositive(i: nat, w: nat)
    requires w > 0
    ensures i % w > 0 ==> i >= 1
  {
    if i == 0 {
      assert i % w == 0;
    }
  }

  /** No index appears twice. */
  predicate Distinct(s: seq<nat>)
  {
    forall j, k :: 0 <= j < k < |s| ==> s[j] != s[k]
  }

  lemma MulAtLeast(a: int, w: nat)
    requires a >= 1
    ensures a * w >= w
  {
  }

  /** Row-major coordinates are unique: `q * w + m` is row `q`, column `m`. */
  lemma RowCol(w: nat, q: nat, m: nat)
    requires 0 <= m < w
    ensures Row(w, q * w + m) == q && Col(w, q * w + m) == m
  {
    var x := q * w + m;
    var q', m' := x / w, x % w;
    assert x == q' * w + m';
    assert (q - q') * w == m' - m;
    if q > q' {
      MulAtLeast(q - q', w);
    } else if q < q' {
      MulAtLeast(q' - q, w);
    }
  }

  /** Adjacency does not depend on which cell is named first. */
  lemma AdjacentSymmetric(w: nat, a: nat, b: nat)
    requires w > 0
    ensures Adjacent(w, a, b) <==> Adjacent(w, b, a)
  {
  }

  /** A row and a column name one cell. */
  lemma SameCell(w: nat, a: nat, b: nat)
    requires w > 0 && Row(w, a) == Row(w, b) && Col(w, a) == Col(w, b)
    ensures a == b
  {
    assert a == Row(w, a) * w + Col(w, a);
    assert b == Row(w, b) * w + Col(w, b);
  }

  /** A cell is below the first row exactly when its index reaches the width. */
  lemma RowPositive(w: nat, i: nat)
    requires w > 0
    ensures Row(w, i) > 0 <==> i >= w
  {
    var r, c := Row(w, i), Col(w, i);
    assert i == r * w + c;
    if r > 0 {
      MulAtLeast(r, w);
    }
  }

  /** The next index starts a new row exactly when the cell is in the last column. */
  lemma NextCol(w: nat, i: nat)
    requires w > 0
    ensures (i + 1) % w > 0 <==> Col(w, i) + 1 < w
  {
    var r, c := Row(w, i), Col(w, i);
    assert i == r * w + c;
    if c + 1 < w {
      RowCol(w, r, c + 1);
    } else {
      RowCol(w, r + 1, 0);
    }
  }

  /** Moving by `dr` rows and `dc` columns, while staying inside the rows and
      columns, moves the flat index by `dr * w + dc`. */
  lemma Shift(w: nat, i: nat, o: int, dr: int, dc: int)
    requires w > 0 && -1 <= dr <= 1 && -1 <= dc <= 1
    requires Row(w, i) + dr >= 0 && 0 <= Col(w, i) + dc < w
    requires o == i + dr * w + dc
    ensures o >= 0 && Row(w, o) == Row(w, i) + dr && Col(w, o) == Col(w, i) + dc
  {
    var r, c := Row(w, i), Col(w, i);
    assert i == r * w + c;
    assert o == (r + dr) * w + (c + dc);
    RowCol(w, r + dr, c + dc);
  }

  /** The left-column part lists exactly the in-range neighbours one column to the left. */
  lemma LeftColumnExact(w: nat, n: nat, i: nat)
    requires w > 0
    ensures forall o: nat :: o in LeftColumn(w, n, i) <==> o < n && Adjacent(w, i, o) && Col(w, o) + 1 == Col(w, i)
    ensures Distinct(LeftColumn(w, n, i)) && |LeftColumn(w, n, i)| <= 3
  {
    var r, c := Row(w, i), Col(w, i);
    if c > 0 {
      RowPositive(w, i);
      if r > 0 {
        Shift(w, i, i - 1 - w, -1, -1);
        assert i > w;
      }
      Shift(w, i, i - 1, 0, -1);
      Shift(w, i, i - 1 + w, 1, -1);
      forall o: nat | o < n && Adjacent(w, i, o) && Col(w, o) + 1 == c
        ensures o in LeftColumn(w, n, i)
      {
        if Row(w, o) + 1 == r {
          SameCell(w, o, i - 1 - w);
        } else if Row(w, o) == r {
          SameCell(w, o, i - 1);
        } else {
          SameCell(w, o, i - 1 + w);
        }
      }
    }
  }

  /** The right-column part lists exactly the in-range neighbours one column to the right. */
  lemma RightColumnExact(w: nat, n: nat, i: nat)
    requires w > 0
    ensures forall o: nat :: o in RightColumn(w, n, i) <==> o < n && Adjacent(w, i, o) && Col(w, o) == Col(w, i) + 1
    ensures Distinct(RightColumn(w, n, i)) && |RightColumn(w, n, i)| <= 3
  {
    var r, c := Row(w, i), Col(w, i);
    NextCol(w, i);
    if c + 1 < w {
      RowPositive(w, i);
      if r > 0 {
        Shift(w, i, i + 1 - w, -1, 1);
      }
      Shift(w, i, i + 1, 0, 1);
      Shift(w, i, i + 1 + w, 1, 1);
      forall o: nat | o < n && Adjacent(w, i, o) && Col(w, o) == c + 1
        ensures o in RightColumn(w, n, i)
      {
        if Row(w, o) + 1 == r {
          SameCell(w, o, i + 1 - w);
        } else if Row(w, o) == r {
          SameCell(w, o, i + 1);
        } else {
          SameCell(w, o, i + 1 + w);
        }
      }
    }
  }

  /** The own-column part lists exactly the in-range cells straight above and below. */
  lemma SameColumnExact(w: nat, n: nat, i: nat)
    requires w > 0
    ensures forall o: nat :: o in SameColumn(w, n, i) <==> o < n && Adjacent(w, i, o) && Col(w, o) == Col(w, i)
    ensures Distinct(SameColumn(w, n, i)) && |SameColumn(w, n, i)| <= 2
  {
    var r, c := Row(w, i), Col(w, i);
    RowPositive(w, i);
    if r > 0 {
      Shift(w, i, i - w, -1, 0);
    }
    Shift(w, i, i + w, 1, 0);
    forall o: nat | o < n && Adjacent(w, i, o) && Col(w, o) == c
      ensures o in SameColumn(w, n, i)
    {
      if Row(w, o) + 1 == r {
        SameCell(w, o, i - w);
      } else if Row(w, o) == r {
        SameCell(w, o, i);
      } else {
        SameCell(w, o, i + w);
      }
    }
  }

  /** Joining two duplicate-free lists with nothing in common leaves no duplicate. */
  lemma DistinctAppend(a: seq<nat>, b: seq<nat>)
    requires Distinct(a) && Distinct(b)
    requires forall x :: x in a ==> x !in b
    ensures Distinct(a + b)
  {
    forall j, k | 0 <= j < k < |a + b|
      ensures (a + b)[j] != (a + b)[k]
    {
      if k < |a| {
        assert (a + b)[j] == a[j] && (a + b)[k] == a[k];
      } else if j >= |a| {
        assert (a + b)[j] == b[j - |a|] && (a + b)[k] == b[k - |a|];
      } else {
        assert (a + b)[j] in a && (a + b)[k] in b;
      }
    }
  }

  /** Every listed index is an in-range neighbour, none is listed twice and
      there are at most eight; conversely every in-range neighbour is listed. */
  lemma OffsetsExact(w: nat, n: nat, i: nat)
    requires w > 0
    ensures forall o: nat :: o in Offsets(w, n, i) <==> o < n && Adjacent(w, i, o)
    ensures Distinct(Offsets(w, n, i))
    ensures |Offsets(w, n, i)| <= 8
  {
    LeftColumnExact(w, n, i);
    RightColumnExact(w, n, i);
    SameColumnExact(w, n, i);
    var a, b, d := LeftColumn(w, n, i), RightColumn(w, n, i), SameColumn(w, n, i);
    DistinctAppend(a, b);
    DistinctAppend(a + b, d);
    forall o: nat | o < n && Adjacent(w, i, o)
      ensures o in a + b + d
    {
      if Col(w, o) + 1 == Col(w, i) {
        assert o in a;
      } else if Col(w, o) == Col(w, i) + 1 {
        assert o in b;
      } else {
        assert o in d;
      }
    }
  }
}

=== FILE: day12_parser.dfy ===
/** Day 12: turning the cave names of the passage list into compact cave values.
    Each distinct name is interned to a 16-bit code, handed out from 1 upwards,
    and classified as the start, the end, a large cave or a small cave. */
module Day12Parser {

  /** A cave: large and small caves carry their interned code. */
  datatype Cave = Large(code: nat) | Small(code: nat) | Start | End

  /** A passage, oriented as it was written. */
  datatype Passage = Passage(from: Cave, to: Cave)

  /** Largest value of a `u16`; the code counter must not go past it. */
  const U16_MAX: nat := 0xFFFF

  /** Rust's `char::is_whitespace`: the characters with the Unicode White_Space property. */
  predicate IsWhitespace(c: char)
  {
    var n := c as int;
    (0x09 <= n <= 0x0D) || n == 0x20 || n == 0x85 || n == 0xA0 || n == 0x1680
    || (0x2000 <= n <= 0x200A) || n == 0x2028 || n == 0x2029 || n == 0x202F
    || n == 0x205F || n == 0x3000
  }

  /** `str::trim_start`. */
  function TrimStart(s: string): string
  {
    if s != [] && IsWhitespace(s[0]) then TrimStart(s[1..]) else s
  }

  /** `str::trim_end`. */
  function TrimEnd(s: string): string
  {
    if s != [] && IsWhitespace(s[|s| - 1]) then TrimEnd(s[..|s| - 1]) else s
  }

  /** `str::trim`. */
  function Trim(s: string): string
  {
    TrimEnd(TrimStart(s))
  }

  /** Trimming drops a whitespace prefix: what is left starts with no whitespace. */
  lemma {:induction false} TrimStartMeaning(s: string)
    ensures exists i :: 0 <= i <= |s| && TrimStart(s) == s[i..]
              && (forall j :: 0 <= j < i ==> IsWhitespace(s[j]))
              && (TrimStart(s) != [] ==> !IsWhitespace(TrimStart(s)[0]))
  {
    if s != [] && IsWhitespace(s[0]) {
      TrimStartMeaning(s[1..]);
      var i :| 0 <= i <= |s[1..]| && TrimStart(s[1..]) == s[1..][i..]
               && (forall j :: 0 <= j < i ==> IsWhitespace(s[1..][j]))
               && (TrimStart(s[1..]) != [] ==> !IsWhitespace(TrimStart(s[1..])[0]));
      assert s[1..][i..] == s[i + 1..];
      assert forall j :: 0 < j < i + 1 ==> s[j] == s[1..][j - 1];
    } else {
      assert s[0..] == s;
    }
  }

  /** Trimming drops a whitespace suffix: what is left ends with no whitespace. */
  lemma {:induction false} TrimEndMeaning(s: string)
    ensures exists i :: 0 <= i <= |s| && TrimEnd(s) == s[..i]
              && (forall j :: i <= j < |s| ==> IsWhitespace(s[j]))
              && (TrimEnd(s) != [] ==> !IsWhitespace(TrimEnd(s)[|TrimEnd(s)| - 1]))
  {
    if s != [] && IsWhitespace(s[|s| - 1]) {
      var p := s[..|s| - 1];
      TrimEndMeaning(p);
      var i :| 0 <= i <= |p| && TrimEnd(p) == p[..i]
               && (forall j :: i <= j < |p| ==> IsWhitespace(p[j]))
               && (TrimEnd(p) != [] ==> !IsWhitespace(TrimEnd(p)[|TrimEnd(p)| - 1]));
      assert p[..i] == s[..i];
    } else {
      assert s[..|s|] == s;
    }
  }

  /** A name without surrounding whitespace, such as every name the passage grammar
      accepts, is its own trimmed form. */
  lemma TrimNoWhitespace(s: string)
    requires s == [] || (!IsWhitespace(s[0]) && !IsWhitespace(s[|s| - 1]))
    ensures Trim(s) == s
  {
  }

  /** Rust's `char::is_uppercase`, on the ASCII letters the passage grammar accepts. */
  predicate IsUpper(c: char)
  {
    'A' <= c <= 'Z'
  }

  /** `s.chars().all(|c| c.is_uppercase())`; true for the empty string. */
  predicate AllUpper(s: string)
  {
    forall i :: 0 <= i < |s| ==> IsUpper(s[i])
  }

  /** The cave a name denotes, given the code interned for it. */
  function Classify(name: string, code: nat): (c: Cave)
    ensures c == Start <==> Trim(name) == "start"
    ensures c == End <==> Trim(name) == "end"
    ensures c.Large? <==> Trim(name) != "start" && Trim(name) != "end" && AllUpper(Trim(name))
    ensures c.Large? || c.Small? ==> c.code == code
  {
    var s := Trim(name);
    if s == "start" then Start
    else if s == "end" then End
    else if AllUpper(s) then Large(code)
    else Small(code)
  }

  /** All names of a list of passages, as written. */
  function Names(data: seq<(string, string)>): set<string>
  {
    if data == [] then {}
    else Names(data[..|data| - 1]) + {data[|data| - 1].0} + {data[|data| - 1].1}
  }

  /** Every name of a passage is among the names. */
  lemma {:induction false} NamesContain(data: seq<(string, string)>, i: nat)
    requires i < |data|
    ensures data[i].0 in Names(data) && data[i].1 in Names(data)
  {
    if i < |data| - 1 {
      NamesContain(data[..|data| - 1], i);
    }
  }

  /** The names of one more passage. */
  lemma NamesSnoc(data: seq<(string, string)>, i: nat)
    requires i < |data|
    ensures Names(data[..i + 1]) == Names(data[..i]) + {data[i].0} + {data[i].1}
    ensures data[i].0 in Names(data) && data[i].1 in Names(data)
  {
    assert data[..i + 1][..i] == data[..i];
    NamesContain(data, i);
  }

  /** The names of a prefix are among all the names. */
  lemma {:induction false} NamesPrefix(data: seq<(string, string)>, i: nat)
    requires i <= |data|
    ensures Names(data[..i]) <= Names(data)
    decreases |data| - i
  {
    if i < |data| {
      NamesSnoc(data, i);
      NamesPrefix(data, i + 1);
    } else {
      assert data[..i] == data;
    }
  }

  /** Adding two names to a union of tables. */
  lemma AddTwo(A: set<string>, B: set<string>, a: string, b: string)
    ensures A + B + {a} + {b} == A + (B + {a} + {b})
  {
  }

  /** A set inside another is no larger; a proper subset is smaller. */
  lemma SubsetCard<T>(A: set<T>, B: set<T>)
    requires A <= B
    ensures |A| <= |B|
    ensures A < B ==> |A| < |B|
  {
    assert B == A + (B - A);
    assert |B| == |A| + |B - A|;
  }

  /** A name still missing from a table inside a set of at most `U16_MAX` names leaves room for one more code. */
  lemma Room(keys: set<string>, total: set<string>, x: string)
    requires keys <= total && x in total && |total| <= U16_MAX
    ensures x !in keys ==> |keys| < U16_MAX
  {
    if x !in keys {
      SubsetCard(keys + {x}, total);
    }
  }

  /** The passage a pair of names denotes under an interning table that knows both. */
  function Interned(names: map<string, nat>, pair: (string, string)): Passage
    requires pair.0 in names && pair.1 in names
  {
    Passage(Classify(pair.0, names[pair.0]), Classify(pair.1, names[pair.1]))
  }

  /** The passages a list of pairs denotes under an interning table that knows all their names. */
  function InternAll(names: map<string, nat>, data: seq<(string, string)>): seq<Passage>
    requires Names(data) <= names.Keys
  {
    if data == [] then []
    else InternAll(names, data[..|data| - 1]) + [Interned(names, data[|data| - 1])]
  }

  /** One more pair adds its passage at the end. */
  lemma InternAllSnoc(names: map<string, nat>, data: seq<(string, string)>, i: nat)
    requires i < |data| && Names(data[..i + 1]) <= names.Keys
    ensures Names(data[..i]) <= names.Keys && data[i].0 in names && data[i].1 in names
    ensures InternAll(names, data[..i + 1]) == InternAll(names, data[..i]) + [Interned(names, data[i])]
  {
    assert data[..i + 1][..i] == data[..i];
  }

  /** The passages, one per pair and in order. */
  lemma {:induction false} InternAllMeaning(names: map<string, nat>, data: seq<(string, string)>)
    requires Names(data) <= names.Keys
    ensures |InternAll(names, data)| == |data|
    ensures forall i :: 0 <= i < |data| ==>
              data[i].0 in names && data[i].1 in names && InternAll(names, data)[i] == Interned(names, data[i])
  {
    if data != [] {
      var p := data[..|data| - 1];
      NamesSnoc(data, |data| - 1);
      assert data[..|data|] == data;
      InternAllMeaning(names, p);
      forall i | 0 <= i < |data|
        ensures data[i].0 in names && data[i].1 in names
      {
        NamesContain(data, i);
      }
    }
  }

  /** A table that keeps every old code denotes the same passages. */
  lemma {:induction false} InternAllStable(names: map<string, nat>, names': map<string, nat>, data: seq<(string, string)>)
    requires Names(data) <= names.Keys
    requires forall s :: s in names ==> s in names' && names'[s] == names[s]
    ensures Names(data) <= names'.Keys && InternAll(names', data) == InternAll(names, data)
  {
    if data != [] {
      NamesSnoc(data, |data| - 1);
      assert data[..|data|] == data;
      InternAllStable(names, names', data[..|data| - 1]);
    }
  }

  /** The interning table of `Parser`: names seen so far and the last code handed out. */
  class Parser {
    var names: map<string, nat>
    var code: nat

    /** The codes in use are exactly 1..=code, one per name, and fit in a `u16`. */
    ghost predicate Valid()
      reads this
    {
      |names| == code <= U16_MAX
      && (forall s :: s in names ==> 1 <= names[s] <= code)
      && (forall s, t :: s in names && t in names && names[s] == names[t] ==> s == t)
    }

    /** `Parser::default`: no names, and the counter at 0. */
    constructor ()
      ensures Valid() && names == map[] && code == 0
    {
      names := map[];
      code := 0;
    }

    /** `parse_cave`: a name seen before keeps its code; a new name gets the next one.
        The counter is a `u16`, so a new name needs room below `u16::MAX`. */
    method ParseCave(input: string) returns (cave: Cave)
      requires Valid() && (input in names || code < U16_MAX)
      modifies this
      ensures Valid()
      ensures old(input in names) ==> names == old(names) && code == old(code)
      ensures old(input !in names) ==> code == old(code) + 1 && names == old(names)[input := code]
      ensures input in names && cave == Classify(input, names[input])
      ensures names.Keys == old(names).Keys + {input}
      ensures forall s :: s in old(names) ==> s in names && names[s] == old(names)[s]
    {
      if input !in names {
        code := code + 1;
        names := names[input := code];
      }
      cave := Classify(input, names[input]);
    }

    /** The body of `build_passages`' map: interns the `from` name, then the `to` name. */
    method InternPair(pair: (string, string)) returns (p: Passage)
      requires Valid() && |names.Keys + {pair.0} + {pair.1}| <= U16_MAX
      modifies this
      ensures Valid()
      ensures names.Keys == old(names).Keys + {pair.0} + {pair.1}
      ensures forall s :: s in old(names) ==> s in names && names[s] == old(names)[s]
      ensures pair.0 in names && pair.1 in names && p == Interned(names, pair)
    {
      assert |names.Keys| == code;
      Room(names.Keys, names.Keys + {pair.0} + {pair.1}, pair.0);
      var from := ParseCave(pair.0);
      assert |names.Keys| == code;
      Room(names.Keys, old(names).Keys + {pair.0} + {pair.1}, pair.1);
      var to := ParseCave(pair.1);
      p := Passage(from, to);
    }

    /** `build_passages`: each pair becomes a passage, in order, interning the `from`
        name before the `to` name. All the names together must fit in the code space. */
    method BuildPassages(data: seq<(string, string)>) returns (passages: seq<Passage>)
      requires Valid() && |names.Keys + Names(data)| <= U16_MAX
      modifies this
      ensures Valid()
      ensures names.Keys == old(names).Keys + Names(data)
      ensures forall s :: s in old(names) ==> names[s] == old(names)[s]
      ensures |passages| == |data|
      ensures forall i :: 0 <= i < |data| ==>
                data[i].0 in names && data[i].1 in names && passages[i] == Interned(names, data[i])
    {
      ghost var start := names;
      ghost var total := names.Keys + Names(data);
      passages := [];
      for i := 0 to |data|
        invariant Valid()
        invariant names.Keys == start.Keys + Names(data[..i])
        invariant forall s :: s in start ==> names[s] == start[s]
        invariant passages == InternAll(names, data[..i])
      {
        NamesSnoc(data, i);
        NamesPrefix(data, i + 1);
        AddTwo(start.Keys, Names(data[..i]), data[i].0, data[i].1);
        SubsetCard(names.Keys + {data[i].0} + {data[i].1}, total);
        ghost var before := names;
        var p := InternPair(data[i]);
        InternAllStable(before, names, data[..i]);
        InternAllSnoc(names, data, i);
        passages := passages + [p];
      }
      assert data[..|data|] == data;
      InternAllMeaning(names, data);
    }
  }

  /** `Parser::parse` on the already-split passage list: a fresh parser builds the passages. */
  method Parse(data: seq<(string, string)>) returns (passages: seq<Passage>, ghost codes: map<string, nat>)
    requires |Names(data)| <= U16_MAX
    ensures codes.Keys == Names(data)
    ensures forall s :: s in codes ==> 1 <= codes[s] <= |Names(data)|
    ensures forall s, t :: s in codes && t in codes && codes[s] == codes[t] ==> s == t
    ensures |passages| == |data|
    ensures forall i :: 0 <= i < |data| ==>
              data[i].0 in codes && data[i].1 in codes && passages[i] == Interned(codes, data[i])
  {
    var p := new Parser();
    assert p.names.Keys + Names(data) == Names(data);
    passages := p.BuildPassages(data);
    codes := p.names;
  }
}

=== FILE: day12_paths.dfy ===
/** Day 12: counting the paths from the start cave to the end cave. Small caves
    may be entered once per path (part 1), or one of them twice (part 2); the
    set of entered small caves is updated before each descent and restored after. */
module Day12Paths {
  import opened Day12Parser

  /** `u16::MAX`, kept in the visited set by part 2 once a small cave was entered twice. */
  const DOUBLE_VISIT_SENTINEL: nat := 0xFFFF

  /** The two small-cave strategies. */
  datatype Strategy = Part1 | Part2

  /** The passages out of each cave, in load order. */
  type CaveMap = map<Cave, seq<Cave>>

  /** `load_passage`: an edge into the start cave is never recorded. */
  function Loaded(m: CaveMap, from: Cave, to: Cave): CaveMap
  {
    if to == Start then m
    else m[from := (if from in m then m[from] else []) + [to]]
  }

  /** `load_paths`: every passage is loaded in both directions, in order. */
  function Load(m: CaveMap, passages: seq<Passage>): CaveMap
  {
    if passages == [] then m
    else
      var p := passages[|passages| - 1];
      Loaded(Loaded(Load(m, passages[..|passages| - 1]), p.from, p.to), p.to, p.from)
  }

  /** `c` and `d` are joined by one of the passages. */
  predicate Joined(passages: seq<Passage>, c: Cave, d: Cave)
  {
    exists i :: 0 <= i < |passages| && (passages[i] == Passage(c, d) || passages[i] == Passage(d, c))
  }

  /** Loading one edge adds exactly that edge, unless it leads into the start. */
  lemma LoadedMeaning(m: CaveMap, from: Cave, to: Cave, c: Cave, d: Cave)
    ensures var m' := Loaded(m, from, to);
            (c in m' && d in m'[c]) <==> (c in m && d in m[c]) || (c == from && d == to && to != Start)
  {
  }

  /** The passages joining two caves are those of a prefix and possibly the last one. */
  lemma JoinedSnoc(passages: seq<Passage>, c: Cave, d: Cave)
    requires passages != []
    ensures var q, p := passages[..|passages| - 1], passages[|passages| - 1];
            Joined(passages, c, d) <==> Joined(q, c, d) || p == Passage(c, d) || p == Passage(d, c)
  {
    var q := passages[..|passages| - 1];
    if Joined(q, c, d) {
      var i :| 0 <= i < |q| && (q[i] == Passage(c, d) || q[i] == Passage(d, c));
      assert passages[i] == q[i];
    }
    if Joined(passages, c, d) {
      var i :| 0 <= i < |passages| && (passages[i] == Passage(c, d) || passages[i] == Passage(d, c));
      if i < |q| {
        assert q[i] == passages[i];
      }
    }
  }

  /** From an empty table, `d` is listed after `c` exactly when a passage joins them and `d`
      is not the start; in particular no edge ever leads into the start. */
  lemma {:induction false} LoadMeaning(passages: seq<Passage>, c: Cave, d: Cave)
    ensures var m := Load(map[], passages);
            (c in m && d in m[c]) <==> Joined(passages, c, d) && d != Start
  {
    if passages != [] {
      var q := passages[..|passages| - 1];
      var p := passages[|passages| - 1];
      LoadMeaning(q, c, d);
      var m0 := Load(map[], q);
      var m1 := Loaded(m0, p.from, p.to);
      assert Load(map[], passages) == Loaded(m1, p.to, p.from);
      LoadedMeaning(m0, p.from, p.to, c, d);
      LoadedMeaning(m1, p.to, p.from, c, d);
      JoinedSnoc(passages, c, d);
    }
  }

  /** The rank that orders the calls made without entering a new small cave. */
  function CountRank(c: Cave): nat
  {
    match c
    case End => 0
    case Small(_) => 1
    case Large(_) => 3
    case Start => 5
  }

  /** Rank of expanding a cave's passages. */
  function VisitRank(c: Cave): nat
  {
    match c
    case Large(_) => 2
    case _ => 4
  }

  /** Codes that can still be added to the visited set, the sentinel included. */
  ghost function Unseen(seen: set<nat>): (r: set<nat>)
    ensures forall n: nat :: n in r <==> n <= DOUBLE_VISIT_SENTINEL && n !in seen
  {
    set n: nat | n <= DOUBLE_VISIT_SENTINEL && n !in seen
  }

  /** What the counting needs of the table: the start and every cave reached through a
      passage (other than the end) have outgoing passages, since a missing entry panics;
      nothing leads into the start; two large caves are never joined, or the count would
      never finish; and small-cave codes stay below the sentinel. */
  ghost predicate Walkable(m: CaveMap)
  {
    Start in m
    && (forall c, d :: c in m && d in m[c] ==> d != Start && (d != End ==> d in m))
    && (forall c, d :: c in m && d in m[c] && c.Large? ==> !d.Large?)
    && (forall c, d :: c in m && d in m[c] && d.Small? ==> d.code < DOUBLE_VISIT_SENTINEL)
  }

  /** `inner_count_all_paths`: the end counts one path; a small cave goes to the strategy;
      other caves are expanded as they are. */
  function Count(m: CaveMap, s: Strategy, c: Cave, seen: set<nat>): nat
    requires Walkable(m) && (c == Start || Reached(m, c))
    decreases Unseen(seen), CountRank(c), 0
  {
    match c
    case End => 1
    case Small(n) => VisitSmall(m, s, n, seen)
    case _ => Visit(m, s, c, seen)
  }

  /** `visit_small_cave`: a small cave not yet entered is entered; otherwise part 2 may
      enter it a second time, once per path, recording that with the sentinel. */
  function VisitSmall(m: CaveMap, s: Strategy, n: nat, seen: set<nat>): nat
    requires Walkable(m) && n < DOUBLE_VISIT_SENTINEL && Reached(m, Small(n))
    decreases Unseen(seen), 0, 0
  {
    if n !in seen then Visit(m, s, Small(n), seen + {n})
    else if s == Part2 && DOUBLE_VISIT_SENTINEL !in seen then Visit(m, s, Small(n), seen + {DOUBLE_VISIT_SENTINEL})
    else 0
  }

  /** `visit_cave`: the sum of the counts over the cave's passages, in order. */
  function Visit(m: CaveMap, s: Strategy, c: Cave, seen: set<nat>): nat
    requires Walkable(m) && c in m
    decreases Unseen(seen), VisitRank(c), |m[c]| + 1
  {
    SumFrom(m, s, c, seen, 0)
  }

  /** The counts over the passages of `c` from the `i`-th on. */
  function SumFrom(m: CaveMap, s: Strategy, c: Cave, seen: set<nat>, i: nat): nat
    requires Walkable(m) && c in m && i <= |m[c]|
    decreases Unseen(seen), VisitRank(c), |m[c]| - i
  {
    if i == |m[c]| then 0
    else Count(m, s, m[c][i], seen) + SumFrom(m, s, c, seen, i + 1)
  }

  /** A cave some passage leads to. */
  ghost predicate Reached(m: CaveMap, c: Cave)
  {
    exists b :: b in m && c in m[b]
  }

  // Once part 2 has used its double visit it behaves exactly as part 1.

  lemma {:induction false} CountSentinel(m: CaveMap, c: Cave, seen: set<nat>)
    requires Walkable(m) && (c == Start || Reached(m, c)) && DOUBLE_VISIT_SENTINEL in seen
    ensures Count(m, Part2, c, seen) == Count(m, Part1, c, seen)
    decreases Unseen(seen), CountRank(c), 0
  {
    match c
    case End =>
    case Small(n) => VisitSmallSentinel(m, n, seen);
    case _ => SumFromSentinel(m, c, seen, 0);
  }

  lemma {:induction false} VisitSmallSentinel(m: CaveMap, n: nat, seen: set<nat>)
    requires Walkable(m) && n < DOUBLE_VISIT_SENTINEL && Reached(m, Small(n)) && DOUBLE_VISIT_SENTINEL in seen
    ensures VisitSmall(m, Part2, n, seen) == VisitSmall(m, Part1, n, seen)
    decreases Unseen(seen), 0, 0
  {
    if n !in seen {
      SumFromSentinel(m, Small(n), seen + {n}, 0);
    }
  }

  lemma {:induction false} SumFromSentinel(m: CaveMap, c: Cave, seen: set<nat>, i: nat)
    requires Walkable(m) && c in m && i <= |m[c]| && DOUBLE_VISIT_SENTINEL in seen
    ensures SumFrom(m, Part2, c, seen, i) == SumFrom(m, Part1, c, seen, i)
    decreases Unseen(seen), VisitRank(c), |m[c]| - i
  {
    if i < |m[c]| {
      CountSentinel(m, m[c][i], seen);
      SumFromSentinel(m, c, seen, i + 1);
    }
  }

  // Part 2 allows every path part 1 allows.

  lemma {:induction false} CountPart1AtMostPart2(m: CaveMap, c: Cave, seen: set<nat>)
    requires Walkable(m) && (c == Start || Reached(m, c))
    ensures Count(m, Part1, c, seen) <= Count(m, Part2, c, seen)
    decreases Unseen(seen), CountRank(c), 0
  {
    match c
    case End =>
    case Small(n) => VisitSmallPart1AtMostPart2(m, n, seen);
    case _ => SumFromPart1AtMostPart2(m, c, seen, 0);
  }

  lemma {:induction false} VisitSmallPart1AtMostPart2(m: CaveMap, n: nat, seen: set<nat>)
    requires Walkable(m) && n < DOUBLE_VISIT_SENTINEL && Reached(m, Small(n))
    ensures VisitSmall(m, Part1, n, seen) <= VisitSmall(m, Part2, n, seen)
    decreases Unseen(seen), 0, 0
  {
    if n !in seen {
      SumFromPart1AtMostPart2(m, Small(n), seen + {n}, 0);
    }
  }

  lemma {:induction false} SumFromPart1AtMostPart2(m: CaveMap, c: Cave, seen: set<nat>, i: nat)
    requires Walkable(m) && c in m && i <= |m[c]|
    ensures SumFrom(m, Part1, c, seen, i) <= SumFrom(m, Part2, c, seen, i)
    decreases Unseen(seen), VisitRank(c), |m[c]| - i
  {
    if i < |m[c]| {
      CountPart1AtMostPart2(m, m[c][i], seen);
      SumFromPart1AtMostPart2(m, c, seen, i + 1);
    }
  }

  // Having entered more small caves never allows more paths.

  lemma {:induction false} CountSeenMore(m: CaveMap, s: Strategy, c: Cave, seen: set<nat>, seen': set<nat>)
    requires Walkable(m) && (c == Start || Reached(m, c)) && seen <= seen'
    ensures Count(m, s, c, seen') <= Count(m, s, c, seen)
    decreases Unseen(seen), CountRank(c), 0
  {
    match c
    case End =>
    case Small(n) => VisitSmallSeenMore(m, s, n, seen, seen');
    case _ => SumFromSeenMore(m, s, c, seen, seen', 0);
  }

  lemma {:induction false} VisitSmallSeenMore(m: CaveMap, s: Strategy, n: nat, seen: set<nat>, seen': set<nat>)
    requires Walkable(m) && n < DOUBLE_VISIT_SENTINEL && Reached(m, Small(n)) && seen <= seen'
    ensures VisitSmall(m, s, n, seen') <= VisitSmall(m, s, n, seen)
    decreases Unseen(seen), 0, 0
  {
    var S := DOUBLE_VISIT_SENTINEL;
    if n !in seen {
      if n !in seen' {
        SumFromSeenMore(m, s, Small(n), seen + {n}, seen' + {n}, 0);
      } else if s == Part2 && S !in seen' {
        SumFromSeenMore(m, s, Small(n), seen + {n}, seen' + {S}, 0);
      }
    } else if s == Part2 && S !in seen && S !in seen' {
      SumFromSeenMore(m, s, Small(n), seen + {S}, seen' + {S}, 0);
    }
  }

  lemma {:induction false} SumFromSeenMore(m: CaveMap, s: Strategy, c: Cave, seen: set<nat>, seen': set<nat>, i: nat)
    requires Walkable(m) && c in m && i <= |m[c]| && seen <= seen'
    ensures SumFrom(m, s, c, seen', i) <= SumFrom(m, s, c, seen, i)
    decreases Unseen(seen), VisitRank(c), |m[c]| - i
  {
    if i < |m[c]| {
      CountSeenMore(m, s, m[c][i], seen, seen');
      SumFromSeenMore(m, s, c, seen, seen', i + 1);
    }
  }

  /** `PathFinder`: the passage table and the small-cave strategy. */
  class PathFinder {
    var caves: CaveMap
    const strategy: Strategy

    /** `PathFinder::new`: an empty table. */
    constructor (strategy: Strategy)
      ensures caves == map[] && this.strategy == strategy
    {
      caves := map[];
      this.strategy := strategy;
    }

    /** `load_passage`: appends `to` to the passages out of `from`, unless `to` is the start. */
    method LoadPassage(from: Cave, to: Cave)
      modifies this
      ensures caves == Loaded(old(caves), from, to)
    {
      if to != Start {
        var out := if from in caves then caves[from] else [];
        caves := caves[from := out + [to]];
      }
    }

    /** `load_paths`: each passage is loaded forwards, then backwards. */
    method LoadPaths(passages: seq<Passage>)
      modifies this
      ensures caves == Load(old(caves), passages)
    {
      for i := 0 to |passages|
        invariant caves == Load(old(caves), passages[..i])
      {
        assert passages[..i + 1][..i] == passages[..i];
        LoadPassage(passages[i].from, passages[i].to);
        LoadPassage(passages[i].to, passages[i].from);
      }
      assert passages[..|passages|] == passages;
    }

    /** `inner_count_all_paths`; the visited set comes back as it was given. */
    method InnerCount(c: Cave, seen: set<nat>) returns (n: nat, seen': set<nat>)
      requires Walkable(caves) && (c == Start || Reached(caves, c))
      ensures n == Count(caves, strategy, c, seen) && seen' == seen
      decreases Unseen(seen), CountRank(c), 0
    {
      match c {
        case End =>
          n, seen' := 1, seen;
        case Small(name) =>
          n, seen' := VisitSmallCave(name, seen);
        case _ =>
          n, seen' := VisitCave(c, seen);
      }
    }

    /** `visit_small_cave` of the strategy: enter the cave if it is new, or (part 2) enter
        it a second time when no cave was entered twice yet; undo the mark afterwards. */
    method VisitSmallCave(name: nat, seen: set<nat>) returns (n: nat, seen': set<nat>)
      requires Walkable(caves) && name < DOUBLE_VISIT_SENTINEL && Reached(caves, Small(name))
      ensures n == VisitSmall(caves, strategy, name, seen) && seen' == seen
      decreases Unseen(seen), 0, 0
    {
      if name !in seen {
        seen' := seen + {name};
        n, seen' := VisitCave(Small(name), seen');
        seen' := seen' - {name};
      } else if strategy == Part2 && DOUBLE_VISIT_SENTINEL !in seen {
        seen' := seen + {DOUBLE_VISIT_SENTINEL};
        n, seen' := VisitCave(Small(name), seen');
        seen' := seen' - {DOUBLE_VISIT_SENTINEL};
      } else {
        n, seen' := 0, seen;
      }
    }

    /** `visit_cave`: the counts of the cave's passages, summed in order, each starting
        from the same visited set. */
    method VisitCave(c: Cave, seen: set<nat>) returns (n: nat, seen': set<nat>)
      requires Walkable(caves) && c in caves
      ensures n == Visit(caves, strategy, c, seen) && seen' == seen
      decreases Unseen(seen), VisitRank(c), 1
    {
      var out := caves[c];
      n, seen' := 0, seen;
      for i := 0 to |out|
        invariant seen' == seen
        invariant n + SumFrom(caves, strategy, c, seen, i) == Visit(caves, strategy, c, seen)
      {
        var k;
        k, seen' := InnerCount(out[i], seen');
        n := n + k;
      }
    }

    /** `count_all_paths`: the paths from the start with nothing visited. */
    method CountAllPaths() returns (n: nat)
      requires Walkable(caves)
      ensures n == Count(caves, strategy, Start, {})
    {
      var seen;
      n, seen := InnerCount(Start, {});
    }
  }

  /** `count_all_paths` on parsed passages. */
  method CountPaths(passages: seq<Passage>, strategy: Strategy) returns (n: nat)
    requires Walkable(Load(map[], passages))
    ensures n == Count(Load(map[], passages), strategy, Start, {})
  {
    var finder := new PathFinder(strategy);
    finder.LoadPaths(passages);
    n := finder.CountAllPaths();
  }
}

=== FILE: day12_walks.dfy ===
/** Day 12: what the path count counts. A walk is a sequence of caves that follows the
    loaded passages from a cave until it first arrives at the end. In part 1 no small cave
    appears twice on it; in part 2 one small cave may appear twice and no other more than
    once. The recursive count is proved to be the number of such walks. */
module Day12Walks {
  import opened Day12Parser
  import opened Day12Paths

  /** `w` follows the table from `c` and stops at its first arrival at the end. */
  ghost predicate IsWalk(m: CaveMap, c: Cave, w: seq<Cave>)
  {
    |w| >= 1 && w[0] == c && w[|w| - 1] == End
    && forall i :: 0 <= i < |w| - 1 ==> w[i] != End && w[i] in m && w[i + 1] in m[w[i]]
  }

  /** How often the small cave with code `n` appears on `w`. */
  function Visits(w: seq<Cave>, n: nat): nat
  {
    if w == [] then 0
    else (if w[0] == Small(n) then 1 else 0) + Visits(w[1..], n)
  }

  /** The small-cave rule of each part, for a walk from the start. */
  ghost predicate SmallRule(s: Strategy, w: seq<Cave>)
  {
    match s
    case Part1 => forall n: nat :: Visits(w, n) <= 1
    case Part2 =>
      (forall n: nat :: Visits(w, n) <= 2)
      && forall n1: nat, n2: nat :: Visits(w, n1) == 2 && Visits(w, n2) == 2 ==> n1 == n2
  }

  /** No cave is listed twice among the passages out of one cave. */
  ghost predicate NoRepeats(m: CaveMap)
  {
    forall c, i, j :: c in m && 0 <= i < j < |m[c]| ==> m[c][i] != m[c][j]
  }

  // The rule part way along a walk, with the marks already made counted in.

  /** Every small cave on `w` has a code below the sentinel. */
  ghost predicate CodesBelow(w: seq<Cave>)
  {
    forall i :: 0 <= i < |w| && w[i].Small? ==> w[i].code < DOUBLE_VISIT_SENTINEL
  }

  /** Appearances on `w`, plus one when the code is already marked. */
  function Occurrences(w: seq<Cave>, seen: set<nat>, n: nat): nat
  {
    Visits(w, n) + (if n in seen then 1 else 0)
  }

  /** How often one cave may be entered: twice only in part 2 before the sentinel is set. */
  function Allowance(s: Strategy, seen: set<nat>): nat
  {
    if s == Part2 && DOUBLE_VISIT_SENTINEL !in seen then 2 else 1
  }

  /** `w` keeps the rule when the caves in `seen` are already marked. */
  ghost predicate Within(s: Strategy, w: seq<Cave>, seen: set<nat>)
  {
    CodesBelow(w)
    && (forall n: nat :: Occurrences(w, seen, n) <= Allowance(s, seen))
    && forall n1: nat, n2: nat :: Occurrences(w, seen, n1) == 2 && Occurrences(w, seen, n2) == 2 ==> n1 == n2
  }

  lemma VisitsCons(c: Cave, v: seq<Cave>, n: nat)
    ensures Visits([c] + v, n) == (if c == Small(n) then 1 else 0) + Visits(v, n)
  {
    assert ([c] + v)[1..] == v;
  }

  lemma CodesBelowCons(c: Cave, v: seq<Cave>)
    ensures CodesBelow([c] + v) <==> (c.Small? ==> c.code < DOUBLE_VISIT_SENTINEL) && CodesBelow(v)
  {
    var w := [c] + v;
    if (c.Small? ==> c.code < DOUBLE_VISIT_SENTINEL) && CodesBelow(v) {
      forall i | 0 <= i < |w| && w[i].Small?
        ensures w[i].code < DOUBLE_VISIT_SENTINEL
      {
        if i > 0 {
          assert w[i] == v[i - 1];
        }
      }
    }
    if CodesBelow(w) {
      assert w[0] == c;
      forall i | 0 <= i < |v| && v[i].Small?
        ensures v[i].code < DOUBLE_VISIT_SENTINEL
      {
        assert w[i + 1] == v[i];
      }
    }
  }

  /** A cave other than a small one leaves the rule as it was. */
  lemma WithinOther(s: Strategy, c: Cave, v: seq<Cave>, seen: set<nat>)
    requires !c.Small?
    ensures Within(s, [c] + v, seen) <==> Within(s, v, seen)
  {
    CodesBelowCons(c, v);
    forall n: nat
      ensures Occurrences([c] + v, seen, n) == Occurrences(v, seen, n)
    {
      VisitsCons(c, v, n);
    }
  }

  /** A small cave not yet marked is entered and marked. */
  lemma WithinFresh(s: Strategy, n: nat, v: seq<Cave>, seen: set<nat>)
    requires n < DOUBLE_VISIT_SENTINEL && n !in seen
    ensures Within(s, [Small(n)] + v, seen) <==> Within(s, v, seen + {n})
  {
    CodesBelowCons(Small(n), v);
    forall k: nat
      ensures Occurrences([Small(n)] + v, seen, k) == Occurrences(v, seen + {n}, k)
    {
      VisitsCons(Small(n), v, k);
    }
    assert Allowance(s, seen) == Allowance(s, seen + {n});
  }

  /** A small cave already marked is entered again only in part 2, and only while the
      sentinel is not set; the sentinel is set for the rest of the walk. */
  lemma WithinAgain(s: Strategy, n: nat, v: seq<Cave>, seen: set<nat>)
    requires n < DOUBLE_VISIT_SENTINEL && n in seen
    ensures Within(s, [Small(n)] + v, seen) <==>
            s == Part2 && DOUBLE_VISIT_SENTINEL !in seen && Within(s, v, seen + {DOUBLE_VISIT_SENTINEL})
  {
    var S := DOUBLE_VISIT_SENTINEL;
    var w := [Small(n)] + v;
    var seen' := seen + {S};
    CodesBelowCons(Small(n), v);
    forall k: nat
      ensures Occurrences(w, seen, k) == Occurrences(v, seen, k) + (if k == n then 1 else 0)
    {
      VisitsCons(Small(n), v, k);
    }
    if CodesBelow(v) {
      assert Visits(v, S) == 0 by { NoVisits(v, S); }
    }
    if Within(s, w, seen) {
      assert Occurrences(w, seen, n) >= 2;
      assert s == Part2 && S !in seen;
      assert Occurrences(w, seen, n) == 2;
      forall k: nat
        ensures Occurrences(v, seen', k) <= 1
      {
        if k == S {
          assert Occurrences(v, seen', k) == Visits(v, S) + 1;
        } else if k == n {
          assert Occurrences(v, seen', k) == Occurrences(w, seen, n) - 1;
        } else {
          assert Occurrences(v, seen', k) == Occurrences(w, seen, k);
          assert Occurrences(w, seen, k) != 2;
        }
      }
    }
    if s == Part2 && S !in seen && Within(s, v, seen') {
      assert Allowance(s, seen) == 2;
      forall k: nat
        ensures Occurrences(w, seen, k) <= 2 && (Occurrences(w, seen, k) == 2 ==> k == n)
      {
        if k == S {
          assert Occurrences(w, seen, k) == Visits(v, S);
        } else {
          assert Occurrences(v, seen, k) == Occurrences(v, seen', k);
        }
      }
    }
  }

  /** A cave whose code is not below the sentinel does not appear on `w`. */
  lemma {:induction false} NoVisits(w: seq<Cave>, n: nat)
    requires CodesBelow(w) && n >= DOUBLE_VISIT_SENTINEL
    ensures Visits(w, n) == 0
    decreases |w|
  {
    if w != [] {
      assert w == [w[0]] + w[1..];
      CodesBelowCons(w[0], w[1..]);
      NoVisits(w[1..], n);
    }
  }

  /** From the start with nothing marked, the rule is the small-cave rule of the part. */
  lemma WithinFromStart(s: Strategy, w: seq<Cave>)
    requires CodesBelow(w)
    ensures Within(s, w, {}) <==> SmallRule(s, w)
  {
    forall n: nat
      ensures Occurrences(w, {}, n) == Visits(w, n)
    {
    }
  }

  // The walks, gathered the way the count visits them.

  /** Each walk of `S` with `c` put in front. */
  ghost function Prepend(c: Cave, S: set<seq<Cave>>): (r: set<seq<Cave>>)
    ensures forall w :: w in r <==> |w| >= 1 && w[0] == c && w[1..] in S
  {
    var r := set v | v in S :: [c] + v;
    assert forall v :: v in S ==> ([c] + v)[1..] == v;
    assert forall w :: |w| >= 1 && w[0] == c ==> w == [c] + w[1..];
    r
  }

  /** The walks the count reaches from `c`. */
  ghost function Walks(m: CaveMap, s: Strategy, c: Cave, seen: set<nat>): (r: set<seq<Cave>>)
    requires Walkable(m) && (c == Start || Reached(m, c))
    ensures forall w :: w in r ==> |w| >= 1 && w[0] == c
    decreases Unseen(seen), CountRank(c), 0
  {
    match c
    case End => {[End]}
    case Small(n) => SmallWalks(m, s, n, seen)
    case _ => WalksOut(m, s, c, seen, 0)
  }

  /** The walks through a small cave, entered as the strategy allows. */
  ghost function SmallWalks(m: CaveMap, s: Strategy, n: nat, seen: set<nat>): (r: set<seq<Cave>>)
    requires Walkable(m) && n < DOUBLE_VISIT_SENTINEL && Reached(m, Small(n))
    ensures forall w :: w in r ==> |w| >= 1 && w[0] == Small(n)
    decreases Unseen(seen), 0, 0
  {
    if n !in seen then WalksOut(m, s, Small(n), seen + {n}, 0)
    else if s == Part2 && DOUBLE_VISIT_SENTINEL !in seen then WalksOut(m, s, Small(n), seen + {DOUBLE_VISIT_SENTINEL}, 0)
    else {}
  }

  /** The walks from `c` through its passages from the `i`-th on. */
  ghost function WalksOut(m: CaveMap, s: Strategy, c: Cave, seen: set<nat>, i: nat): (r: set<seq<Cave>>)
    requires Walkable(m) && c in m && i <= |m[c]|
    ensures forall w :: w in r ==> |w| >= 2 && w[0] == c && w[1] in m[c][i..]
    decreases Unseen(seen), VisitRank(c), |m[c]| - i
  {
    if i == |m[c]| then {}
    else
      var rest := WalksOut(m, s, c, seen, i + 1);
      assert forall w :: w in rest ==> w[1] in m[c][i..] by {
        assert m[c][i..] == [m[c][i]] + m[c][i + 1..];
      }
      Prepend(c, Walks(m, s, m[c][i], seen)) + rest
  }

  /** Putting a cave in front loses no walk. */
  lemma {:induction false} PrependCard(c: Cave, S: set<seq<Cave>>)
    ensures |Prepend(c, S)| == |S|
    decreases |S|
  {
    if S != {} {
      var v :| v in S;
      PrependCard(c, S - {v});
      assert ([c] + v)[1..] == v;
      assert Prepend(c, S) == Prepend(c, S - {v}) + {[c] + v};
    }
  }

  /** The count from a cave is the number of walks gathered from it. */
  lemma {:induction false} CountIsWalks(m: CaveMap, s: Strategy, c: Cave, seen: set<nat>)
    requires Walkable(m) && NoRepeats(m) && (c == Start || Reached(m, c))
    ensures Count(m, s, c, seen) == |Walks(m, s, c, seen)|
    decreases Unseen(seen), CountRank(c), 0
  {
    match c
    case End =>
    case Small(n) => SmallIsWalks(m, s, n, seen);
    case _ => SumIsWalks(m, s, c, seen, 0);
  }

  /** The strategy's count for a small cave is the number of walks through it. */
  lemma {:induction false} SmallIsWalks(m: CaveMap, s: Strategy, n: nat, seen: set<nat>)
    requires Walkable(m) && NoRepeats(m) && n < DOUBLE_VISIT_SENTINEL && Reached(m, Small(n))
    ensures VisitSmall(m, s, n, seen) == |SmallWalks(m, s, n, seen)|
    decreases Unseen(seen), 0, 0
  {
    if n !in seen {
      SumIsWalks(m, s, Small(n), seen + {n}, 0);
    } else if s == Part2 && DOUBLE_VISIT_SENTINEL !in seen {
      SumIsWalks(m, s, Small(n), seen + {DOUBLE_VISIT_SENTINEL}, 0);
    }
  }

  /** The sum over passages from the `i`-th on counts the walks through them. */
  lemma {:induction false} SumIsWalks(m: CaveMap, s: Strategy, c: Cave, seen: set<nat>, i: nat)
    requires Walkable(m) && NoRepeats(m) && c in m && i <= |m[c]|
    ensures SumFrom(m, s, c, seen, i) == |WalksOut(m, s, c, seen, i)|
    decreases Unseen(seen), VisitRank(c), |m[c]| - i
  {
    if i < |m[c]| {
      CountIsWalks(m, s, m[c][i], seen);
      SumIsWalks(m, s, c, seen, i + 1);
      WalksOutSplit(m, s, c, seen, i);
    }
  }

  /** The walks through the `i`-th passage and those through later ones never meet. */
  lemma WalksOutSplit(m: CaveMap, s: Strategy, c: Cave, seen: set<nat>, i: nat)
    requires Walkable(m) && NoRepeats(m) && c in m && i < |m[c]|
    ensures |WalksOut(m, s, c, seen, i)| == |Walks(m, s, m[c][i], seen)| + |WalksOut(m, s, c, seen, i + 1)|
  {
    var d := m[c][i];
    var later := m[c][i + 1..];
    assert d !in later by {
      forall j | 0 <= j < |later|
        ensures later[j] != d
      {
        assert later[j] == m[c][i + 1 + j];
      }
    }
    var here := Prepend(c, Walks(m, s, d, seen));
    PrependCard(c, Walks(m, s, d, seen));
    DisjointCard(here, WalksOut(m, s, c, seen, i + 1), d, later);
  }

  /** Walks whose second caves differ are different walks. */
  lemma DisjointCard(here: set<seq<Cave>>, rest: set<seq<Cave>>, d: Cave, later: seq<Cave>)
    requires forall w :: w in here ==> |w| >= 2 && w[1] == d
    requires forall w :: w in rest ==> |w| >= 2 && w[1] in later
    requires d !in later
    ensures |here + rest| == |here| + |rest|
  {
    assert here * rest == {};
  }



  /** A walk from a cave other than the end is a step along a passage and a walk on. */
  lemma IsWalkCons(m: CaveMap, c: Cave, w: seq<Cave>)
    requires c != End
    ensures IsWalk(m, c, w) <==> |w| >= 2 && w[0] == c && c in m && w[1] in m[c] && IsWalk(m, w[1], w[1..])
  {
    if |w| >= 2 && w[0] == c && c in m && w[1] in m[c] && IsWalk(m, w[1], w[1..]) {
      forall i | 0 <= i < |w| - 1
        ensures w[i] != End && w[i] in m && w[i + 1] in m[w[i]]
      {
        if i > 0 {
          assert w[i] == w[1..][i - 1] && w[i + 1] == w[1..][i];
        }
      }
    }
    if IsWalk(m, c, w) {
      forall i | 0 <= i < |w[1..]| - 1
        ensures w[1..][i] != End && w[1..][i] in m && w[1..][i + 1] in m[w[1..][i]]
      {
        assert w[1..][i] == w[i + 1] && w[1..][i + 1] == w[i + 2];
      }
    }
  }

  /** The only walk from the end is the end itself. */
  lemma IsWalkEnd(m: CaveMap, w: seq<Cave>)
    ensures IsWalk(m, End, w) <==> w == [End]
  {
    if IsWalk(m, End, w) {
      assert |w| == 1;
    }
  }

  /** The walks gathered from a cave are exactly the walks from it that keep the rule. */
  lemma {:induction false} WalksMeaning(m: CaveMap, s: Strategy, c: Cave, seen: set<nat>, w: seq<Cave>)
    requires Walkable(m) && (c == Start || Reached(m, c))
    ensures w in Walks(m, s, c, seen) <==> IsWalk(m, c, w) && Within(s, w, seen)
    decreases Unseen(seen), CountRank(c), 0
  {
    match c
    case End =>
      IsWalkEnd(m, w);
      if w == [End] {
        assert Within(s, w, seen) by {
          CodesBelowCons(End, []);
          WithinOther(s, End, [], seen);
          assert [End] + [] == w;
        }
      }
    case Small(n) =>
      IsWalkCons(m, c, w);
      if |w| >= 1 && w[0] == c {
        assert w == [c] + w[1..];
        if n !in seen {
          WalksOutMeaning(m, s, c, seen + {n}, 0, w);
          WithinFresh(s, n, w[1..], seen);
        } else {
          WithinAgain(s, n, w[1..], seen);
          if s == Part2 && DOUBLE_VISIT_SENTINEL !in seen {
            WalksOutMeaning(m, s, c, seen + {DOUBLE_VISIT_SENTINEL}, 0, w);
          }
        }
      }
    case _ =>
      IsWalkCons(m, c, w);
      WalksOutMeaning(m, s, c, seen, 0, w);
      if |w| >= 1 && w[0] == c {
        assert w == [c] + w[1..];
        WithinOther(s, c, w[1..], seen);
      }
  }

  /** The walks gathered through the passages from the `i`-th on are a step along one of
      them followed by a walk from there that keeps the rule. */
  lemma {:induction false} WalksOutMeaning(m: CaveMap, s: Strategy, c: Cave, seen: set<nat>, i: nat, w: seq<Cave>)
    requires Walkable(m) && c in m && i <= |m[c]|
    ensures w in WalksOut(m, s, c, seen, i) <==>
            |w| >= 2 && w[0] == c && w[1] in m[c][i..] && IsWalk(m, w[1], w[1..]) && Within(s, w[1..], seen)
    decreases Unseen(seen), VisitRank(c), |m[c]| - i
  {
    if i < |m[c]| {
      var d := m[c][i];
      assert m[c][i..] == [d] + m[c][i + 1..];
      WalksOutMeaning(m, s, c, seen, i + 1, w);
      if |w| >= 2 {
        WalksMeaning(m, s, d, seen, w[1..]);
      }
    }
  }

  /** The small caves of a walk from the start have codes below the sentinel. */
  lemma WalkCodesBelow(m: CaveMap, w: seq<Cave>)
    requires Walkable(m) && IsWalk(m, Start, w)
    ensures CodesBelow(w)
  {
    forall i | 0 <= i < |w| && w[i].Small?
      ensures w[i].code < DOUBLE_VISIT_SENTINEL
    {
      assert i > 0;
      assert w[i] in m[w[i - 1]];
    }
  }

  /** `count_all_paths` counts exactly the walks from the start to the end that keep the
      part's small-cave rule: in part 1 no small cave twice, in part 2 at most one small
      cave twice and none more often. */
  lemma CountAllPathsIsWalks(m: CaveMap, s: Strategy)
    requires Walkable(m) && NoRepeats(m)
    ensures Count(m, s, Start, {}) == |Walks(m, s, Start, {})|
    ensures forall w :: w in Walks(m, s, Start, {}) <==> IsWalk(m, Start, w) && SmallRule(s, w)
  {
    CountIsWalks(m, s, Start, {});
    forall w
      ensures w in Walks(m, s, Start, {}) <==> IsWalk(m, Start, w) && SmallRule(s, w)
    {
      WalksMeaning(m, s, Start, {}, w);
      if IsWalk(m, Start, w) {
        WalkCodesBelow(m, w);
        WithinFromStart(s, w);
      }
    }
  }

  /** No passage joins a cave to itself and no two passages join the same two caves,
      either way round. */
  ghost predicate DistinctPassages(passages: seq<Passage>)
  {
    (forall i :: 0 <= i < |passages| ==> passages[i].from != passages[i].to)
    && forall i, j :: 0 <= i < j < |passages| ==>
         passages[j] != passages[i] && passages[j] != Passage(passages[i].to, passages[i].from)
  }

  /** Loading an edge not yet listed keeps every list free of repeats. */
  lemma LoadedNoRepeats(m: CaveMap, from: Cave, to: Cave)
    requires NoRepeats(m) && !(from in m && to in m[from])
    ensures NoRepeats(Loaded(m, from, to))
  {
    var m' := Loaded(m, from, to);
    forall c, i, j | c in m' && 0 <= i < j < |m'[c]|
      ensures m'[c][i] != m'[c][j]
    {
      if to != Start && c == from && from in m && j == |m[from]| {
        assert m'[c][i] == m[from][i];
      }
    }
  }

  /** The table loaded from distinct passages lists no cave twice after another. */
  lemma {:induction false} LoadNoRepeats(passages: seq<Passage>)
    requires DistinctPassages(passages)
    ensures NoRepeats(Load(map[], passages))
    decreases |passages|
  {
    if passages != [] {
      var k := |passages| - 1;
      var q, p := passages[..k], passages[k];
      assert DistinctPassages(q) by {
        forall i | 0 <= i < |q|
          ensures q[i] == passages[i]
        {
        }
      }
      LoadNoRepeats(q);
      var m0 := Load(map[], q);
      var m1 := Loaded(m0, p.from, p.to);
      assert !Joined(q, p.from, p.to) by {
        forall i | 0 <= i < |q|
          ensures q[i] != Passage(p.from, p.to) && q[i] != Passage(p.to, p.from)
        {
          assert q[i] == passages[i];
        }
      }
      LoadMeaning(q, p.from, p.to);
      LoadMeaning(q, p.to, p.from);
      LoadedNoRepeats(m0, p.from, p.to);
      LoadedMeaning(m0, p.from, p.to, p.to, p.from);
      LoadedNoRepeats(m1, p.to, p.from);
    }
  }

  /** `count_all_paths` on distinct passages counts exactly the walks from the start to the
      end through the loaded table that keep the part's small-cave rule. */
  lemma CountPathsIsWalks(passages: seq<Passage>, s: Strategy)
    requires Walkable(Load(map[], passages)) && DistinctPassages(passages)
    ensures var m := Load(map[], passages);
            Count(m, s, Start, {}) == |Walks(m, s, Start, {})|
            && forall w :: w in Walks(m, s, Start, {}) <==> IsWalk(m, Start, w) && SmallRule(s, w)
  {
    LoadNoRepeats(passages);
    CountAllPathsIsWalks(Load(map[], passages), s);
  }
}

=== FILE: day13_model.dfy ===
/** Day 13: transparent paper. A set of dots is folded along horizontal
    (`Y`) and vertical (`X`) lines; each fold mirrors the dots beyond the
    line onto the near side, and dots that land on each other merge. */
module Day13Model {
  import opened Wrappers

  /** `Point`: unsigned coordinates. */
  datatype Point = Point(x: nat, y: nat)

  /** `Fold`: along `y = line` or `x = line`. */
  datatype Fold = Y(line: nat) | X(line: nat)

  /** The folded coordinate of a point. */
  function Coord(f: Fold, p: Point): nat
  {
    if f.Y? then p.y else p.x
  }

  /** The mirror image stays unsigned: `line - (c - line)` does not underflow. */
  predicate Fits(f: Fold, p: Point)
  {
    Coord(f, p) > f.line ==> Coord(f, p) - f.line <= f.line
  }

  predicate AllFit(f: Fold, P: set<Point>)
  {
    forall p :: p in P ==> Fits(f, p)
  }

  /** `Fold::apply`: a point beyond the line moves to its mirror image; the other
      coordinate, and every point on or before the line, stay as they are. */
  function Apply(f: Fold, p: Point): (r: Point)
    requires Fits(f, p)
    ensures Coord(f, r) <= f.line || Coord(f, r) == Coord(f, p)
    ensures Coord(f, p) <= f.line ==> r == p
    ensures Coord(f, p) > f.line ==> Coord(f, r) < f.line && Coord(f, r) + Coord(f, p) == 2 * f.line
    ensures f.Y? ==> r.x == p.x
    ensures f.X? ==> r.y == p.y
  {
    match f
    case Y(y) => if p.y > y then Point(p.x, y - (p.y - y)) else p
    case X(x) => if p.x > x then Point(x - (p.x - x), p.y) else p
  }

  /** Folding a second time along the same line changes nothing. */
  lemma ApplyIdempotent(f: Fold, p: Point)
    requires Fits(f, p)
    ensures Fits(f, Apply(f, p)) && Apply(f, Apply(f, p)) == Apply(f, p)
  {
  }

  /** Two points land on the same spot exactly when they are equal or mirror images. */
  lemma ApplyMerges(f: Fold, p: Point, q: Point)
    requires Fits(f, p) && Fits(f, q)
    ensures Apply(f, p) == Apply(f, q) <==>
      (p == q || (Coord(f, p) + Coord(f, q) == 2 * f.line && (if f.Y? then p.x == q.x else p.y == q.y)))
  {
  }

  /** The dots after one fold. */
  function Image(f: Fold, P: set<Point>): set<Point>
    requires AllFit(f, P)
  {
    set p | p in P :: Apply(f, p)
  }

  lemma ImageAdd(f: Fold, P: set<Point>, p: Point)
    requires AllFit(f, P) && Fits(f, p)
    ensures AllFit(f, P + {p}) && Image(f, P + {p}) == Image(f, P) + {Apply(f, p)}
  {
  }

  /** Moving one more dot out of the undrained part `D` adds its image. */
  lemma DrainStep(f: Fold, P: set<Point>, D: set<Point>, p: Point)
    requires AllFit(f, P) && D <= P && p in D
    ensures Image(f, P - (D - {p})) == Image(f, P - D) + {Apply(f, p)}
  {
    assert P - (D - {p}) == (P - D) + {p};
    ImageAdd(f, P - D, p);
  }

  /** A fold never adds dots. */
  lemma {:induction false} ImageCard(f: Fold, P: set<Point>)
    requires AllFit(f, P)
    ensures |Image(f, P)| <= |P|
    decreases |P|
  {
    if P != {} {
      var p :| p in P;
      var Q := P - {p};
      ImageCard(f, Q);
      ImageAdd(f, Q, p);
      assert Q + {p} == P;
    }
  }

  /** After a fold every dot lies on or before the line. */
  lemma ImageWithin(f: Fold, P: set<Point>)
    requires AllFit(f, P)
    ensures forall q :: q in Image(f, P) ==> Coord(f, q) <= f.line
  {
  }

  /** The pending folds are a stack whose top (last element) is applied next.
      Every fold fits the dots it will be applied to. */
  ghost predicate Foldable(P: set<Point>, stack: seq<Fold>)
    decreases |stack|
  {
    |stack| == 0 ||
    (var f := stack[|stack| - 1];
     AllFit(f, P) && Foldable(Image(f, P), stack[..|stack| - 1]))
  }

  /** The dots once every pending fold is applied. */
  ghost function Folded(P: set<Point>, stack: seq<Fold>): set<Point>
    requires Foldable(P, stack)
    decreases |stack|
  {
    if |stack| == 0 then P
    else
      var f := stack[|stack| - 1];
      Folded(Image(f, P), stack[..|stack| - 1])
  }

  /** The dot counts after each pending fold, summed. */
  ghost function FoldSum(P: set<Point>, stack: seq<Fold>): nat
    requires Foldable(P, stack)
    decreases |stack|
  {
    if |stack| == 0 then 0
    else
      var f := stack[|stack| - 1];
      |Image(f, P)| + FoldSum(Image(f, P), stack[..|stack| - 1])
  }

  /** The same folds in the order they were written: first one first. */
  ghost predicate FoldableInOrder(P: set<Point>, folds: seq<Fold>)
    decreases |folds|
  {
    |folds| == 0 || (AllFit(folds[0], P) && FoldableInOrder(Image(folds[0], P), folds[1..]))
  }

  ghost function FoldedInOrder(P: set<Point>, folds: seq<Fold>): set<Point>
    requires FoldableInOrder(P, folds)
    decreases |folds|
  {
    if |folds| == 0 then P else FoldedInOrder(Image(folds[0], P), folds[1..])
  }

  function Reverse<T>(s: seq<T>): (r: seq<T>)
    ensures |r| == |s|
    ensures forall i :: 0 <= i < |s| ==> r[i] == s[|s| - 1 - i]
  {
    if |s| == 0 then [] else Reverse(s[1..]) + [s[0]]
  }

  /** A reversed list popped from its end yields the folds in the written order. */
  lemma {:induction false} ReversedStack(P: set<Point>, folds: seq<Fold>)
    ensures Foldable(P, Reverse(folds)) <==> FoldableInOrder(P, folds)
    ensures FoldableInOrder(P, folds) ==> Folded(P, Reverse(folds)) == FoldedInOrder(P, folds)
    decreases |folds|
  {
    if |folds| > 0 {
      var stack := Reverse(folds);
      assert stack[|stack| - 1] == folds[0];
      assert stack[..|stack| - 1] == Reverse(folds[1..]);
      if AllFit(folds[0], P) {
        ReversedStack(Image(folds[0], P), folds[1..]);
      }
    }
  }

  /** Each fold adds at most the number of dots there were at the start. */
  lemma {:induction false} FoldSumBound(P: set<Point>, stack: seq<Fold>)
    requires Foldable(P, stack)
    ensures FoldSum(P, stack) <= |stack| * |P|
    ensures |Folded(P, stack)| <= |P|
    decreases |stack|
  {
    if |stack| > 0 {
      var f := stack[|stack| - 1];
      var rest := stack[..|stack| - 1];
      var Q := Image(f, P);
      ImageCard(f, P);
      FoldSumBound(Q, rest);
      assert FoldSum(P, stack) == |Q| + FoldSum(Q, rest);
      assert Folded(P, stack) == Folded(Q, rest);
      MulStep(|rest|, |Q|, |P|);
    }
  }

  lemma MulStep(k: nat, a: nat, b: nat)
    requires a <= b
    ensures a + k * a <= (k + 1) * b
  {
    assert (k + 1) * b == b + k * b;
    assert k * a <= k * b;
  }

  /** `Input`: the pending folds (reversed, so the next one is last), the current
      dots, and a scratch set that is empty between folds. */
  class Input {
    var folds: seq<Fold>
    var from: set<Point>
    var to: set<Point>

    /** `From<(Vec<Point>, Vec<Fold>)>`: folds reversed, dots deduplicated. */
    constructor (points: seq<Point>, folds: seq<Fold>)
      ensures this.folds == Reverse(folds)
      ensures from == set p | p in points
      ensures to == {}
    {
      this.folds := Reverse(folds);
      from := {};
      to := {};
      new;
      for i := 0 to |points|
        invariant this.folds == Reverse(folds) && to == {}
        invariant from == set p | p in points[..i]
      {
        assert points[..i + 1] == points[..i] + [points[i]];
        from := from + {points[i]};
      }
      assert points[..|points|] == points;
    }

    /** `count_points`. */
    function CountPoints(): nat
      reads this
    {
      |from|
    }

    /** `fold`: with no fold pending, `None` and nothing changes; otherwise the top
        fold is popped, the dots are replaced by their image (the old set is drained
        into the scratch set, then the two are swapped) and the new count returned. */
    method Fold() returns (r: Option<nat>)
      requires to == {}
      requires |folds| > 0 ==> AllFit(folds[|folds| - 1], from)
      modifies this
      ensures to == {}
      ensures |old(folds)| == 0 ==> r == None && folds == old(folds) && from == old(from)
      ensures |old(folds)| > 0 ==>
        var f := old(folds)[|old(folds)| - 1];
        folds == old(folds)[..|old(folds)| - 1] && from == Image(f, old(from)) && r == Some(|from|)
    {
      if |folds| == 0 {
        return None;
      }
      var f := folds[|folds| - 1];
      folds := folds[..|folds| - 1];
      Drain(f);
      from, to := to, from;
      r := Some(CountPoints());
    }

    /** The loop of `fold`: every dot is taken out of `from` and its image put into `to`. */
    method Drain(f: Fold)
      requires to == {} && AllFit(f, from)
      modifies this
      ensures from == {} && to == Image(f, old(from)) && folds == old(folds)
    {
      ghost var P := from;
      while from != {}
        invariant from <= P && folds == old(folds)
        invariant to == Image(f, P - from)
        decreases |from|
      {
        var p :| p in from;
        DrainStep(f, P, from, p);
        from := from - {p};
        to := to + {Apply(f, p)};
      }
      assert P - from == P;
    }

    /** `fold_all`: folds until none is pending and sums the counts reported. */
    method FoldAll() returns (total: nat)
      requires to == {}
      requires Foldable(from, folds)
      modifies this
      ensures to == {} && folds == []
      ensures from == Folded(old(from), old(folds))
      ensures total == FoldSum(old(from), old(folds))
    {
      total := 0;
      while true
        invariant to == {}
        invariant Foldable(from, folds)
        invariant Folded(from, folds) == Folded(old(from), old(folds))
        invariant total + FoldSum(from, folds) == FoldSum(old(from), old(folds))
        decreases |folds|
      {
        var r := Fold();
        if r.None? {
          return;
        }
        total := total + r.value;
      }
    }
  }

  /** Part 1 of the puzzle: the dot count after the first written fold (the
      program unwraps the result, so a fold must be given). */
  method FirstFoldCount(points: seq<Point>, folds: seq<Fold>) returns (n: nat)
    requires |folds| > 0 && AllFit(folds[0], set p | p in points)
    ensures n == |Image(folds[0], set p | p in points)|
    ensures n <= |points|
  {
    var input := new Input(points, folds);
    var r := input.Fold();
    n := r.value;
    ImageCard(folds[0], set p | p in points);
    DistinctCard(points);
  }

  /** A list has at least as many entries as distinct values. */
  lemma {:induction false} DistinctCard(points: seq<Point>)
    ensures |set p | p in points| <= |points|
  {
    if |points| > 0 {
      var rest := points[..|points| - 1];
      DistinctCard(rest);
      assert (set p | p in points) == (set p | p in rest) + {points[|points| - 1]};
    }
  }
}

=== FILE: day14_polymer.dfy ===
/** Day 14: pair insertion on an explicit polymer. This is the reference
    the pair-count table is proved against: one step inserts, between every
    adjacent pair that has a rule, the rule's element. */
module Day14Polymer {

  type Byte = b: int | 0 <= b < 256

  type Pair = (Byte, Byte)

  /** The insertion rules, keyed by the pair they apply to. */
  type Rules = map<Pair, Byte>

  /** One insertion step. */
  function Insert(rules: Rules, s: seq<Byte>): (r: seq<Byte>)
    ensures |s| > 0 ==> |r| > 0 && r[0] == s[0]
    ensures |s| <= |r|
    decreases |s|
  {
    if |s| < 2 then s
    else
      var p := (s[0], s[1]);
      [s[0]] + (if p in rules then [rules[p]] else []) + Insert(rules, s[1..])
  }

  /** `n` insertion steps. */
  function InsertN(rules: Rules, s: seq<Byte>, n: nat): seq<Byte>
  {
    if n == 0 then s else Insert(rules, InsertN(rules, s, n - 1))
  }

  /** Occurrences of the adjacent pair `q`. */
  function PairCount(s: seq<Byte>, q: Pair): nat
    decreases |s|
  {
    if |s| < 2 then 0 else (if (s[0], s[1]) == q then 1 else 0) + PairCount(s[1..], q)
  }

  /** Occurrences of the element `b`. */
  function Occ(s: seq<Byte>, b: Byte): nat
  {
    multiset(s)[b]
  }

  /** How often the pair `q` is one of the two pairs made by inserting `b` into `p`. */
  function Produce(p: Pair, b: Byte, q: Pair): nat
  {
    (if q == (p.0, b) then 1 else 0) + (if q == (b, p.1) then 1 else 0)
  }

  /** Pairs `q` made by insertions into the adjacent pairs of `s` that belong to `D`. */
  function NewPairsFrom(rules: Rules, s: seq<Byte>, D: set<Pair>, q: Pair): nat
    decreases |s|
  {
    if |s| < 2 then 0
    else
      var p := (s[0], s[1]);
      (if p in D && p in rules then Produce(p, rules[p], q) else 0) + NewPairsFrom(rules, s[1..], D, q)
  }

  /** Elements `b` inserted into the adjacent pairs of `s` that belong to `D`. */
  function NewBytesFrom(rules: Rules, s: seq<Byte>, D: set<Pair>, b: Byte): nat
    decreases |s|
  {
    if |s| < 2 then 0
    else
      var p := (s[0], s[1]);
      (if p in D && p in rules && rules[p] == b then 1 else 0) + NewBytesFrom(rules, s[1..], D, b)
  }

  /** Adjacent pairs `q` of `s` that have no rule, so survive a step untouched. */
  function Kept(rules: Rules, s: seq<Byte>, q: Pair): nat
    decreases |s|
  {
    if |s| < 2 then 0
    else
      var p := (s[0], s[1]);
      (if p !in rules && p == q then 1 else 0) + Kept(rules, s[1..], q)
  }

  /** Every adjacent pair of `s` that has a rule belongs to `D`. */
  predicate CoversRuled(rules: Rules, s: seq<Byte>, D: set<Pair>)
  {
    forall i :: 0 <= i < |s| - 1 && (s[i], s[i + 1]) in rules ==> (s[i], s[i + 1]) in D
  }

  lemma PairCountCons(x: Byte, t: seq<Byte>, q: Pair)
    ensures PairCount([x] + t, q) == (if |t| > 0 && (x, t[0]) == q then 1 else 0) + PairCount(t, q)
  {
    assert ([x] + t)[1..] == t;
  }

  /** A pair at some position is counted. */
  lemma {:induction false} PairCountPositive(s: seq<Byte>, i: nat)
    requires i < |s| - 1
    ensures PairCount(s, (s[i], s[i + 1])) > 0
    decreases i
  {
    if i > 0 {
      PairCountPositive(s[1..], i - 1);
    }
  }

  lemma Distrib(a: nat, b: nat, x: nat)
    ensures (a + b) * x == a * x + b * x
  {
  }

  /** Counting one more pair `k` of the table adds its insertions. */
  lemma {:induction false} NewPairsAdd(rules: Rules, s: seq<Byte>, D: set<Pair>, k: Pair, q: Pair)
    requires k !in D
    ensures NewPairsFrom(rules, s, D + {k}, q) ==
      NewPairsFrom(rules, s, D, q) + (if k in rules then PairCount(s, k) * Produce(k, rules[k], q) else 0)
    decreases |s|
  {
    if |s| >= 2 {
      NewPairsAdd(rules, s[1..], D, k, q);
      if k in rules {
        Distrib(if (s[0], s[1]) == k then 1 else 0, PairCount(s[1..], k), Produce(k, rules[k], q));
      }
    }
  }

  lemma {:induction false} NewBytesAdd(rules: Rules, s: seq<Byte>, D: set<Pair>, k: Pair, b: Byte)
    requires k !in D
    ensures NewBytesFrom(rules, s, D + {k}, b) ==
      NewBytesFrom(rules, s, D, b) + (if k in rules && rules[k] == b then PairCount(s, k) else 0)
    decreases |s|
  {
    if |s| >= 2 {
      NewBytesAdd(rules, s[1..], D, k, b);
    }
  }

  /** No pair is counted when `D` is empty. */
  lemma {:induction false} NewPairsNone(rules: Rules, s: seq<Byte>, q: Pair)
    ensures NewPairsFrom(rules, s, {}, q) == 0
    decreases |s|
  {
    if |s| >= 2 {
      NewPairsNone(rules, s[1..], q);
    }
  }

  lemma {:induction false} NewBytesNone(rules: Rules, s: seq<Byte>, b: Byte)
    ensures NewBytesFrom(rules, s, {}, b) == 0
    decreases |s|
  {
    if |s| >= 2 {
      NewBytesNone(rules, s[1..], b);
    }
  }

  /** Once `D` holds every ruled pair of `s`, enlarging it changes nothing. */
  lemma {:induction false} NewPairsCovered(rules: Rules, s: seq<Byte>, D: set<Pair>, E: set<Pair>, q: Pair)
    requires CoversRuled(rules, s, D) && CoversRuled(rules, s, E)
    ensures NewPairsFrom(rules, s, D, q) == NewPairsFrom(rules, s, E, q)
    decreases |s|
  {
    if |s| >= 2 {
      assert (s[0], s[1]) in rules ==> (s[0], s[1]) in D && (s[0], s[1]) in E;
      NewPairsCovered(rules, s[1..], D, E, q);
    }
  }

  lemma {:induction false} NewBytesCovered(rules: Rules, s: seq<Byte>, D: set<Pair>, E: set<Pair>, b: Byte)
    requires CoversRuled(rules, s, D) && CoversRuled(rules, s, E)
    ensures NewBytesFrom(rules, s, D, b) == NewBytesFrom(rules, s, E, b)
    decreases |s|
  {
    if |s| >= 2 {
      assert (s[0], s[1]) in rules ==> (s[0], s[1]) in D && (s[0], s[1]) in E;
      NewBytesCovered(rules, s[1..], D, E, b);
    }
  }

  /** The pairs of a step's result: those made by insertions plus those that had no rule. */
  lemma {:induction false} InsertPairs(rules: Rules, s: seq<Byte>, q: Pair)
    ensures PairCount(Insert(rules, s), q) == NewPairsFrom(rules, s, rules.Keys, q) + Kept(rules, s, q)
    decreases |s|
  {
    if |s| >= 2 {
      var p := (s[0], s[1]);
      var t := Insert(rules, s[1..]);
      InsertPairs(rules, s[1..], q);
      assert t[0] == s[1];
      if p in rules {
        assert Insert(rules, s) == [s[0]] + ([rules[p]] + t);
        PairCountCons(s[0], [rules[p]] + t, q);
        PairCountCons(rules[p], t, q);
      } else {
        assert Insert(rules, s) == [s[0]] + t;
        PairCountCons(s[0], t, q);
      }
    }
  }

  /** A pair that has a rule never survives a step untouched. */
  lemma {:induction false} KeptRuled(rules: Rules, s: seq<Byte>, q: Pair)
    requires q in rules
    ensures Kept(rules, s, q) == 0
    decreases |s|
  {
    if |s| >= 2 {
      KeptRuled(rules, s[1..], q);
    }
  }

  /** The elements of a step's result: the old ones plus one per insertion. */
  lemma {:induction false} InsertOcc(rules: Rules, s: seq<Byte>, b: Byte)
    ensures Occ(Insert(rules, s), b) == Occ(s, b) + NewBytesFrom(rules, s, rules.Keys, b)
    decreases |s|
  {
    if |s| >= 2 {
      var p := (s[0], s[1]);
      var t := Insert(rules, s[1..]);
      var mid: seq<Byte> := if p in rules then [rules[p]] else [];
      InsertOcc(rules, s[1..], b);
      assert Insert(rules, s) == [s[0]] + mid + t;
      assert multiset(Insert(rules, s)) == multiset([s[0]]) + multiset(mid) + multiset(t);
      assert s == [s[0]] + s[1..];
      assert multiset(s) == multiset([s[0]]) + multiset(s[1..]);
    }
  }

  /** With a rule for every adjacent pair, a step turns `n` elements into `2n - 1`:
      the pair total doubles, and the element total grows by the old pair total. */
  lemma {:induction false} InsertLength(rules: Rules, s: seq<Byte>)
    requires |s| > 0
    requires forall i :: 0 <= i < |s| - 1 ==> (s[i], s[i + 1]) in rules
    ensures |Insert(rules, s)| == 2 * |s| - 1
    ensures |Insert(rules, s)| - 1 == 2 * (|s| - 1)
    decreases |s|
  {
    if |s| >= 2 {
      assert (s[0], s[1]) in rules;
      forall i | 0 <= i < |s[1..]| - 1
        ensures (s[1..][i], s[1..][i + 1]) in rules
      {
        assert (s[i + 1], s[i + 2]) in rules;
      }
      InsertLength(rules, s[1..]);
    }
  }

  /** Without rules a step changes nothing. */
  lemma {:induction false} InsertNoRules(s: seq<Byte>)
    ensures Insert(map[], s) == s
    decreases |s|
  {
    if |s| >= 2 {
      InsertNoRules(s[1..]);
      assert s == [s[0]] + s[1..];
    }
  }
}

=== FILE: day14_replacer.dfy ===
/** Day 14: the pair-count table. The polymer itself is never built; the
    replacer keeps how often each adjacent pair and each element occur, and
    one `apply` turns those counts into the counts of the next step. The
    polymer those counts describe is kept as a ghost field. */
module Day14Replacer {
  import opened Day14Polymer

  /** A count table; a missing key counts as zero (`entry().or_default()`). */
  function Get<K(!new)>(m: map<K, nat>, k: K): nat
  {
    if k in m then m[k] else 0
  }

  /** `*m.entry(k).or_default() += c`. */
  function Add<K(!new)>(m: map<K, nat>, k: K, c: nat): (r: map<K, nat>)
    ensures Get(r, k) == Get(m, k) + c
    ensures forall j :: j != k ==> Get(r, j) == Get(m, j)
    ensures r.Keys == m.Keys + {k}
  {
    m[k := Get(m, k) + c]
  }

  /** Every entry of a table counts at least one. */
  ghost predicate Positive<K(!new)>(m: map<K, nat>)
  {
    forall k :: k in m ==> m[k] > 0
  }

  /** `Replacer`: the rules, the element counts, the pair counts and a scratch table. */
  class Replacer {
    const rules: Rules
    var frequencies: map<Byte, nat>
    var from: map<Pair, nat>
    var to: map<Pair, nat>
    /** The polymer the tables describe. */
    ghost var polymer: seq<Byte>

    /** Between calls the scratch table is empty; every pair with a rule is counted
        exactly; every element is counted exactly; no entry is zero. */
    ghost predicate Valid()
      reads this
    {
      to == map[] &&
      (forall q :: q in rules ==> Get(from, q) == PairCount(polymer, q)) &&
      (forall b :: Get(frequencies, b) == Occ(polymer, b)) &&
      Positive(from) && Positive(frequencies)
    }

    /** `Replacer::new`: counts every adjacent pair and every element of the polymer. */
    constructor (polymer: seq<Byte>, rules: Rules)
      ensures Valid() && this.polymer == polymer && this.rules == rules
      ensures forall q :: Get(from, q) == PairCount(polymer, q)
    {
      this.rules := rules;
      this.polymer := polymer;
      to := map[];
      new;
      from := CountPairs(polymer);
      frequencies := CountBytes(polymer);
    }

    /** `apply`: one insertion step. Afterwards the pair table holds exactly the pairs
        made by insertions, so a pair without a rule is dropped rather than carried
        over; the element counts grow by one per insertion. */
    method Apply()
      requires Valid()
      modifies this
      ensures Valid()
      ensures polymer == Insert(rules, old(polymer))
      ensures forall q :: Get(from, q) == NewPairsFrom(rules, old(polymer), rules.Keys, q)
    {
      ghost var s := polymer;
      ghost var P := from;
      Drain(s);
      from, to := to, from;
      polymer := Insert(rules, s);
      assert CoversRuled(rules, s, P.Keys) by {
        forall i | 0 <= i < |s| - 1 && (s[i], s[i + 1]) in rules
          ensures (s[i], s[i + 1]) in P
        {
          PairCountPositive(s, i);
        }
      }
      assert CoversRuled(rules, s, rules.Keys);
      forall q
        ensures Get(from, q) == NewPairsFrom(rules, s, rules.Keys, q)
        ensures q in rules ==> Get(from, q) == PairCount(polymer, q)
      {
        NewPairsCovered(rules, s, P.Keys, rules.Keys, q);
        InsertPairs(rules, s, q);
        if q in rules {
          KeptRuled(rules, s, q);
        }
      }
      forall b
        ensures Get(frequencies, b) == Occ(polymer, b)
      {
        NewBytesCovered(rules, s, P.Keys, rules.Keys, b);
        InsertOcc(rules, s, b);
      }
    }

    /** The loop of `apply`: every entry is drained from the pair table; one with a
        rule adds its count to the two pairs it makes and to the inserted element. */
    method Drain(ghost s: seq<Byte>)
      requires to == map[] && Positive(from) && Positive(frequencies)
      requires forall q :: q in rules ==> Get(from, q) == PairCount(s, q)
      requires forall b :: Get(frequencies, b) == Occ(s, b)
      modifies this
      ensures from == map[] && Positive(to) && Positive(frequencies)
      ensures polymer == old(polymer)
      ensures forall q :: Get(to, q) == NewPairsFrom(rules, s, old(from).Keys, q)
      ensures forall b :: Get(frequencies, b) == Occ(s, b) + NewBytesFrom(rules, s, old(from).Keys, b)
    {
      ghost var P := from;
      forall q
        ensures NewPairsFrom(rules, s, {}, q) == 0
      {
        NewPairsNone(rules, s, q);
      }
      forall b
        ensures NewBytesFrom(rules, s, {}, b) == 0
      {
        NewBytesNone(rules, s, b);
      }
      assert P.Keys - from.Keys == {};
      while from != map[]
        invariant polymer == old(polymer)
        invariant from.Keys <= P.Keys && forall k :: k in from ==> from[k] == P[k]
        invariant Positive(to) && Positive(frequencies)
        invariant forall q :: Get(to, q) == NewPairsFrom(rules, s, P.Keys - from.Keys, q)
        invariant forall b :: Get(frequencies, b) == Occ(s, b) + NewBytesFrom(rules, s, P.Keys - from.Keys, b)
        decreases |from|
      {
        var k :| k in from;
        DrainEntry(s, P, k);
      }
      assert P.Keys - from.Keys == P.Keys;
    }

    /** One entry `k` of the pair table taken out and accounted for. */
    method DrainEntry(ghost s: seq<Byte>, ghost P: map<Pair, nat>, k: Pair)
      requires k in from && from.Keys <= P.Keys && forall j :: j in from ==> from[j] == P[j]
      requires Positive(P) && Positive(to) && Positive(frequencies)
      requires forall q :: q in rules ==> Get(P, q) == PairCount(s, q)
      requires forall q :: Get(to, q) == NewPairsFrom(rules, s, P.Keys - from.Keys, q)
      requires forall b :: Get(frequencies, b) == Occ(s, b) + NewBytesFrom(rules, s, P.Keys - from.Keys, b)
      modifies this
      ensures from == old(from) - {k} && polymer == old(polymer)
      ensures Positive(to) && Positive(frequencies)
      ensures forall q :: Get(to, q) == NewPairsFrom(rules, s, P.Keys - from.Keys, q)
      ensures forall b :: Get(frequencies, b) == Occ(s, b) + NewBytesFrom(rules, s, P.Keys - from.Keys, b)
    {
      ghost var D := P.Keys - from.Keys;
      var c := from[k];
      from := from - {k};
      assert P.Keys - from.Keys == D + {k};
      AccountPairs(rules, s, D, k, c, to);
      AccountBytes(rules, s, D, k, c, frequencies);
      ghost var to' := AfterPairs(rules, k, c, to);
      ghost var frequencies' := AfterBytes(rules, k, c, frequencies);
      if k in rules {
        var b := rules[k];
        to := Add(to, (k.0, b), c);
        to := Add(to, (b, k.1), c);
        frequencies := Add(frequencies, b, c);
      }
      assert to == to' && frequencies == frequencies';
    }

    /** `apply_n`: `n` insertion steps. */
    method ApplyN(n: nat)
      requires Valid()
      modifies this
      ensures Valid() && polymer == InsertN(rules, old(polymer), n)
    {
      for i := 0 to n
        invariant Valid() && polymer == InsertN(rules, old(polymer), i)
      {
        Apply();
      }
    }

    /** `frequency_diff`: the count of the most common element minus that of the
        least common; there must be at least one element. */
    method FrequencyDiff() returns (r: nat)
      requires Valid() && frequencies != map[]
      ensures Spread(polymer, r)
    {
      var max := MaxCount(frequencies);
      var min := MinCount(frequencies);
      r := max - min;
      var a :| a in frequencies && frequencies[a] == max;
      var b :| b in frequencies && frequencies[b] == min;
      assert Get(frequencies, a) == max && Get(frequencies, b) == min;
      forall c | c in polymer
        ensures Occ(polymer, b) <= Occ(polymer, c) <= Occ(polymer, a)
      {
        assert Get(frequencies, c) == Occ(polymer, c) > 0;
      }
    }
  }

  /** `r` is the count of some most common element of `s` minus that of some least common one. */
  ghost predicate Spread(s: seq<Byte>, r: nat)
  {
    exists a, b ::
      a in s && b in s && r == Occ(s, a) - Occ(s, b) &&
      (forall c :: c in s ==> Occ(s, b) <= Occ(s, c) <= Occ(s, a))
  }

  /** The pair half of `new`: one entry per distinct adjacent pair, counting its occurrences. */
  method CountPairs(polymer: seq<Byte>) returns (pairs: map<Pair, nat>)
    ensures Positive(pairs)
    ensures forall q :: Get(pairs, q) == PairCount(polymer, q)
  {
    pairs := map[];
    if |polymer| >= 2 {
      for i := 1 to |polymer|
        invariant Positive(pairs)
        invariant forall q :: Get(pairs, q) == PairCount(polymer[..i], q)
      {
        PairCountSnoc(polymer, i);
        pairs := Add(pairs, (polymer[i - 1], polymer[i]), 1);
      }
      assert polymer[..|polymer|] == polymer;
    }
  }

  /** The element half of `new`: one entry per distinct element, counting its occurrences. */
  method CountBytes(polymer: seq<Byte>) returns (counts: map<Byte, nat>)
    ensures Positive(counts)
    ensures forall b :: Get(counts, b) == Occ(polymer, b)
  {
    counts := map[];
    for i := 0 to |polymer|
      invariant Positive(counts)
      invariant forall b :: Get(counts, b) == Occ(polymer[..i], b)
    {
      assert polymer[..i + 1] == polymer[..i] + [polymer[i]];
      counts := Add(counts, polymer[i], 1);
    }
    assert polymer[..|polymer|] == polymer;
  }

  /** The new pair table once entry `k` (count `c`) is accounted for. */
  function AfterPairs(rules: Rules, k: Pair, c: nat, to: map<Pair, nat>): map<Pair, nat>
  {
    if k in rules then Add(Add(to, (k.0, rules[k]), c), (rules[k], k.1), c) else to
  }

  /** The element counts once entry `k` (count `c`) is accounted for. */
  function AfterBytes(rules: Rules, k: Pair, c: nat, freq: map<Byte, nat>): map<Byte, nat>
  {
    if k in rules then Add(freq, rules[k], c) else freq
  }

  lemma MulProduce(c: nat, p: Pair, b: Byte, q: Pair)
    ensures c * Produce(p, b, q) == (if q == (p.0, b) then c else 0) + (if q == (b, p.1) then c else 0)
  {
  }

  /** Accounting for one more entry of the pair table counts the pairs its insertions make. */
  lemma AccountPairs(rules: Rules, s: seq<Byte>, D: set<Pair>, k: Pair, c: nat, to: map<Pair, nat>)
    requires k !in D && c > 0 && (k in rules ==> c == PairCount(s, k))
    requires Positive(to) && forall q :: Get(to, q) == NewPairsFrom(rules, s, D, q)
    ensures Positive(AfterPairs(rules, k, c, to))
    ensures forall q :: Get(AfterPairs(rules, k, c, to), q) == NewPairsFrom(rules, s, D + {k}, q)
  {
    forall q
      ensures Get(AfterPairs(rules, k, c, to), q) == NewPairsFrom(rules, s, D + {k}, q)
    {
      NewPairsAdd(rules, s, D, k, q);
      if k in rules {
        MulProduce(c, k, rules[k], q);
      }
    }
  }

  /** Accounting for one more entry of the pair table counts the elements it inserts. */
  lemma AccountBytes(rules: Rules, s: seq<Byte>, D: set<Pair>, k: Pair, c: nat, freq: map<Byte, nat>)
    requires k !in D && c > 0 && (k in rules ==> c == PairCount(s, k))
    requires Positive(freq) && forall b :: Get(freq, b) == Occ(s, b) + NewBytesFrom(rules, s, D, b)
    ensures Positive(AfterBytes(rules, k, c, freq))
    ensures forall b :: Get(AfterBytes(rules, k, c, freq), b) == Occ(s, b) + NewBytesFrom(rules, s, D + {k}, b)
  {
    forall b
      ensures Get(AfterBytes(rules, k, c, freq), b) == Occ(s, b) + NewBytesFrom(rules, s, D + {k}, b)
    {
      NewBytesAdd(rules, s, D, k, b);
    }
  }

  /** `values().max()` of a non-empty table. */
  method MaxCount<K(!new)>(m: map<K, nat>) returns (v: nat)
    requires m != map[]
    ensures exists k :: k in m && m[k] == v
    ensures forall k :: k in m ==> m[k] <= v
  {
    var left := m.Keys;
    var first :| first in left;
    v := m[first];
    left := left - {first};
    while left != {}
      invariant left <= m.Keys
      invariant exists k :: k in m && m[k] == v
      invariant forall k :: k in m && k !in left ==> m[k] <= v
      decreases |left|
    {
      var k :| k in left;
      if m[k] > v {
        v := m[k];
      }
      left := left - {k};
    }
  }

  /** `values().min()` of a non-empty table. */
  method MinCount<K(!new)>(m: map<K, nat>) returns (v: nat)
    requires m != map[]
    ensures exists k :: k in m && m[k] == v
    ensures forall k :: k in m ==> v <= m[k]
  {
    var left := m.Keys;
    var first :| first in left;
    v := m[first];
    left := left - {first};
    while left != {}
      invariant left <= m.Keys
      invariant exists k :: k in m && m[k] == v
      invariant forall k :: k in m && k !in left ==> v <= m[k]
      decreases |left|
    {
      var k :| k in left;
      if m[k] < v {
        v := m[k];
      }
      left := left - {k};
    }
  }

  /** Counting pairs of a prefix one element longer adds its last pair. */
  lemma {:induction false} PairCountSnoc(s: seq<Byte>, j: nat)
    requires 1 <= j < |s|
    ensures forall q :: PairCount(s[..j + 1], q) == PairCount(s[..j], q) + (if (s[j - 1], s[j]) == q then 1 else 0)
    decreases j
  {
    forall q
      ensures PairCount(s[..j + 1], q) == PairCount(s[..j], q) + (if (s[j - 1], s[j]) == q then 1 else 0)
    {
      if j >= 2 {
        PairCountSnoc(s[1..], j - 1);
        assert s[1..][..j] == s[..j + 1][1..];
        assert s[1..][..j - 1] == s[..j][1..];
      }
    }
  }
}

=== FILE: day15_astar.dfy ===
/** Day 15, generic revision: A* over any grid strategy, driving a `Search`.
    The end is the strategy's bottom-right position; the neighbours of a position
    are those inside the strategy's bounds; entering a neighbour costs what the
    strategy says. */
module Day15AStar {
  import opened Wrappers
  import opened Day15Grid
  import opened Day15Search
  import opened Day15Walks

  /** The search problem a strategy poses on a grid: its bounds, and its cost
      wherever the strategy defines one. */
  function ProblemOf(s: Strategy, grid: Grid): (pr: Problem)
    requires |grid| > 0
    ensures pr.bounds == Bounds(s, grid)
    ensures HasEnd(s, grid) ==> WellFormed(pr) && Goal(pr) == End(s, grid)
    ensures forall p :: CostDefined(s, p, grid) ==> pr.cost(p) == Cost(s, p, grid)
  {
    Problem(Bounds(s, grid), p => if CostDefined(s, p, grid) then Cost(s, p, grid) else 0)
  }

  /** `neighbors::<P>`: the neighbours of `p` inside the strategy's bounds. */
  function StrategyNeighbors(s: Strategy, p: Position, grid: Grid): (r: seq<Position>)
    requires |grid| > 0
    ensures forall q :: q in r ==> Distance(p, q) == 1
    ensures InBounds(p, Bounds(s, grid)) ==> forall q :: q in r ==> InBounds(q, Bounds(s, grid))
    ensures InBounds(p, Bounds(s, grid)) ==>
      forall q :: InBounds(q, Bounds(s, grid)) && Distance(p, q) == 1 ==> q in r
  {
    Neighbors(p, Bounds(s, grid))
  }

  /** `a_star::<P>`: pops positions cheapest-first; the first time the end is popped
      its recorded cost is the answer; otherwise every neighbour is visited at the
      popped position's cost plus its own. `None` once the queue runs dry.
      The answer is the risk of a walk to the end; when every cost is at least 1 no
      walk to the end is cheaper; `None` means no walk reaches the end. */
  method AStar(s: Strategy, grid: Grid) returns (r: Option<nat>)
    requires Traversable(s, grid)
    ensures r.Some? ==> exists w :: WalkTo(ProblemOf(s, grid), w, End(s, grid)) && WalkCost(ProblemOf(s, grid), w) == r.value
    ensures r.Some? && Positive(ProblemOf(s, grid)) ==>
      forall w :: WalkTo(ProblemOf(s, grid), w, End(s, grid)) ==> r.value <= WalkCost(ProblemOf(s, grid), w)
    ensures r.None? ==> forall w :: !WalkTo(ProblemOf(s, grid), w, End(s, grid))
    ensures End(s, grid) == ZERO ==> r == Some(0)
  {
    var e := End(s, grid);
    var pr := ProblemOf(s, grid);
    var search := new Search.Start(e);
    ghost var paths := map[ZERO := [ZERO]];
    InitInv(pr);
    while true
      invariant search.end == e
      invariant Inv(pr, search.costs, search.queue, paths)
      decreases Unseen(pr, search.costs), Below(search.costs), |search.queue|
    {
      ghost var c0, q0 := search.costs, search.queue;
      var current, priority := search.Next();
      if current.None? {
        forall w
          ensures !WalkTo(pr, w, e)
        {
          Unreachable(pr, c0, paths, w);
        }
        assert Path(pr, [ZERO]);
        return None;
      }
      var p := current.value;
      ghost var n0 := Node(p, priority);
      var currentCost := search.Cost(p);
      if search.IsDone(p) {
        GreatestIsCheapest(n0, q0);
        forall w | Positive(pr) && WalkTo(pr, w, e)
          ensures currentCost <= WalkCost(pr, w)
        {
          GoalOptimal(pr, c0, q0, paths, n0, w);
        }
        assert WalkTo(pr, paths[e], e) && WalkCost(pr, paths[e]) == currentCost;
        return Some(currentCost);
      }
      PopInv(pr, c0, q0, paths, n0);
      paths := Expand(search, pr, p, currentCost, paths);
      if search.costs != c0 {
        Progress(pr, c0, search.costs);
      }
    }
  }

  /** The body of the `for` loop over the neighbours of the popped `p`. */
  method Expand(search: Search, pr: Problem, p: Position, currentCost: nat,
                ghost paths: map<Position, seq<Position>>)
    returns (ghost paths1: map<Position, seq<Position>>)
    requires WellFormed(pr) && search.end == Goal(pr)
    requires Relaxing(pr, search.costs, search.queue, paths, p, [], 0) && search.costs[p] == currentCost
    modifies search
    ensures Inv(pr, search.costs, search.queue, paths1)
    ensures NoIncrease(old(search.costs), search.costs)
    ensures search.costs == old(search.costs) ==> search.queue == old(search.queue)
  {
    var neighbors := Neighbors(p, pr.bounds);
    paths1 := paths;
    assert Relaxing(pr, search.costs, search.queue, paths1, p, neighbors, 0);
    for i := 0 to |neighbors|
      invariant search.end == Goal(pr)
      invariant Relaxing(pr, search.costs, search.queue, paths1, p, neighbors, i)
      invariant NoIncrease(old(search.costs), search.costs) && search.costs[p] == currentCost
      invariant search.costs == old(search.costs) ==> search.queue == old(search.queue)
    {
      paths1 := VisitNeighbor(search, pr, p, currentCost, neighbors, i, paths1, old(search.costs), old(search.queue));
    }
    CloseInv(pr, search.costs, search.queue, paths1, p, neighbors, |neighbors|);
  }

  /** `search.visit(neighbor, current_cost + P::cost(neighbor))` for the `k`-th neighbour.
      `c0` and `q0` are the costs and queue before the first neighbour was visited. */
  method VisitNeighbor(search: Search, pr: Problem, p: Position, currentCost: nat, ns: seq<Position>, k: nat,
                       ghost paths: map<Position, seq<Position>>,
                       ghost c0: map<Position, nat>, ghost q0: multiset<Node>)
    returns (ghost paths1: map<Position, seq<Position>>)
    requires WellFormed(pr) && search.end == Goal(pr)
    requires Relaxing(pr, search.costs, search.queue, paths, p, ns, k) && search.costs[p] == currentCost
    requires k < |ns| && InBounds(ns[k], pr.bounds) && Distance(p, ns[k]) == 1
    requires NoIncrease(c0, search.costs) && (search.costs == c0 ==> search.queue == q0)
    modifies search
    ensures Relaxing(pr, search.costs, search.queue, paths1, p, ns, k + 1)
    ensures NoIncrease(c0, search.costs) && search.costs[p] == currentCost
    ensures search.costs == c0 ==> search.queue == q0
  {
    var m := ns[k];
    DistanceSymmetric(p, m);
    ghost var c, q := search.costs, search.queue;
    var cost := currentCost + pr.cost(m);
    ghost var update := search.ShouldUpdatePosition(m, cost);
    search.Visit(m, cost);
    if update {
      assert search.costs == c[m := cost];
      assert search.queue == q + multiset{Node(m, cost + H(pr, m))};
      VisitUpdate(pr, c, q, paths, p, ns, k, m, cost);
      paths1 := paths[m := paths[p] + [m]];
      NoIncreaseTrans(c0, c, search.costs);
      assert m !in c0 || search.costs[m] < c0[m];
    } else {
      VisitSkip(pr, c, q, paths, p, ns, k, m);
      paths1 := paths;
    }
  }
}

=== FILE: day15_grid.dfy ===
/** Day 15: positions on the risk grid, and the grid strategies that say how
    large the grid is and what entering a cell costs. `Base` reads the grid
    as it is; `Multiplier(P, M)` tiles it `M` times in each direction, each
    tile to the right or below costing one more, wrapping from 9 back to 1. */
module Day15Grid {
  import opened Wrappers

  /** `Position`: unsigned coordinates. */
  datatype Position = Position(x: nat, y: nat)

  const ZERO := Position(0, 0)

  /** The grid: rows of cell costs. */
  type Grid = seq<seq<nat>>

  function Diff(a: nat, b: nat): nat
  {
    if a < b then b - a else a - b
  }

  /** `distance`: the Manhattan distance, written as `max - min` per axis. */
  function Distance(a: Position, b: Position): (r: nat)
    ensures r == Diff(a.x, b.x) + Diff(a.y, b.y)
  {
    var mx := if a.x < b.x then b.x else a.x;
    var nx := if a.x < b.x then a.x else b.x;
    var my := if a.y < b.y then b.y else a.y;
    var ny := if a.y < b.y then a.y else b.y;
    (mx - nx) + (my - ny)
  }

  /** The distance is symmetric and zero exactly between equal positions. */
  lemma DistanceSymmetric(a: Position, b: Position)
    ensures Distance(a, b) == Distance(b, a)
    ensures Distance(a, b) == 0 <==> a == b
  {
  }

  /** The triangle inequality. */
  lemma DistanceTriangle(a: Position, b: Position, c: Position)
    ensures Distance(a, c) <= Distance(a, b) + Distance(b, c)
  {
  }

  /** `p` lies inside a grid of size `bounds`. */
  predicate InBounds(p: Position, bounds: Position)
  {
    p.x < bounds.x && p.y < bounds.y
  }

  /** `lookup`: the cell at `p`, or `None` outside the rows or outside the row. */
  function Lookup(grid: Grid, p: Position): (r: Option<nat>)
    ensures r.Some? <==> p.y < |grid| && p.x < |grid[p.y]|
    ensures r.Some? ==> r.value == grid[p.y][p.x]
  {
    if p.y < |grid| && p.x < |grid[p.y]| then Some(grid[p.y][p.x]) else None
  }

  /** `neighbors`: left, up, right, down, where they exist; left and up only need
      the coordinate to be positive, right and down must stay below the bounds. */
  function Neighbors(p: Position, bounds: Position): (r: seq<Position>)
    ensures |r| <= 4
    ensures forall q :: q in r ==> Distance(p, q) == 1
    ensures forall q :: q in r ==> InBounds(q, bounds) || !InBounds(p, bounds)
    ensures InBounds(p, bounds) ==> forall q :: Distance(p, q) == 1 && InBounds(q, bounds) ==> q in r
  {
    (if p.x >= 1 then [Position(p.x - 1, p.y)] else []) +
    (if p.y >= 1 then [Position(p.x, p.y - 1)] else []) +
    (if p.x + 1 < bounds.x then [Position(p.x + 1, p.y)] else []) +
    (if p.y + 1 < bounds.y then [Position(p.x, p.y + 1)] else [])
  }

  /** `Sub<usize>`: subtracts from both coordinates (which must not underflow). */
  function Sub(p: Position, k: nat): (r: Position)
    requires k <= p.x && k <= p.y
    ensures r.x + k == p.x && r.y + k == p.y
  {
    Position(p.x - k, p.y - k)
  }

  /** `Mul<usize>`: scales both coordinates. */
  function Mul(p: Position, k: nat): (r: Position)
    ensures r.x == p.x * k && r.y == p.y * k
  {
    Position(p.x * k, p.y * k)
  }

  /** Inside `bounds * m` exactly when the tile index is below `m` on both axes. */
  lemma MulBounds(q: Position, bounds: Position, m: nat)
    requires bounds.x > 0 && bounds.y > 0
    ensures InBounds(q, Mul(bounds, m)) <==> q.x / bounds.x < m && q.y / bounds.y < m
  {
    DivBelow(q.x, bounds.x, m);
    DivBelow(q.y, bounds.y, m);
  }

  lemma DivBelow(a: nat, b: nat, m: nat)
    requires b > 0
    ensures a < b * m <==> a / b < m
  {
    var d, r := a / b, a % b;
    assert a == b * d + r;
    if d < m {
      assert b * d + b <= b * m by { MulLe(b, d + 1, m); }
    } else {
      assert b * m <= b * d by { MulLe(b, m, d); }
    }
  }

  lemma MulLe(b: nat, i: nat, j: nat)
    requires i <= j
    ensures b * i <= b * j
  {
  }

  /** A `GridStrategy`: the plain grid, or `M` by `M` tiles of an inner strategy. */
  datatype Strategy = Base | Multiplier(inner: Strategy, m: nat)

  /** `Position::bounds` and the default `GridStrategy::bounds`: the first row's
      length by the number of rows; there must be a row. */
  function BaseBounds(grid: Grid): (r: Position)
    requires |grid| > 0
    ensures r.x == |grid[0]| && r.y == |grid|
  {
    Position(|grid[0]|, |grid|)
  }

  /** `bounds` of a strategy; the multiplier scales the plain grid's bounds. */
  function Bounds(s: Strategy, grid: Grid): Position
    requires |grid| > 0
  {
    match s
    case Base => BaseBounds(grid)
    case Multiplier(_, m) => Mul(BaseBounds(grid), m)
  }

  /** The bounds are at least one by one, so `end` does not underflow. */
  predicate HasEnd(s: Strategy, grid: Grid)
  {
    |grid| > 0 && Bounds(s, grid).x >= 1 && Bounds(s, grid).y >= 1
  }

  /** `end`: the bottom-right position. */
  function End(s: Strategy, grid: Grid): (r: Position)
    requires HasEnd(s, grid)
    ensures InBounds(r, Bounds(s, grid))
    ensures r.x + 1 == Bounds(s, grid).x && r.y + 1 == Bounds(s, grid).y
  {
    var b := Bounds(s, grid);
    Position(b.x - 1, b.y - 1)
  }

  /** Which tile, along one axis of width `w`, the coordinate `a` falls in. */
  function TileIndex(a: nat, w: nat): nat
    requires w > 0
  {
    a / w
  }

  /** Where inside its tile the coordinate `a` falls. */
  function TileOffset(a: nat, w: nat): (r: nat)
    requires w > 0
    ensures r < w
  {
    a % w
  }

  /** The spot of the first tile matching `p`, for tiles of size `e + (1, 1)`. */
  function InnerSpot(p: Position, e: Position): Position
  {
    Position(TileOffset(p.x, e.x + 1), TileOffset(p.y, e.y + 1))
  }

  /** How many tiles right and down `p` lies, for tiles of size `e + (1, 1)`. */
  function TileSum(p: Position, e: Position): nat
  {
    TileIndex(p.x, e.x + 1) + TileIndex(p.y, e.y + 1)
  }

  /** The wrap into 1..=9: `((k - 1) % 9) + 1`. */
  function Wrap(k: nat): (r: nat)
    requires k >= 1
    ensures 1 <= r <= 9
  {
    ((k - 1) % 9) + 1
  }

  /** `cost` does not panic at `p`: the plain grid has the cell, and a multiplier's
      inner strategy has its cell and the wrap's `- 1` does not underflow. */
  predicate CostDefined(s: Strategy, p: Position, grid: Grid)
    decreases s, 0
  {
    match s
    case Base => p.y < |grid| && p.x < |grid[p.y]|
    case Multiplier(inner, _) =>
      HasEnd(inner, grid) &&
      var e := End(inner, grid);
      CostDefined(inner, InnerSpot(p, e), grid) &&
      Cost(inner, InnerSpot(p, e), grid) + TileSum(p, e) >= 1
  }

  /** `cost`: `Base` reads the cell; `Multiplier` reads the inner cost at the same spot
      of the first tile and adds the tile offsets, wrapping into 1..=9. */
  function Cost(s: Strategy, p: Position, grid: Grid): (r: nat)
    requires CostDefined(s, p, grid)
    ensures s.Base? ==> Lookup(grid, p) == Some(r)
    ensures s.Multiplier? ==> 1 <= r <= 9
    decreases s, 1
  {
    match s
    case Base => grid[p.y][p.x]
    case Multiplier(inner, _) =>
      var e := End(inner, grid);
      Wrap(Cost(inner, InnerSpot(p, e), grid) + TileSum(p, e))
  }

  /** On the first tile a multiplier costs what its inner strategy costs, when that is 1..=9. */
  lemma MultiplierFirstTile(inner: Strategy, m: nat, p: Position, grid: Grid)
    requires HasEnd(inner, grid) && p.x <= End(inner, grid).x && p.y <= End(inner, grid).y
    requires CostDefined(inner, p, grid) && 1 <= Cost(inner, p, grid) <= 9
    ensures CostDefined(Multiplier(inner, m), p, grid)
    ensures Cost(Multiplier(inner, m), p, grid) == Cost(inner, p, grid)
  {
    var e := End(inner, grid);
    DivModUnique(p.x, e.x + 1, 0, p.x);
    DivModUnique(p.y, e.y + 1, 0, p.y);
    assert InnerSpot(p, e) == p && TileSum(p, e) == 0;
  }

  /** One tile further right costs one more, wrapping from 9 back to 1. */
  lemma MultiplierNextTile(inner: Strategy, m: nat, p: Position, grid: Grid)
    requires CostDefined(Multiplier(inner, m), p, grid)
    ensures var q := Position(p.x + End(inner, grid).x + 1, p.y);
      CostDefined(Multiplier(inner, m), q, grid) &&
      Cost(Multiplier(inner, m), q, grid) == (if Cost(Multiplier(inner, m), p, grid) == 9 then 1 else Cost(Multiplier(inner, m), p, grid) + 1)
  {
    var e := End(inner, grid);
    var q := Position(p.x + e.x + 1, p.y);
    var k := Cost(inner, InnerSpot(p, e), grid) + TileSum(p, e);
    ShiftDivMod(p.x, e.x + 1);
    assert InnerSpot(q, e) == InnerSpot(p, e) && TileSum(q, e) == TileSum(p, e) + 1;
    assert CostDefined(Multiplier(inner, m), q, grid);
    assert Cost(Multiplier(inner, m), p, grid) == Wrap(k);
    assert Cost(Multiplier(inner, m), q, grid) == Wrap(k + 1);
    WrapNext(k);
  }

  lemma ShiftDivMod(a: nat, w: nat)
    requires w > 0
    ensures TileOffset(a + w, w) == TileOffset(a, w) && TileIndex(a + w, w) == TileIndex(a, w) + 1
  {
    var d, r := a / w, a % w;
    assert a + w == w * (d + 1) + r;
    DivModUnique(a + w, w, d + 1, r);
  }

  lemma DivModUnique(a: nat, w: nat, d: nat, r: nat)
    requires w > 0 && r < w && a == w * d + r
    ensures TileIndex(a, w) == d && TileOffset(a, w) == r
  {
    var d', r' := a / w, a % w;
    assert w * d + r == w * d' + r';
    if d < d' {
      assert w * d' >= w * (d + 1) by { MulLe(w, d + 1, d'); }
    } else if d' < d {
      assert w * d >= w * (d' + 1) by { MulLe(w, d' + 1, d); }
    }
  }

  /** The 1..=9 wrap of `k + 1` follows the wrap of `k`. */
  lemma WrapNext(k: nat)
    requires k >= 1
    ensures Wrap(k + 1) == if Wrap(k) == 9 then 1 else Wrap(k) + 1
  {
  }

  /** Every cell of the grid lies in `lo..=9` and every row is as long as the first. */
  predicate Rect(grid: Grid, lo: nat)
  {
    |grid| > 0 && |grid[0]| > 0 &&
    forall y :: 0 <= y < |grid| ==> |grid[y]| == |grid[0]| && forall x :: 0 <= x < |grid[y]| ==> lo <= grid[y][x] <= 9
  }

  /** Every position inside the bounds has a cost. */
  ghost predicate Traversable(s: Strategy, grid: Grid)
  {
    HasEnd(s, grid) && forall p :: InBounds(p, Bounds(s, grid)) ==> CostDefined(s, p, grid)
  }

  /** The plain grid can be walked when it is rectangular. */
  lemma BaseTraversable(grid: Grid, lo: nat)
    requires Rect(grid, lo)
    ensures Traversable(Base, grid)
  {
  }

  lemma TileCell(grid: Grid, m: nat, p: Position)
    requires Rect(grid, 1) && m >= 1
    ensures CostDefined(Multiplier(Base, m), p, grid)
  {
    var e := End(Base, grid);
    var ip := InnerSpot(p, e);
    assert e.x + 1 == |grid[0]| && e.y + 1 == |grid|;
    RectCell(grid, 1, ip.y, ip.x);
    assert CostDefined(Base, ip, grid) && Cost(Base, ip, grid) >= 1;
  }

  lemma RectCell(grid: Grid, lo: nat, y: nat, x: nat)
    requires Rect(grid, lo) && y < |grid| && x < |grid[0]|
    ensures x < |grid[y]| && lo <= grid[y][x] <= 9
  {
  }

  /** The tiled grid over a rectangular grid of 1..=9 can be walked, at cost 1..=9 everywhere. */
  lemma MultiplierTraversable(grid: Grid, m: nat)
    requires Rect(grid, 1) && m >= 1
    ensures Traversable(Multiplier(Base, m), grid)
  {
    var b := BaseBounds(grid);
    assert Bounds(Multiplier(Base, m), grid) == Mul(b, m);
    MulLe(b.x, 1, m);
    MulLe(b.y, 1, m);
    forall p | InBounds(p, Mul(b, m))
      ensures CostDefined(Multiplier(Base, m), p, grid)
    {
      TileCell(grid, m, p);
    }
  }
}

=== FILE: day15_main.dfy ===
/** Day 15, self-contained revision: the same A* search written directly over a
    frontier heap and a best-cost map, for the plain grid (part 1) or the grid
    tiled five times in each direction (part 2). */
module Day15Main {
  import opened Wrappers
  import opened Day15Grid
  import opened Day15Search
  import opened Day15Walks
  import opened Day15AStar

  /** How many times the grid is repeated along each axis. */
  function Repeats(part2: bool): nat
  {
    if part2 then 5 else 1
  }

  /** The strategy a part stands for: the plain grid, or the plain grid tiled five times. */
  function StrategyOf(part2: bool): Strategy
  {
    if part2 then Multiplier(Base, 5) else Base
  }

  /** `find_end`: the bottom-right position of the (possibly tiled) grid. An empty
      grid or an empty first row underflows. */
  function FindEnd(grid: Grid, part2: bool): (r: Position)
    requires |grid| > 0 && |grid[0]| > 0
    ensures HasEnd(StrategyOf(part2), grid) && r == End(StrategyOf(part2), grid)
  {
    var m := Repeats(part2);
    Position(m * |grid[0]| - 1, m * |grid| - 1)
  }

  /** `cost`: part 1 reads the cell; part 2 reads the cell at the same spot of the
      first tile, adds how many tiles right and down the position lies and wraps
      into 1..=9. It panics exactly where the strategy's cost is undefined, and
      agrees with the strategy's cost everywhere else. */
  function MainCost(p: Position, grid: Grid, part2: bool): (r: nat)
    requires CostDefined(StrategyOf(part2), p, grid)
    ensures r == Cost(StrategyOf(part2), p, grid)
    ensures part2 ==> 1 <= r <= 9
    decreases part2
  {
    if part2 then
      var e := FindEnd(grid, false);
      var x, y := p.x % (e.x + 1), p.y % (e.y + 1);
      var ox, oy := p.x / (e.x + 1), p.y / (e.y + 1);
      var c := MainCost(Position(x, y), grid, false);
      ((c + ox + oy - 1) % 9) + 1
    else
      grid[p.y][p.x]
  }

  /** `neighbors`: left, right, up, down, where they exist inside the (possibly
      tiled) grid. */
  function MainNeighbors(p: Position, grid: Grid, part2: bool): seq<Position>
    requires |grid| > 0
  {
    var m := Repeats(part2);
    (if p.x >= 1 then [Position(p.x - 1, p.y)] else []) +
    (if p.x + 1 < |grid[0]| * m then [Position(p.x + 1, p.y)] else []) +
    (if p.y >= 1 then [Position(p.x, p.y - 1)] else []) +
    (if p.y + 1 < |grid| * m then [Position(p.x, p.y + 1)] else [])
  }

  /** The neighbours are those of the generic `neighbors` within the strategy's
      bounds, each as often, in another order. */
  lemma MainNeighborsSame(p: Position, grid: Grid, part2: bool)
    requires |grid| > 0
    ensures multiset(MainNeighbors(p, grid, part2)) == multiset(Neighbors(p, Bounds(StrategyOf(part2), grid)))
  {
    var m := Repeats(part2);
    var left := if p.x >= 1 then [Position(p.x - 1, p.y)] else [];
    var right := if p.x + 1 < |grid[0]| * m then [Position(p.x + 1, p.y)] else [];
    var up := if p.y >= 1 then [Position(p.x, p.y - 1)] else [];
    var down := if p.y + 1 < |grid| * m then [Position(p.x, p.y + 1)] else [];
    assert Bounds(StrategyOf(part2), grid) == Position(|grid[0]| * m, |grid| * m);
    assert Neighbors(p, Bounds(StrategyOf(part2), grid)) == left + up + right + down;
    assert MainNeighbors(p, grid, part2) == left + right + up + down;
    SwapMiddle(left, right, up, down, MainNeighbors(p, grid, part2), Neighbors(p, Bounds(StrategyOf(part2), grid)));
  }

  /** Swapping the middle two of four pieces keeps the same elements, as often. */
  lemma SwapMiddle(a: seq<Position>, b: seq<Position>, c: seq<Position>, d: seq<Position>,
                   x: seq<Position>, y: seq<Position>)
    requires x == a + b + c + d && y == a + c + b + d
    ensures multiset(x) == multiset(y)
  {
    calc {
      multiset(x);
      multiset(a) + multiset(b) + multiset(c) + multiset(d);
      multiset(a) + multiset(c) + multiset(b) + multiset(d);
      multiset(y);
    }
  }

  /** The neighbours lie at distance 1; from a position inside the (possibly tiled)
      grid they stay inside it, and every such position at distance 1 is one of them. */
  lemma MainNeighborsExact(p: Position, grid: Grid, part2: bool)
    requires |grid| > 0
    ensures forall q :: q in MainNeighbors(p, grid, part2) ==> Distance(p, q) == 1
    ensures InBounds(p, Bounds(StrategyOf(part2), grid)) ==>
      forall q :: q in MainNeighbors(p, grid, part2) ==> InBounds(q, Bounds(StrategyOf(part2), grid))
    ensures InBounds(p, Bounds(StrategyOf(part2), grid)) ==>
      forall q :: InBounds(q, Bounds(StrategyOf(part2), grid)) && Distance(p, q) == 1 ==> q in MainNeighbors(p, grid, part2)
  {
    var m := Repeats(part2);
    assert Bounds(StrategyOf(part2), grid) == Position(|grid[0]| * m, |grid| * m);
  }

  /** A rectangular grid of digits 1..=9 can be walked in either part. */
  lemma MainTraversable(grid: Grid, part2: bool)
    requires Rect(grid, 1)
    ensures Traversable(StrategyOf(part2), grid)
  {
    if part2 {
      MultiplierTraversable(grid, 5);
    } else {
      BaseTraversable(grid, 1);
    }
  }

  /** `a_star`: pops the frontier cheapest-first; when the end is popped, answers its
      recorded cost; otherwise relaxes every neighbour at the popped position's cost
      plus the neighbour's own cost. `None` once the frontier is empty.
      The answer is the risk of a walk to the end; when every cost is at least 1 no
      walk to the end is cheaper; `None` means no walk reaches the end; a one-cell
      grid answers 0, as the start's own cost is never counted. */
  method AStar(grid: Grid, part2: bool) returns (r: Option<nat>)
    requires Traversable(StrategyOf(part2), grid)
    ensures r.Some? ==>
      exists w :: WalkTo(ProblemOf(StrategyOf(part2), grid), w, End(StrategyOf(part2), grid)) &&
                  WalkCost(ProblemOf(StrategyOf(part2), grid), w) == r.value
    ensures r.Some? && Positive(ProblemOf(StrategyOf(part2), grid)) ==>
      forall w :: WalkTo(ProblemOf(StrategyOf(part2), grid), w, End(StrategyOf(part2), grid)) ==>
                  r.value <= WalkCost(ProblemOf(StrategyOf(part2), grid), w)
    ensures r.None? ==> forall w :: !WalkTo(ProblemOf(StrategyOf(part2), grid), w, End(StrategyOf(part2), grid))
    ensures End(StrategyOf(part2), grid) == ZERO ==> r == Some(0)
  {
    ghost var s := StrategyOf(part2);
    ghost var pr := ProblemOf(s, grid);
    var end := FindEnd(grid, part2);
    var frontier := multiset{START};
    var costSoFar := map[ZERO := 0];
    ghost var paths := map[ZERO := [ZERO]];
    InitInv(pr);
    while true
      invariant Inv(pr, costSoFar, frontier, paths)
      decreases Unseen(pr, costSoFar), Below(costSoFar), |frontier|
    {
      var current, rest := Pop(frontier);
      if current.None? {
        forall w
          ensures !WalkTo(pr, w, end)
        {
          Unreachable(pr, costSoFar, paths, w);
        }
        assert Path(pr, [ZERO]);
        return None;
      }
      var n0 := current.value;
      if n0.position == end {
        GreatestIsCheapest(n0, frontier);
        r := if end in costSoFar then Some(costSoFar[end]) else None;
        forall w | Positive(pr) && WalkTo(pr, w, end)
          ensures r.Some? && r.value <= WalkCost(pr, w)
        {
          GoalOptimal(pr, costSoFar, frontier, paths, n0, w);
        }
        assert WalkTo(pr, paths[end], end) && WalkCost(pr, paths[end]) == r.value;
        return;
      }
      PopInv(pr, costSoFar, frontier, paths, n0);
      ghost var c0 := costSoFar;
      var currentCost := costSoFar[n0.position];
      costSoFar, frontier, paths := Relax(grid, part2, pr, n0.position, currentCost, costSoFar, rest, paths);
      if costSoFar != c0 {
        Progress(pr, c0, costSoFar);
      }
    }
  }

  /** The `for neighbor in neighbors(..)` loop of `a_star` for the popped `p`. */
  method Relax(grid: Grid, part2: bool, ghost pr: Problem, p: Position, currentCost: nat,
               costs: map<Position, nat>, frontier: multiset<Node>, ghost paths: map<Position, seq<Position>>)
    returns (costs1: map<Position, nat>, frontier1: multiset<Node>, ghost paths1: map<Position, seq<Position>>)
    requires Traversable(StrategyOf(part2), grid) && pr == ProblemOf(StrategyOf(part2), grid)
    requires WellFormed(pr) && Relaxing(pr, costs, frontier, paths, p, [], 0) && costs[p] == currentCost
    ensures Inv(pr, costs1, frontier1, paths1)
    ensures NoIncrease(costs, costs1)
    ensures costs1 == costs ==> frontier1 == frontier
  {
    var end := FindEnd(grid, part2);
    var neighbors := MainNeighbors(p, grid, part2);
    MainNeighborsExact(p, grid, part2);
    costs1, frontier1, paths1 := costs, frontier, paths;
    assert Relaxing(pr, costs1, frontier1, paths1, p, neighbors, 0);
    for i := 0 to |neighbors|
      invariant Relaxing(pr, costs1, frontier1, paths1, p, neighbors, i) && costs1[p] == currentCost
      invariant NoIncrease(costs, costs1)
      invariant costs1 == costs ==> frontier1 == frontier
    {
      var newCost := currentCost + MainCost(neighbors[i], grid, part2);
      costs1, frontier1, paths1 :=
        RelaxNeighbor(pr, end, p, newCost, neighbors, i, costs1, frontier1, paths1, costs, frontier);
    }
    CloseInv(pr, costs1, frontier1, paths1, p, neighbors, |neighbors|);
  }

  /** One pass of the loop, for the `k`-th neighbour and its cost through `p`: the
      neighbour's cost is recorded, and the neighbour queued with that cost plus its
      distance to the end, only when it is new or cheaper than recorded. `c0` and
      `q0` are the map and frontier before the loop. */
  method RelaxNeighbor(ghost pr: Problem, end: Position, p: Position, newCost: nat,
                       ns: seq<Position>, k: nat, costs: map<Position, nat>, frontier: multiset<Node>,
                       ghost paths: map<Position, seq<Position>>,
                       ghost c0: map<Position, nat>, ghost q0: multiset<Node>)
    returns (costs1: map<Position, nat>, frontier1: multiset<Node>, ghost paths1: map<Position, seq<Position>>)
    requires WellFormed(pr) && end == Goal(pr)
    requires Relaxing(pr, costs, frontier, paths, p, ns, k)
    requires k < |ns| && InBounds(ns[k], pr.bounds) && Distance(p, ns[k]) == 1
    requires newCost == costs[p] + pr.cost(ns[k])
    requires NoIncrease(c0, costs) && (costs == c0 ==> frontier == q0)
    ensures Relaxing(pr, costs1, frontier1, paths1, p, ns, k + 1) && costs1[p] == costs[p]
    ensures NoIncrease(c0, costs1)
    ensures costs1 == c0 ==> frontier1 == q0
  {
    var m := ns[k];
    DistanceSymmetric(p, m);
    if m !in costs || newCost < costs[m] {
      costs1 := costs[m := newCost];
      frontier1 := frontier + multiset{Node(m, newCost + Distance(m, end))};
      assert frontier1 == frontier + multiset{Node(m, newCost + H(pr, m))};
      VisitUpdate(pr, costs, frontier, paths, p, ns, k, m, newCost);
      paths1 := paths[m := paths[p] + [m]];
      NoIncreaseTrans(c0, costs, costs1);
      assert m !in c0 || costs1[m] < c0[m];
    } else {
      costs1, frontier1, paths1 := costs, frontier, paths;
      VisitSkip(pr, costs, frontier, paths, p, ns, k, m);
    }
  }
}

=== FILE: day15_search.dfy ===
/** Day 15: the state of the search. The recorded best cost of every position
    reached so far, and a priority queue of positions still to expand, ordered so
    that the lowest priority (cost so far plus distance to the end) comes out first.
    The heap is modelled as the multiset of its entries. */
module Day15Search {
  import opened Wrappers
  import opened Day15Grid

  /** `Node`: a queued position and its priority. */
  datatype Node = Node(position: Position, priority: nat)

  /** `Node::start`: the start position with priority 0. */
  const START := Node(ZERO, 0)

  datatype Ordering = Less | Equal | Greater

  /** `Ord for Node`: the priorities compared the other way round, so that a
      max-heap yields the lowest priority first. */
  function Cmp(a: Node, b: Node): (r: Ordering)
    ensures r == Greater <==> a.priority < b.priority
    ensures r == Less <==> b.priority < a.priority
    ensures r == Equal <==> a.priority == b.priority
  {
    if b.priority < a.priority then Less
    else if b.priority == a.priority then Equal
    else Greater
  }

  /** `n` is an entry of `q` that no other entry is greater than: what a max-heap pops. */
  predicate IsGreatest(n: Node, q: multiset<Node>)
  {
    n in q && forall m :: m in q ==> Cmp(m, n) != Greater
  }

  /** The greatest entries under the reversed order are exactly those of least priority. */
  lemma GreatestIsCheapest(n: Node, q: multiset<Node>)
    ensures IsGreatest(n, q) <==> n in q && forall m :: m in q ==> n.priority <= m.priority
  {
  }

  /** A non-empty queue has an entry to pop. */
  lemma {:induction false} GreatestExists(q: multiset<Node>)
    requires q != multiset{}
    ensures exists n :: IsGreatest(n, q)
    decreases |q|
  {
    var x :| x in q;
    var rest := q - multiset{x};
    if rest == multiset{} {
      assert q == multiset{x};
      assert IsGreatest(x, q);
    } else {
      GreatestExists(rest);
      var n :| IsGreatest(n, rest);
      assert forall m :: m in q ==> m == x || m in rest;
      if x.priority < n.priority {
        assert IsGreatest(x, q);
      } else {
        assert IsGreatest(n, q);
      }
    }
  }

  /** `BinaryHeap::pop`: an entry no other is greater than, taken out; `None` when empty. */
  method Pop(heap: multiset<Node>) returns (top: Option<Node>, rest: multiset<Node>)
    ensures top.None? <==> heap == multiset{}
    ensures top.None? ==> rest == heap
    ensures top.Some? ==> IsGreatest(top.value, heap) && rest == heap - multiset{top.value}
  {
    if heap == multiset{} {
      return None, heap;
    }
    GreatestExists(heap);
    var n :| n in heap && IsGreatest(n, heap);
    top, rest := Some(n), heap - multiset{n};
  }

  /** No recorded cost went up and no position was forgotten. */
  ghost predicate NoIncrease(before: map<Position, nat>, after: map<Position, nat>)
  {
    before.Keys <= after.Keys && forall p :: p in before ==> after[p] <= before[p]
  }

  /** Two steps that raise no cost raise none together; if together they change
      nothing, neither step changed anything. */
  lemma NoIncreaseTrans(a: map<Position, nat>, b: map<Position, nat>, c: map<Position, nat>)
    requires NoIncrease(a, b) && NoIncrease(b, c)
    ensures NoIncrease(a, c)
    ensures c == a ==> b == a
  {
    if c == a {
      assert b.Keys == a.Keys;
      assert forall p :: p in a ==> b[p] == a[p];
    }
  }

  /** `Search`: the end position, the queue and the recorded costs. */
  class Search {
    const end: Position
    var queue: multiset<Node>
    var costs: map<Position, nat>

    /** `start`: the start position is recorded at cost 0 and queued with priority 0. */
    constructor Start(end: Position)
      ensures this.end == end
      ensures costs == map[ZERO := 0] && queue == multiset{START}
    {
      this.end := end;
      costs := map[ZERO := 0];
      queue := multiset{START};
    }

    /** `cost`: the recorded cost; asking for a position never recorded panics. */
    function Cost(p: Position): nat
      reads this
      requires p in costs
    {
      costs[p]
    }

    /** `is_done`. */
    predicate IsDone(p: Position)
      reads this
    {
      p == end
    }

    /** `distance_from_end`. */
    function DistanceFromEnd(p: Position): nat
      reads this
    {
      Distance(p, end)
    }

    /** `should_update_position`: the position is new, or the cost is strictly lower. */
    predicate ShouldUpdatePosition(p: Position, cost: nat)
      reads this
    {
      p !in costs || cost < costs[p]
    }

    /** `visit`: when worth it, records the cost and queues the position with
        priority cost plus distance to the end; otherwise nothing changes. Either
        way the position ends up recorded at no more than `cost`. */
    method Visit(p: Position, cost: nat)
      modifies this
      ensures old(ShouldUpdatePosition(p, cost)) ==>
        costs == old(costs)[p := cost] && queue == old(queue) + multiset{Node(p, cost + Distance(p, end))}
      ensures !old(ShouldUpdatePosition(p, cost)) ==> costs == old(costs) && queue == old(queue)
      ensures NoIncrease(old(costs), costs)
      ensures p in costs && costs[p] <= cost
    {
      if ShouldUpdatePosition(p, cost) {
        costs := costs[p := cost];
        queue := queue + multiset{Node(p, cost + DistanceFromEnd(p))};
      }
    }

    /** `next`: pops an entry of least priority and yields its position (returned
        alongside, as a ghost, is the popped priority); `None` once the queue is empty.
        Stale entries are popped like any other. */
    method Next() returns (r: Option<Position>, ghost priority: nat)
      modifies this
      ensures costs == old(costs)
      ensures old(queue) == multiset{} <==> r.None?
      ensures r.None? ==> queue == old(queue)
      ensures r.Some? ==> IsGreatest(Node(r.value, priority), old(queue))
      ensures r.Some? ==> queue == old(queue) - multiset{Node(r.value, priority)}
    {
      var top;
      top, queue := Pop(queue);
      if top.None? {
        return None, 0;
      }
      r, priority := Some(top.value.position), top.value.priority;
    }
  }
}

=== FILE: day15_walks.dfy ===
/** Day 15: what the search computes. A walk enters one grid position after
    another, each a single orthogonal step from the last, and its risk is the sum
    of the costs of the positions it enters (the start's own cost is never paid).
    The search keeps an invariant over its recorded costs and its queue: every
    recorded cost is the risk of a real walk, every queued priority is at least
    the recorded cost plus the distance to the end, and every position with no
    queue entry that still promises that much has had its neighbours relaxed.
    From it follow the three answers: the recorded cost of the end when it is
    popped is the risk of a walk; with every cost at least 1, no walk is cheaper;
    and an empty queue means no walk reaches the end. */
module Day15Walks {
  import opened Day15Grid
  import opened Day15Search

  /** What the search is run on: the grid's bounds and the cost of entering each
      position (only positions inside the bounds matter). */
  datatype Problem = Problem(bounds: Position, cost: Position -> nat)

  /** The grid is at least one by one, so it has a bottom-right end. */
  predicate WellFormed(pr: Problem)
  {
    pr.bounds.x >= 1 && pr.bounds.y >= 1
  }

  /** The bottom-right position, where every walk is headed. */
  function Goal(pr: Problem): (r: Position)
    requires WellFormed(pr)
    ensures InBounds(r, pr.bounds)
  {
    Position(pr.bounds.x - 1, pr.bounds.y - 1)
  }

  /** A walk: a non-empty run of positions inside the bounds, each one step from the last. */
  ghost predicate Path(pr: Problem, w: seq<Position>)
    requires WellFormed(pr)
  {
    |w| > 0 &&
    (forall i :: 0 <= i < |w| ==> InBounds(w[i], pr.bounds)) &&
    (forall i :: 0 <= i < |w| - 1 ==> Distance(w[i], w[i + 1]) == 1)
  }

  /** A walk from the start to `t`. */
  ghost predicate WalkTo(pr: Problem, w: seq<Position>, t: Position)
    requires WellFormed(pr)
  {
    Path(pr, w) && w[0] == ZERO && w[|w| - 1] == t
  }

  /** The risk of a walk up to and including its `j`-th position: the costs of
      every position entered after the first. */
  ghost function PrefixCost(pr: Problem, w: seq<Position>, j: nat): nat
    requires j < |w|
  {
    if j == 0 then 0 else PrefixCost(pr, w, j - 1) + pr.cost(w[j])
  }

  /** The risk of a whole walk. */
  ghost function WalkCost(pr: Problem, w: seq<Position>): nat
    requires |w| > 0
  {
    PrefixCost(pr, w, |w| - 1)
  }

  /** Every position on the grid costs at least 1 to enter. */
  ghost predicate Positive(pr: Problem)
    requires WellFormed(pr)
  {
    forall p :: InBounds(p, pr.bounds) ==> pr.cost(p) >= 1
  }

  /** The distance to the end: the heuristic added to a queued priority. */
  function H(pr: Problem, p: Position): nat
    requires WellFormed(pr)
  {
    Distance(p, Goal(pr))
  }

  /** Extending a walk leaves the risk of its old prefixes as it was. */
  lemma {:induction false} PrefixSnoc(pr: Problem, w: seq<Position>, m: Position, j: nat)
    requires j < |w|
    ensures PrefixCost(pr, w + [m], j) == PrefixCost(pr, w, j)
  {
    if j > 0 {
      PrefixSnoc(pr, w, m, j - 1);
      assert (w + [m])[j] == w[j];
    }
  }

  /** One more step extends a walk, and its risk by the cost of the position entered. */
  lemma WalkSnoc(pr: Problem, w: seq<Position>, m: Position)
    requires WellFormed(pr) && Path(pr, w)
    requires InBounds(m, pr.bounds) && Distance(w[|w| - 1], m) == 1
    ensures Path(pr, w + [m])
    ensures WalkCost(pr, w + [m]) == WalkCost(pr, w) + pr.cost(m)
  {
    var v := w + [m];
    assert forall i :: 0 <= i < |w| ==> v[i] == w[i];
    assert Path(pr, v);
    PrefixSnoc(pr, w, m, |w| - 1);
  }

  /** With every cost at least 1, the rest of a walk costs at least the distance it
      still covers: the heuristic never overestimates. */
  lemma {:induction false} Admissible(pr: Problem, w: seq<Position>, k: nat)
    requires WellFormed(pr) && Positive(pr) && Path(pr, w) && k < |w|
    ensures PrefixCost(pr, w, k) + Distance(w[k], w[|w| - 1]) <= WalkCost(pr, w)
    decreases |w| - k
  {
    if k == |w| - 1 {
      DistanceSymmetric(w[k], w[k]);
    } else {
      Admissible(pr, w, k + 1);
      var a, b, z := w[k], w[k + 1], w[|w| - 1];
      assert Distance(a, b) == 1 && InBounds(b, pr.bounds);
      DistanceTriangle(a, b, z);
      assert PrefixCost(pr, w, k + 1) == PrefixCost(pr, w, k) + pr.cost(b);
      assert pr.cost(b) >= 1;
    }
  }

  /** An entry of the queue still promises `p` at its recorded cost. */
  ghost predicate Open(pr: Problem, costs: map<Position, nat>, queue: multiset<Node>, p: Position)
    requires WellFormed(pr) && p in costs
  {
    exists n :: n in queue && n.position == p && n.priority <= costs[p] + H(pr, p)
  }

  /** Every neighbour of `p` is recorded at no more than `p`'s cost plus its own. */
  ghost predicate Relaxed(pr: Problem, costs: map<Position, nat>, p: Position)
    requires WellFormed(pr) && p in costs
  {
    forall m {:trigger Distance(p, m)} :: InBounds(m, pr.bounds) && Distance(p, m) == 1 ==>
      m in costs && costs[m] <= costs[p] + pr.cost(m)
  }

  /** The first `k` positions of `ns` are recorded at no more than `p`'s cost plus their own. */
  ghost predicate RelaxedOn(pr: Problem, costs: map<Position, nat>, p: Position, ns: seq<Position>, k: nat)
    requires WellFormed(pr) && p in costs
  {
    k <= |ns| &&
    forall j :: 0 <= j < k ==>
      InBounds(ns[j], pr.bounds) && ns[j] in costs && costs[ns[j]] <= costs[p] + pr.cost(ns[j])
  }

  /** Every recorded cost is that of a walk to its position, kept in `paths`. */
  ghost predicate Sound(pr: Problem, costs: map<Position, nat>, paths: map<Position, seq<Position>>)
    requires WellFormed(pr)
  {
    costs.Keys <= paths.Keys &&
    (forall p :: p in costs ==> InBounds(p, pr.bounds)) &&
    forall p {:trigger paths[p]} :: p in costs ==> WalkTo(pr, paths[p], p) && WalkCost(pr, paths[p]) == costs[p]
  }

  /** Every queued position is recorded, and its priority is at least the recorded
      cost plus the distance to the end (the start's own entry has priority 0). */
  ghost predicate Queued(pr: Problem, costs: map<Position, nat>, queue: multiset<Node>)
    requires WellFormed(pr)
  {
    forall n :: n in queue ==>
      n.position in costs && (n.position == ZERO || costs[n.position] + H(pr, n.position) <= n.priority)
  }

  /** The part of the invariant that holds at every step. */
  ghost predicate Core(pr: Problem, costs: map<Position, nat>, queue: multiset<Node>,
                       paths: map<Position, seq<Position>>)
    requires WellFormed(pr)
  {
    ZERO in costs && costs[ZERO] == 0 &&
    Sound(pr, costs, paths) &&
    Queued(pr, costs, queue) &&
    (Goal(pr) in costs ==> exists n :: n in queue && n.position == Goal(pr))
  }

  /** Positions that nothing in the queue still promises have had their neighbours relaxed. */
  ghost predicate ClosedRelaxed(pr: Problem, costs: map<Position, nat>, queue: multiset<Node>,
                                except: set<Position>)
    requires WellFormed(pr)
  {
    forall q {:trigger Relaxed(pr, costs, q)} ::
      q in costs && q !in except && !Open(pr, costs, queue, q) ==> Relaxed(pr, costs, q)
  }

  /** The search invariant, between two pops. */
  ghost predicate Inv(pr: Problem, costs: map<Position, nat>, queue: multiset<Node>,
                      paths: map<Position, seq<Position>>)
    requires WellFormed(pr)
  {
    Core(pr, costs, queue, paths) && ClosedRelaxed(pr, costs, queue, {})
  }

  /** The search invariant while the neighbours of the popped `p` are being relaxed,
      the first `k` of its neighbours `ns` relaxed so far. */
  ghost predicate Relaxing(pr: Problem, costs: map<Position, nat>, queue: multiset<Node>,
                           paths: map<Position, seq<Position>>, p: Position, ns: seq<Position>, k: nat)
    requires WellFormed(pr)
  {
    Core(pr, costs, queue, paths) && p in costs &&
    ClosedRelaxed(pr, costs, queue, {p}) && RelaxedOn(pr, costs, p, ns, k)
  }

  /** The invariant holds at the start: only the start is recorded, at cost 0, and queued. */
  lemma InitInv(pr: Problem)
    requires WellFormed(pr)
    ensures Inv(pr, map[ZERO := 0], multiset{START}, map[ZERO := [ZERO]])
  {
    var costs, queue, paths := map[ZERO := 0], multiset{START}, map[ZERO := [ZERO]];
    assert Path(pr, [ZERO]);
    assert Sound(pr, costs, paths);
    assert Open(pr, costs, queue, ZERO);
  }

  /** Popping an entry for a position other than the end leaves the invariant
      holding everywhere but at that position. */
  lemma PopInv(pr: Problem, costs: map<Position, nat>, queue: multiset<Node>,
               paths: map<Position, seq<Position>>, n0: Node)
    requires WellFormed(pr) && Inv(pr, costs, queue, paths)
    requires n0 in queue && n0.position != Goal(pr)
    ensures Relaxing(pr, costs, queue - multiset{n0}, paths, n0.position, [], 0)
  {
    var q1 := queue - multiset{n0};
    forall n | n in queue && n != n0
      ensures n in q1
    {
    }
    assert Queued(pr, costs, q1);
    forall q | q in costs && q != n0.position && !Open(pr, costs, q1, q)
      ensures Relaxed(pr, costs, q)
    {
      if Open(pr, costs, queue, q) {
        assert false;
      }
    }
  }

  /** Relaxing a neighbour that gets a lower (or its first) recorded cost. */
  lemma VisitUpdate(pr: Problem, costs: map<Position, nat>, queue: multiset<Node>,
                    paths: map<Position, seq<Position>>, p: Position, ns: seq<Position>, k: nat, m: Position, v: nat)
    requires WellFormed(pr) && Relaxing(pr, costs, queue, paths, p, ns, k)
    requires k < |ns| && m == ns[k] && InBounds(m, pr.bounds) && Distance(p, m) == 1
    requires v == costs[p] + pr.cost(m) && (m !in costs || v < costs[m])
    ensures Relaxing(pr, costs[m := v], queue + multiset{Node(m, v + H(pr, m))},
                     paths[m := paths[p] + [m]], p, ns, k + 1)
  {
    var c1 := costs[m := v];
    var q1 := queue + multiset{Node(m, v + H(pr, m))};
    var paths1 := paths[m := paths[p] + [m]];
    DistanceSymmetric(p, m);
    assert m != p && m != ZERO;
    SoundUpdate(pr, costs, paths, p, m);
    QueuedUpdate(pr, costs, queue, m, v);
    assert Core(pr, c1, q1, paths1);
    ClosedUpdate(pr, costs, queue, p, m, v);
    assert RelaxedOn(pr, c1, p, ns, k + 1);
  }

  lemma SoundUpdate(pr: Problem, costs: map<Position, nat>, paths: map<Position, seq<Position>>,
                    p: Position, m: Position)
    requires WellFormed(pr) && Sound(pr, costs, paths) && p in costs
    requires InBounds(m, pr.bounds) && Distance(p, m) == 1 && m != p
    ensures Sound(pr, costs[m := costs[p] + pr.cost(m)], paths[m := paths[p] + [m]])
  {
    WalkSnoc(pr, paths[p], m);
  }

  lemma QueuedUpdate(pr: Problem, costs: map<Position, nat>, queue: multiset<Node>, m: Position, v: nat)
    requires WellFormed(pr) && Queued(pr, costs, queue)
    requires m in costs ==> v < costs[m]
    ensures Queued(pr, costs[m := v], queue + multiset{Node(m, v + H(pr, m))})
  {
  }

  lemma ClosedUpdate(pr: Problem, costs: map<Position, nat>, queue: multiset<Node>,
                     p: Position, m: Position, v: nat)
    requires WellFormed(pr) && ClosedRelaxed(pr, costs, queue, {p})
    requires m in costs ==> v < costs[m]
    ensures ClosedRelaxed(pr, costs[m := v], queue + multiset{Node(m, v + H(pr, m))}, {p})
  {
    var c1 := costs[m := v];
    var q1 := queue + multiset{Node(m, v + H(pr, m))};
    assert Open(pr, c1, q1, m);
    forall q | q in c1 && q != p && !Open(pr, c1, q1, q)
      ensures Relaxed(pr, c1, q)
    {
      if Open(pr, costs, queue, q) {
        assert false;
      }
      assert Relaxed(pr, costs, q);
    }
  }

  /** Relaxing a neighbour whose recorded cost is already low enough changes nothing. */
  lemma VisitSkip(pr: Problem, costs: map<Position, nat>, queue: multiset<Node>,
                  paths: map<Position, seq<Position>>, p: Position, ns: seq<Position>, k: nat, m: Position)
    requires WellFormed(pr) && Relaxing(pr, costs, queue, paths, p, ns, k)
    requires k < |ns| && m == ns[k] && InBounds(m, pr.bounds)
    requires m in costs && costs[m] <= costs[p] + pr.cost(m)
    ensures Relaxing(pr, costs, queue, paths, p, ns, k + 1)
  {
  }

  /** Once every neighbour of `p` is relaxed, the invariant holds again. */
  lemma CloseInv(pr: Problem, costs: map<Position, nat>, queue: multiset<Node>,
                 paths: map<Position, seq<Position>>, p: Position, ns: seq<Position>, k: nat)
    requires WellFormed(pr) && Relaxing(pr, costs, queue, paths, p, ns, k)
    requires k == |ns| && forall m :: InBounds(m, pr.bounds) && Distance(p, m) == 1 ==> m in ns
    ensures Inv(pr, costs, queue, paths)
  {
    forall m | InBounds(m, pr.bounds) && Distance(p, m) == 1
      ensures m in costs && costs[m] <= costs[p] + pr.cost(m)
    {
      var j :| 0 <= j < |ns| && ns[j] == m;
    }
    assert Relaxed(pr, costs, p);
  }

  /** Following a walk from a recorded position no dearer than the walk so far, one
      reaches either a position the queue still promises, or the walk's last position,
      each recorded no dearer than the walk up to there. */
  lemma {:induction false} Frontier(pr: Problem, costs: map<Position, nat>, queue: multiset<Node>,
                                    w: seq<Position>, k: nat)
    returns (j: nat)
    requires WellFormed(pr) && ClosedRelaxed(pr, costs, queue, {}) && Path(pr, w)
    requires k < |w| && w[k] in costs && costs[w[k]] <= PrefixCost(pr, w, k)
    ensures k <= j < |w| && w[j] in costs && costs[w[j]] <= PrefixCost(pr, w, j)
    ensures j < |w| - 1 ==> Open(pr, costs, queue, w[j])
    decreases |w| - k
  {
    if k == |w| - 1 || Open(pr, costs, queue, w[k]) {
      return k;
    }
    var m := w[k + 1];
    assert Relaxed(pr, costs, w[k]);
    assert m in costs && costs[m] <= costs[w[k]] + pr.cost(m);
    j := Frontier(pr, costs, queue, w, k + 1);
  }

  /** When an entry for the end is the cheapest in the queue, and every cost is at
      least 1, the end's recorded cost is no dearer than any walk to it. */
  lemma GoalOptimal(pr: Problem, costs: map<Position, nat>, queue: multiset<Node>,
                    paths: map<Position, seq<Position>>, n0: Node, w: seq<Position>)
    requires WellFormed(pr) && Positive(pr) && Inv(pr, costs, queue, paths)
    requires n0 in queue && n0.position == Goal(pr)
    requires forall n :: n in queue ==> n0.priority <= n.priority
    requires WalkTo(pr, w, Goal(pr))
    ensures Goal(pr) in costs && costs[Goal(pr)] <= WalkCost(pr, w)
  {
    var e := Goal(pr);
    var j := Frontier(pr, costs, queue, w, 0);
    if j < |w| - 1 {
      var n :| n in queue && n.position == w[j] && n.priority <= costs[w[j]] + H(pr, w[j]);
      Admissible(pr, w, j);
      assert n0.priority <= WalkCost(pr, w);
      if e != ZERO {
        DistanceSymmetric(e, e);
        assert costs[e] <= n0.priority;
      }
    }
  }

  /** With the queue empty, no walk reaches the end. */
  lemma Unreachable(pr: Problem, costs: map<Position, nat>, paths: map<Position, seq<Position>>,
                    w: seq<Position>)
    requires WellFormed(pr) && Inv(pr, costs, multiset{}, paths)
    ensures !WalkTo(pr, w, Goal(pr))
  {
    if WalkTo(pr, w, Goal(pr)) {
      var j := Frontier(pr, costs, multiset{}, w, 0);
      assert false;
    }
  }

  /** A walk from the start to `t`: right along the top row, then straight down. */
  ghost function Staircase(pr: Problem, t: Position): (w: seq<Position>)
    requires WellFormed(pr) && InBounds(t, pr.bounds)
    ensures WalkTo(pr, w, t) && |w| == t.x + t.y + 1
    decreases t.x + t.y
  {
    if t == ZERO then [ZERO]
    else
      var prev := if t.y > 0 then Position(t.x, t.y - 1) else Position(t.x - 1, t.y);
      var v := Staircase(pr, prev);
      assert forall i :: 0 <= i < |v| ==> (v + [t])[i] == v[i];
      v + [t]
  }

  /** The end is always reachable: an empty queue never happens on a traversable grid. */
  lemma EndReachable(pr: Problem)
    requires WellFormed(pr)
    ensures exists w :: WalkTo(pr, w, Goal(pr))
  {
    var w := Staircase(pr, Goal(pr));
  }

  /** Every position not yet recorded. */
  ghost function Unseen(pr: Problem, costs: map<Position, nat>): set<Position>
    requires WellFormed(pr)
  {
    var b := pr.bounds;
    (set x: nat, y: nat | x < b.x && y < b.y :: Position(x, y)) - costs.Keys
  }

  /** Every (position, value) pair with the value below the position's recorded cost. */
  ghost function Below(costs: map<Position, nat>): set<(Position, nat)>
  {
    set p, v: nat | p in costs && v < costs[p] :: (p, v)
  }

  /** Changing the costs without raising any makes progress: a new position, or a lower cost. */
  lemma Progress(pr: Problem, before: map<Position, nat>, after: map<Position, nat>)
    requires WellFormed(pr) && NoIncrease(before, after) && after != before
    requires forall p :: p in after ==> InBounds(p, pr.bounds)
    ensures Unseen(pr, after) < Unseen(pr, before) ||
      (Unseen(pr, after) == Unseen(pr, before) && Below(after) < Below(before))
  {
    if after.Keys == before.Keys {
      if forall p :: p in before ==> after[p] == before[p] {
        assert false;
      }
      var p :| p in before && after[p] != before[p];
      assert (p, after[p]) in Below(before) && (p, after[p]) !in Below(after);
      assert Below(after) <= Below(before);
    } else {
      var p :| p in after && p !in before;
      assert p in Unseen(pr, before) && p !in Unseen(pr, after);
    }
  }
}

=== FILE: sorting.dfy ===
/**
 * The standard library's `sort_unstable` on integer slices, as the days that
 * sort use it: ascending order, same elements.  Modelled by insertion sort
 * on values; equal elements are interchangeable, so any sort that yields an
 * ascending permutation gives the same sequence (`SortedUnique`).
 */
module Sorting {

  /** Ascending order, the order `sort_unstable` leaves a slice in. */
  predicate Sorted(s: seq<int>)
  {
    forall i, j :: 0 <= i < j < |s| ==> s[i] <= s[j]
  }

  /** No element of `s` is below `b`. */
  predicate AtLeast(s: seq<int>, b: int)
  {
    forall i :: 0 <= i < |s| ==> s[i] >= b
  }

  /** `v` put where it belongs in the ascending `t`. */
  function InsertSorted(v: int, t: seq<int>): (r: seq<int>)
    ensures |r| == |t| + 1
  {
    if t == [] || v <= t[0] then [v] + t else [t[0]] + InsertSorted(v, t[1..])
  }

  /** Inserting a value at least `b` keeps every element at least `b`. */
  lemma {:induction false} InsertAtLeast(v: int, t: seq<int>, b: int)
    requires v >= b && AtLeast(t, b)
    ensures AtLeast(InsertSorted(v, t), b)
  {
    if t != [] && v > t[0] {
      var u := t[1..];
      assert AtLeast(u, b) by {
        forall i | 0 <= i < |u| ensures u[i] >= b { assert u[i] == t[i + 1]; }
      }
      InsertAtLeast(v, u, b);
      var r := InsertSorted(v, t);
      var r' := InsertSorted(v, u);
      assert r == [t[0]] + r';
      forall i | 0 <= i < |r| ensures r[i] >= b {
        if i > 0 { assert r[i] == r'[i - 1]; }
      }
    }
  }

  /** Insertion keeps a sequence ascending, and the second slot never drops below the old first. */
  lemma {:induction false} InsertSortedOk(v: int, t: seq<int>)
    requires Sorted(t)
    ensures Sorted(InsertSorted(v, t))
    ensures |t| > 0 ==> InsertSorted(v, t)[1] >= t[0]
  {
    var r := InsertSorted(v, t);
    if t == [] || v <= t[0] {
      assert r == [v] + t;
      forall i, j | 0 <= i < j < |r| ensures r[i] <= r[j] {
        assert r[j] == t[j - 1];
        if i > 0 { assert r[i] == t[i - 1]; }
      }
    } else {
      var u := t[1..];
      assert Sorted(u) by {
        forall i, j | 0 <= i < j < |u| ensures u[i] <= u[j] {
          assert u[i] == t[i + 1] && u[j] == t[j + 1];
        }
      }
      assert AtLeast(u, t[0]) by {
        forall i | 0 <= i < |u| ensures u[i] >= t[0] { assert u[i] == t[i + 1]; }
      }
      InsertSortedOk(v, u);
      InsertAtLeast(v, u, t[0]);
      var r' := InsertSorted(v, u);
      assert r == [t[0]] + r';
      forall i, j | 0 <= i < j < |r| ensures r[i] <= r[j] {
        assert r[j] == r'[j - 1];
        if i > 0 { assert r[i] == r'[i - 1]; }
      }
      assert r[1] == r'[0];
    }
  }

  /** Insertion adds exactly one copy of `v`. */
  lemma {:induction false} InsertSortedPerm(v: int, t: seq<int>)
    ensures multiset(InsertSorted(v, t)) == multiset(t) + multiset{v}
  {
    if t != [] && v > t[0] {
      InsertSortedPerm(v, t[1..]);
      assert t == [t[0]] + t[1..];
    }
  }

  /** The insertion position found by walking right past the smaller elements. */
  lemma {:induction false} InsertAt(v: int, t: seq<int>, i: nat)
    requires i <= |t| && (forall j :: 0 <= j < i ==> t[j] < v) && (i < |t| ==> v <= t[i])
    ensures InsertSorted(v, t) == t[..i] + [v] + t[i..]
  {
    if i > 0 {
      var u := t[1..];
      assert forall j :: 0 <= j < i - 1 ==> u[j] == t[j + 1];
      InsertAt(v, u, i - 1);
      assert t[..i] == [t[0]] + u[..i - 1];
      assert t[i..] == u[i - 1..];
    }
  }

  /** The slice sorted ascending. */
  function Sort(s: seq<int>): (r: seq<int>)
    ensures Sorted(r) && multiset(r) == multiset(s)
  {
    if s == [] then []
    else
      assert s == s[..|s| - 1] + [s[|s| - 1]];
      InsertSortedOk(s[|s| - 1], Sort(s[..|s| - 1]));
      InsertSortedPerm(s[|s| - 1], Sort(s[..|s| - 1]));
      InsertSorted(s[|s| - 1], Sort(s[..|s| - 1]))
  }

  /** The least element of a non-empty sorted sequence is its first. */
  lemma SortedHeadLeast(a: seq<int>, x: int)
    requires Sorted(a) && x in multiset(a)
    ensures a[0] <= x
  {
    assert x in a;
    var k :| 0 <= k < |a| && a[k] == x;
    if k > 0 {
      assert a[0] <= a[k];
    }
  }

  /** Two ascending sequences with the same elements are the same sequence. */
  lemma {:induction false} SortedUnique(a: seq<int>, b: seq<int>)
    requires Sorted(a) && Sorted(b) && multiset(a) == multiset(b)
    ensures a == b
    decreases |a|
  {
    if a != [] {
      assert |b| == |a| by {
        assert |multiset(a)| == |a| && |multiset(b)| == |b|;
      }
      assert a[0] in multiset(b) && b[0] in multiset(a) by {
        assert a[0] in a && b[0] in b;
      }
      SortedHeadLeast(b, a[0]);
      SortedHeadLeast(a, b[0]);
      assert a[0] == b[0];
      assert a == [a[0]] + a[1..] && b == [b[0]] + b[1..];
      assert multiset(a[1..]) == multiset(b[1..]) by {
        assert multiset(a) == multiset{a[0]} + multiset(a[1..]);
        assert multiset(b) == multiset{a[0]} + multiset(b[1..]);
        assert multiset(a[1..]) == multiset(a) - multiset{a[0]};
        assert multiset(b[1..]) == multiset(b) - multiset{a[0]};
      }
      SortedTail(a);
      SortedTail(b);
      SortedUnique(a[1..], b[1..]);
    }
  }

  /** Dropping the first element keeps a sequence ascending. */
  lemma SortedTail(h: seq<int>)
    requires |h| > 0 && Sorted(h)
    ensures Sorted(h[1..])
  {
    forall i, j | 0 <= i < j < |h| - 1
      ensures h[1..][i] <= h[1..][j]
    {
      assert h[1..][i] == h[i + 1] && h[1..][j] == h[j + 1];
    }
  }
}

=== FILE: utf8.dfy ===
/** Byte lengths of Rust strings, which `str::len` measures in UTF-8 bytes. */
module Utf8 {

  /** Number of bytes the UTF-8 encoding of `c` takes. */
  function Utf8Len(c: char): nat
  {
    if c as int < 0x80 then 1
    else if c as int < 0x800 then 2
    else if c as int < 0x1_0000 then 3
    else 4
  }

  /** Byte length of a string. */
  function ByteLen(s: string): nat
  {
    if s == [] then 0 else Utf8Len(s[0]) + ByteLen(s[1..])
  }

  /** A one-character string is as long as that character's encoding. */
  lemma CharByteLen(c: char)
    ensures ByteLen([c]) == Utf8Len(c)
  {
    assert [c][1..] == [];
  }

  /** An ASCII string has one byte per character. */
  lemma {:induction false} AsciiByteLen(s: string)
    requires forall i :: 0 <= i < |s| ==> s[i] as int < 0x80
    ensures ByteLen(s) == |s|
  {
    if s != [] {
      AsciiByteLen(s[1..]);
    }
  }
}

=== FILE: wrappers.dfy ===
/** Wrappers shared by every day's model. */
module Wrappers {

  /** Rust's `Option<T>`. */
  datatype Option<+T> = None | Some(value: T)

  /** Rust's `Result<T, E>`. */
  datatype Result<+T, +E> = Ok(value: T) | Err(error: E)
}
